=== FILE: README.md ===
# matterviz data layer in Dafny

This project models the pure data layer of matterviz. matterviz is a toolkit for viewing
crystal structures and molecular-dynamics trajectories: a TypeScript/Svelte library, a
VS Code extension and a Jupyter notebook widget. The model covers the parts of that
code that turn text and objects into structures, compositions, trajectories and file
names. The geometry and bookkeeping around them are covered too.

The modules follow the source files:

- `Composition`: chemical formulas and compositions. Covers parsing with parenthesis
  expansion, normalisation, atomic-number/symbol conversion, totals, percentages and
  formula formatting.
- `Elements`: the 118-element symbol table, the trajectory atomic-number table and the
  parsers' element-symbol validation.
- `CoordText`, `Numbers` and `Text`: the string and number primitives the parsers rely
  on. `Numbers` defines JavaScript `parseFloat`, `parseInt` and `Number()` over exact
  reals.
- `Poscar` and `Xyz`: the POSCAR and XYZ structure parsers. `Poscar` covers both the
  current parser and the legacy one.
- `StructureFile`: the format dispatch of both `parse_structure_file` functions.
- `Export`: export file names and the XYZ text layout.
- `Decompress`: file-name handling for compressed files.
- `VecMath` and `Crystal`: exact 3×3 linear algebra, the minimum-image wrap, and the
  structure records.
- `DataUrl`: base64 data URLs for binary trajectory payloads.
- `TorchSim`: the HDF5 signature check and frame assembly for torch-sim trajectories.
- `Pbc`: periodic-image generation.
- `Notebook`: the Python notebook wrapper's normalisation, frame numbering, step
  clamping and type predicates.

Numbers are exact Dafny `real`s. JavaScript `NaN` is the `None` of an `Option`, and a
thrown error is the `Err` of a `Result`. Routines the code calls but does not define
are parameters of the model. These are the lattice-parameter calculation, the cube
root of a negative POSCAR scale, the CIF parser in the dispatch, and the
third-party objects of the notebook layer.

## Model

| member | source | states |
|---|---|---|
| Composition.ParseFormulaCounts | src/lib/composition/parse.ts:102-127 | parsing succeeds exactly when every scanned token is a known element; each element's amount is the sum of its token counts (1 when no digits follow), and the keys are exactly the elements mentioned |
| Composition.ParseEmptyFormula | src/lib/composition/parse.ts:102-126 | the empty formula parses to the empty composition |
| Composition.AccumulateOk | src/lib/composition/parse.ts:113-123 | the token loop succeeds iff every token is a known element symbol |
| Composition.AccumulateSums | src/lib/composition/parse.ts:113-123 | after the loop, each element's amount is its earlier amount plus the sum of its token counts, and it is a key iff it was one before or some token names it |
| Composition.ScanRenderAll | src/lib/composition/parse.ts:110-113 | the `[A-Z][a-z]?\d*` scan reads back exactly the tokens a rendered token list was written from |
| Composition.ScaleToken | src/lib/composition/parse.ts:143-147 | an expanded token keeps its element; its count is count·multiplier, written only when that product exceeds 1 |
| Composition.ExpandGroupTokens | src/lib/composition/parse.ts:133-151 | expanding one group scans back as the group's tokens, each scaled by the multiplier, and leaves no '(' |
| Composition.ReplaceScanShrinks | src/lib/composition/parse.ts:133-151 | a replacement pass that rewrites some group strictly lowers the number of '(' characters; a pass that rewrites nothing returns the formula unchanged |
| Composition.ExpandParentheses | src/lib/composition/parse.ts:130-155 | the corrected expansion stops either with no '(' left or at a formula in which no group can be rewritten |
| Composition.ExpandAgreesWhenFinished | src/lib/composition/parse.ts:130-155 | whenever the loop as written terminates, the corrected expansion returns the same string, and that string contains no '(' |
| Composition.StuckExpansionNeverEnds | src/lib/composition/parse.ts:132-152 | a formula that still holds '(' but has no rewritable group makes the loop as written run forever |
| Composition.UnclosedFormulaHangs | src/lib/composition/parse.ts:132-152 | `Ca(OH` never finishes expanding |
| Composition.EmptyGroupHangs | src/lib/composition/parse.ts:132-152 | `()` never finishes expanding, because the group pattern needs at least one inner character |
| Composition.SymbolKeysNotAtomic | src/lib/composition/parse.ts:32-48 | a non-empty composition keyed by element symbols is never taken for an atomic-number composition, because no symbol reads as a number |
| Composition.AtomicNumberOfKey | src/lib/composition/parse.ts:36-46 | a key denotes atomic number n only when `Number(key)` is exactly n and n is in 1..118 |
| Composition.ConvertAtomicNumbersToSymbols | src/lib/composition/parse.ts:52-73 | succeeds exactly when every key is an atomic number; otherwise it is the "Invalid atomic number" error |
| Composition.ConvertSymbolsToAtomicNumbers | src/lib/composition/parse.ts:77-98 | succeeds exactly when every key is an element symbol; otherwise it is the "Invalid element symbol" error |
| Composition.SymbolsAtomicRoundTrip | src/lib/composition/parse.ts:52-98 | a composition of distinct symbols with positive amounts converts to atomic numbers and back to itself |
| Composition.ToSymbolsShape | src/lib/composition/parse.ts:57-70 | converting atomic-number keys yields symbol keys with positive amounts only |
| Composition.KeepPositive | src/lib/composition/parse.ts:174-180 | keeps exactly the entries with a positive amount |
| Composition.GetKeepPositive | src/lib/composition/parse.ts:176-180 | an element's amount after filtering is its amount if that was positive and is absent otherwise |
| Composition.NormalizeComposition | src/lib/composition/parse.ts:159-183 | every amount in the result is positive; an atomic-number composition comes back with symbol keys |
| Composition.NormalizeAtomic | src/lib/composition/parse.ts:166-172 | an atomic-number composition normalises to its symbol conversion |
| Composition.NormalizeIdempotent | src/lib/composition/parse.ts:159-183 | normalising twice equals normalising once, for compositions whose keys are all atomic numbers or none are |
| Composition.NormalizeNotIdempotent | src/lib/composition/parse.ts:159-183 | with mixed keys such as {"26": v, Fe: 0} a second normalisation converts the surviving number key, so normalisation is not idempotent |
| Composition.TotalZeroIff | src/lib/composition/parse.ts:213-218 | for non-negative amounts the total is non-negative, and it is zero iff every amount is zero |
| Composition.EmptyIffNoEntries | src/lib/composition/parse.ts:221-223 | a composition with positive amounts is empty iff it has no entries |
| Composition.CompositionToPercentages | src/lib/composition/parse.ts:186-210 | fails iff by-weight is requested; a zero total gives {}; otherwise same keys, each amount·100/total, summing to 100 |
| Composition.ScaleAllSum | src/lib/composition/parse.ts:202-207 | the scaled amounts add up to total/total·100 |
| Composition.ParseCompositionInput | src/lib/composition/parse.ts:226-238 | an object input always yields a composition with positive amounts |
| Composition.ParseInputCounts | src/lib/composition/parse.ts:226-238 | a formula input succeeds iff all tokens are elements; each element then maps to its positive token sum and is absent when that sum is 0 |
| Composition.FormulaPiece | src/lib/composition/parse.ts:252-256 | an element is written only when its amount is positive: as the bare symbol iff the amount is 1, otherwise as `El<sub>amount</sub>` with the amount's text |
| Composition.PiecesAlign | src/lib/composition/parse.ts:251-257 | the pieces follow the sorted key order, one per shown element |
| Composition.FormulaSplitsIntoPieces | src/lib/composition/parse.ts:244-259 | splitting the formatted formula at single spaces gives back exactly the pieces in sort order |
| Elements.NumberOfSpec | src/lib/composition/parse.ts:24-28 | the atomic number found for a symbol names that symbol in the table |
| Elements.FindFromFinds | src/lib/composition/parse.ts:9-12 | every symbol of the table is found by the reverse lookup |
| Elements.NumberOfInjective | src/lib/composition/parse.ts:9-12 | distinct symbols have distinct atomic numbers |
| Elements.SymbolShape | src/lib/composition/parse.ts:110 | every table symbol is an upper-case letter optionally followed by one lower-case letter |
| Elements.SymbolOrX | src/lib/trajectory/parse.ts:268-270 | atomic numbers 1..118 map to their table symbol and every other number to 'X' |
| Elements.LabelStem | src/lib/io/parse.ts:74-79 | the stem is the longest prefix without '_' or '/' |
| Elements.ValidateElementSymbol | src/lib/io/parse.ts:70-96 | the result is always a known symbol: the label stem when it is one, otherwise the fallback element for index mod 10 |
| CoordText.NormalizeScientific | src/lib/io/parse.ts:21-26 | the normalised text contains no 'd' or 'D' exponent marker |
| CoordText.NormalizeFixes | src/lib/io/parse.ts:21-26 | text already in lower case without 'd' or '*' is left unchanged |
| CoordText.ParseCoordinateNatural | src/lib/io/parse.ts:29-36 | a decimal natural number parses to its value |
| CoordText.ResplitLossless | src/lib/io/parse.ts:50-58 | re-splitting a token at its inner minus signs loses no characters: the pieces concatenate back to the token |
| CoordText.CoordinateTokens | src/lib/io/parse.ts:39-60 | with three or more whitespace tokens the tokens are used as they are; otherwise re-splitting never loses tokens |
| CoordText.FirstThree | src/lib/io/parse.ts:60-66 | succeeds iff the first three tokens all parse, and then returns exactly their three values |
| CoordText.ParseCoordinateLine | src/lib/io/parse.ts:39-67 | success gives three numbers; fewer than three tokens after re-splitting is the "Insufficient coordinates" error |
| Numbers.NatToStringParses | src/lib/io/parse.ts:29-36 | the decimal text of a natural number reads back with `parseFloat` and `Number()` as that number |
| Numbers.DigitsOfNatToString | src/lib/composition/parse.ts:115 | decimal digits of n read back as n under `parseInt(…, 10)` |
| Poscar.LatticeRow | src/lib/io/parse.ts:116-122 | a lattice row parses iff its tokens are numbers and there are exactly three (current parser) or at least three (legacy parser); it holds the first three values |
| Poscar.ModeOf | src/lib/io/parse.ts:245-252 | a line selects Direct mode iff its trimmed upper-cased text starts with 'D' |
| Poscar.CoordinateMode | src/lib/io/parse.ts:225-252 | an optional "Selective dynamics" line is skipped before the mode line; a missing or unknown mode line is an error |
| Poscar.MakeSite | src/lib/io/parse.ts:270-332 | a site reads iff its coordinate line parses; it carries one species with occupancy 1, the given label, and selective-dynamics flags only when the header asked for them |
| Poscar.ElementSlots | src/lib/io/parse.ts:254-262 | an element with count n claims the next n coordinate lines, numbered consecutively from the running atom index |
| Poscar.SlotAt | src/lib/io/parse.ts:254-339 | the p-th slot reads line mode+1+p and is atom number p+1 |
| Poscar.PoscarSetup | src/lib/io/parse.ts:99-252 | a NaN scale, a bad lattice row, a symbol/count length mismatch or a bad mode line each make the parse fail |
| Poscar.ParsePoscar | src/lib/io/parse.ts:99-360 | a structure is returned exactly when there are at least 8 lines, the setup succeeds and every planned coordinate line reads; it carries the scaled lattice and the sites read slot by slot |
| Poscar.PoscarLabels | src/lib/io/parse.ts:254-339 | every site has one species and the label element + (global index + 1), and all site lines lie inside the file |
| Poscar.PoscarPositions | src/lib/io/parse.ts:286-300 | every site's Cartesian position is the abc-weighted sum of the lattice rows, with occupancy 1 |
| Xyz.FramesOfConcat | src/lib/io/parse.ts:372-390 | a complete frame (count line, comment, count atom lines) followed by more text splits off as the first frame |
| Xyz.EarlierFramesIgnored | src/lib/io/parse.ts:392-397 | prepending complete frames does not change the frame that is parsed |
| Xyz.LastFrameRead | src/lib/io/parse.ts:375-397 | the parsed frame is the last complete frame, joined back into text |
| Xyz.LatticeGroupOfComment | src/lib/io/parse.ts:409-412 | a comment containing `Lattice="g"` with no earlier quote yields exactly g as the lattice group |
| Xyz.NoQuoteNoGroup | src/lib/io/parse.ts:409-412 | a comment without any '"' has no lattice group |
| Xyz.CommentLattice | src/lib/io/parse.ts:409-428 | no group gives no lattice; a group with an unparsable number is an error; a lattice is built only from exactly nine numbers, taken row by row |
| Xyz.AtomSite | src/lib/io/parse.ts:431-478 | a line with at least four tokens whose next three parse gives a site with the validated element, xyz the three numbers, abc the fractional coordinates, and label element + (index + 1) |
| Xyz.AtomSitesOk | src/lib/io/parse.ts:431-478 | when every atom line reads, the atom loop succeeds |
| Xyz.ParseFrame | src/lib/io/parse.ts:399-497 | fewer than 2 lines, a bad count line or too few atom lines give null; otherwise the result holds the comment's lattice and exactly the sites read, and it is produced whenever all of those succeed |
| Xyz.FrameSites | src/lib/io/parse.ts:431-491 | a parsed frame has count sites; site p comes from line p+2, and without a lattice every abc is [0,0,0] |
| Xyz.ParseXyz | src/lib/io/parse.ts:363-497 | blank content gives null; otherwise the structure is the one read from the last complete frame, which is whole, or from the whole text when no frame is complete |
| Export.GenerateFilename | src/lib/io/export.ts:6-46 | the name always ends in `.<ext>`; no structure gives `structure.<ext>` |
| Export.FilenameIdThenFormula | src/lib/io/export.ts:12-42 | a shown formula follows the id directly after '_' |
| Export.FilenameEndsWithSiteCount | src/lib/io/export.ts:34-42 | a structure with n > 0 sites ends its name with `<n>sites.<ext>` |
| Export.FilenameDefault | src/lib/io/export.ts:40-42 | with no name parts the base is `structure` |
| Export.SiteCoords | src/lib/io/export.ts:88-122 | uses xyz when it has three entries, else the abc-weighted lattice rows when a matrix exists, else the origin |
| Export.ExportedPositionRecoversFractional | src/lib/io/export.ts:98-116 | a position computed from abc and an invertible lattice maps back to the same abc |
| Export.ExportXyz | src/lib/io/export.ts:49-132 | output exists exactly for a structure that has sites |
| Export.ExportXyzLayout | src/lib/io/export.ts:58-127 | the text has n+2 lines: the count, the comment, then one line per site starting with its symbol |
| Export.ExportNames | src/lib/io/export.ts:135-144 | the JSON and XYZ downloads are named by the filename generator with their extensions |
| Export.ExportJsonName | src/lib/io/export.ts:135-144 | a name is produced exactly when a structure is given |
| Decompress.DetectFormat | src/lib/io/decompress.ts:23-32 | a detected format's suffix ends the name, and earlier formats in the table take precedence |
| Decompress.DetectIffCompressed | src/lib/io/decompress.ts:10-32 | a format is detected iff the name counts as compressed |
| Decompress.DetectSuffix | src/lib/io/decompress.ts:2-6 | any name ending in one of a format's suffixes is detected as that format |
| Decompress.RemoveStripsOne | src/lib/io/decompress.ts:16-21 | a compressed name loses exactly one trailing compression suffix; other names are unchanged |
| Decompress.RemoveAfterAppend | src/lib/io/decompress.ts:16-21 | removing the suffix of base + suffix gives base back, so `multiple.gz.json.gz` becomes `multiple.gz.json` |
| Decompress.DecompressTarget | src/lib/io/decompress.ts:61-97 | the format is reported iff the file is compressed; the reported name is then the name minus one suffix, and otherwise the original name |
| VecMath.ScaleCompose | src/lib/math.ts:8-10 | scaling by f then g is scaling by f·g, and scaling by 1 changes nothing |
| VecMath.AddVectors | src/lib/math.ts:98-119 | no vectors give []; unequal lengths are an error; otherwise each component is the column sum |
| VecMath.DotShapes | src/lib/math.ts:121-177 | scalar·scalar is their product; mixing a scalar with a non-scalar is an error; vector·vector and matrix·vector succeed iff the inner lengths agree; vector·matrix is an error |
| VecMath.DotSymmetric | src/lib/math.ts:140-150 | the dot product of equal-length vectors succeeds and is symmetric |
| VecMath.DotAgreesWithMatVec | src/lib/math.ts:80-96 | the general dot of a 3×3 matrix and a 3-vector agrees with the matrix-vector product |
| VecMath.MatrixInverse | src/lib/math.ts:47-78 | fails exactly when the determinant is below the 1e-10 threshold in absolute value |
| VecMath.InverseIsRightInverse | src/lib/math.ts:47-78 | M·M⁻¹ is the identity |
| VecMath.InverseIsLeftInverse | src/lib/math.ts:47-78 | M⁻¹·M is the identity |
| VecMath.InverseRoundTrip | src/lib/math.ts:47-96 | multiplying by the inverse and then by the matrix gives the vector back |
| VecMath.InverseLeftRoundTrip | src/lib/parsers.ts:4-53 | multiplying by the matrix and then by the inverse gives the vector back |
| VecMath.TransposeInvolution | src/lib/parsers.ts:55-64 | transposing twice gives the matrix back |
| VecMath.DetTranspose | src/lib/parsers.ts:4-35 | a matrix and its transpose are singular together |
| VecMath.Wrap | src/lib/math.ts:34-39 | the minimum-image wrap lies in [−0.5, 0.5) and differs from its input by an integer |
| VecMath.WrapFixes | src/lib/math.ts:34-39 | values already in [−0.5, 0.5) are left unchanged |
| VecMath.PbcDisplacement | src/lib/math.ts:17-45 | with a supplied inverse the displacement always exists; otherwise it exists iff the lattice is invertible |
| VecMath.PbcSelfDistance | src/lib/math.ts:17-45 | a point is at distance zero from itself |
| VecMath.PbcWrapsByCells | src/lib/math.ts:24-42 | the inverse used is the supplied one or the computed one; the wrapped fractional difference is the raw difference minus a whole vector n and lies in [−0.5, 0.5); the displacement is `lattice · (d − n)`, so the shift `lattice · n` is a lattice translation only when the lattice is symmetric |
| VecMath.PbcShiftsByColumns | src/lib/math.ts:17-45 | with the computed inverse, the displacement is the plain difference minus whole multiples of the lattice's columns, although the source comments the rows as the lattice vectors |
| VecMath.ShearedLatticeVectorNotZero | src/lib/math.ts:17-45 | as written, the sheared cell's lattice vector a = (2, 1, 0) is found at displacement (−1, 0, 0), distance 1, from the origin, which is the same periodic point |
| VecMath.PbcDisplacementRows | src/lib/math.ts:17-45 | with the lattice vectors as rows (inverse of the transpose), the displacement exists whenever an inverse is supplied, and otherwise iff the lattice is invertible |
| VecMath.PbcRowsTranslates | src/lib/math.ts:17-45 | with the rows convention, the displacement is the plain difference minus a whole lattice translation `n.x·a + n.y·b + n.z·c`, and its fractional form lies in [−0.5, 0.5) |
| VecMath.ShearedLatticeVectorZero | src/lib/math.ts:17-45 | with the rows convention, the sheared cell's lattice vector a is at displacement zero from the origin |
| Decompress.NotGzip | src/lib/io/decompress.ts:2-6 | `.deflate` and `.z` names are not gzip names |
| Elements.NumberOfSymbol | src/lib/trajectory/parse.ts:268-270 | the table symbol of atomic number n in 1..118 is found again as n by the reverse lookup |
| Elements.XNotElement | src/lib/trajectory/parse.ts:268-270 | the placeholder 'X' is not an element symbol |
| Numbers.NatToStringParsesInt | src/lib/io/parse.ts:719-720 | the decimal text of a natural number reads back with `parseInt` as that number |
| Numbers.LetterLeadNotInt | src/lib/io/parse.ts:734-735 | text starting with a letter is NaN under `parseInt`, so an element symbol never passes for a count |
| Text.SplitWsJoin | src/lib/io/parse.ts:726 | words without whitespace joined by single spaces split back at whitespace into exactly those words |
| Text.WordsTokens | src/lib/io/parse.ts:726-730 | a four-word line splits into exactly its four words |
| DataUrl.ValueOfCharOf | src/lib/trajectory/parse.ts:33 | every value 0..63 is spelled by a character that reads back as that value |
| DataUrl.CharOfValueOf | src/lib/trajectory/parse.ts:40 | every character that has a value is the character spelling that value |
| DataUrl.EncodeLength | src/lib/trajectory/parse.ts:31-35 | `btoa` output is a whole number of four-character quanta: ⌈n/3⌉·4 characters |
| DataUrl.DecodeEncode | src/lib/trajectory/parse.ts:31-46 | `atob(btoa(b))` gives the bytes b back |
| DataUrl.DataUrlRoundTrip | src/lib/trajectory/parse.ts:31-46 | converting bytes to a data URL and back gives the same bytes |
| DataUrl.BarePayload | src/lib/trajectory/parse.ts:39 | a string without the data-URL prefix is decoded as it is, since `replace` finds nothing to remove |
| DataUrl.ForeignCharacterRejected | src/lib/trajectory/parse.ts:40 | a character outside the alphabet that is neither '=' nor ASCII whitespace makes decoding fail rather than being skipped |
| TorchSim.IsTorchSimHdf5 | src/lib/trajectory/parse.ts:420-455 | true only for no name or an .h5/.hdf5 name; with no content the name alone decides; text and other values are rejected; a non-empty buffer is accepted iff it opens with the 8-byte HDF5 signature |
| TorchSim.SignedFileDetected | src/lib/trajectory/parse.ts:447-452 | a buffer that opens with the HDF5 signature under an .h5/.hdf5 name in any case is recognised |
| TorchSim.UnsignedBufferRejected | src/lib/trajectory/parse.ts:447-452 | a buffer whose first byte is not 0x89 is rejected under any name |
| TorchSim.ForeignNameRejected | src/lib/trajectory/parse.ts:425-431 | a name ending in `.xyz` is rejected whatever the content |
| TorchSim.ElementsOf | src/lib/trajectory/parse.ts:265-270 | one element per atomic number: the table symbol for 1..118 and 'X', which is no element, otherwise |
| TorchSim.ElementCounts | src/lib/trajectory/parse.ts:386-390 | the counted elements are exactly the elements present, each with its number of occurrences |
| TorchSim.CountsCoverAtoms | src/lib/trajectory/parse.ts:386-390 | an element missing from the counts does not occur among the atoms |
| TorchSim.FractionalOf | src/lib/trajectory/parse.ts:340-346 | the corrected conversion fails exactly for a singular cell |
| TorchSim.FractionalRebuilds | src/lib/trajectory/parse.ts:340-346 | the corrected fractional coordinates rebuild the Cartesian position as the abc-weighted sum of the lattice rows |
| TorchSim.AbcAsWritten | src/lib/trajectory/parse.ts:341-346 | the conversion as written fails exactly for a singular cell |
| TorchSim.AsWrittenSolvesColumns | src/lib/trajectory/parse.ts:341-346 | the conversion as written solves lattice·abc = xyz, which treats the lattice rows as columns |
| TorchSim.AsWrittenMisplacesSheared | src/lib/trajectory/parse.ts:341-346 | in the sheared cell the atom at (1, 1, 0) gets abc (0, 1, 0), and those coordinates put it at x = 0 |
| TorchSim.FractionalPlacesSheared | src/lib/trajectory/parse.ts:341-346 | the corrected conversion puts the same atom at abc (1, 0, 0) |
| TorchSim.AtomSite | src/lib/trajectory/parse.ts:344-354 | a site has one species of occupancy 1, the position as given, and the label element + (index + 1) |
| TorchSim.FrameOf | src/lib/trajectory/parse.ts:328-372 | a frame fails exactly for a singular cell; it has step i, one site per position, the frame's cell (the unit matrix when none is stored), each position with its corrected fractional coordinates, and an energy iff one is stored for it |
| TorchSim.FramesFromFail | src/lib/trajectory/parse.ts:328-373 | building the frames fails iff some frame's cell is singular |
| TorchSim.ParseTorchSim | src/lib/trajectory/parse.ts:214-417 | a missing data group or dataset is an error, and every error carries the "Failed to parse torch-sim HDF5 file: " prefix; success has one frame per position set, numbered by index, and the atom count of the first row |
| TorchSim.MetaOf | src/lib/trajectory/parse.ts:375-404 | the metadata counts atoms and frames, defaults periodicity to [true, true, true], flags energy iff a dataset exists, and carries the element counts |
| TorchSim.PbcFlags | src/lib/trajectory/parse.ts:316-326 | at most the first three flags, each true iff its value is non-zero |
| TorchSim.ParseFailsOnlyOnSingularCell | src/lib/trajectory/parse.ts:214-417 | a file with its data group and datasets fails to parse only when some frame's cell is singular |
| TorchSim.NoCellParses | src/lib/trajectory/parse.ts:331-341 | without a cell dataset every frame uses the unit cell, and the file always parses |
| TorchSim.ParsedSites | src/lib/trajectory/parse.ts:344-354 | site j of every frame carries the element of atomic number j and the position read for it |
| Pbc.CountOutside | src/lib/structure/pbc.ts:18-20 | counts no more sites than there are |
| Pbc.AxisEdges | src/lib/structure/pbc.ts:36-41 | the edges of axis d all name d; there is a +1 edge iff coordinate d lies within the tolerance of 0 and a −1 edge iff it lies within the tolerance of 1 |
| Pbc.EdgeDims | src/lib/structure/pbc.ts:35-41 | at most six edges, each naming an axis of the site |
| Pbc.OneFacePerAxis | src/lib/structure/pbc.ts:39-40 | with a tolerance of at most 0.5 a coordinate is near at most one face of its axis |
| Pbc.SiteImages | src/lib/structure/pbc.ts:43-62 | a site near k faces gets 2^k − 1 images, all tagged with its index; translating fails iff there are edges and the position does not have three entries |
| Pbc.ImagesFrom | src/lib/structure/pbc.ts:31-63 | every image refers to a site of the structure at or after the start index |
| Pbc.ImagesFromCount | src/lib/structure/pbc.ts:31-63 | the images number the sum over the sites of 2^k − 1 |
| Pbc.FindImageAtoms | src/lib/structure/pbc.ts:6-66 | no lattice or trajectory-like data gives no images; every image refers to an existing site |
| Pbc.InteriorSiteNoImages | src/lib/structure/pbc.ts:36-44 | a site at least the tolerance away from every face has no images |
| Pbc.CornerSiteSevenImages | src/lib/structure/pbc.ts:43-61 | a site at the origin has seven images at the default tolerance |
| Pbc.CombineMove | src/lib/structure/pbc.ts:52-56 | adding one face translation to a shift adds that lattice row, scaled by the direction, to the position |
| Pbc.ApplyBitsTranslates | src/lib/structure/pbc.ts:50-58 | the bit loop moves the position by the lattice translation of the mask's shift |
| Pbc.ApplyBitsShiftsFractional | src/lib/structure/pbc.ts:50-58 | the bit loop moves each fractional coordinate by the same whole number as the translation |
| Pbc.SiteImageTranslated | src/lib/structure/pbc.ts:43-61 | every image is the site moved by one whole lattice translation, in Cartesian and in fractional coordinates alike |
| Pbc.PbcImageSites | src/lib/structure/pbc.ts:69-100 | trajectory-like structures come back unchanged; otherwise the lattice is kept and the original sites come first |
| Pbc.PbcImageSiteIs | src/lib/structure/pbc.ts:93-97 | each added site is its original site with the image's coordinates, species and label kept |
| Notebook.MixedListNotTrajectory | extensions/notebook/matterviz_notebook/mime.py:38-50 | a list with one item that is not ASE, pymatgen or a dict is not trajectory-like |
| Notebook.TrajectoryFormatter | extensions/notebook/matterviz_notebook/mime.py:152-156 | the trajectory formatter renders exactly the trajectory-like objects |
| Notebook.StructureFormatter | extensions/notebook/matterviz_notebook/mime.py:131-149 | the structure formatters render exactly ASE, pymatgen and phonopy objects |
| Notebook.SiteValue | extensions/notebook/matterviz_notebook/structure.py:166-173 | a site has the label symbol + index, one species of occupancy 1, its coordinates and its properties |
| Notebook.AseSite | extensions/notebook/matterviz_notebook/structure.py:166-203 | an ASE site is labelled symbol + index; its abc is the scaled position when the cell has volume and the Cartesian position otherwise; it has a force iff forces exist for its index |
| Notebook.AseToDict | extensions/notebook/matterviz_notebook/structure.py:151-205 | one site per atom, charge 0, and a lattice iff the cell volume is positive |
| Notebook.PhonopyToDict | extensions/notebook/matterviz_notebook/structure.py:210-249 | one site per paired symbol and position, with a lattice and charge 0 |
| Notebook.PhonopyPositions | extensions/notebook/matterviz_notebook/structure.py:223-233 | each phonopy site's xyz is the transposed cell times its fractional position |
| Notebook.NormalizeStructure | extensions/notebook/matterviz_notebook/structure.py:108-149 | `None` stays `None`, a dict is kept, pymatgen gives its `as_dict()`; an error occurs iff the object is a list or fails the JSON round trip |
| Notebook.NormalizeStructureIdempotent | extensions/notebook/matterviz_notebook/structure.py:108-149 | normalising a normalised structure dict changes nothing |
| Notebook.FrameStructure | extensions/notebook/matterviz_notebook/trajectory.py:176-184 | the trajectory's structure normaliser fails iff the structure normaliser fails or gives `None` |
| Notebook.FrameValue | extensions/notebook/matterviz_notebook/trajectory.py:142-170 | a frame fails iff its structure does; it holds the normalised structure and a metadata dict |
| Notebook.FramesFrom | extensions/notebook/matterviz_notebook/trajectory.py:142-172 | one frame per item, frame k built from item k with index k |
| Notebook.FramesFromFail | extensions/notebook/matterviz_notebook/trajectory.py:142-172 | building the frames fails iff some item's structure does not normalise |
| Notebook.ListToTrajectory | extensions/notebook/matterviz_notebook/trajectory.py:132-174 | an empty list is an error; success has one frame per item and empty metadata |
| Notebook.ListFrameNumbering | extensions/notebook/matterviz_notebook/trajectory.py:142-170 | frame i holds item i's structure and step and frame index i unless the item's own metadata overrides them |
| Notebook.ListToTrajectoryFails | extensions/notebook/matterviz_notebook/trajectory.py:132-174 | a non-empty list fails iff one of its items does not normalise |
| Notebook.NormalizeTrajectory | extensions/notebook/matterviz_notebook/trajectory.py:93-130 | `None` stays `None`; a dict is kept; a list becomes one frame per item; a single ASE or pymatgen object becomes one frame; a phonopy object becomes its `str()` text; anything else fails iff the JSON round trip does, and JSON `null` becomes `None` |
| Notebook.TrajectoryLikeNormalizes | extensions/notebook/matterviz_notebook/trajectory.py:93-174 | everything the trajectory formatter accepts normalises to a trajectory with one frame per item |
| Notebook.NormalizeTrajectoryIdempotent | extensions/notebook/matterviz_notebook/trajectory.py:93-130 | normalising a normalised trajectory dict changes nothing |
| Notebook.NumFrames | extensions/notebook/matterviz_notebook/trajectory.py:304-309 | no trajectory or no `frames` key gives 0, and a frame list gives its length |
| Notebook.SetStep | extensions/notebook/matterviz_notebook/trajectory.py:255-265 | the step is clamped into 0..frames−1 and kept when already in range; with no frames it is 0; the trajectory is unchanged |
| Notebook.SetStepIdempotent | extensions/notebook/matterviz_notebook/trajectory.py:255-265 | setting the same step twice is setting it once |
| Notebook.SetStepPastEnd | extensions/notebook/matterviz_notebook/trajectory.py:255-265 | a step past the end selects the last frame |
| Notebook.CurrentStructure | extensions/notebook/matterviz_notebook/trajectory.py:311-318 | without frames, or with a step outside `[0, len(frames))`, there is no current structure; `frames` without a length is an error; in range, a frame list yields the frame's `structure` entry and fails iff the frame is not a dict |
| Notebook.UpdateTrajectory | extensions/notebook/matterviz_notebook/trajectory.py:246-253 | the update succeeds iff the trajectory normalises to a dict or `None`, which the `Dict(allow_none=True)` trait of line 45 accepts; it stores that dict and resets the step to 0 |
| Notebook.PhonopyTrajectoryRejected | extensions/notebook/matterviz_notebook/trajectory.py:120-130 | a phonopy object normalises, through the JSON fallback, to its text, which the `Dict` trait of line 45 then rejects in `update_trajectory` |
| Notebook.FirstFrameShown | extensions/notebook/matterviz_notebook/trajectory.py:311-318 | at step 0 of a trajectory built from a list, the current structure is the first item's |
| Notebook.UpdateShowsFirstStructure | extensions/notebook/matterviz_notebook/trajectory.py:246-318 | after loading a list of structures the widget shows the first one |
| Notebook.SetViewOptions | extensions/notebook/matterviz_notebook/trajectory.py:267-302 | only existing attributes change; no TraitError exactly when every given option the widget has is accepted, and then each takes its given value; options not given keep their values; on a TraitError the options before the first rejected one (named options in signature order, then keyword arguments) are applied and the rest are untouched |
| Notebook.ApplyUpdates | extensions/notebook/matterviz_notebook/trajectory.py:296-302 | the setattr loop skips missing attributes, stops at the first rejected value with a TraitError, and leaves exactly the earlier assignments made |
| Notebook.FirstRejected | extensions/notebook/matterviz_notebook/trajectory.py:296-302 | the index of the first option the widget has and the trait rejects; every earlier such option is accepted |
| Notebook.Given | extensions/notebook/matterviz_notebook/trajectory.py:285-294 | the given options are exactly the named options that are not None, and a call's distinct names stay distinct |
| Notebook.UpdatesAccepted | extensions/notebook/matterviz_notebook/trajectory.py:285-302 | the loop runs to the end exactly when every given named option and keyword argument the widget has is accepted |
| Notebook.SetViewOptionsIdempotent | extensions/notebook/matterviz_notebook/trajectory.py:267-302 | once the options have been applied without error, applying them again raises nothing and changes nothing |
| StructureFile.Extension | src/lib/io/parse.ts:692 | the extension is the part after the last '.', so it holds no '.' |
| StructureFile.ExtensionOf | src/lib/io/parse.ts:692 | the extension of stem + "." + ext is ext |
| StructureFile.NameFormat | src/lib/io/parse.ts:691-708 | no name decides nothing; the name decides XYZ iff its lower-cased extension is `xyz`; only the current parser lets a name decide CIF |
| StructureFile.DetectFormat | src/lib/io/parse.ts:686-771 | a deciding name wins; otherwise fewer than two lines is "too short"; only the current parser detects CIF; detection fails iff no name, XYZ, POSCAR or CIF test applies |
| StructureFile.ParseStructureFile | src/lib/io/parse.ts:686-771 | an undetermined format gives null; otherwise the detected format's parser reads the content |
| StructureFile.XyzNameDecides | src/lib/io/parse.ts:695-697 | an `.xyz` name in any case selects the XYZ parser whatever the content |
| StructureFile.CifNameDecides | src/lib/io/parse.ts:700-702 | in the current parser a `.cif` name selects the CIF parser |
| StructureFile.CifNameIgnoredByLegacy | src/lib/parsers.ts:567-579 | the legacy parser does not let a `.cif` name decide, unless the name mentions poscar |
| StructureFile.NoPoscarInCifName | src/lib/parsers.ts:576 | appending `.cif` to a name without "poscar" does not create "poscar" |
| StructureFile.PoscarNameDecides | src/lib/io/parse.ts:705-707 | a name containing "poscar" in any case, with another extension than xyz or cif, selects the POSCAR parser |
| StructureFile.ShortContentRejected | src/lib/io/parse.ts:711-716 | single-line content without a deciding name is "too short" |
| StructureFile.TrimInside | src/lib/io/parse.ts:711 | trimming introduces no new characters |
| StructureFile.XyzBeforePoscar | src/lib/io/parse.ts:718-756 | content that passes both the XYZ and the POSCAR test is read as XYZ |
| StructureFile.CifContent | src/lib/io/parse.ts:758-768 | a `data_` line makes otherwise undetermined content CIF in the current parser; the legacy parser gives up |
| StructureFile.ExportedLines | src/lib/io/export.ts:58-127 | exported XYZ text splits back into n+2 lines: the count, the comment, the site lines |
| StructureFile.ExportedXyzRecognised | src/lib/io/parse.ts:718-747 | exported XYZ text is recognised as XYZ by content alone, in both parsers |

## Left out

- Rendering, DOM, Svelte components, d3 scales and formats, the VS Code webview and
  activation, IPython registration and HTML templating are not modelled. They produce
  no data the rest of the system consumes.
- Floating point is not modelled: numbers are exact reals. Rounding, overflow to
  Infinity, `-0` and `1e400`-style literals behave as exact values in the model.
- Numbers.ToNumber: reads `Infinity`, `-Infinity` and `+Infinity` as NaN (`None`),
  where `Number()` and `parseFloat` return ±Infinity. A POSCAR scale of `Infinity`
  therefore fails in the model and is accepted by the source. Literals beyond the
  double range stay exact instead of becoming Infinity.
- Poscar.ParsePoscar: an atom count of `Infinity` makes the source loop forever while
  reading coordinate lines. In the model it is an unreadable count, which ends the parse.
- Poscar.LatticeRow: for the legacy parser (src/lib/parsers.ts:208-212) a row with
  fewer than three numbers is rejected, and a longer row is cut to its first three
  numbers. The source keeps such a row as it is: its missing entries become `undefined`
  and give NaN positions further on.
- Crystal.Quot: a division by zero gives 0. In the singular-lattice fallback the source
  gets ±Infinity or NaN.
- VecMath.MatrixInverse: src/lib/io/parse.ts calls `math.matrix_inverse_3x3`,
  `math.transpose_matrix` and `math.mat3x3_vec3_multiply`. src/lib/math.ts does not
  export these three. The model assumes they behave like the local copies in
  src/lib/parsers.ts:4-64, whose code is the same.
- Composition.ConvertAtomicNumbersToSymbols: keeps the entries in insertion order.
  `Object.entries` lists integer-like keys first, in ascending numeric order, so the
  key order of the source's result can differ. The amounts are the same.
- Composition.ConvertSymbolsToAtomicNumbers: keeps the entries in insertion order.
  Its keys are integer-like, so JavaScript enumerates the source's result in
  ascending atomic-number order: `{Fe: 1, O: 2}` lists "8" before "26". The amounts
  are the same.
- Composition.SymbolsAtomicRoundTrip: the ordered equality holds in the model only.
  In the source the intermediate object is reordered by atomic number, so the round
  trip gives back the same entries, possibly in a different key order.
- Composition.NumberText: renders a non-integer key exactly as written, e.g. `1.50`.
  The source's error message shows `Number(key)`, i.e. `1.5`.
- `Number → string` for non-integers is a parameter (`fraction`, `fixed`) of the
  formatting functions.
- `calc_lattice_params`, `cell_to_lattice_matrix` and the cube root of a negative
  POSCAR scale are fields of `NumericOps`. They are not defined.
- Trajectory files other than torch-sim HDF5 are not modelled. `parse_vasp_xdatcar`
  (src/lib/trajectory/parse.ts:458-586), `parse_xyz_trajectory` (:629-857) and
  `parse_pymatgen_trajectory` (:929) are parsers of their own, with their own line
  grammars; this model covers the single-structure readers and the torch-sim layout,
  not these further formats. `parse_trajectory_data`, the loaders and the format
  sniffing only dispatch among them; its last fallback calls the XYZ reader
  modelled here. src/lib/trajectory/index.ts, extract.ts, plotting.ts and utils.ts
  are not modelled either: they shape parsed trajectories for plots and playback.
- TorchSim.FrameOf: frames carry the corrected fractional coordinates `inv(Lᵀ)·xyz`
  (`TorchSim.FractionalOf`). The source computes `inv(L)·xyz`, which is
  `TorchSim.AbcAsWritten`; the two differ for a cell that is not symmetric (see
  "## Findings"). `TorchSim.ParseTorchSim` therefore models the intended parser.
- DataUrl.ToDataUrl: the encoding is defined for every byte sequence. The source
  spreads the bytes into `String.fromCharCode(...)`, which throws `RangeError` once
  their number exceeds the engine's argument limit, as multi-megabyte HDF5 buffers
  can. The engine limit is not modelled.
- DataUrl.DataUrlRoundTrip: holds in the model for byte sequences of any length. In
  the source it holds only for buffers small enough for `String.fromCharCode` to
  accept, for the reason given under `DataUrl.ToDataUrl`.
- Text.ToUpper: maps only the ASCII letters a-z. JavaScript's `toUpperCase` also maps
  other characters, e.g. 'ſ' to 'S', 'ß' to 'SS' and 'ﬆ' to 'ST'.
- Poscar.CoordinateMode: uses `Text.ToUpper`, so a line such as "ſelective dynamics",
  which the source (src/lib/io/parse.ts:227-229, src/lib/parsers.ts:301-303) upper-cases
  to "SELECTIVE DYNAMICS" and skips as the selective-dynamics line, is read by the
  model as the coordinate-mode line.
- Reading the HDF5 container itself (h5wasm, the virtual file system, the
  `finally` clean-up) is not modelled. `TorchSim.ParseTorchSim` takes the datasets
  h5wasm would return as a record. The HDF5 signature follows the HDF5 File Format
  Specification, Level 0A.
- The CIF parser is a parameter of `StructureFile.ParseStructureFile`. Only the
  dispatch to it is modelled.
- StructureFile.ParseStructureFile: in the legacy dispatch, XYZ content goes to the
  current XYZ reader (`Xyz.ParseXyz`). The legacy `parse_xyz`
  (src/lib/parsers.ts:434-559) finds its frames with a regular expression and is not
  modelled.
- The VS Code extension's `is_trajectory_file` is not modelled. It is a set of
  file-name regular expressions that only picks which viewer opens.
- StructureFile.ExportedXyzRecognised: assumes the number formatter writes each
  coordinate as one whitespace-free word that `parseFloat` reads. The source's
  `toFixed` output satisfies this for finite numbers.
- Bonding, src/lib/structure/index.ts, src/lib/structure.ts, the plot and colour
  modules, themes, labels and the VS Code extension are not modelled. They compute
  views of a structure and feed nothing back into the data layer.
- The formula-display helpers beyond `format_composition_formula` are not modelled.
  They only rearrange the same pieces into HTML or sorted strings.
- `mat3x3_vec3_multiply` and `calc_lattice_params` are not part of this model as code.
  The first is taken to be the matrix-vector product; the second is a field of
  `NumericOps`.
- Notebook.AseToDict: `_extract_ase_metadata` is not modelled. Its result is the
  `calcMetadata` field of the ASE record, because it reads calculator objects that
  the model does not describe.
- Notebook.NormalizeStructure: a list or tuple given to the structure normaliser is
  an error. The source JSON-serialises it with `default=str` and returns a list.
  Modelling that would require `str()` of every third-party object.
- The notebook widgets' constructors, traitlet synchronisation, HTML rendering and
  IPython registration are not modelled. `hasattr` probes on third-party objects
  appear as the fields of their records. An import that fails makes the object
  `Opaque`. A trait's validation of an assigned value is the `accepts` parameter
  of `Notebook.SetViewOptions`, since traitlets is not part of this model. The
  `TraitError` raised is reduced to a message that names the key. The structure
  widget's method of the same name (structure.py:262-293) is the same loop over
  other named options, so `Notebook.SetViewOptions` with those names models it too.

## Findings

| source | as written | input that shows it | evidently intended | confidence | as-written member | corrected member |
|---|---|---|---|---|---|---|
| src/lib/composition/parse.ts:132-152 | `expand_parentheses` loops `while (expanded.includes('('))`, but a pass can rewrite nothing when no complete `(…)` group is left | `Ca(OH` or `()` | stop, or reject, when a pass rewrites nothing | high; not executed | Composition.UnclosedFormulaHangs | Composition.ExpandAgreesWhenFinished |
| src/lib/math.ts:17-45 | `pbc_dist` takes fractional coordinates with `inverse(lattice)` and returns to Cartesian with `lattice · wrapped`, which treats the lattice vectors as columns, although line 20 says each row is a lattice vector | lattice rows (2, 1, 0), (0, 1, 0), (0, 0, 1), pos1 = (2, 1, 0) (lattice vector a), pos2 = origin: displacement (−1, 0, 0), distance 1 | distance 0: fractional coordinates by `inverse(transpose(lattice))` and back by combining the rows | medium; not executed | VecMath.ShearedLatticeVectorNotZero | VecMath.PbcRowsTranslates |
| src/lib/trajectory/parse.ts:341-346 | fractional coordinates are `inverse(lattice) · xyz`, with the lattice vectors as rows | lattice rows (1,1,0), (0,1,0), (0,0,1) and xyz (1,1,0) give abc (0,1,0), which is the point (0,1,0) | abc (1,0,0), i.e. `inverse(transpose(lattice)) · xyz`, as the POSCAR parser computes | medium; not executed | TorchSim.AsWrittenMisplacesSheared | TorchSim.FractionalPlacesSheared |

=== FILE: composition.dfy ===
/** Chemical formulas and compositions (`composition/parse.ts`): formula parsing with
    parenthesis expansion, normalisation, conversion between atomic-number and
    element-symbol keys, totals, percentages and formula formatting. A composition
    is an object from element symbols (or atomic-number strings) to amounts. */
module Composition {
  import opened Wrappers
  import opened Text
  import opened Numbers
  import opened JsObject
  import opened Seqs
  import Elements

  type Comp = Obj<real>

  /* ---------- the token regex ([A-Z][a-z]?)(\d*) ---------- */

  /** One match of `([A-Z][a-z]?)(\d*)`: the element group and the digit group. */
  datatype Token = Token(element: string, digits: string)

  predicate WellFormed(t: Token)
  {
    (|t.element| == 1 || |t.element| == 2) && IsUpper(t.element[0])
    && (|t.element| == 2 ==> IsLower(t.element[1]))
    && AllDigits(t.digits)
  }

  predicate AllWellFormed(ts: seq<Token>)
  {
    forall k :: 0 <= k < |ts| ==> WellFormed(ts[k])
  }

  /** `digits ? parseInt(digits, 10) : 1` */
  function Count(t: Token): nat
    requires AllDigits(t.digits)
  {
    if |t.digits| == 0 then 1 else DigitsValue(t.digits)
  }

  /** Index of the first upper-case letter, or `|s|`. */
  function UpperIndex(s: string): (i: nat)
    ensures i <= |s|
    ensures i < |s| ==> IsUpper(s[i])
    ensures forall k :: 0 <= k < i ==> !IsUpper(s[k])
  {
    if |s| == 0 || IsUpper(s[0]) then 0 else 1 + UpperIndex(s[1..])
  }

  /** All successive matches of the global regex `([A-Z][a-z]?)(\d*)`: each match
      starts at the next upper-case letter; characters between matches are skipped. */
  function ScanTokens(s: string): (ts: seq<Token>)
    ensures AllWellFormed(ts)
    decreases |s|
  {
    var i := UpperIndex(s);
    if i == |s| then []
    else
      var t := s[i..];
      var w := HeadWidth(t);
      var d := DigitRun(t[w..]);
      [Token(t[..w], t[w..][..d])] + ScanTokens(t[w + d..])
  }

  /** Element width of the match that starts at the head of `s`. */
  function HeadWidth(s: string): (w: nat)
    requires |s| > 0
    ensures 1 <= w <= 2 && w <= |s|
  {
    if 1 < |s| && IsLower(s[1]) then 2 else 1
  }

  function Render(t: Token): string
  {
    t.element + t.digits
  }

  function RenderAll(ts: seq<Token>): string
  {
    if |ts| == 0 then "" else Render(ts[0]) + RenderAll(ts[1..])
  }

  /** When `s` starts with an upper-case letter, the first match starts there. */
  lemma {:induction false} ScanAtHead(s: string)
    requires |s| > 0 && IsUpper(s[0])
    ensures ScanTokens(s)
      == [Token(s[..HeadWidth(s)], s[HeadWidth(s)..][..DigitRun(s[HeadWidth(s)..])])]
         + ScanTokens(s[HeadWidth(s) + DigitRun(s[HeadWidth(s)..])..])
  {
    assert UpperIndex(s) == 0;
    assert s[0..] == s;
  }

  /** The pieces of a rendered token followed by more text. */
  lemma RenderPieces(e: string, d: string, rest: string)
    ensures (e + d + rest)[..|e|] == e
    ensures (e + d + rest)[|e|..] == d + rest
    ensures (d + rest)[..|d|] == d
    ensures (e + d + rest)[|e| + |d|..] == rest
  {
    assert (e + d + rest)[|e|..] == d + rest;
  }

  /** A rendered token's element is the width of the first match. */
  lemma RenderedHeadWidth(t: Token, rest: string)
    requires WellFormed(t)
    requires |rest| == 0 || IsUpper(rest[0])
    ensures HeadWidth(Render(t) + rest) == |t.element|
  {
    var s := Render(t) + rest;
    assert s[0] == t.element[0];
    if |t.element| == 1 {
      if |t.digits| > 0 { assert s[1] == t.digits[0]; } else if |rest| > 0 { assert s[1] == rest[0]; }
    } else {
      assert s[1] == t.element[1];
    }
  }

  /** Scanning one rendered token followed by text that starts a new token (or
      nothing) reads that token first. */
  lemma ScanOneToken(t: Token, rest: string)
    requires WellFormed(t)
    requires |rest| == 0 || IsUpper(rest[0])
    ensures ScanTokens(Render(t) + rest) == [t] + ScanTokens(rest)
  {
    var e, d := t.element, t.digits;
    assert Render(t) + rest == e + d + rest;
    RenderedHeadWidth(t, rest);
    RenderPieces(e, d, rest);
    DigitRunStops(d, rest);
    ScanAtHead(e + d + rest);
  }

  /** Scanning rendered well-formed tokens gives the tokens back. */
  lemma {:induction false} ScanRenderAll(ts: seq<Token>)
    requires AllWellFormed(ts)
    ensures ScanTokens(RenderAll(ts)) == ts
    ensures |RenderAll(ts)| > 0 ==> IsUpper(RenderAll(ts)[0])
  {
    if |ts| > 0 {
      ScanRenderAll(ts[1..]);
      ScanOneToken(ts[0], RenderAll(ts[1..]));
      assert [ts[0]] + ts[1..] == ts;
    }
  }

  /** Rendered tokens never contain a parenthesis. */
  lemma {:induction false} RenderAllNoParen(ts: seq<Token>)
    requires AllWellFormed(ts)
    ensures '(' !in RenderAll(ts) && ')' !in RenderAll(ts)
  {
    if |ts| > 0 {
      RenderAllNoParen(ts[1..]);
      var t := ts[0];
      assert forall k :: 0 <= k < |t.digits| ==> IsDigit(t.digits[k]);
    }
  }

  /* ---------- expand_parentheses ---------- */

  /** One inner token after multiplying its count by the group multiplier: the
      product is written out only when it exceeds 1. */
  function ScaleToken(t: Token, mult: nat): (r: Token)
    requires WellFormed(t)
    ensures WellFormed(r) && r.element == t.element
    ensures Count(t) * mult > 1 ==> Count(r) == Count(t) * mult
    ensures Count(t) * mult <= 1 ==> Count(r) == 1
  {
    var p := Count(t) * mult;
    if p > 1 then
      DigitsOfNatToString(p);
      Token(t.element, NatToString(p))
    else Token(t.element, "")
  }

  function ScaleTokens(ts: seq<Token>, mult: nat): (r: seq<Token>)
    requires AllWellFormed(ts)
    ensures |r| == |ts| && AllWellFormed(r)
    ensures forall k :: 0 <= k < |ts| ==> r[k] == ScaleToken(ts[k], mult)
  {
    seq(|ts|, k requires 0 <= k < |ts| => ScaleToken(ts[k], mult))
  }

  /** The replacement text for one `(group)multiplier` match. */
  function ExpandGroup(group: string, mult: nat): string
  {
    RenderAll(ScaleTokens(ScanTokens(group), mult))
  }

  /** Reading an expanded group back yields the group's tokens, each count
      multiplied by the multiplier (a product of 0 or 1 reads back as 1). */
  lemma ExpandGroupTokens(group: string, mult: nat)
    ensures ScanTokens(ExpandGroup(group, mult)) == ScaleTokens(ScanTokens(group), mult)
    ensures '(' !in ExpandGroup(group, mult)
  {
    ScanRenderAll(ScaleTokens(ScanTokens(group), mult));
    RenderAllNoParen(ScaleTokens(ScanTokens(group), mult));
  }

  /** Index of the first `(` or `)`, or `|s|`. */
  function ParenIndex(s: string): (i: nat)
    ensures i <= |s|
    ensures i < |s| ==> s[i] == '(' || s[i] == ')'
    ensures forall k :: 0 <= k < i ==> s[k] != '(' && s[k] != ')'
  {
    if |s| == 0 || s[0] == '(' || s[0] == ')' then 0 else 1 + ParenIndex(s[1..])
  }

  /** A match of `\(([^()]+)\)(\d*)` at the start of `s`: the group, the multiplier
      (`digits ? parseInt(digits) : 1`) and the length of the match. */
  function GroupAt(s: string): (r: Option<(string, nat, nat)>)
    ensures r.Some? ==> 3 <= r.value.2 <= |s| && s[0] == '('
    ensures r.Some? ==> '(' !in r.value.0 && s[r.value.2 - 1] != '(' 
  {
    if |s| == 0 || s[0] != '(' then None
    else
      var j := ParenIndex(s[1..]);
      if j == 0 || 1 + j == |s| || s[1 + j] != ')' then None
      else
        var d := DigitRun(s[2 + j..]);
        var mult := if d == 0 then 1 else DigitsValue(s[2 + j..][..d]);
        assert forall k :: 0 <= k < j ==> s[1..1 + j][k] == s[1..][k];
        Some((s[1..1 + j], mult, 2 + j + d))
  }

  function ParenCount(s: string): nat
  {
    multiset(s)['(']
  }

  /** One `formula.replace(/\(([^()]+)\)(\d*)/g, …)` and whether anything matched. */
  function ReplacePass(s: string): (string, bool)
  {
    ReplaceScan(s)
  }

  /** The replacement scan over the text not yet consumed: a match at the head is
      replaced and scanning resumes after it; otherwise one character is kept. */
  function ReplaceScan(s: string): (r: (string, bool))
    decreases |s|
  {
    if |s| == 0 then ("", false)
    else
      match GroupAt(s)
      case Some(g) => (ExpandGroup(g.0, g.1) + ReplaceScan(s[g.2..]).0, true)
      case None =>
        var rest := ReplaceScan(s[1..]);
        ([s[0]] + rest.0, rest.1)
  }

  lemma ParenCountConcat(a: string, b: string)
    ensures ParenCount(a + b) == ParenCount(a) + ParenCount(b)
  {
    assert multiset(a + b) == multiset(a) + multiset(b);
  }

  lemma ParenCountNone(x: string)
    requires '(' !in x
    ensures ParenCount(x) == 0
  {
  }

  /** A pass that matched removed at least one `(`; a pass that matched nothing
      returned its input. */
  lemma ReplacePassShrinks(s: string)
    ensures ReplacePass(s).1 ==> ParenCount(ReplacePass(s).0) < ParenCount(s)
    ensures !ReplacePass(s).1 ==> ReplacePass(s).0 == s
  {
    ReplaceScanShrinks(s);
  }

  lemma {:induction false} ReplaceScanShrinks(s: string)
    ensures ReplaceScan(s).1 ==> ParenCount(ReplaceScan(s).0) < ParenCount(s)
    ensures !ReplaceScan(s).1 ==> ReplaceScan(s).0 == s
    decreases |s|
  {
    if |s| > 0 {
      match GroupAt(s)
      case Some(g) =>
        var rest := s[g.2..];
        ReplaceScanShrinks(rest);
        ExpandGroupTokens(g.0, g.1);
        ParenCountNone(ExpandGroup(g.0, g.1));
        ParenCountConcat(ExpandGroup(g.0, g.1), ReplaceScan(rest).0);
        ParenCountConcat(s[..g.2], rest);
        ParenCountConcat([s[0]], s[1..g.2]);
        assert s[..g.2] == [s[0]] + s[1..g.2];
        assert s == s[..g.2] + rest;
      case None =>
        ReplaceScanShrinks(s[1..]);
        ParenCountConcat([s[0]], s[1..]);
        ParenCountConcat([s[0]], ReplaceScan(s[1..]).0);
        ConsTail(s);
    }
  }

  /** `formula.includes('(')` */
  predicate HasOpen(s: string)
  {
    |s| > 0 && (s[0] == '(' || HasOpen(s[1..]))
  }

  lemma {:induction false} HasOpenIff(s: string)
    ensures HasOpen(s) <==> '(' in s
  {
    if |s| > 0 {
      HasOpenIff(s[1..]);
      ConsTail(s);
    }
  }

  /** `expand_parentheses` exactly as written: repeat the pass while a `(` remains.
      `None` means the loop is still running after `fuel` passes. */
  function ExpandAsWritten(s: string, fuel: nat): Option<string>
    decreases fuel
  {
    if !HasOpen(s) then Some(s)
    else if fuel == 0 then None
    else ExpandAsWritten(ReplacePass(s).0, fuel - 1)
  }

  /** One more pass of the source's loop while a `(` remains. */
  lemma AsWrittenStep(s: string, fuel: nat)
    requires HasOpen(s)
    ensures ExpandAsWritten(s, fuel)
      == if fuel == 0 then None else ExpandAsWritten(ReplacePass(s).0, fuel - 1)
  {
  }

  /** A `(` that no pass can remove keeps the loop running forever. */
  lemma {:induction false} StuckExpansionNeverEnds(s: string, fuel: nat)
    requires HasOpen(s) && !ReplacePass(s).1
    ensures ExpandAsWritten(s, fuel) == None
  {
    AsWrittenStep(s, fuel);
    ReplacePassShrinks(s);
    if fuel > 0 {
      StuckExpansionNeverEnds(s, fuel - 1);
    }
  }

  lemma NoGroupInUnclosed()
    ensures !ReplacePass("(OH").1
  {
    assert "(OH"[1..] == "OH";
    assert "OH"[1..] == "H";
    assert ParenIndex("OH") == 2;
    assert GroupAt("(OH") == None;
    assert "H"[1..] == "";
    assert !ReplacePass("H").1;
    assert !ReplacePass("OH").1;
  }

  /** An unmatched `(` leaves the loop spinning: `Ca(OH` never finishes. */
  lemma UnclosedFormulaHangs(fuel: nat)
    ensures ExpandAsWritten("Ca(OH", fuel) == None
  {
    assert "Ca(OH"[2] == '(';
    assert "Ca(OH"[1..] == "a(OH";
    assert "a(OH"[1..] == "(OH";
    NoGroupInUnclosed();
    assert !ReplacePass("a(OH").1;
    assert !ReplacePass("Ca(OH").1;
    StuckExpansionNeverEnds("Ca(OH", fuel);
  }

  /** An empty pair `()` is never matched either. */
  lemma EmptyGroupHangs(fuel: nat)
    ensures ExpandAsWritten("()", fuel) == None
  {
    assert "()"[0] == '(';
    assert "()"[1..] == ")";
    assert ")"[1..] == "";
    assert !ReplacePass(")").1;
    assert !ReplacePass("()").1;
    StuckExpansionNeverEnds("()", fuel);
  }

  /** `expand_parentheses` with the loop stopped once a pass changes nothing: the
      result has no `(` left, or only ones no pass can remove. */
  function ExpandParentheses(s: string): (r: string)
    ensures !HasOpen(r) || !ReplacePass(r).1
    decreases ParenCount(s)
  {
    if !HasOpen(s) then s
    else
      var p := ReplacePass(s);
      if !p.1 then s
      else
        ReplacePassShrinks(s);
        ExpandParentheses(p.0)
  }

  /** One more pass of the stopping version after a pass that removed a group. */
  lemma ExpandStep(s: string)
    requires HasOpen(s) && ReplacePass(s).1
    ensures ExpandParentheses(s) == ExpandParentheses(ReplacePass(s).0)
  {
  }

  /** When the source's loop finishes on a string with a `(`, the first pass removed
      a group and the loop finished from its result one pass sooner. */
  lemma FinishedStep(s: string, fuel: nat, r: string)
    requires ExpandAsWritten(s, fuel) == Some(r) && HasOpen(s)
    ensures fuel > 0 && ReplacePass(s).1
    ensures ExpandAsWritten(ReplacePass(s).0, fuel - 1) == Some(r)
  {
    AsWrittenStep(s, fuel);
    if !ReplacePass(s).1 {
      StuckExpansionNeverEnds(s, fuel);
    }
  }

  lemma FinishedAtOnce(s: string, fuel: nat, r: string)
    requires ExpandAsWritten(s, fuel) == Some(r) && !HasOpen(s)
    ensures ExpandParentheses(s) == r && !HasOpen(r)
  {
  }

  /** Whenever the source's loop finishes, the stopping version gives the same string. */
  lemma {:induction false} ExpandAgreesWhenFinished(s: string, fuel: nat, r: string)
    requires ExpandAsWritten(s, fuel) == Some(r)
    ensures ExpandParentheses(s) == r
    ensures !HasOpen(r)
    decreases fuel
  {
    if HasOpen(s) {
      FinishedStep(s, fuel, r);
      ExpandStep(s);
      ExpandAgreesWhenFinished(ReplacePass(s).0, fuel - 1, r);
    } else {
      FinishedAtOnce(s, fuel, r);
    }
  }

  /* ---------- parse_formula ---------- */

  function RemoveSpaces(s: string): (r: string)
    ensures NoSpace(r)
  {
    if |s| == 0 then ""
    else if IsSpace(s[0]) then RemoveSpaces(s[1..])
    else [s[0]] + RemoveSpaces(s[1..])
  }

  /** Adds each token's count to its element, stopping at the first token that is
      not an element symbol. */
  function Accumulate(ts: seq<Token>, acc: Comp): (r: Result<Comp>)
    requires AllWellFormed(ts)
  {
    if |ts| == 0 then Ok(acc)
    else if !Elements.IsElement(ts[0].element) then
      Err("Invalid element symbol: " + ts[0].element)
    else
      Accumulate(ts[1..], AddCount(acc, ts[0]))
  }

  /** `o[k] = (o[k] || 0) + v` */
  function AddAmount(o: Comp, k: string, v: real): Comp
  {
    Put(o, k, Get(o, k).GetOr(0.0) + v)
  }

  lemma GetAddAmount(o: Comp, k: string, v: real, e: string)
    ensures Get(AddAmount(o, k, v), e).GetOr(0.0)
      == Get(o, e).GetOr(0.0) + (if k == e then v else 0.0)
    ensures Has(AddAmount(o, k, v), e) <==> Has(o, e) || k == e
  {
    GetPut(o, k, Get(o, k).GetOr(0.0) + v, e);
  }

  /** `composition[element] = (composition[element] || 0) + count` */
  function AddCount(acc: Comp, t: Token): Comp
    requires WellFormed(t)
  {
    AddAmount(acc, t.element, Count(t) as real)
  }

  /** The total count the tokens give element `e`. */
  function TokenSum(ts: seq<Token>, e: string): nat
    requires AllWellFormed(ts)
  {
    if |ts| == 0 then 0
    else (if ts[0].element == e then Count(ts[0]) else 0) + TokenSum(ts[1..], e)
  }

  predicate Mentions(ts: seq<Token>, e: string)
  {
    exists k :: 0 <= k < |ts| && ts[k].element == e
  }

  predicate AllElements(ts: seq<Token>)
  {
    forall k :: 0 <= k < |ts| ==> Elements.IsElement(ts[k].element)
  }

  lemma AllElementsTail(ts: seq<Token>)
    requires |ts| > 0
    ensures AllElements(ts) <==> Elements.IsElement(ts[0].element) && AllElements(ts[1..])
  {
    if Elements.IsElement(ts[0].element) && AllElements(ts[1..]) {
      forall k | 0 <= k < |ts| ensures Elements.IsElement(ts[k].element) {
        if k > 0 { assert ts[k] == ts[1..][k - 1]; }
      }
    }
  }

  lemma MentionsTail(ts: seq<Token>, e: string)
    requires |ts| > 0
    ensures Mentions(ts, e) <==> ts[0].element == e || Mentions(ts[1..], e)
  {
    if Mentions(ts, e) {
      var k :| 0 <= k < |ts| && ts[k].element == e;
      if k > 0 { assert ts[1..][k - 1].element == e; }
    }
    if Mentions(ts[1..], e) {
      var k :| 0 <= k < |ts[1..]| && ts[1..][k].element == e;
      assert ts[k + 1].element == e;
    }
  }

  /** Accumulation fails exactly when some token is not an element symbol. */
  lemma {:induction false} AccumulateOk(ts: seq<Token>, acc: Comp)
    requires AllWellFormed(ts)
    ensures Accumulate(ts, acc).Ok? <==> AllElements(ts)
  {
    if |ts| > 0 {
      AllElementsTail(ts);
      var t := ts[0];
      if Elements.IsElement(t.element) {
        AccumulateOk(ts[1..], AddCount(acc, t));
      } else {
        assert Accumulate(ts, acc).Err?;
      }
    }
  }

  /** A successful accumulation grows every element's amount by the sum of its token
      counts, and adds exactly the mentioned elements. */
  lemma {:induction false} AccumulateSums(ts: seq<Token>, acc: Comp, e: string)
    requires AllWellFormed(ts)
    requires Accumulate(ts, acc).Ok?
    ensures var r := Accumulate(ts, acc).value;
      Get(r, e).GetOr(0.0) == Get(acc, e).GetOr(0.0) + TokenSum(ts, e) as real
      && (Has(r, e) <==> Has(acc, e) || Mentions(ts, e))
  {
    if |ts| > 0 {
      var t := ts[0];
      AccumulateSums(ts[1..], AddCount(acc, t), e);
      GetAddAmount(acc, t.element, Count(t) as real, e);
      MentionsTail(ts, e);
    }
  }

  /** `parse_formula`: whitespace removed, parentheses expanded, then every token's
      count added to its element. */
  function ParseFormula(formula: string): Result<Comp>
  {
    Accumulate(ScanTokens(ExpandParentheses(RemoveSpaces(formula))), [])
  }

  /** The empty formula is the empty composition. */
  lemma ParseEmptyFormula()
    ensures ParseFormula("") == Ok([])
  {
  }

  /** A parsed formula gives each element the sum of its token counts (1 for a token
      without digits) and mentions no other element; it fails exactly when a token is
      not an element symbol. */
  lemma ParseFormulaCounts(formula: string, e: string)
    ensures var ts := ScanTokens(ExpandParentheses(RemoveSpaces(formula)));
      (ParseFormula(formula).Ok? <==> AllElements(ts))
      && (ParseFormula(formula).Ok? ==>
        Get(ParseFormula(formula).value, e).GetOr(0.0) == TokenSum(ts, e) as real
        && (Has(ParseFormula(formula).value, e) <==> Mentions(ts, e)))
  {
    var ts := ScanTokens(ExpandParentheses(RemoveSpaces(formula)));
    AccumulateOk(ts, []);
    if AllElements(ts) {
      AccumulateSums(ts, [], e);
    }
  }

  /* ---------- atomic numbers and element symbols ---------- */

  /** The atomic number a property name denotes: `Number(key)` must be an integer in
      1..118, and every such number has a symbol in the table. */
  function AtomicNumberOfKey(key: string): (r: Option<nat>)
    ensures r.Some? ==> 1 <= r.value <= 118 && ToNumber(key) == Some(r.value as real)
  {
    match ToNumber(key)
    case Some(v) => if IsInteger(v) && 1.0 <= v <= 118.0 then Some(v.Floor as nat) else None
    case None => None
  }

  predicate AtomicKey(key: string)
  {
    AtomicNumberOfKey(key).Some?
  }

  /** `is_atomic_number_composition`: at least one key, and every key an atomic number. */
  predicate IsAtomicNumberComposition(c: Comp)
  {
    |c| > 0 && AtomicKeys(c)
  }

  /** How `${Number(key)}` reads in the error message. */
  function NumberText(key: string): string
  {
    match ToNumber(key)
    case None => "NaN"
    case Some(v) => if IsInteger(v) then IntToString(v.Floor) else key
  }

  /** The loop of `convert_atomic_numbers_to_symbols` from accumulator `acc`. */
  function ToSymbolsFrom(c: Comp, acc: Comp): Result<Comp>
  {
    if |c| == 0 then Ok(acc)
    else
      match AtomicNumberOfKey(c[0].0)
      case None => Err("Invalid atomic number: " + NumberText(c[0].0))
      case Some(n) =>
        var acc' := if c[0].1 > 0.0 then AddAmount(acc, Elements.SymbolOf(n), c[0].1) else acc;
        ToSymbolsFrom(c[1..], acc')
  }

  predicate AtomicKeys(c: Comp)
  {
    forall i :: 0 <= i < |c| ==> AtomicKey(c[i].0)
  }

  /** The conversion fails exactly when some key is not an atomic number. */
  lemma {:induction false} ToSymbolsOk(c: Comp, acc: Comp)
    ensures ToSymbolsFrom(c, acc).Ok? <==> AtomicKeys(c)
  {
    if |c| > 0 {
      assert AtomicKeys(c) <==> AtomicKey(c[0].0) && AtomicKeys(c[1..]) by {
        assert forall i :: 1 <= i < |c| ==> c[i] == c[1..][i - 1];
      }
      match AtomicNumberOfKey(c[0].0)
      case None =>
      case Some(n) =>
        ToSymbolsOk(c[1..], if c[0].1 > 0.0 then AddAmount(acc, Elements.SymbolOf(n), c[0].1) else acc);
    }
  }

  /** `convert_atomic_numbers_to_symbols`: fails on the first key that is not an
      atomic number; positive amounts are added to their symbol. */
  function ConvertAtomicNumbersToSymbols(c: Comp): (r: Result<Comp>)
    ensures r.Ok? <==> AtomicKeys(c)
  {
    ToSymbolsOk(c, []);
    ToSymbolsFrom(c, [])
  }

  /** The property name `String(atomic_number)` of an element symbol. */
  function AtomicKeyOf(s: string): string
    requires Elements.IsElement(s)
  {
    NatToString(Elements.NumberOf(s).value)
  }

  /** The property name of a symbol reads back as its atomic number. */
  lemma AtomicKeyOfReads(s: string)
    requires Elements.IsElement(s)
    ensures AtomicNumberOfKey(AtomicKeyOf(s)) == Elements.NumberOf(s)
  {
    NatToStringParses(Elements.NumberOf(s).value);
  }

  /** The loop of `convert_symbols_to_atomic_numbers` from accumulator `acc`. */
  function ToAtomicFrom(c: Comp, acc: Comp): Result<Comp>
  {
    if |c| == 0 then Ok(acc)
    else if !Elements.IsElement(c[0].0) then Err("Invalid element symbol: " + c[0].0)
    else
      var acc' := if c[0].1 > 0.0 then AddAmount(acc, AtomicKeyOf(c[0].0), c[0].1) else acc;
      ToAtomicFrom(c[1..], acc')
  }

  /** The conversion fails exactly when some key is not an element symbol. */
  lemma {:induction false} ToAtomicOk(c: Comp, acc: Comp)
    ensures ToAtomicFrom(c, acc).Ok? <==> SymbolKeys(c)
  {
    if |c| > 0 {
      assert SymbolKeys(c) <==> Elements.IsElement(c[0].0) && SymbolKeys(c[1..]) by {
        assert forall i :: 1 <= i < |c| ==> c[i] == c[1..][i - 1];
      }
      if Elements.IsElement(c[0].0) {
        ToAtomicOk(c[1..], if c[0].1 > 0.0 then AddAmount(acc, AtomicKeyOf(c[0].0), c[0].1) else acc);
      }
    }
  }

  /** `convert_symbols_to_atomic_numbers`: fails on the first key that is not an
      element symbol; positive amounts are added to the atomic number. */
  function ConvertSymbolsToAtomicNumbers(c: Comp): (r: Result<Comp>)
    ensures r.Ok? <==> SymbolKeys(c)
  {
    ToAtomicOk(c, []);
    ToAtomicFrom(c, [])
  }

  predicate SymbolKeys(c: Comp)
  {
    forall i :: 0 <= i < |c| ==> Elements.IsElement(c[i].0)
  }

  predicate AllPositive(c: Comp)
  {
    forall i :: 0 <= i < |c| ==> c[i].1 > 0.0
  }

  /** A composition over element symbols with positive amounts, as an object. */
  predicate PositiveSymbolComp(c: Comp)
  {
    Distinct(c) && SymbolKeys(c) && AllPositive(c)
  }

  /** The same composition keyed by atomic numbers. */
  function Renamed(c: Comp): (r: Comp)
    requires SymbolKeys(c)
    ensures |r| == |c|
  {
    seq(|c|, i requires 0 <= i < |c| => (AtomicKeyOf(c[i].0), c[i].1))
  }

  lemma AtomicKeyOfInjective(a: string, b: string)
    requires Elements.IsElement(a) && Elements.IsElement(b) && a != b
    ensures AtomicKeyOf(a) != AtomicKeyOf(b)
  {
    Elements.NumberOfInjective(a, b);
    AtomicKeyOfReads(a);
    AtomicKeyOfReads(b);
  }

  lemma RenamedCons(c: Comp)
    requires SymbolKeys(c) && |c| > 0
    ensures Renamed(c) == [(AtomicKeyOf(c[0].0), c[0].1)] + Renamed(c[1..])
  {
  }

  /** A fresh name with a positive amount is appended by `AddAmount`. */
  lemma AddFresh(acc: Comp, k: string, v: real)
    requires !Has(acc, k)
    ensures AddAmount(acc, k, v) == acc + [(k, v)]
  {
    PutFresh(acc, k, 0.0 + v);
  }

  /** The first step of converting a positive symbol composition to atomic numbers
      appends the first entry under its atomic number. */
  lemma ToAtomicHead(c: Comp, acc: Comp)
    requires PositiveSymbolComp(c) && |c| > 0
    requires !Has(acc, AtomicKeyOf(c[0].0))
    ensures ToAtomicFrom(c, acc)
      == ToAtomicFrom(c[1..], acc + [(AtomicKeyOf(c[0].0), c[0].1)])
  {
    AddFresh(acc, AtomicKeyOf(c[0].0), c[0].1);
  }

  lemma TailPositiveSymbolComp(c: Comp)
    requires PositiveSymbolComp(c) && |c| > 0
    ensures PositiveSymbolComp(c[1..])
  {
    assert forall i :: 0 <= i < |c| - 1 ==> c[1..][i] == c[i + 1];
  }

  /** Appending the first entry's atomic number keeps the later ones fresh. */
  lemma AtomicKeysStayFresh(c: Comp, acc: Comp)
    requires PositiveSymbolComp(c) && |c| > 0
    requires forall i :: 0 <= i < |c| ==> !Has(acc, AtomicKeyOf(c[i].0))
    ensures forall i :: 0 <= i < |c[1..]| ==>
      !Has(acc + [(AtomicKeyOf(c[0].0), c[0].1)], AtomicKeyOf(c[1..][i].0))
  {
    forall i | 0 <= i < |c[1..]|
      ensures !Has(acc + [(AtomicKeyOf(c[0].0), c[0].1)], AtomicKeyOf(c[1..][i].0))
    {
      assert c[1..][i] == c[i + 1];
      HasAppend(acc, AtomicKeyOf(c[0].0), c[0].1, AtomicKeyOf(c[i + 1].0));
      AtomicKeyOfInjective(c[0].0, c[i + 1].0);
    }
  }

  /** Appending the first entry keeps the later symbols fresh. */
  lemma SymbolsStayFresh(c: Comp, acc: Comp)
    requires PositiveSymbolComp(c) && |c| > 0
    requires forall i :: 0 <= i < |c| ==> !Has(acc, c[i].0)
    ensures forall i :: 0 <= i < |c[1..]| ==> !Has(acc + [c[0]], c[1..][i].0)
  {
    forall i | 0 <= i < |c[1..]| ensures !Has(acc + [c[0]], c[1..][i].0) {
      assert c[1..][i] == c[i + 1];
      HasAppend(acc, c[0].0, c[0].1, c[i + 1].0);
    }
  }

  /** Converting a positive symbol composition appends each entry under its
      atomic number. */
  lemma {:induction false} ToAtomicAppends(c: Comp, acc: Comp)
    requires PositiveSymbolComp(c)
    requires forall i :: 0 <= i < |c| ==> !Has(acc, AtomicKeyOf(c[i].0))
    ensures ToAtomicFrom(c, acc) == Ok(acc + Renamed(c))
  {
    if |c| > 0 {
      var acc' := acc + [(AtomicKeyOf(c[0].0), c[0].1)];
      ToAtomicHead(c, acc);
      TailPositiveSymbolComp(c);
      AtomicKeysStayFresh(c, acc);
      ToAtomicAppends(c[1..], acc');
      RenamedCons(c);
      ConcatAssoc(acc, [(AtomicKeyOf(c[0].0), c[0].1)], Renamed(c[1..]));
    } else {
      EmptySuffix(acc);
    }
  }

  /** `d` lists the amounts of `c` under property names that read as the atomic
      numbers of `c`'s symbols. */
  predicate KeysRead(d: Comp, c: Comp)
  {
    |d| == |c|
    && (|c| > 0 ==>
      d[0].1 == c[0].1 && AtomicKey(d[0].0)
      && Elements.SymbolOf(AtomicNumberOfKey(d[0].0).value) == c[0].0
      && KeysRead(d[1..], c[1..]))
  }

  lemma {:induction false} RenamedReads(c: Comp)
    requires SymbolKeys(c)
    ensures KeysRead(Renamed(c), c)
  {
    if |c| > 0 {
      AtomicKeyOfReads(c[0].0);
      Elements.NumberOfSpec(c[0].0);
      RenamedCons(c);
      assert SymbolKeys(c[1..]) by {
        assert forall i :: 0 <= i < |c| - 1 ==> c[1..][i] == c[i + 1];
      }
      RenamedReads(c[1..]);
      assert Renamed(c)[1..] == Renamed(c[1..]);
    }
  }

  /** The first step of converting back appends the first entry under its symbol. */
  lemma ToSymbolsHead(d: Comp, c: Comp, acc: Comp)
    requires KeysRead(d, c) && |c| > 0 && c[0].1 > 0.0 && !Has(acc, c[0].0)
    ensures ToSymbolsFrom(d, acc) == ToSymbolsFrom(d[1..], acc + [c[0]])
  {
    ToSymbolsNext(d, acc);
    AddFresh(acc, c[0].0, c[0].1);
  }

  /** Converting names that read as atomic numbers appends each entry under its
      symbol. */
  lemma {:induction false} ToSymbolsAppends(d: Comp, c: Comp, acc: Comp)
    requires PositiveSymbolComp(c) && KeysRead(d, c)
    requires forall i :: 0 <= i < |c| ==> !Has(acc, c[i].0)
    ensures ToSymbolsFrom(d, acc) == Ok(acc + c)
  {
    if |c| > 0 {
      var acc' := acc + [c[0]];
      assert ToSymbolsFrom(d, acc) == ToSymbolsFrom(d[1..], acc') by {
        ToSymbolsHead(d, c, acc);
      }
      assert ToSymbolsFrom(d[1..], acc') == Ok(acc' + c[1..]) by {
        TailPositiveSymbolComp(c);
        SymbolsStayFresh(c, acc);
        ToSymbolsAppends(d[1..], c[1..], acc');
      }
      AppendHead(acc, c);
    } else {
      EmptySuffix(acc);
    }
  }

  /** The two converters are inverse on positive symbol compositions: symbols to
      atomic numbers renames every key, and converting back restores the input. */
  lemma SymbolsAtomicRoundTrip(c: Comp)
    requires PositiveSymbolComp(c)
    ensures ConvertSymbolsToAtomicNumbers(c) == Ok(Renamed(c))
    ensures ConvertAtomicNumbersToSymbols(Renamed(c)) == Ok(c)
  {
    ToAtomicAppends(c, []);
    RenamedReads(c);
    ToSymbolsAppends(Renamed(c), c, []);
    EmptyPrefix(c);
    EmptyPrefix(Renamed(c));
  }

  /** A composition over symbols with positive amounts and distinct keys. */
  predicate Normalised(c: Comp)
  {
    Distinct(c) && AllPositive(c)
  }

  /** Adding a positive amount keeps amounts positive and names distinct. */
  lemma AddKeepsNormalised(o: Comp, s: string, v: real)
    requires Normalised(o) && v > 0.0
    ensures Normalised(AddAmount(o, s, v))
  {
    var old0 := Get(o, s).GetOr(0.0);
    assert old0 >= 0.0 by {
      if Has(o, s) { GetEntry(o, s); }
    }
    PutDistinct(o, s, old0 + v);
    PutEntries(o, s, old0 + v);
  }

  /** Adding under an element symbol keeps every name an element symbol. */
  lemma AddKeepsSymbols(o: Comp, s: string, v: real)
    requires SymbolKeys(o) && Elements.IsElement(s)
    ensures SymbolKeys(AddAmount(o, s, v))
  {
    var w := Get(o, s).GetOr(0.0) + v;
    var r := AddAmount(o, s, v);
    PutEntries(o, s, w);
    forall i | 0 <= i < |r| ensures Elements.IsElement(r[i].0) {
      if r[i] != (s, w) {
        var j :| 0 <= j < |o| && o[j] == r[i];
      }
    }
  }

  /** One step of the atomic-number conversion on a key that is an atomic number. */
  lemma ToSymbolsNext(c: Comp, acc: Comp)
    requires |c| > 0 && AtomicKey(c[0].0)
    ensures var n := AtomicNumberOfKey(c[0].0).value;
      ToSymbolsFrom(c, acc)
      == ToSymbolsFrom(c[1..], if c[0].1 > 0.0 then AddAmount(acc, Elements.SymbolOf(n), c[0].1) else acc)
  {
  }

  /** Converting atomic numbers keeps an accumulator of distinct symbols with positive
      amounts so. */
  lemma {:induction false} ToSymbolsShape(c: Comp, acc: Comp)
    requires Normalised(acc) && SymbolKeys(acc)
    requires AtomicKeys(c)
    ensures ToSymbolsFrom(c, acc).Ok?
    ensures Normalised(ToSymbolsFrom(c, acc).value) && SymbolKeys(ToSymbolsFrom(c, acc).value)
  {
    ToSymbolsOk(c, acc);
    if |c| > 0 {
      var n := AtomicNumberOfKey(c[0].0).value;
      var acc' := if c[0].1 > 0.0 then AddAmount(acc, Elements.SymbolOf(n), c[0].1) else acc;
      ToSymbolsNext(c, acc);
      if c[0].1 > 0.0 {
        Elements.SymbolInTable(n);
        AddKeepsNormalised(acc, Elements.SymbolOf(n), c[0].1);
        AddKeepsSymbols(acc, Elements.SymbolOf(n), c[0].1);
      }
      assert AtomicKeys(c[1..]) by {
        assert forall i :: 0 <= i < |c| - 1 ==> c[1..][i] == c[i + 1];
      }
      ToSymbolsShape(c[1..], acc');
    }
  }

  /** A table symbol never reads as a number. */
  lemma ShapedNotNumber(s: string)
    requires Elements.SymbolShaped(s)
    ensures ToNumber(s) == None && !AtomicKey(s)
  {
    LetterNotSpace(s[|s| - 1]);
    LetterLeadNotNumber(s);
  }

  lemma SymbolNotNumber(s: string)
    requires Elements.IsElement(s)
    ensures ToNumber(s) == None && !AtomicKey(s)
  {
    Elements.ElementShaped(s);
    ShapedNotNumber(s);
  }

  /** A non-empty object keyed by symbols is not an atomic-number composition. */
  lemma SymbolKeysNotAtomic(c: Comp)
    requires SymbolKeys(c)
    ensures !IsAtomicNumberComposition(c)
  {
    if |c| > 0 {
      SymbolNotNumber(c[0].0);
    }
  }

  /* ---------- normalize_composition ---------- */

  /** The entries with a positive amount, in order. */
  function KeepPositive(c: Comp): (r: Comp)
    ensures forall i :: 0 <= i < |r| ==> r[i].1 > 0.0 && r[i] in c
    ensures forall i :: 0 <= i < |c| && c[i].1 > 0.0 ==> c[i] in r
  {
    if |c| == 0 then []
    else
      var rest := KeepPositive(c[1..]);
      assert forall i :: 1 <= i < |c| ==> c[i] == c[1..][i - 1];
      if c[0].1 > 0.0 then [c[0]] + rest else rest
  }

  /** `normalize_composition`: an atomic-number composition is converted to symbols and
      normalised again; otherwise exactly the entries with a positive amount are kept. */
  function NormalizeComposition(c: Comp): (r: Comp)
    ensures AllPositive(r)
    ensures IsAtomicNumberComposition(c) ==> Normalised(r) && SymbolKeys(r)
    decreases if IsAtomicNumberComposition(c) then 1 else 0
  {
    if IsAtomicNumberComposition(c) then
      var s := ConvertAtomicNumbersToSymbols(c).value;
      ToSymbolsShape(c, []);
      SymbolKeysNotAtomic(s);
      KeepPositiveOfPositive(s);
      NormalizeComposition(s)
    else KeepPositive(c)
  }

  lemma {:induction false} KeepPositiveOfPositive(c: Comp)
    requires AllPositive(c)
    ensures KeepPositive(c) == c
  {
    if |c| > 0 {
      assert AllPositive(c[1..]) by {
        assert forall i :: 0 <= i < |c| - 1 ==> c[1..][i] == c[i + 1];
      }
      KeepPositiveOfPositive(c[1..]);
    }
  }

  /** Keeping the positive entries keeps names distinct. */
  lemma {:induction false} KeepPositiveDistinct(c: Comp)
    requires Distinct(c)
    ensures Distinct(KeepPositive(c))
  {
    if |c| > 0 {
      DistinctTail(c);
      KeepPositiveDistinct(c[1..]);
      var rest := KeepPositive(c[1..]);
      assert forall i :: 0 <= i < |rest| ==> rest[i] in c[1..];
    }
  }

  /** A name's amount after keeping the positive entries of an object. */
  lemma {:induction false} GetKeepPositive(c: Comp, e: string)
    requires Distinct(c)
    ensures Get(KeepPositive(c), e)
      == if Get(c, e).Some? && Get(c, e).value > 0.0 then Get(c, e) else None
  {
    if |c| > 0 {
      DistinctTail(c);
      GetKeepPositive(c[1..], e);
    }
  }

  /** Normalising twice changes nothing when the input's keys are all atomic numbers
      or none of them is. */
  lemma NormalizeIdempotent(c: Comp)
    requires IsAtomicNumberComposition(c) || forall i :: 0 <= i < |c| ==> !AtomicKey(c[i].0)
    ensures NormalizeComposition(NormalizeComposition(c)) == NormalizeComposition(c)
  {
    var r := NormalizeComposition(c);
    if IsAtomicNumberComposition(c) {
      SymbolKeysNotAtomic(r);
    } else {
      assert !IsAtomicNumberComposition(r) by {
        if |r| > 0 {
          assert r[0] in c;
        }
      }
    }
    KeepPositiveOfPositive(r);
  }

  lemma ReadsAs(s: string, n: nat)
    requires 1 <= n <= 118 && ToNumber(s) == Some(n as real)
    ensures AtomicNumberOfKey(s) == Some(n)
  {
  }

  /** The decimal name of an atomic number reads back as that number. */
  lemma KeyOfNumber(n: nat)
    requires 1 <= n <= 118
    ensures AtomicNumberOfKey(NatToString(n)) == Some(n)
  {
    NatToStringParses(n);
    ReadsAs(NatToString(n), n);
  }

  /** A table symbol is an element and never an atomic-number key. */
  lemma SymbolOfNotKey(n: nat)
    requires 1 <= n <= 118
    ensures Elements.IsElement(Elements.SymbolOf(n)) && !AtomicKey(Elements.SymbolOf(n))
  {
    Elements.SymbolInTable(n);
    SymbolNotNumber(Elements.SymbolOf(n));
  }

  /** A non-atomic composition of symbols with positive amounts normalises to itself. */
  lemma NormalizeKeeps(c: Comp)
    requires |c| > 0 && !AtomicKey(c[0].0) && AllPositive(c)
    ensures NormalizeComposition(c) == c
  {
    KeepPositiveOfPositive(c);
  }

  lemma KeepPositivePair(x: (string, real), y: (string, real))
    requires x.1 > 0.0 && y.1 <= 0.0
    ensures KeepPositive([x, y]) == [x]
  {
    assert [x, y][0] == x && [x, y][1..] == [y];
    assert [y][0] == y && [y][1..] == [];
    assert KeepPositive([y]) == KeepPositive([]) == [];
  }

  lemma MixedFirstPass(n: nat, v: real)
    requires 1 <= n <= 118 && v > 0.0
    ensures NormalizeComposition([(NatToString(n), v), (Elements.SymbolOf(n), 0.0)])
      == [(NatToString(n), v)]
  {
    var c: Comp := [(NatToString(n), v), (Elements.SymbolOf(n), 0.0)];
    SymbolOfNotKey(n);
    assert !AtomicKeys(c) by { assert !AtomicKey(c[1].0); }
    KeepPositivePair(c[0], c[1]);
  }

  /** An atomic-number composition normalises to exactly its conversion to symbols. */
  lemma NormalizeAtomic(c: Comp)
    requires IsAtomicNumberComposition(c)
    ensures NormalizeComposition(c) == ConvertAtomicNumbersToSymbols(c).value
  {
    var s := ConvertAtomicNumbersToSymbols(c).value;
    ToSymbolsShape(c, []);
    SymbolKeysNotAtomic(s);
    KeepPositiveOfPositive(s);
  }

  /** One atomic-number entry converts to its symbol. */
  lemma ConvertOne(n: nat, v: real)
    requires 1 <= n <= 118 && v > 0.0
    ensures ConvertAtomicNumbersToSymbols([(NatToString(n), v)]) == Ok([(Elements.SymbolOf(n), v)])
  {
    var d: Comp := [(NatToString(n), v)];
    KeyOfNumber(n);
    ToSymbolsNext(d, []);
    AddFresh([], Elements.SymbolOf(n), v);
    assert d[1..] == [];
  }

  lemma MixedSecondPass(n: nat, v: real)
    requires 1 <= n <= 118 && v > 0.0
    ensures NormalizeComposition([(NatToString(n), v)]) == [(Elements.SymbolOf(n), v)]
  {
    var d: Comp := [(NatToString(n), v)];
    assert IsAtomicNumberComposition(d) by {
      KeyOfNumber(n);
      assert AtomicKey(d[0].0);
    }
    ConvertOne(n, v);
    NormalizeAtomic(d);
  }

  /** Mixed keys break idempotence: an atomic number's name with a positive amount
      next to its own symbol with amount 0 — `{"26": 2, Fe: 0}` for iron — normalises
      to the lone atomic-number entry `{"26": 2}`, which is an atomic-number
      composition and normalises further to `{Fe: 2}`. */
  lemma NormalizeNotIdempotent(n: nat, v: real)
    requires 1 <= n <= 118 && v > 0.0
    ensures var c: Comp := [(NatToString(n), v), (Elements.SymbolOf(n), 0.0)];
      NormalizeComposition(c) == [(NatToString(n), v)]
      && NormalizeComposition(NormalizeComposition(c)) == [(Elements.SymbolOf(n), v)]
      && NormalizeComposition(NormalizeComposition(c)) != NormalizeComposition(c)
  {
    MixedFirstPass(n, v);
    MixedSecondPass(n, v);
    SymbolOfNotKey(n);
    KeyOfNumber(n);
  }

  /* ---------- totals and percentages ---------- */

  /** `get_total_atoms`: the sum of the amounts (`count || 0` adds 0 for 0). */
  function TotalAtoms(c: Comp): real
  {
    if |c| == 0 then 0.0 else c[0].1 + TotalAtoms(c[1..])
  }

  predicate NonNegative(c: Comp)
  {
    forall i :: 0 <= i < |c| ==> c[i].1 >= 0.0
  }

  /** `is_empty_composition` */
  predicate IsEmptyComposition(c: Comp)
  {
    TotalAtoms(c) == 0.0
  }

  /** With no negative amounts the total is zero exactly when every amount is. */
  lemma {:induction false} TotalZeroIff(c: Comp)
    requires NonNegative(c)
    ensures TotalAtoms(c) >= 0.0
    ensures TotalAtoms(c) == 0.0 <==> forall i :: 0 <= i < |c| ==> c[i].1 == 0.0
  {
    if |c| > 0 {
      assert forall i :: 0 <= i < |c| - 1 ==> c[1..][i] == c[i + 1];
      TotalZeroIff(c[1..]);
    }
  }

  /** A normalised composition is empty exactly when it has no entries. */
  lemma EmptyIffNoEntries(c: Comp)
    requires AllPositive(c)
    ensures IsEmptyComposition(c) <==> |c| == 0
  {
    TotalZeroIff(c);
    if |c| > 0 {
      assert c[0].1 > 0.0;
    }
  }

  /** Each amount as a percentage of `total`. */
  function ScaleAll(c: Comp, total: real): (r: Comp)
    requires total != 0.0
    ensures |r| == |c|
  {
    if |c| == 0 then [] else [(c[0].0, c[0].1 / total * 100.0)] + ScaleAll(c[1..], total)
  }

  /** The `i`-th percentage has the `i`-th name and is its amount times 100 over the
      total. */
  lemma {:induction false} ScaleAllAt(c: Comp, total: real, i: nat)
    requires total != 0.0 && i < |c|
    ensures |ScaleAll(c, total)| == |c|
    ensures ScaleAll(c, total)[i] == (c[i].0, c[i].1 * 100.0 / total)
  {
    if i > 0 {
      ScaleAllAt(c[1..], total, i - 1);
    } else {
      PercentOf(c[0].1, total);
    }
  }

  lemma PercentOf(a: real, total: real)
    requires total != 0.0
    ensures a / total * 100.0 == a * 100.0 / total
    ensures total / total * 100.0 == 100.0
  {
    var q := a / total;
    assert q * total == a;
  }

  /** Percentages keep the names in order and relate each value to its amount. */
  lemma ScaleAllEntries(c: Comp, total: real)
    requires total != 0.0
    ensures Keys(ScaleAll(c, total)) == Keys(c)
    ensures forall i :: 0 <= i < |c| ==> ScaleAll(c, total)[i].1 == c[i].1 * 100.0 / total
  {
    var r := ScaleAll(c, total);
    if |c| > 0 {
      ScaleAllAt(c, total, 0);
    }
    forall i | 0 <= i < |c| ensures r[i] == (c[i].0, c[i].1 * 100.0 / total) {
      ScaleAllAt(c, total, i);
    }
  }

  /** The percentages add up to the total scaled to 100. */
  lemma {:induction false} ScaleAllSum(c: Comp, total: real)
    requires total != 0.0
    ensures TotalAtoms(ScaleAll(c, total)) == TotalAtoms(c) / total * 100.0
  {
    if |c| > 0 {
      ScaleAllSum(c[1..], total);
    }
  }

  /** `composition_to_percentages`: weight-based percentages are unsupported; a
      composition with total 0 gives `{}`; otherwise every amount becomes its
      percentage of the total, and the percentages sum to 100. */
  function CompositionToPercentages(c: Comp, byWeight: bool): (r: Result<Comp>)
    ensures r.Err? <==> byWeight
    ensures !byWeight && TotalAtoms(c) == 0.0 ==> r == Ok([])
    ensures r.Ok? && TotalAtoms(c) != 0.0 ==>
      Keys(r.value) == Keys(c) && TotalAtoms(r.value) == 100.0
      && forall i :: 0 <= i < |c| ==> r.value[i].1 == c[i].1 * 100.0 / TotalAtoms(c)
  {
    if byWeight then Err("Weight-based percentages not yet implemented")
    else
      var total := TotalAtoms(c);
      if total == 0.0 then Ok([])
      else
        ScaleAllEntries(c, total);
        ScaleAllSum(c, total);
        PercentOf(total, total);
        Ok(ScaleAll(c, total))
  }

  /* ---------- parse_composition_input ---------- */

  /** The two kinds of input: formula text, or an object keyed by symbols or atomic
      numbers. */
  datatype CompositionInput = FormulaText(formula: string) | CompositionObject(amounts: Comp)

  /** `parse_composition_input`: text is parsed as a formula, then normalised. */
  function ParseCompositionInput(input: CompositionInput): (r: Result<Comp>)
    ensures input.CompositionObject? ==> r.Ok? && AllPositive(r.value)
  {
    match input
    case FormulaText(f) =>
      (match ParseFormula(f)
       case Ok(c) => Ok(NormalizeComposition(c))
       case Err(e) => Err(e))
    case CompositionObject(c) => Ok(NormalizeComposition(c))
  }

  /** Accumulating element tokens keeps names distinct element symbols. */
  lemma {:induction false} AccumulateShape(ts: seq<Token>, acc: Comp)
    requires AllWellFormed(ts) && Distinct(acc) && SymbolKeys(acc)
    requires Accumulate(ts, acc).Ok?
    ensures Distinct(Accumulate(ts, acc).value) && SymbolKeys(Accumulate(ts, acc).value)
  {
    if |ts| > 0 {
      var t := ts[0];
      PutDistinct(acc, t.element, Get(acc, t.element).GetOr(0.0) + Count(t) as real);
      AddKeepsSymbols(acc, t.element, Count(t) as real);
      AccumulateShape(ts[1..], AddCount(acc, t));
    }
  }

  /** A formula given as text yields, for each element, the sum of its token counts
      when that sum is positive and nothing otherwise; it fails exactly when a token is
      not an element symbol. */
  lemma ParseInputCounts(formula: string, e: string)
    ensures var ts := ScanTokens(ExpandParentheses(RemoveSpaces(formula)));
      var r := ParseCompositionInput(FormulaText(formula));
      (r.Ok? <==> AllElements(ts))
      && (r.Ok? ==> Get(r.value, e) == if TokenSum(ts, e) > 0 then Some(TokenSum(ts, e) as real) else None)
  {
    var ts := ScanTokens(ExpandParentheses(RemoveSpaces(formula)));
    ParseFormulaCounts(formula, e);
    if AllElements(ts) {
      var c := ParseFormula(formula).value;
      AccumulateShape(ts, []);
      SymbolKeysNotAtomic(c);
      GetKeepPositive(c, e);
      if !Mentions(ts, e) {
        MentionsSum(ts, e);
      }
    }
  }

  /** An element no token mentions gets a count of 0. */
  lemma {:induction false} MentionsSum(ts: seq<Token>, e: string)
    requires AllWellFormed(ts) && !Mentions(ts, e)
    ensures TokenSum(ts, e) == 0
  {
    if |ts| > 0 {
      MentionsTail(ts, e);
      MentionsSum(ts[1..], e);
    }
  }

  /* ---------- format_composition_formula ---------- */

  /** One entry of the formula: nothing unless the amount is positive; the bare symbol
      for amount 1; otherwise `El<sub>amount</sub>`. */
  function FormulaPiece(c: Comp, el: string, fraction: real -> string): (r: Option<string>)
    ensures r.Some? <==> Get(c, el).Some? && Get(c, el).value > 0.0
    ensures r.Some? ==> StartsWith(r.value, el) && (r.value == el <==> Get(c, el).value == 1.0)
    ensures r.Some? && Get(c, el).value != 1.0 ==>
              r.value == el + "<sub>" + NumberString(Get(c, el).value, fraction) + "</sub>"
  {
    match Get(c, el)
    case Some(v) =>
      if v > 0.0 then
        Some(if v == 1.0 then el else el + "<sub>" + NumberString(v, fraction) + "</sub>")
      else None
    case None => None
  }

  /** The pieces for the symbols in the given order. */
  function Pieces(c: Comp, els: seq<string>, fraction: real -> string): seq<string>
  {
    if |els| == 0 then []
    else
      match FormulaPiece(c, els[0], fraction)
      case Some(p) => [p] + Pieces(c, els[1..], fraction)
      case None => Pieces(c, els[1..], fraction)
  }

  /** The symbols whose amount is positive, in the given order. */
  function Shown(c: Comp, els: seq<string>): seq<string>
  {
    if |els| == 0 then []
    else if Get(c, els[0]).Some? && Get(c, els[0]).value > 0.0 then [els[0]] + Shown(c, els[1..])
    else Shown(c, els[1..])
  }

  /** `format_composition_formula`: the pieces of the symbols in `sort_fn` order, joined
      by single spaces. */
  function FormatCompositionFormula(c: Comp, sortFn: seq<string> -> seq<string>,
                                    fraction: real -> string): string
  {
    Join(Pieces(c, sortFn(Keys(c)), fraction), " ")
  }

  /** There is one piece per shown symbol, in order, each the piece of that symbol. */
  lemma {:induction false} PiecesAlign(c: Comp, els: seq<string>, fraction: real -> string)
    ensures |Pieces(c, els, fraction)| == |Shown(c, els)|
    ensures forall i :: 0 <= i < |Shown(c, els)| ==>
      FormulaPiece(c, Shown(c, els)[i], fraction) == Some(Pieces(c, els, fraction)[i])
  {
    if |els| > 0 {
      PiecesAlign(c, els[1..], fraction);
    }
  }

  predicate WholeAmounts(c: Comp)
  {
    forall i :: 0 <= i < |c| ==> IsInteger(c[i].1)
  }

  lemma ShapedNoSpace(el: string)
    requires Elements.SymbolShaped(el)
    ensures ' ' !in el
  {
  }

  lemma DigitsNoSpace(d: string)
    requires AllDigits(d)
    ensures ' ' !in d
  {
  }

  lemma SubscriptNoSpace(el: string, d: string)
    requires ' ' !in el && ' ' !in d
    ensures ' ' !in el + "<sub>" + d + "</sub>"
  {
  }

  /** A symbol piece with a whole amount has no space in it. */
  lemma PieceNoSpace(c: Comp, el: string, fraction: real -> string)
    requires SymbolKeys(c) && WholeAmounts(c)
    requires FormulaPiece(c, el, fraction).Some?
    ensures ' ' !in FormulaPiece(c, el, fraction).value
  {
    GetEntry(c, el);
    var v := Get(c, el).value;
    var i :| 0 <= i < |c| && c[i] == (el, v);
    assert Elements.IsElement(el) && IsInteger(v) && v > 0.0;
    Elements.ElementShaped(el);
    ShapedNoSpace(el);
    NumberStringParses(v, fraction);
    DigitsNoSpace(NumberString(v, fraction));
    SubscriptNoSpace(el, NumberString(v, fraction));
  }

  /** For symbols with whole amounts, the formula splits at single spaces back into
      exactly its pieces, one per shown symbol in `sort_fn` order. */
  lemma FormulaSplitsIntoPieces(c: Comp, sortFn: seq<string> -> seq<string>, fraction: real -> string)
    requires SymbolKeys(c) && WholeAmounts(c)
    requires |Shown(c, sortFn(Keys(c)))| >= 1
    ensures var ps := Pieces(c, sortFn(Keys(c)), fraction);
      Split(FormatCompositionFormula(c, sortFn, fraction), ' ') == ps
      && |ps| == |Shown(c, sortFn(Keys(c)))|
  {
    var els := sortFn(Keys(c));
    var ps := Pieces(c, els, fraction);
    PiecesAlign(c, els, fraction);
    forall k | 0 <= k < |ps| ensures ' ' !in ps[k] {
      PieceNoSpace(c, Shown(c, els)[k], fraction);
    }
    SplitJoin(ps, ' ');
  }
}

=== FILE: coords.dfy ===
/** Reading coordinates from text, shared by the structure parsers: scientific
    notation variants (`1.0D-3`, `1.0*^-3`) are normalised to `e` before `parseFloat`,
    and a line whose numbers run together (`1.0-2.0-3.0`) is split at its minus signs. */
module CoordText {
  import opened Wrappers
  import opened Seqs
  import opened Text
  import opened Numbers

  /** `normalize_scientific_notation`: lower-case, then every `d` and every `*^`
      becomes `e`. */
  function NormalizeScientific(s: string): (r: string)
    ensures 'd' !in r && 'D' !in r
  {
    var lower := ToLower(s);
    var noD := ReplaceAll(lower, "d", "e");
    ReplaceAllRemovesChar(lower, 'd', "e");
    assert 'D' !in lower by {
      assert forall i :: 0 <= i < |lower| ==> lower[i] == LowerChar(s[i]);
    }
    ReplaceAllKeeps(lower, "d", "e", 'D');
    var r := ReplaceAll(noD, "*^", "e");
    ReplaceAllKeeps(noD, "*^", "e", 'd');
    ReplaceAllKeeps(noD, "*^", "e", 'D');
    r
  }

  /** Replacing a pattern by text free of `c` adds no `c`. */
  lemma {:induction false} ReplaceAllKeeps(s: string, pat: string, rep: string, c: char)
    requires |pat| > 0 && c !in s && c !in rep
    ensures c !in ReplaceAll(s, pat, rep)
    decreases |s|
  {
    if |s| > 0 {
      if StartsWith(s, pat) {
        ReplaceAllKeeps(s[|pat|..], pat, rep, c);
      } else {
        ReplaceAllKeeps(s[1..], pat, rep, c);
      }
    }
  }

  /** A string with no upper-case letter, no `d` and no `*` is already normal. */
  lemma {:induction false} NormalizeFixes(s: string)
    requires forall i :: 0 <= i < |s| ==> !IsUpper(s[i]) && s[i] != 'd' && s[i] != '*'
    ensures NormalizeScientific(s) == s
  {
    var lower := ToLower(s);
    assert lower == s;
    ReplaceAllAbsent(s, "d", "e");
    ReplaceAllAbsent(s, "*^", "e");
  }

  /** Replacing a pattern whose first character does not occur changes nothing. */
  lemma {:induction false} ReplaceAllAbsent(s: string, pat: string, rep: string)
    requires |pat| > 0 && pat[0] !in s
    ensures ReplaceAll(s, pat, rep) == s
    decreases |s|
  {
    if |s| > 0 {
      assert s[0] != pat[0];
      ReplaceAllAbsent(s[1..], pat, rep);
      assert [s[0]] + s[1..] == s;
    }
  }

  /** `parse_coordinate`: the trimmed, normalised text read by `parseFloat`; NaN
      throws `Invalid coordinate value`. */
  function ParseCoordinate(s: string): (r: Result<real>)
  {
    match ParseFloat(NormalizeScientific(Trim(s)))
    case None => Err("Invalid coordinate value: " + s)
    case Some(v) => Ok(v)
  }

  /** A rendered natural number reads back as a coordinate. */
  lemma ParseCoordinateNatural(n: nat)
    ensures ParseCoordinate(NatToString(n)) == Ok(n as real)
  {
    var s := NatToString(n);
    DigitsUntrimmed(s);
    NormalizeFixes(s);
    NatToStringParses(n);
  }

  /** `tokens.map(parse_coordinate)`: every token read as a coordinate, failing at
      the first that is not a number. */
  function ParseCoordinates(tokens: seq<string>): (r: Result<seq<real>>)
    ensures r.Ok? ==> |r.value| == |tokens|
  {
    MapResult(ParseCoordinate, tokens)
  }

  /** Element `k` of the coordinates is token `k` read as one, and they are read
      exactly when every token is a coordinate. */
  lemma ParseCoordinatesAt(tokens: seq<string>, k: nat)
    requires k < |tokens|
    ensures ParseCoordinates(tokens).Ok? <==> forall j :: 0 <= j < |tokens| ==> ParseCoordinate(tokens[j]).Ok?
    ensures ParseCoordinates(tokens).Ok? ==> ParseCoordinate(tokens[k]) == Ok(ParseCoordinates(tokens).value[k])
  {
    MapResultOk(ParseCoordinate, tokens);
    if ParseCoordinates(tokens).Ok? {
      MapResultAt(ParseCoordinate, tokens, k);
    }
  }

  /* ---------- minus-sign splitting ---------- */

  /** Position `i` of `t` is a minus sign the pattern `(?<!^|[eE])-` splits at: not
      the first character and not after an exponent marker. */
  predicate CutAt(t: string, i: int)
  {
    0 < i < |t| && t[i] == '-' && t[i - 1] != 'e' && t[i - 1] != 'E'
  }

  /** `t[start..].split(/(?<!^|[eE])-/)` with the scan at position `i`: the pieces
      between the cut positions at or after `i`. */
  function CutPieces(t: string, start: nat, i: nat): (r: seq<string>)
    requires start <= i <= |t|
    ensures |r| >= 1
    decreases |t| - i
  {
    if i == |t| then [t[start..]]
    else if CutAt(t, i) then [t[start..i]] + CutPieces(t, i + 1, i + 1)
    else CutPieces(t, start, i + 1)
  }

  /** The pieces of a token, split at its cut positions. */
  function MinusPieces(t: string): (r: seq<string>)
    ensures |r| >= 1
  {
    if |t| == 0 then [""] else CutPieces(t, 0, 1)
  }

  /** Joining the pieces with `-` gives the text back. */
  lemma {:induction false} CutPiecesJoin(t: string, start: nat, i: nat)
    requires start <= i <= |t|
    ensures Join(CutPieces(t, start, i), "-") == t[start..]
    decreases |t| - i
  {
    if i < |t| {
      if CutAt(t, i) {
        CutPiecesJoin(t, i + 1, i + 1);
        JoinCons(t[start..i], CutPieces(t, i + 1, i + 1), "-");
        assert t[start..] == t[start..i] + "-" + t[i + 1..];
      } else {
        CutPiecesJoin(t, start, i + 1);
      }
    }
  }

  /** The split is lossless: the pieces joined with `-` are the token. */
  lemma MinusPiecesJoin(t: string)
    ensures Join(MinusPieces(t), "-") == t
  {
    if |t| > 0 {
      CutPiecesJoin(t, 0, 1);
    }
  }

  function NonEmpty(ps: seq<string>): (r: seq<string>)
    ensures |r| <= |ps|
    ensures forall k :: 0 <= k < |r| ==> |r[k]| > 0
  {
    if |ps| == 0 then []
    else if |ps[0]| > 0 then [ps[0]] + NonEmpty(ps[1..])
    else NonEmpty(ps[1..])
  }

  /** The new tokens for one token: its non-empty pieces, all but the first given
      their minus sign back; a token that does not split stays as it is. */
  function Resplit(token: string): (r: seq<string>)
    ensures |r| >= 1
  {
    var parts := NonEmpty(MinusPieces(token));
    if |parts| > 1 then [parts[0]] + Dashed(parts[1..]) else [token]
  }

  /** Each piece with its minus sign put back. */
  function Dashed(ps: seq<string>): (r: seq<string>)
    ensures |r| == |ps|
    ensures forall k :: 0 <= k < |ps| ==> r[k] == "-" + ps[k]
  {
    if |ps| == 0 then [] else ["-" + ps[0]] + Dashed(ps[1..])
  }

  /** Concatenating a piece and the dashed pieces after it is joining them with `-`. */
  lemma {:induction false} DashedJoin(x: string, rest: seq<string>)
    ensures Join([x] + Dashed(rest), "") == Join([x] + rest, "-")
    decreases |rest|
  {
    if |rest| > 0 {
      var y, tail := rest[0], rest[1..];
      var d := Dashed(rest);
      DashedJoin("-" + y, tail);
      assert d == ["-" + y] + Dashed(tail);
      assert rest == [y] + tail;
      var jd := Join(d, "");
      var jr := Join(rest, "-");
      assert jd == Join(["-" + y] + tail, "-");
      JoinCons(x, d, "");
      JoinCons(x, rest, "-");
      if |tail| > 0 {
        JoinCons("-" + y, tail, "-");
        JoinCons(y, tail, "-");
        assert jd == "-" + y + "-" + Join(tail, "-");
        assert jr == y + "-" + Join(tail, "-");
      } else {
        assert ["-" + y] + tail == ["-" + y];
        assert rest == [y];
      }
    }
  }

  /** When every piece is non-empty, re-splitting a token loses no character: the new
      tokens put together are the token, `1.0-2.0-3.0` becoming `1.0`, `-2.0`, `-3.0`. */
  lemma ResplitLossless(token: string)
    requires forall k :: 0 <= k < |MinusPieces(token)| ==> |MinusPieces(token)[k]| > 0
    ensures Join(Resplit(token), "") == token
  {
    var ps := MinusPieces(token);
    NonEmptyKeepsAll(ps);
    MinusPiecesJoin(token);
    if |ps| > 1 {
      DashedJoin(ps[0], ps[1..]);
      assert [ps[0]] + ps[1..] == ps;
    }
  }

  lemma {:induction false} NonEmptyKeepsAll(ps: seq<string>)
    requires forall k :: 0 <= k < |ps| ==> |ps[k]| > 0
    ensures NonEmpty(ps) == ps
  {
    if |ps| > 0 {
      NonEmptyKeepsAll(ps[1..]);
      assert [ps[0]] + ps[1..] == ps;
    }
  }

  function ResplitAll(tokens: seq<string>): (r: seq<string>)
    ensures |r| >= |tokens|
  {
    if |tokens| == 0 then [] else Resplit(tokens[0]) + ResplitAll(tokens[1..])
  }

  /** The tokens `parse_coordinate_line` reads: the whitespace tokens when there are at
      least three, otherwise those tokens re-split at their minus signs. */
  function CoordinateTokens(line: string): (r: seq<string>)
    ensures |Tokens(line)| >= 3 ==> r == Tokens(line)
    ensures |r| >= |Tokens(line)|
  {
    var tokens := Tokens(line);
    if |tokens| < 3 then ResplitAll(tokens) else tokens
  }

  /** `tokens.slice(0, 3).map(parse_coordinate)`. */
  function FirstThree(tokens: seq<string>): (r: Result<seq<real>>)
    requires |tokens| >= 3
    ensures r.Ok? <==> ParseCoordinate(tokens[0]).Ok? && ParseCoordinate(tokens[1]).Ok? && ParseCoordinate(tokens[2]).Ok?
    ensures r.Ok? ==> (|r.value| == 3 && ParseCoordinate(tokens[0]) == Ok(r.value[0]) &&
      ParseCoordinate(tokens[1]) == Ok(r.value[1]) && ParseCoordinate(tokens[2]) == Ok(r.value[2]))
  {
    var x :- ParseCoordinate(tokens[0]);
    var y :- ParseCoordinate(tokens[1]);
    var z :- ParseCoordinate(tokens[2]);
    Ok([x, y, z])
  }

  /** `parse_coordinate_line`: the first three coordinate tokens read as numbers;
      fewer than three throws `Insufficient coordinates`. */
  function ParseCoordinateLine(line: string): (r: Result<seq<real>>)
    ensures r.Ok? ==> |r.value| == 3
    ensures |CoordinateTokens(line)| < 3 ==> r.Err?
  {
    var tokens := CoordinateTokens(line);
    if |tokens| < 3 then Err("Insufficient coordinates in line: " + line)
    else FirstThree(tokens)
  }
}

=== FILE: crystal.dfy ===
/** The structure records shared by the parsers, exporters and geometry helpers:
    species with occupancies, sites with fractional (`abc`) and Cartesian (`xyz`)
    coordinates, and an optional lattice whose rows are the cell vectors. Coordinates
    are JavaScript arrays, so their length is not fixed by the type. */
module Crystal {
  import opened Wrappers
  import opened VecMath

  datatype Species = Species(element: string, occu: real, oxidation: real)

  /** `properties.selective_dynamics` of a POSCAR site, when present. */
  type Flags = (bool, bool, bool)

  datatype Site = Site(species: seq<Species>, abc: Vec, xyz: Vec, labelText: string, selective: Option<Flags>)

  /** The derived cell parameters that accompany a lattice matrix. */
  datatype LatticeParams = LatticeParams(a: real, b: real, c: real, alpha: real, beta: real, gamma: real, volume: real)

  datatype Lattice = Lattice(matrix: Mat3, params: LatticeParams)

  /** `ParsedStructure`: the sites and, for periodic inputs, the lattice. */
  datatype Structure = Structure(sites: seq<Site>, lattice: Option<Lattice>)

  /** A site holding one fully occupied species with oxidation state 0, as every
      text parser produces. */
  function PlainSite(element: string, abc: Vec, xyz: Vec, labelText: string, selective: Option<Flags>): (s: Site)
    ensures |s.species| == 1 && s.species[0].element == element && s.species[0].occu == 1.0
  {
    Site([Species(element, 1.0, 0.0)], abc, xyz, labelText, selective)
  }

  /** The numerical routines the parsers call but which this model does not define:
      `Math.pow(x / volume, 1/3)` for a negative POSCAR scale, `calc_lattice_params`,
      and `cell_to_lattice_matrix` from cell lengths and angles. */
  datatype NumericOps = NumericOps(
    volumeScale: (real, real) -> real,
    latticeParams: Mat3 -> LatticeParams,
    cellMatrix: (real, real, real, real, real, real) -> Mat3)

  function MakeLattice(ops: NumericOps, m: Mat3): (l: Lattice)
    ensures l.matrix == m
  {
    Lattice(m, ops.latticeParams(m))
  }

  /** A quotient the way the parsers' singular-lattice fall-back computes it, with
      the non-finite result of a division by zero replaced by 0. */
  function Quot(x: real, y: real): real
  {
    if y == 0.0 then 0.0 else x / y
  }
}

=== FILE: dataurl.dfy ===
/** Binary trajectory payloads travel as data URLs. `btoa` writes the bytes in the
    padded base64 of section 4 of RFC 4648, behind the fixed prefix
    `data:application/octet-stream;base64,`. `atob` reads them back with the
    forgiving-base64 decode of the WHATWG Infra Standard. */
module DataUrl {
  import opened Wrappers
  import opened Seqs
  import opened Text

  type Byte = x: int | 0 <= x < 256
  type Sextet = x: int | 0 <= x < 64

  /* ---------- the alphabet (RFC 4648, Table 1) ---------- */

  function CharOf(v: Sextet): char
  {
    if v < 26 then (65 + v) as char
    else if v < 52 then (97 + v - 26) as char
    else if v < 62 then (48 + v - 52) as char
    else if v == 62 then '+'
    else '/'
  }

  /** The value of an alphabet character; `None` for every other character. */
  function ValueOf(c: char): (r: Option<Sextet>)
  {
    if 'A' <= c <= 'Z' then Some(c as int - 65)
    else if 'a' <= c <= 'z' then Some(c as int - 97 + 26)
    else if '0' <= c <= '9' then Some(c as int - 48 + 52)
    else if c == '+' then Some(62)
    else if c == '/' then Some(63)
    else None
  }

  /** The alphabet is a bijection between 0..63 and its 64 characters. */
  lemma ValueOfCharOf(v: Sextet)
    ensures ValueOf(CharOf(v)) == Some(v)
  {
  }

  lemma CharOfValueOf(c: char)
    requires ValueOf(c).Some?
    ensures CharOf(ValueOf(c).value) == c
  {
  }

  /* ---------- encoding ---------- */

  /** The six-bit groups of the bytes, most significant first. A final group of one
      or two bytes is padded with zero bits to two or three sextets. */
  function Sextets(bs: seq<Byte>): (r: seq<Sextet>)
    decreases |bs|
  {
    if |bs| == 0 then []
    else if |bs| == 1 then [bs[0] / 4, bs[0] % 4 * 16]
    else if |bs| == 2 then [bs[0] / 4, bs[0] % 4 * 16 + bs[1] / 16, bs[1] % 16 * 4]
    else [bs[0] / 4, bs[0] % 4 * 16 + bs[1] / 16, bs[1] % 16 * 4 + bs[2] / 64, bs[2] % 64]
         + Sextets(bs[3..])
  }

  function Spell(vs: seq<Sextet>): (r: string)
  {
    if |vs| == 0 then "" else [CharOf(vs[0])] + Spell(vs[1..])
  }

  /** The `=` characters that complete the last quantum. */
  function Padding(n: nat): string
  {
    if n % 3 == 1 then "==" else if n % 3 == 2 then "=" else ""
  }

  /** `btoa(String.fromCharCode(...bytes))`. */
  function Encode(bs: seq<Byte>): string
  {
    Spell(Sextets(bs)) + Padding(|bs|)
  }

  /* ---------- forgiving-base64 decoding ---------- */

  /** ASCII whitespace as the Infra Standard defines it: tab, line feed, form feed,
      carriage return and space. */
  predicate AsciiWhitespace(c: char)
  {
    c == '\t' || c == '\n' || c as int == 12 || c == '\r' || c == ' '
  }

  function StripWhitespace(s: string): (r: string)
  {
    if |s| == 0 then ""
    else if AsciiWhitespace(s[0]) then StripWhitespace(s[1..])
    else [s[0]] + StripWhitespace(s[1..])
  }

  /** When the length is a multiple of 4, one or two trailing `=` are dropped. */
  function Unpad(s: string): string
  {
    if |s| % 4 == 0 && |s| >= 2 && s[|s| - 1] == '=' && s[|s| - 2] == '=' then s[..|s| - 2]
    else if |s| % 4 == 0 && |s| >= 1 && s[|s| - 1] == '=' then s[..|s| - 1]
    else s
  }

  function Values(s: string): (r: Option<seq<Sextet>>)
    ensures r.Some? ==> |r.value| == |s|
  {
    if |s| == 0 then Some([])
    else match ValueOf(s[0])
      case None => None
      case Some(v) =>
        match Values(s[1..])
        case None => None
        case Some(rest) => Some([v] + rest)
  }

  /** Reassembles bytes from sextets. A final 12-bit remainder loses its last 4 bits
      and gives one byte; an 18-bit remainder loses 2 bits and gives two. */
  function Bytes(vs: seq<Sextet>): (r: seq<Byte>)
    requires |vs| % 4 != 1
    decreases |vs|
  {
    if |vs| == 0 then []
    else
      var v0, v1: int := vs[0], vs[1];
      if |vs| == 2 then [v0 * 4 + v1 / 16]
      else
        var v2: int := vs[2];
        if |vs| == 3 then [v0 * 4 + v1 / 16, v1 % 16 * 16 + v2 / 4]
        else
          var v3: int := vs[3];
          [v0 * 4 + v1 / 16, v1 % 16 * 16 + v2 / 4, v2 % 4 * 64 + v3] + Bytes(vs[4..])
  }

  /** `atob`: `InvalidCharacterError` for a length of 1 modulo 4 after unpadding, or
      for any character outside the alphabet. */
  function Decode(s: string): (r: Result<seq<Byte>>)
  {
    var d := Unpad(StripWhitespace(s));
    if |d| % 4 == 1 then Err("InvalidCharacterError")
    else match Values(d)
      case None => Err("InvalidCharacterError")
      case Some(vs) => Ok(Bytes(vs))
  }

  /* ---------- data URLs ---------- */

  const Prefix := "data:application/octet-stream;base64,"

  /** `array_buffer_to_data_url`. */
  function ToDataUrl(bs: seq<Byte>): (url: string)
    ensures StartsWith(url, Prefix)
  {
    Prefix + Encode(bs)
  }

  /** The position of the first occurrence of `p` in `s` at or after `i`. */
  function FirstOccurrence(s: string, p: string, i: nat): (r: Option<nat>)
    ensures r.Some? ==> i <= r.value && r.value + |p| <= |s| && s[r.value..r.value + |p|] == p
    decreases |s| - i
  {
    if i + |p| > |s| then None
    else if s[i..i + |p|] == p then Some(i)
    else FirstOccurrence(s, p, i + 1)
  }

  /** `s.replace(p, "")` with a string pattern: only the first occurrence goes. */
  function RemoveFirst(s: string, p: string): (r: string)
  {
    match FirstOccurrence(s, p, 0)
    case None => s
    case Some(i) => s[..i] + s[i + |p|..]
  }

  /** `data_url_to_array_buffer`. */
  function FromDataUrl(url: string): Result<seq<Byte>>
  {
    Decode(RemoveFirst(url, Prefix))
  }

  /* ---------- the round trip ---------- */

  lemma {:induction false} SextetsLength(bs: seq<Byte>)
    ensures |Sextets(bs)| == |bs| / 3 * 4 + (if |bs| % 3 == 0 then 0 else |bs| % 3 + 1)
    decreases |bs|
  {
    if |bs| >= 3 {
      SextetsLength(bs[3..]);
    }
  }

  /** One full group: the four sextets of three bytes give the three bytes back. */
  lemma GroupRoundTrip(b0: Byte, b1: Byte, b2: Byte)
    ensures var v0, v1, v2, v3 := b0 / 4, b0 % 4 * 16 + b1 / 16, b1 % 16 * 4 + b2 / 64, b2 % 64;
      && v0 * 4 + v1 / 16 == b0
      && v1 % 16 * 16 + v2 / 4 == b1
      && v2 % 4 * 64 + v3 == b2
  {
  }

  /** `vs` opens with the four sextets that spell the first three bytes of `bs`. */
  predicate LeadsWith(vs: seq<Sextet>, bs: seq<Byte>)
    requires |vs| >= 4 && |bs| >= 3
  {
    && vs[0] == bs[0] / 4 && vs[1] == bs[0] % 4 * 16 + bs[1] / 16
    && vs[2] == bs[1] % 16 * 4 + bs[2] / 64 && vs[3] == bs[2] % 64
  }

  /** Three or more bytes start with a full group of four sextets. */
  lemma FullGroup(bs: seq<Byte>)
    requires |bs| >= 3
    ensures |Sextets(bs)| == 4 + |Sextets(bs[3..])| && Sextets(bs)[4..] == Sextets(bs[3..])
    ensures LeadsWith(Sextets(bs), bs)
  {
  }

  /** Four or more sextets give three bytes and then the bytes of the rest. */
  lemma BytesStep(vs: seq<Sextet>)
    requires |vs| >= 4 && |vs| % 4 != 1
    ensures var v0, v1, v2, v3: int := vs[0], vs[1], vs[2], vs[3];
      Bytes(vs) == [v0 * 4 + v1 / 16, v1 % 16 * 16 + v2 / 4, v2 % 4 * 64 + v3] + Bytes(vs[4..])
  {
  }

  /** Sextets that start with the four of three bytes reassemble into those three
      bytes followed by the bytes of the rest. */
  lemma GroupBytes(vs: seq<Sextet>, bs: seq<Byte>)
    requires |vs| >= 4 && |vs| % 4 != 1 && |bs| >= 3 && LeadsWith(vs, bs)
    ensures Bytes(vs) == bs[..3] + Bytes(vs[4..])
  {
    BytesStep(vs);
    GroupRoundTrip(bs[0], bs[1], bs[2]);
    assert bs[..3] == [bs[0], bs[1], bs[2]];
  }

  /** Sextets that open with a group of `bs` and whose rest reassembles into the rest
      of `bs` reassemble into `bs`. */
  lemma GroupThenRest(bs: seq<Byte>, vs: seq<Sextet>)
    requires |vs| >= 4 && |vs| % 4 != 1 && |bs| >= 3 && LeadsWith(vs, bs)
    requires Bytes(vs[4..]) == bs[3..]
    ensures Bytes(vs) == bs
  {
    GroupBytes(vs, bs);
  }

  /** Four more sextets keep a length that is not 1 modulo 4. */
  lemma QuantumMore(n: nat, m: nat)
    requires n == 4 + m && m % 4 != 1
    ensures n % 4 != 1
  {
  }

  /** A full leading group reassembles when the rest does. */
  lemma GroupStep(bs: seq<Byte>)
    requires |bs| >= 3
    requires |Sextets(bs[3..])| % 4 != 1 && Bytes(Sextets(bs[3..])) == bs[3..]
    ensures |Sextets(bs)| % 4 != 1 && Bytes(Sextets(bs)) == bs
  {
    FullGroup(bs);
    var vs := Sextets(bs);
    QuantumMore(|vs|, |Sextets(bs[3..])|);
    assert Bytes(vs[4..]) == bs[3..];
    GroupThenRest(bs, vs);
  }

  lemma {:induction false} BytesOfSextets(bs: seq<Byte>)
    ensures |Sextets(bs)| % 4 != 1
    ensures Bytes(Sextets(bs)) == bs
    decreases |bs|
  {
    if |bs| >= 3 {
      BytesOfSextets(bs[3..]);
      GroupStep(bs);
    } else if |bs| == 2 {
      TwoBytes(bs[0], bs[1]);
      assert bs == [bs[0], bs[1]];
    } else if |bs| == 1 {
      OneByte(bs[0]);
      assert bs == [bs[0]];
    }
  }

  /** A final pair of bytes survives its three sextets. */
  lemma TwoBytes(b0: Byte, b1: Byte)
    ensures |Sextets([b0, b1])| == 3 && Bytes(Sextets([b0, b1])) == [b0, b1]
  {
    GroupRoundTrip(b0, b1, 0);
  }

  /** A final single byte survives its two sextets. */
  lemma OneByte(b0: Byte)
    ensures |Sextets([b0])| == 2 && Bytes(Sextets([b0])) == [b0]
  {
    GroupRoundTrip(b0, 0, 0);
  }

  lemma {:induction false} SpellLength(vs: seq<Sextet>)
    ensures |Spell(vs)| == |vs|
  {
    if |vs| > 0 {
      SpellLength(vs[1..]);
    }
  }

  lemma {:induction false} ValuesOfSpell(vs: seq<Sextet>)
    ensures Values(Spell(vs)) == Some(vs)
  {
    if |vs| > 0 {
      ValuesOfSpell(vs[1..]);
      ValueOfCharOf(vs[0]);
      var s := Spell(vs);
      SliceOfConcat([CharOf(vs[0])], Spell(vs[1..]));
      assert s[0] == CharOf(vs[0]) && s[1..] == Spell(vs[1..]);
      ConsTail(vs);
    }
  }

  lemma {:induction false} SpellNotPadding(vs: seq<Sextet>, k: nat)
    requires k < |Spell(vs)|
    ensures Spell(vs)[k] != '=' && !AsciiWhitespace(Spell(vs)[k])
  {
    if k > 0 {
      SpellNotPadding(vs[1..], k - 1);
    }
  }

  lemma {:induction false} StripNoWhitespace(s: string)
    requires forall k :: 0 <= k < |s| ==> !AsciiWhitespace(s[k])
    ensures StripWhitespace(s) == s
  {
    if |s| > 0 {
      StripNoWhitespace(s[1..]);
      ConsTail(s);
    }
  }

  lemma EncodeNoWhitespace(bs: seq<Byte>)
    ensures StripWhitespace(Encode(bs)) == Encode(bs)
  {
    var sp := Spell(Sextets(bs));
    var e := Encode(bs);
    forall k | 0 <= k < |e|
      ensures !AsciiWhitespace(e[k])
    {
      if k < |sp| {
        SpellNotPadding(Sextets(bs), k);
      }
    }
    StripNoWhitespace(e);
  }

  lemma UnpadPadded(sp: string, pad: string)
    requires pad == "" || pad == "=" || pad == "=="
    requires (|sp| + |pad|) % 4 == 0 && |sp| >= |pad|
    requires |sp| > 0 ==> sp[|sp| - 1] != '='
    ensures Unpad(sp + pad) == sp
  {
    SliceOfConcat(sp, pad);
    if pad == "" {
      EmptySuffix(sp);
    }
  }

  /** The padding completes the last quantum of the spelled sextets. */
  lemma PaddingFits(n: nat, m: nat)
    requires m == n / 3 * 4 + (if n % 3 == 0 then 0 else n % 3 + 1)
    ensures (m + |Padding(n)|) % 4 == 0 && m >= |Padding(n)|
  {
    var q := n / 3;
    assert n == q * 3 + n % 3;
    if n % 3 == 1 {
      assert m + 2 == (q + 1) * 4;
    } else if n % 3 == 2 {
      assert m + 1 == (q + 1) * 4;
    } else {
      assert m == q * 4;
    }
  }

  /** Dropping the padding of an encoding leaves the spelled sextets. */
  lemma EncodeUnpads(bs: seq<Byte>)
    ensures Unpad(Encode(bs)) == Spell(Sextets(bs))
  {
    var sp := Spell(Sextets(bs));
    var pad := Padding(|bs|);
    SextetsLength(bs);
    SpellLength(Sextets(bs));
    PaddingFits(|bs|, |sp|);
    if |sp| > 0 {
      SpellNotPadding(Sextets(bs), |sp| - 1);
    }
    UnpadPadded(sp, pad);
  }

  /** Decoding an encoding gives the bytes back. */
  lemma DecodeEncode(bs: seq<Byte>)
    ensures Decode(Encode(bs)) == Ok(bs)
  {
    EncodeNoWhitespace(bs);
    EncodeUnpads(bs);
    SpellLength(Sextets(bs));
    BytesOfSextets(bs);
    ValuesOfSpell(Sextets(bs));
  }

  /** Every encoding is a whole number of four-character quanta. */
  lemma EncodeLength(bs: seq<Byte>)
    ensures |Encode(bs)| == (|bs| + 2) / 3 * 4
  {
    SextetsLength(bs);
    SpellLength(Sextets(bs));
  }

  lemma PrefixFirst(s: string)
    ensures FirstOccurrence(Prefix + s, Prefix, 0) == Some(0)
  {
    SliceOfConcat(Prefix, s);
  }

  /** `data_url_to_array_buffer(array_buffer_to_data_url(b))` is `b`. */
  lemma DataUrlRoundTrip(bs: seq<Byte>)
    ensures FromDataUrl(ToDataUrl(bs)) == Ok(bs)
  {
    var e := Encode(bs);
    PrefixFirst(e);
    SliceOfConcat(Prefix, e);
    assert RemoveFirst(Prefix + e, Prefix) == e;
    DecodeEncode(bs);
  }

  /** A data URL that does not carry the prefix is decoded as plain base64. */
  lemma BarePayload(s: string)
    requires FirstOccurrence(s, Prefix, 0).None?
    ensures FromDataUrl(s) == Decode(s)
  {
  }

  lemma {:induction false} StripKeeps(s: string, c: char)
    requires c in s && !AsciiWhitespace(c)
    ensures c in StripWhitespace(s)
  {
    if s[0] != c {
      StripKeeps(s[1..], c);
    }
  }

  lemma UnpadKeeps(s: string, c: char)
    requires c in s && c != '='
    ensures c in Unpad(s)
  {
    var i :| 0 <= i < |s| && s[i] == c;
    if Unpad(s) != s {
      assert Unpad(s)[i] == c;
    }
  }

  lemma {:induction false} ValuesRejects(s: string, c: char)
    requires c in s && ValueOf(c).None?
    ensures Values(s).None?
  {
    if s[0] != c {
      ValuesRejects(s[1..], c);
    }
  }

  /** Text holding a character that is neither in the alphabet, nor `=`, nor ASCII
      whitespace is rejected rather than skipped. */
  lemma ForeignCharacterRejected(s: string, c: char)
    requires c in s && ValueOf(c).None? && c != '=' && !AsciiWhitespace(c)
    ensures Decode(s).Err?
  {
    StripKeeps(s, c);
    UnpadKeeps(StripWhitespace(s), c);
    ValuesRejects(Unpad(StripWhitespace(s)), c);
  }
}

=== FILE: decompress.dfy ===
/** File-name handling of the decompression helpers: which suffixes mark a compressed
    file, which stream format (RFC 1952 gzip, RFC 1950 deflate, RFC 1951 raw deflate)
    each names, and the name reported after decompressing. Suffix tests are
    case-sensitive, like `String.prototype.endsWith`. */
module Decompress {
  import opened Wrappers
  import opened Text

  /** The formats of the browser's `DecompressionStream`. */
  datatype Format = Gzip | Deflate | DeflateRaw

  /** The suffixes of each format, in table order. */
  function Suffixes(f: Format): (r: seq<string>)
    ensures |r| > 0
  {
    match f
    case Gzip => [".gz", ".gzip"]
    case Deflate => [".deflate"]
    case DeflateRaw => [".z"]
  }

  predicate HasSuffixOf(name: string, f: Format)
  {
    exists i :: 0 <= i < |Suffixes(f)| && EndsWith(name, Suffixes(f)[i])
  }

  /** `is_compressed_file`: the name ends in one of the suffixes of some format. */
  predicate IsCompressedFile(name: string)
  {
    HasSuffixOf(name, Gzip) || HasSuffixOf(name, Deflate) || HasSuffixOf(name, DeflateRaw)
  }

  /** `detect_compression_format`: the first format, in table order, one of whose
      suffixes ends the name. */
  function DetectFormat(name: string): (r: Option<Format>)
    ensures r.Some? ==> HasSuffixOf(name, r.value)
    ensures r == Some(Deflate) ==> !HasSuffixOf(name, Gzip)
    ensures r == Some(DeflateRaw) ==> !HasSuffixOf(name, Gzip) && !HasSuffixOf(name, Deflate)
  {
    if HasSuffixOf(name, Gzip) then Some(Gzip)
    else if HasSuffixOf(name, Deflate) then Some(Deflate)
    else if HasSuffixOf(name, DeflateRaw) then Some(DeflateRaw)
    else None
  }

  /** A format is detected exactly for compressed names. */
  lemma DetectIffCompressed(name: string)
    ensures DetectFormat(name).Some? <==> IsCompressedFile(name)
  {
  }

  /** Each suffix is detected as its own format. */
  lemma DetectSuffix(base: string, f: Format, i: nat)
    requires i < |Suffixes(f)|
    ensures DetectFormat(base + Suffixes(f)[i]) == Some(f)
  {
    var name := base + Suffixes(f)[i];
    AppendedSuffix(base, Suffixes(f)[i]);
    assert HasSuffixOf(name, f);
    match f
    case Gzip =>
    case Deflate =>
      NotGzip(name);
    case DeflateRaw =>
      NotGzip(name);
      if EndsWith(name, ".deflate") {
        EndsWithAt(name, ".deflate", 7);
      }
      assert !HasSuffixOf(name, Deflate);
  }

  /** A name ending in `.deflate` or `.z` has no gzip suffix. */
  lemma NotGzip(name: string)
    requires EndsWith(name, ".deflate") || EndsWith(name, ".z")
    ensures !HasSuffixOf(name, Gzip)
  {
    if EndsWith(name, ".deflate") {
      EndsWithAt(name, ".deflate", 7);
    } else {
      EndsWithAt(name, ".z", 0);
      EndsWithAt(name, ".z", 1);
    }
  }

  /** `remove_compression_extension`: the pattern `\.(gz|gzip|deflate|z)$` replaced by
      nothing. At most one of the four suffixes can end a name, so whichever matches
      is the one removed. */
  function RemoveCompressionExtension(name: string): (r: string)
  {
    if EndsWith(name, ".gz") then name[..|name| - 3]
    else if EndsWith(name, ".gzip") then name[..|name| - 5]
    else if EndsWith(name, ".deflate") then name[..|name| - 8]
    else if EndsWith(name, ".z") then name[..|name| - 2]
    else name
  }

  /** `r` is `name` without one trailing compression suffix. */
  predicate StripsOneSuffix(name: string, r: string)
  {
    exists f: Format, i :: 0 <= i < |Suffixes(f)| && name == r + Suffixes(f)[i]
  }

  /** Removing the extension strips exactly one suffix from a compressed name and
      leaves any other name unchanged. */
  lemma RemoveStripsOne(name: string)
    ensures IsCompressedFile(name) ==> StripsOneSuffix(name, RemoveCompressionExtension(name))
    ensures !IsCompressedFile(name) ==> RemoveCompressionExtension(name) == name
  {
    var r := RemoveCompressionExtension(name);
    if EndsWith(name, ".gz") {
      assert name == r + Suffixes(Gzip)[0];
    } else if EndsWith(name, ".gzip") {
      assert name == r + Suffixes(Gzip)[1];
    } else if EndsWith(name, ".deflate") {
      assert name == r + Suffixes(Deflate)[0];
    } else if EndsWith(name, ".z") {
      assert name == r + Suffixes(DeflateRaw)[0];
    }
  }

  /** Appending any suffix and removing the extension gives the base back, so
      `multiple.gz.json.gz` becomes `multiple.gz.json`. */
  lemma RemoveAfterAppend(base: string, f: Format, i: nat)
    requires i < |Suffixes(f)|
    ensures RemoveCompressionExtension(base + Suffixes(f)[i]) == base
  {
    var suffix := Suffixes(f)[i];
    var name := base + suffix;
    AppendedSuffix(base, suffix);
    match f
    case Gzip =>
      if i == 1 {
        assert !EndsWith(name, ".gz") by { assert name[|name| - 1] == 'p'; }
      }
    case Deflate =>
      assert !EndsWith(name, ".gz") && !EndsWith(name, ".gzip") by { assert name[|name| - 1] == 'e'; }
    case DeflateRaw =>
      assert !EndsWith(name, ".gz") by { assert name[|name| - 2] == '.'; }
      assert !EndsWith(name, ".gzip") && !EndsWith(name, ".deflate") by { assert name[|name| - 1] == 'z'; }
  }

  lemma AppendedSuffix(base: string, suffix: string)
    ensures EndsWith(base + suffix, suffix)
    ensures (base + suffix)[..|base + suffix| - |suffix|] == base
  {
    assert (base + suffix)[|base|..] == suffix;
    assert (base + suffix)[..|base|] == base;
  }

  /** The outcome of `decompress_file` apart from the stream itself: the format to
      decompress with, if any, and the reported file name. A compressed name always has
      a format, so the "Unsupported compression format" branch is unreachable. */
  function DecompressTarget(name: string): (r: (Option<Format>, string))
    ensures r.0.Some? <==> IsCompressedFile(name)
    ensures r.0.None? ==> r.1 == name
    ensures r.0.Some? ==> StripsOneSuffix(name, r.1) && HasSuffixOf(name, r.0.value)
  {
    DetectIffCompressed(name);
    RemoveStripsOne(name);
    if IsCompressedFile(name) then (DetectFormat(name), RemoveCompressionExtension(name))
    else (None, name)
  }
}

=== FILE: elements.dfy ===
/** The periodic table's 118 element symbols, indexed by atomic number, and the
    symbol clean-up the structure parsers apply to species labels. */
module Elements {
  import opened Wrappers
  import Text

  /** The first atomic number of period `p` (1..7), and 119 past the last period. */
  function PeriodStart(p: nat): int
  {
    match p
    case 1 => 1
    case 2 => 3
    case 3 => 11
    case 4 => 19
    case 5 => 37
    case 6 => 55
    case 7 => 87
    case _ => 119
  }

  function PeriodSymbol(p: nat, n: int): string
  {
    match p
    case 1 => Period1(n)
    case 2 => Period2(n)
    case 3 => Period3(n)
    case 4 => Period4(n)
    case 5 => Period5(n)
    case 6 => Period6(n)
    case 7 => Period7(n)
    case _ => ""
  }

  /** Looks `n` up period by period, starting at period `p`. */
  function SymbolFrom(n: int, p: nat): string
    requires 1 <= p <= 8
    decreases 8 - p
  {
    if p == 8 || n < PeriodStart(p) then ""
    else if n < PeriodStart(p + 1) then PeriodSymbol(p, n)
    else SymbolFrom(n, p + 1)
  }

  /** The symbol of atomic number `n`, or `""` outside 1..118. */
  function SymbolOf(n: int): string
  {
    SymbolFrom(n, 1)
  }

  function Period1(n: int): string
  {
    match n
    case 1 => "H"
    case 2 => "He"
    case _ => ""
  }

  function Period2(n: int): string
  {
    match n
    case 3 => "Li"
    case 4 => "Be"
    case 5 => "B"
    case 6 => "C"
    case 7 => "N"
    case 8 => "O"
    case 9 => "F"
    case 10 => "Ne"
    case _ => ""
  }

  function Period3(n: int): string
  {
    match n
    case 11 => "Na"
    case 12 => "Mg"
    case 13 => "Al"
    case 14 => "Si"
    case 15 => "P"
    case 16 => "S"
    case 17 => "Cl"
    case 18 => "Ar"
    case _ => ""
  }

  function Period4(n: int): string
  {
    match n
    case 19 => "K"
    case 20 => "Ca"
    case 21 => "Sc"
    case 22 => "Ti"
    case 23 => "V"
    case 24 => "Cr"
    case 25 => "Mn"
    case 26 => "Fe"
    case 27 => "Co"
    case 28 => "Ni"
    case 29 => "Cu"
    case 30 => "Zn"
    case 31 => "Ga"
    case 32 => "Ge"
    case 33 => "As"
    case 34 => "Se"
    case 35 => "Br"
    case 36 => "Kr"
    case _ => ""
  }

  function Period5(n: int): string
  {
    match n
    case 37 => "Rb"
    case 38 => "Sr"
    case 39 => "Y"
    case 40 => "Zr"
    case 41 => "Nb"
    case 42 => "Mo"
    case 43 => "Tc"
    case 44 => "Ru"
    case 45 => "Rh"
    case 46 => "Pd"
    case 47 => "Ag"
    case 48 => "Cd"
    case 49 => "In"
    case 50 => "Sn"
    case 51 => "Sb"
    case 52 => "Te"
    case 53 => "I"
    case 54 => "Xe"
    case _ => ""
  }

  function Period6(n: int): string
  {
    match n
    case 55 => "Cs"
    case 56 => "Ba"
    case 57 => "La"
    case 58 => "Ce"
    case 59 => "Pr"
    case 60 => "Nd"
    case 61 => "Pm"
    case 62 => "Sm"
    case 63 => "Eu"
    case 64 => "Gd"
    case 65 => "Tb"
    case 66 => "Dy"
    case 67 => "Ho"
    case 68 => "Er"
    case 69 => "Tm"
    case 70 => "Yb"
    case 71 => "Lu"
    case 72 => "Hf"
    case 73 => "Ta"
    case 74 => "W"
    case 75 => "Re"
    case 76 => "Os"
    case 77 => "Ir"
    case 78 => "Pt"
    case 79 => "Au"
    case 80 => "Hg"
    case 81 => "Tl"
    case 82 => "Pb"
    case 83 => "Bi"
    case 84 => "Po"
    case 85 => "At"
    case 86 => "Rn"
    case _ => ""
  }

  function Period7(n: int): string
  {
    match n
    case 87 => "Fr"
    case 88 => "Ra"
    case 89 => "Ac"
    case 90 => "Th"
    case 91 => "Pa"
    case 92 => "U"
    case 93 => "Np"
    case 94 => "Pu"
    case 95 => "Am"
    case 96 => "Cm"
    case 97 => "Bk"
    case 98 => "Cf"
    case 99 => "Es"
    case 100 => "Fm"
    case 101 => "Md"
    case 102 => "No"
    case 103 => "Lr"
    case 104 => "Rf"
    case 105 => "Db"
    case 106 => "Sg"
    case 107 => "Bh"
    case 108 => "Hs"
    case 109 => "Mt"
    case 110 => "Ds"
    case 111 => "Rg"
    case 112 => "Cn"
    case 113 => "Nh"
    case 114 => "Fl"
    case 115 => "Mc"
    case 116 => "Lv"
    case 117 => "Ts"
    case 118 => "Og"
    case _ => ""
  }

  /** Searches atomic numbers `n..118` for symbol `s`. */
  function FindFrom(s: string, n: nat): (r: Option<nat>)
    requires n >= 1
    ensures r.Some? ==> n <= r.value <= 118
    decreases 119 - n
  {
    if n > 118 then None
    else if SymbolOf(n) == s then Some(n)
    else FindFrom(s, n + 1)
  }

  /** What the search finds has symbol `s`. */
  lemma {:induction false} FindFromSpec(s: string, n: nat)
    requires n >= 1
    ensures FindFrom(s, n).Some? ==> SymbolOf(FindFrom(s, n).value) == s
    decreases 119 - n
  {
    if n <= 118 && SymbolOf(n) != s {
      FindFromSpec(s, n + 1);
    }
  }

  /** The search finds something when an atomic number from `n` on has symbol `s`. */
  lemma {:induction false} FindFromFinds(s: string, n: nat, m: nat)
    requires 1 <= n <= m <= 118 && SymbolOf(m) == s
    ensures FindFrom(s, n).Some?
    decreases 119 - n
  {
    if SymbolOf(n) != s {
      FindFromFinds(s, n + 1, m);
    }
  }

  /** The atomic number of a symbol, `None` for anything that is not a symbol. */
  function NumberOf(s: string): (r: Option<nat>)
    ensures r.Some? ==> 1 <= r.value <= 118
  {
    FindFrom(s, 1)
  }

  /** `NumberOf` finds an atomic number whose symbol is `s`. */
  lemma NumberOfSpec(s: string)
    ensures NumberOf(s).Some? ==> SymbolOf(NumberOf(s).value) == s
  {
    FindFromSpec(s, 1);
  }

  /** Membership in `elem_symbols`. */
  predicate IsElement(s: string)
  {
    NumberOf(s).Some?
  }

  /** Every atomic number in 1..118 has its symbol in the table. */
  lemma SymbolInTable(n: int)
    requires 1 <= n <= 118
    ensures IsElement(SymbolOf(n))
  {
    FindFromFinds(SymbolOf(n), 1, n);
  }

  predicate SymbolShaped(s: string)
  {
    (|s| == 1 || |s| == 2) && Text.IsUpper(s[0]) && (|s| == 2 ==> Text.IsLower(s[1]))
  }

  lemma Period1Shaped(n: int)
    requires 1 <= n <= 2
    ensures SymbolShaped(Period1(n))
  {
  }

  lemma Period2Shaped(n: int)
    requires 3 <= n <= 10
    ensures SymbolShaped(Period2(n))
  {
  }

  lemma Period3Shaped(n: int)
    requires 11 <= n <= 18
    ensures SymbolShaped(Period3(n))
  {
  }

  lemma Period4Shaped(n: int)
    requires 19 <= n <= 36
    ensures SymbolShaped(Period4(n))
  {
  }

  lemma Period5Shaped(n: int)
    requires 37 <= n <= 54
    ensures SymbolShaped(Period5(n))
  {
  }

  lemma Period6Shaped(n: int)
    requires 55 <= n <= 86
    ensures SymbolShaped(Period6(n))
  {
  }

  lemma Period7Shaped(n: int)
    requires 87 <= n <= 118
    ensures SymbolShaped(Period7(n))
  {
  }

  lemma PeriodShaped(p: nat, n: int)
    requires 1 <= p <= 7 && PeriodStart(p) <= n < PeriodStart(p + 1)
    ensures SymbolShaped(PeriodSymbol(p, n))
  {
    match p
    case 1 => Period1Shaped(n);
    case 2 => Period2Shaped(n);
    case 3 => Period3Shaped(n);
    case 4 => Period4Shaped(n);
    case 5 => Period5Shaped(n);
    case 6 => Period6Shaped(n);
    case 7 => Period7Shaped(n);
  }

  lemma {:induction false} SymbolFromShaped(n: int, p: nat)
    requires 1 <= p <= 7 && PeriodStart(p) <= n <= 118
    ensures SymbolShaped(SymbolFrom(n, p))
    decreases 8 - p
  {
    if n < PeriodStart(p + 1) {
      PeriodShaped(p, n);
    } else {
      SymbolFromShaped(n, p + 1);
    }
  }

  /** Every symbol in the table has the shape `[A-Z][a-z]?`. */
  lemma SymbolShape(n: int)
    requires 1 <= n <= 118
    ensures SymbolShaped(SymbolOf(n))
  {
    SymbolFromShaped(n, 1);
  }

  /** Every symbol in the table is one or two letters, upper case first. */
  lemma ElementShaped(s: string)
    requires IsElement(s)
    ensures SymbolShaped(s)
  {
    NumberOfSpec(s);
    SymbolShape(NumberOf(s).value);
  }

  /** Different symbols have different atomic numbers. */
  lemma NumberOfInjective(s: string, t: string)
    requires IsElement(s) && IsElement(t) && s != t
    ensures NumberOf(s) != NumberOf(t)
  {
    NumberOfSpec(s);
    NumberOfSpec(t);
  }

  /** The reverse table: the atomic number of a symbol, read off its first and
      second character; 0 for a string that is no symbol. */
  function ReverseLookup(s: string): nat
  {
    if |s| == 0 then 0 else ByInitial(s[0] as int, if |s| >= 2 then s[1] as int else 0)
  }

  /** The reverse table keyed by character codes; a missing second character is 0. */
  function ByInitial(first: int, second: int): nat
  {
    match first
    case 65 => // A
      (match second
      case 99 => 89
      case 103 => 47
      case 108 => 13
      case 109 => 95
      case 114 => 18
      case 115 => 33
      case 116 => 85
      case 117 => 79
      case _ => 0)
    case 66 => // B
      (match second
      case 0 => 5
      case 97 => 56
      case 101 => 4
      case 104 => 107
      case 105 => 83
      case 107 => 97
      case 114 => 35
      case _ => 0)
    case 67 => // C
      (match second
      case 0 => 6
      case 97 => 20
      case 100 => 48
      case 101 => 58
      case 102 => 98
      case 108 => 17
      case 109 => 96
      case 110 => 112
      case 111 => 27
      case 114 => 24
      case 115 => 55
      case 117 => 29
      case _ => 0)
    case 68 => // D
      (match second
      case 98 => 105
      case 115 => 110
      case 121 => 66
      case _ => 0)
    case 69 => // E
      (match second
      case 114 => 68
      case 115 => 99
      case 117 => 63
      case _ => 0)
    case 70 => // F
      (match second
      case 0 => 9
      case 101 => 26
      case 108 => 114
      case 109 => 100
      case 114 => 87
      case _ => 0)
    case 71 => // G
      (match second
      case 97 => 31
      case 100 => 64
      case 101 => 32
      case _ => 0)
    case 72 => // H
      (match second
      case 0 => 1
      case 101 => 2
      case 102 => 72
      case 103 => 80
      case 111 => 67
      case 115 => 108
      case _ => 0)
    case 73 => // I
      (match second
      case 0 => 53
      case 110 => 49
      case 114 => 77
      case _ => 0)
    case 75 => // K
      (match second
      case 0 => 19
      case 114 => 36
      case _ => 0)
    case 76 => // L
      (match second
      case 97 => 57
      case 105 => 3
      case 114 => 103
      case 117 => 71
      case 118 => 116
      case _ => 0)
    case 77 => // M
      (match second
      case 99 => 115
      case 100 => 101
      case 103 => 12
      case 110 => 25
      case 111 => 42
      case 116 => 109
      case _ => 0)
    case 78 => // N
      (match second
      case 0 => 7
      case 97 => 11
      case 98 => 41
      case 100 => 60
      case 101 => 10
      case 104 => 113
      case 105 => 28
      case 111 => 102
      case 112 => 93
      case _ => 0)
    case 79 => // O
      (match second
      case 0 => 8
      case 103 => 118
      case 115 => 76
      case _ => 0)
    case 80 => // P
      (match second
      case 0 => 15
      case 97 => 91
      case 98 => 82
      case 100 => 46
      case 109 => 61
      case 111 => 84
      case 114 => 59
      case 116 => 78
      case 117 => 94
      case _ => 0)
    case 82 => // R
      (match second
      case 97 => 88
      case 98 => 37
      case 101 => 75
      case 102 => 104
      case 103 => 111
      case 104 => 45
      case 110 => 86
      case 117 => 44
      case _ => 0)
    case 83 => // S
      (match second
      case 0 => 16
      case 98 => 51
      case 99 => 21
      case 101 => 34
      case 103 => 106
      case 105 => 14
      case 109 => 62
      case 110 => 50
      case 114 => 38
      case _ => 0)
    case 84 => // T
      (match second
      case 97 => 73
      case 98 => 65
      case 99 => 43
      case 101 => 52
      case 104 => 90
      case 105 => 22
      case 108 => 81
      case 109 => 69
      case 115 => 117
      case _ => 0)
    case 85 => // U
      (match second
      case 0 => 92
      case _ => 0)
    case 86 => // V
      (match second
      case 0 => 23
      case _ => 0)
    case 87 => // W
      (match second
      case 0 => 74
      case _ => 0)
    case 88 => // X
      (match second
      case 101 => 54
      case _ => 0)
    case 89 => // Y
      (match second
      case 0 => 39
      case 98 => 70
      case _ => 0)
    case 90 => // Z
      (match second
      case 110 => 30
      case 114 => 40
      case _ => 0)
    case _ => 0
  }

  lemma Period1Reversed(n: int)
    requires 1 <= n <= 2
    ensures ReverseLookup(Period1(n)) == n
  {
  }

  lemma Period2Reversed(n: int)
    requires 3 <= n <= 10
    ensures ReverseLookup(Period2(n)) == n
  {
  }

  lemma Period3Reversed(n: int)
    requires 11 <= n <= 18
    ensures ReverseLookup(Period3(n)) == n
  {
  }

  lemma Period4ReversedA(n: int)
    requires 19 <= n <= 26
    ensures ReverseLookup(Period4(n)) == n
  {
  }

  lemma Period4ReversedB(n: int)
    requires 27 <= n <= 34
    ensures ReverseLookup(Period4(n)) == n
  {
  }

  lemma Period4ReversedC(n: int)
    requires 35 <= n <= 36
    ensures ReverseLookup(Period4(n)) == n
  {
  }

  lemma Period4Reversed(n: int)
    requires 19 <= n <= 36
    ensures ReverseLookup(Period4(n)) == n
  {
    if n <= 26 {
      Period4ReversedA(n);
    } else if n <= 34 {
      Period4ReversedB(n);
    } else {
      Period4ReversedC(n);
    }
  }

  lemma Period5ReversedA(n: int)
    requires 37 <= n <= 44
    ensures ReverseLookup(Period5(n)) == n
  {
  }

  lemma Period5ReversedB(n: int)
    requires 45 <= n <= 52
    ensures ReverseLookup(Period5(n)) == n
  {
  }

  lemma Period5ReversedC(n: int)
    requires 53 <= n <= 54
    ensures ReverseLookup(Period5(n)) == n
  {
  }

  lemma Period5Reversed(n: int)
    requires 37 <= n <= 54
    ensures ReverseLookup(Period5(n)) == n
  {
    if n <= 44 {
      Period5ReversedA(n);
    } else if n <= 52 {
      Period5ReversedB(n);
    } else {
      Period5ReversedC(n);
    }
  }

  lemma Period6ReversedA(n: int)
    requires 55 <= n <= 62
    ensures ReverseLookup(Period6(n)) == n
  {
  }

  lemma Period6ReversedB(n: int)
    requires 63 <= n <= 70
    ensures ReverseLookup(Period6(n)) == n
  {
  }

  lemma Period6ReversedC(n: int)
    requires 71 <= n <= 78
    ensures ReverseLookup(Period6(n)) == n
  {
  }

  lemma Period6ReversedD(n: int)
    requires 79 <= n <= 86
    ensures ReverseLookup(Period6(n)) == n
  {
  }

  lemma Period6Reversed(n: int)
    requires 55 <= n <= 86
    ensures ReverseLookup(Period6(n)) == n
  {
    if n <= 62 {
      Period6ReversedA(n);
    } else if n <= 70 {
      Period6ReversedB(n);
    } else if n <= 78 {
      Period6ReversedC(n);
    } else {
      Period6ReversedD(n);
    }
  }

  lemma Period7ReversedA(n: int)
    requires 87 <= n <= 94
    ensures ReverseLookup(Period7(n)) == n
  {
  }

  lemma Period7ReversedB(n: int)
    requires 95 <= n <= 102
    ensures ReverseLookup(Period7(n)) == n
  {
  }

  lemma Period7ReversedC(n: int)
    requires 103 <= n <= 110
    ensures ReverseLookup(Period7(n)) == n
  {
  }

  lemma Period7ReversedD(n: int)
    requires 111 <= n <= 118
    ensures ReverseLookup(Period7(n)) == n
  {
  }

  lemma Period7Reversed(n: int)
    requires 87 <= n <= 118
    ensures ReverseLookup(Period7(n)) == n
  {
    if n <= 94 {
      Period7ReversedA(n);
    } else if n <= 102 {
      Period7ReversedB(n);
    } else if n <= 110 {
      Period7ReversedC(n);
    } else {
      Period7ReversedD(n);
    }
  }

  lemma PeriodReversed(p: nat, n: int)
    requires 1 <= p <= 7 && PeriodStart(p) <= n < PeriodStart(p + 1)
    ensures ReverseLookup(PeriodSymbol(p, n)) == n
  {
    match p
    case 1 => Period1Reversed(n);
    case 2 => Period2Reversed(n);
    case 3 => Period3Reversed(n);
    case 4 => Period4Reversed(n);
    case 5 => Period5Reversed(n);
    case 6 => Period6Reversed(n);
    case 7 => Period7Reversed(n);
  }

  lemma {:induction false} SymbolFromReversed(n: int, p: nat)
    requires 1 <= p <= 7 && PeriodStart(p) <= n <= 118
    ensures ReverseLookup(SymbolFrom(n, p)) == n
    decreases 8 - p
  {
    if n < PeriodStart(p + 1) {
      PeriodReversed(p, n);
    } else {
      SymbolFromReversed(n, p + 1);
    }
  }

  /** The reverse table undoes the forward one. */
  lemma SymbolReversed(n: int)
    requires 1 <= n <= 118
    ensures ReverseLookup(SymbolOf(n)) == n
  {
    SymbolFromReversed(n, 1);
  }

  /** No two atomic numbers share a symbol. */
  lemma SymbolOfInjective(m: int, n: int)
    requires 1 <= m <= 118 && 1 <= n <= 118 && SymbolOf(m) == SymbolOf(n)
    ensures m == n
  {
    SymbolReversed(m);
    SymbolReversed(n);
  }

  /** Looking up the symbol of an atomic number gives that number back:
      `element_symbol_to_atomic_number` inverts `atomic_number_to_element_symbol`. */
  lemma NumberOfSymbol(n: int)
    requires 1 <= n <= 118
    ensures NumberOf(SymbolOf(n)) == Some(n)
  {
    FindFromFinds(SymbolOf(n), 1, n);
    FindFromSpec(SymbolOf(n), 1);
    SymbolOfInjective(NumberOf(SymbolOf(n)).value, n);
  }

  lemma XReversed()
    ensures ReverseLookup("X") == 0
  {
  }

  /** The placeholder `X` is no element. */
  lemma XNotElement()
    ensures !IsElement("X")
  {
    XReversed();
    if IsElement("X") {
      NumberOfSpec("X");
      SymbolReversed(NumberOf("X").value);
    }
  }

  /** The trajectory parser's lookup: unknown atomic numbers become `X`,
      which is no element; known ones look up to themselves again. */
  function SymbolOrX(n: int): (s: string)
    ensures 1 <= n <= 118 ==> NumberOf(s) == Some(n)
    ensures !(1 <= n <= 118) ==> s == "X" && !IsElement(s)
  {
    if 1 <= n <= 118 then
      NumberOfSymbol(n);
      SymbolOf(n)
    else
      XNotElement();
      "X"
  }

  /** The part of a species label before the first `_` or `/`, as
      `label.split(/[_/]/)[0]`. */
  function LabelStem(name: string): (r: string)
    ensures Text.StartsWith(name, r)
    ensures '_' !in r && '/' !in r
    ensures |r| < |name| ==> name[|r|] == '_' || name[|r|] == '/'
  {
    if |name| == 0 || name[0] == '_' || name[0] == '/' then ""
    else [name[0]] + LabelStem(name[1..])
  }

  /** The ten fall-back symbols H..Ne, cycled by site index. */
  function Fallback(index: nat): (s: string)
    ensures IsElement(s)
    ensures s == SymbolOf(index % 10 + 1)
  {
    SymbolInTable(index % 10 + 1);
    SymbolOf(index % 10 + 1)
  }

  /** `validate_element_symbol`: the label's stem when it is an element symbol,
      otherwise the fall-back symbol for the site index. */
  function ValidateElementSymbol(name: string, index: nat): (s: string)
    ensures IsElement(s)
    ensures IsElement(LabelStem(name)) ==> s == LabelStem(name)
    ensures !IsElement(LabelStem(name)) ==> s == Fallback(index)
  {
    var stem := LabelStem(name);
    if IsElement(stem) then stem else Fallback(index)
  }
}

=== FILE: export.dfy ===
/** Structure export helpers: the download file name built from a structure's
    metadata, and the text layout of the XYZ export. The formula is the value of
    `electro_neg_formula`, which is outside this model and arrives as a field;
    number formatting with `toFixed(6)` is a parameter. */
module Export {
  import opened Wrappers
  import opened Seqs
  import opened Text
  import opened Numbers
  import opened VecMath
  import opened Crystal

  /** The `lattice` member of an export input: its matrix, if any, and its
      `lattice_system`, if any. */
  datatype LatticeInfo = LatticeInfo(matrix: Option<Mat3>, system: Option<string>)

  /** The parts of an `AnyStructure` the exporters read. */
  datatype ExportInput = ExportInput(
    id: string,
    formula: string,
    spaceGroup: Option<string>,
    lattice: Option<LatticeInfo>,
    sites: Option<seq<Site>>)

  function SiteCount(s: ExportInput): nat
  {
    if s.sites.Some? then |s.sites.value| else 0
  }

  /** The formula is shown unless it is empty or the placeholder `Unknown`. */
  predicate ShowsFormula(s: ExportInput)
  {
    s.formula != "" && s.formula != "Unknown"
  }

  function When(b: bool, part: string): seq<string>
  {
    if b then [part] else []
  }

  function LatticeSystem(s: ExportInput): Option<string>
  {
    if s.lattice.Some? then s.lattice.value.system else None
  }

  /** The name parts: id, formula, space group, lattice system and the site count,
      each only when present. */
  function NameParts(s: ExportInput): seq<string>
  {
    When(s.id != "", s.id)
    + When(ShowsFormula(s), s.formula)
    + When(s.spaceGroup.Some?, s.spaceGroup.GetOr(""))
    + When(LatticeSystem(s).Some?, LatticeSystem(s).GetOr(""))
    + When(SiteCount(s) > 0, NatToString(SiteCount(s)) + "sites")
  }

  /** `generate_structure_filename`: the parts joined by `_`, or `structure` when
      there are none, followed by `.` and the extension. */
  function GenerateFilename(s: Option<ExportInput>, ext: string): (r: string)
    ensures EndsWith(r, "." + ext)
    ensures s.None? ==> r == "structure." + ext
  {
    var base := if s.None? || |NameParts(s.value)| == 0 then "structure" else Join(NameParts(s.value), "_");
    assert (base + "." + ext)[|base|..] == "." + ext;
    base + "." + ext
  }

  /** A join starts with its first part, followed by the separator when more follow. */
  lemma JoinStarts(x: string, rest: seq<string>, sep: string)
    ensures StartsWith(Join([x] + rest, sep), if |rest| == 0 then x else x + sep)
  {
    if |rest| > 0 {
      JoinCons(x, rest, sep);
      var j := Join([x] + rest, sep);
      assert j[..|x + sep|] == x + sep;
    } else {
      assert [x] + rest == [x];
    }
  }

  /** A join ends with its last part. */
  lemma {:induction false} JoinEnds(ps: seq<string>, x: string, sep: string)
    ensures EndsWith(Join(ps + [x], sep), x)
    decreases |ps|
  {
    if |ps| == 0 {
      assert ps + [x] == [x];
    } else {
      JoinEnds(ps[1..], x, sep);
      assert ps + [x] == [ps[0]] + (ps[1..] + [x]);
      JoinCons(ps[0], ps[1..] + [x], sep);
      var t := Join(ps[1..] + [x], sep);
      var j := ps[0] + sep + t;
      assert j[|j| - |x|..] == t[|t| - |x|..];
    }
  }

  /** A name with an id starts with it, followed by `_` or by the extension's dot. */
  lemma FilenameLeadsWithId(s: ExportInput, ext: string)
    requires s.id != ""
    ensures StartsWith(GenerateFilename(Some(s), ext), s.id + "_")
         || GenerateFilename(Some(s), ext) == s.id + "." + ext
  {
    var ps := NameParts(s);
    var rest := ps[1..];
    assert ps == [s.id] + rest;
    JoinStarts(s.id, rest, "_");
    var r := GenerateFilename(Some(s), ext);
    if |rest| > 0 {
      assert r[..|s.id + "_"|] == Join(ps, "_")[..|s.id + "_"|];
    }
  }

  /** With an id and a shown formula the name starts with `<id>_<formula>`. */
  lemma FilenameIdThenFormula(s: ExportInput, ext: string)
    requires s.id != "" && ShowsFormula(s)
    ensures StartsWith(GenerateFilename(Some(s), ext), s.id + "_" + s.formula)
  {
    var ps := NameParts(s);
    var rest := ps[2..];
    assert ps == [s.id] + ([s.formula] + rest);
    JoinCons(s.id, [s.formula] + rest, "_");
    JoinStarts(s.formula, rest, "_");
    var r := GenerateFilename(Some(s), ext);
    var j := Join([s.formula] + rest, "_");
    assert r == s.id + "_" + j + "." + ext;
    assert r[..|s.id + "_" + s.formula|] == s.id + "_" + j[..|s.formula|];
  }

  /** A structure with sites ends its name with `<n>sites.<ext>`. */
  lemma FilenameEndsWithSiteCount(s: ExportInput, ext: string)
    requires SiteCount(s) > 0
    ensures EndsWith(GenerateFilename(Some(s), ext), NatToString(SiteCount(s)) + "sites" + ("." + ext))
  {
    var x := NatToString(SiteCount(s)) + "sites";
    var ps := NameParts(s);
    var front := ps[..|ps| - 1];
    assert ps == front + [x];
    JoinEnds(front, x, "_");
    EndsWithAppend(Join(ps, "_"), x, "." + ext);
    ConcatAssoc(Join(ps, "_"), ".", ext);
  }

  /** Without any metadata the name is the default one. */
  lemma FilenameDefault(s: ExportInput, ext: string)
    requires s.id == "" && !ShowsFormula(s) && s.spaceGroup.None? && LatticeSystem(s).None?
    requires SiteCount(s) == 0
    ensures GenerateFilename(Some(s), ext) == "structure." + ext
  {
  }

  /* ---------- XYZ export ---------- */

  /** The symbol written for a site: the first species' element, else `X`. */
  function SiteSymbol(site: Site): (r: string)
  {
    if |site.species| > 0 then site.species[0].element else "X"
  }

  /** The coordinates written for a site: its Cartesian position when it has three
      components, else its fractional position combined over the lattice rows when a
      lattice matrix exists, else the origin. */
  function SiteCoords(site: Site, lattice: Option<LatticeInfo>): (r: Vec3)
    ensures |site.xyz| >= 3 ==> r == Vec3(site.xyz[0], site.xyz[1], site.xyz[2])
    ensures |site.xyz| < 3 && |site.abc| >= 3 && lattice.Some? && lattice.value.matrix.Some? ==>
      r == MatVec(Transpose(lattice.value.matrix.value), Vec3(site.abc[0], site.abc[1], site.abc[2]))
    ensures |site.xyz| < 3 && !(|site.abc| >= 3 && lattice.Some? && lattice.value.matrix.Some?) ==>
      r == Vec3(0.0, 0.0, 0.0)
  {
    if |site.xyz| >= 3 then Vec3(site.xyz[0], site.xyz[1], site.xyz[2])
    else if |site.abc| >= 3 && lattice.Some? then
      match lattice.value.matrix
      case Some(m) =>
        var abc := Vec3(site.abc[0], site.abc[1], site.abc[2]);
        CombineIsTransposeProduct(abc, m);
        Combine(abc, m)
      case None => Vec3(0.0, 0.0, 0.0)
    else Vec3(0.0, 0.0, 0.0)
  }

  /** A site given only fractional coordinates is written at a position from which
      the inverse of the transposed lattice recovers those fractional coordinates. */
  lemma ExportedPositionRecoversFractional(site: Site, m: Mat3, info: LatticeInfo)
    requires |site.xyz| < 3 && |site.abc| >= 3 && info.matrix == Some(m)
    requires MatrixInverse(m).Ok?
    ensures MatrixInverse(Transpose(m)).Ok?
    ensures MatVec(MatrixInverse(Transpose(m)).value, SiteCoords(site, Some(info)))
         == Vec3(site.abc[0], site.abc[1], site.abc[2])
  {
    DetTranspose(m);
    var abc := Vec3(site.abc[0], site.abc[1], site.abc[2]);
    InverseLeftRoundTrip(Transpose(m), abc);
  }

  /** The comment line: the id and the shown formula joined by a space, else a fixed
      text. */
  function Comment(s: ExportInput): string
  {
    var parts := When(s.id != "", s.id) + When(ShowsFormula(s), s.formula);
    if |parts| > 0 then Join(parts, " ") else "Generated from structure"
  }

  /** One atom line: symbol and the three coordinates, each printed by `fixed`. */
  function SiteLine(site: Site, lattice: Option<LatticeInfo>, fixed: real -> string): string
  {
    var c := SiteCoords(site, lattice);
    SiteSymbol(site) + " " + fixed(c.x) + " " + fixed(c.y) + " " + fixed(c.z)
  }

  function XyzLines(s: ExportInput, sites: seq<Site>, fixed: real -> string): seq<string>
  {
    [NatToString(|sites|), Comment(s)] + seq(|sites|, i requires 0 <= i < |sites| => SiteLine(sites[i], s.lattice, fixed))
  }

  /** `export_xyz` without the download: nothing (an alert) when there is no structure
      or no sites, otherwise the file text and the file name. */
  function ExportXyz(s: Option<ExportInput>, fixed: real -> string): (r: Option<(string, string)>)
    ensures r.Some? <==> s.Some? && s.value.sites.Some?
  {
    if s.None? || s.value.sites.None? then None
    else Some((Join(XyzLines(s.value, s.value.sites.value, fixed), "\n"), GenerateFilename(s, "xyz")))
  }

  /** The exports are named by `GenerateFilename` with their own extension. */
  lemma ExportNames(s: ExportInput, fixed: real -> string)
    ensures ExportJsonName(Some(s)) == Some(GenerateFilename(Some(s), "json"))
    ensures EndsWith(ExportJsonName(Some(s)).value, ".json")
    ensures s.sites.Some? ==> ExportXyz(Some(s), fixed).value.1 == GenerateFilename(Some(s), "xyz")
    ensures s.sites.Some? ==> EndsWith(ExportXyz(Some(s), fixed).value.1, ".xyz")
  {
    assert "." + "json" == ".json";
    assert "." + "xyz" == ".xyz";
  }

  /** No piece of the text contains a line break. */
  ghost predicate SingleLinePieces(s: ExportInput, fixed: real -> string)
  {
    && '\n' !in s.id && '\n' !in s.formula
    && (s.sites.Some? ==> forall i :: 0 <= i < |s.sites.value| ==> '\n' !in SiteSymbol(s.sites.value[i]))
    && forall x :: '\n' !in fixed(x)
  }

  lemma NatToStringSingleLine(n: nat)
    ensures '\n' !in NatToString(n)
  {
    var r := NatToString(n);
    assert forall i :: 0 <= i < |r| ==> r[i] != '\n';
  }

  lemma {:induction false} JoinSingleLine(ps: seq<string>, sep: string)
    requires forall k :: 0 <= k < |ps| ==> '\n' !in ps[k]
    requires '\n' !in sep
    ensures '\n' !in Join(ps, sep)
    decreases |ps|
  {
    if |ps| > 1 {
      JoinSingleLine(ps[1..], sep);
    }
  }

  lemma SiteLineShape(site: Site, lattice: Option<LatticeInfo>, fixed: real -> string)
    requires '\n' !in SiteSymbol(site) && forall x :: '\n' !in fixed(x)
    ensures '\n' !in SiteLine(site, lattice, fixed)
    ensures StartsWith(SiteLine(site, lattice, fixed), SiteSymbol(site) + " ")
  {
    var c := SiteCoords(site, lattice);
    assert '\n' !in fixed(c.x) && '\n' !in fixed(c.y) && '\n' !in fixed(c.z);
    var line := SiteLine(site, lattice, fixed);
    var head := SiteSymbol(site) + " ";
    assert line[..|head|] == head;
  }

  /** The lines of the text are free of line breaks, and each atom line starts with
      its site's symbol. */
  lemma XyzLinesShape(s: ExportInput, fixed: real -> string)
    requires s.sites.Some? && SingleLinePieces(s, fixed)
    ensures var ls := XyzLines(s, s.sites.value, fixed);
      && (forall k :: 0 <= k < |ls| ==> '\n' !in ls[k])
      && forall i :: 0 <= i < |s.sites.value| ==> StartsWith(ls[i + 2], SiteSymbol(s.sites.value[i]) + " ")
  {
    var sites := s.sites.value;
    var ls := XyzLines(s, sites, fixed);
    NatToStringSingleLine(|sites|);
    JoinSingleLine(When(s.id != "", s.id) + When(ShowsFormula(s), s.formula), " ");
    forall i | 0 <= i < |sites|
      ensures '\n' !in ls[i + 2]
      ensures StartsWith(ls[i + 2], SiteSymbol(sites[i]) + " ")
    {
      SiteLineShape(sites[i], s.lattice, fixed);
    }
    assert forall k :: 2 <= k < |ls| ==> ls[k] == ls[(k - 2) + 2];
  }

  /** The exported text has `n + 2` lines: the atom count, the comment, and one line per
      site giving its symbol first. */
  lemma ExportXyzLayout(s: ExportInput, fixed: real -> string)
    requires s.sites.Some? && SingleLinePieces(s, fixed)
    ensures var text := ExportXyz(Some(s), fixed).value.0;
      var lines := Split(text, '\n');
      && |lines| == SiteCount(s) + 2
      && lines[0] == NatToString(SiteCount(s))
      && lines[1] == Comment(s)
      && forall i :: 0 <= i < SiteCount(s) ==>
           lines[i + 2] == SiteLine(s.sites.value[i], s.lattice, fixed)
           && StartsWith(lines[i + 2], SiteSymbol(s.sites.value[i]) + " ")
  {
    var ls := XyzLines(s, s.sites.value, fixed);
    XyzLinesShape(s, fixed);
    SplitJoin(ls, '\n');
  }

  /** `export_json` without the download: the file name, or nothing (an alert) when
      there is no structure. */
  function ExportJsonName(s: Option<ExportInput>): (r: Option<string>)
    ensures r.Some? <==> s.Some?
  {
    if s.None? then None else Some(GenerateFilename(s, "json"))
  }
}

=== FILE: jsobject.dfy ===
/** Plain JavaScript objects used as dictionaries (`Record<string, V>`): property
    names with values in insertion order, which is the order `Object.entries`,
    `Object.keys` and `for … in` report for non-integer names. */
module JsObject {
  import opened Wrappers

  type Obj<V> = seq<(string, V)>

  function Keys<V>(o: Obj<V>): (ks: seq<string>)
    ensures |ks| == |o| && forall i :: 0 <= i < |o| ==> ks[i] == o[i].0
  {
    seq(|o|, i requires 0 <= i < |o| => o[i].0)
  }

  function Values<V>(o: Obj<V>): (vs: seq<V>)
    ensures |vs| == |o| && forall i :: 0 <= i < |o| ==> vs[i] == o[i].1
  {
    seq(|o|, i requires 0 <= i < |o| => o[i].1)
  }

  /** No property name occurs twice, as in every real object. */
  predicate Distinct<V>(o: Obj<V>)
  {
    forall i, j :: 0 <= i < j < |o| ==> o[i].0 != o[j].0
  }

  predicate Has<V>(o: Obj<V>, k: string)
  {
    exists i :: 0 <= i < |o| && o[i].0 == k
  }

  /** The tail of an object with distinct names is one too, and lacks the head's name. */
  lemma DistinctTail<V>(o: Obj<V>)
    requires Distinct(o) && |o| > 0
    ensures Distinct(o[1..]) && !Has(o[1..], o[0].0)
    ensures forall x :: x in o[1..] ==> x.0 != o[0].0
  {
    assert forall i :: 0 <= i < |o| - 1 ==> o[1..][i] == o[i + 1];
  }

  /** `o[k]`, `None` standing for `undefined`. */
  function Get<V>(o: Obj<V>, k: string): (r: Option<V>)
    ensures r.Some? <==> Has(o, k)
  {
    if |o| == 0 then None
    else if o[0].0 == k then Some(o[0].1)
    else
      HasTail(o, k);
      Get(o[1..], k)
  }

  /** `o[k] = v` */
  function Put<V>(o: Obj<V>, k: string, v: V): Obj<V>
  {
    if |o| == 0 then [(k, v)]
    else if o[0].0 == k then [(k, v)] + o[1..]
    else [o[0]] + Put(o[1..], k, v)
  }

  lemma HasTail<V>(o: Obj<V>, k: string)
    requires |o| > 0
    ensures Has(o, k) <==> o[0].0 == k || Has(o[1..], k)
  {
    if Has(o, k) {
      var i :| 0 <= i < |o| && o[i].0 == k;
      if i > 0 { assert o[1..][i - 1].0 == k; }
    }
    if Has(o[1..], k) {
      var i :| 0 <= i < |o[1..]| && o[1..][i].0 == k;
      assert o[i + 1].0 == k;
    }
  }

  /** An existing property keeps its position; a new one is appended. */
  lemma {:induction false} PutKeys<V>(o: Obj<V>, k: string, v: V)
    ensures Keys(Put(o, k, v)) == if Has(o, k) then Keys(o) else Keys(o) + [k]
  {
    if |o| > 0 && o[0].0 != k {
      PutKeys(o[1..], k, v);
      HasTail(o, k);
      assert Keys([o[0]] + Put(o[1..], k, v)) == [o[0].0] + Keys(Put(o[1..], k, v));
      assert Keys(o) == [o[0].0] + Keys(o[1..]);
    } else if |o| > 0 {
      assert Has(o, k) by { assert o[0].0 == k; }
      assert Keys([(k, v)] + o[1..]) == [k] + Keys(o[1..]);
      assert Keys(o) == [o[0].0] + Keys(o[1..]);
    }
  }

  /** Reading after writing sees the written value and nothing else changes. */
  lemma {:induction false} GetPut<V>(o: Obj<V>, k: string, v: V, k': string)
    ensures Get(Put(o, k, v), k') == if k == k' then Some(v) else Get(o, k')
  {
    if |o| > 0 && o[0].0 != k {
      GetPut(o[1..], k, v, k');
    }
  }

  /** Writing keeps property names distinct. */
  lemma PutDistinct<V>(o: Obj<V>, k: string, v: V)
    requires Distinct(o)
    ensures Distinct(Put(o, k, v))
  {
    var r := Put(o, k, v);
    PutKeys(o, k, v);
    assert forall i :: 0 <= i < |r| ==> r[i].0 == Keys(r)[i];
    if !Has(o, k) {
      assert forall i :: 0 <= i < |o| ==> o[i].0 != k;
    }
  }

  /** Writing a new name appends it. */
  lemma {:induction false} PutFresh<V>(o: Obj<V>, k: string, v: V)
    requires !Has(o, k)
    ensures Put(o, k, v) == o + [(k, v)]
  {
    if |o| > 0 {
      PutFresh(o[1..], k, v);
      assert o == [o[0]] + o[1..];
    }
  }

  /** A name is present after appending an entry iff it was present or is the
      appended name. */
  lemma HasAppend<V>(o: Obj<V>, k: string, v: V, k': string)
    ensures Has(o + [(k, v)], k') <==> Has(o, k') || k == k'
  {
    var o' := o + [(k, v)];
    if Has(o, k') {
      var i :| 0 <= i < |o| && o[i].0 == k';
      assert o'[i].0 == k';
    }
    if k == k' {
      assert o'[|o|].0 == k';
    }
    if Has(o', k') {
      var i :| 0 <= i < |o'| && o'[i].0 == k';
      if i < |o| { assert o[i].0 == k'; }
    }
  }

  /** Every entry after a write is the written one or an entry that was there. */
  lemma {:induction false} PutEntries<V>(o: Obj<V>, k: string, v: V)
    ensures forall i :: 0 <= i < |Put(o, k, v)| ==> Put(o, k, v)[i] == (k, v) || Put(o, k, v)[i] in o
  {
    if |o| > 0 && o[0].0 != k {
      PutEntries(o[1..], k, v);
      var r := Put(o, k, v);
      forall i | 0 <= i < |r| ensures r[i] == (k, v) || r[i] in o {
        if i > 0 {
          assert r[i] == Put(o[1..], k, v)[i - 1];
          assert Put(o[1..], k, v)[i - 1] in o[1..] ==> r[i] in o;
        }
      }
    } else if |o| > 0 {
      var r := Put(o, k, v);
      forall i | 0 <= i < |r| ensures r[i] == (k, v) || r[i] in o {
        if i > 0 { assert r[i] == o[i]; }
      }
    }
  }

  /** A value read is the value of an entry with that name. */
  lemma {:induction false} GetEntry<V>(o: Obj<V>, k: string)
    requires Has(o, k)
    ensures (k, Get(o, k).value) in o
  {
    if o[0].0 != k {
      HasTail(o, k);
      GetEntry(o[1..], k);
    }
  }
}

=== FILE: notebook.dfy ===
/** The Python notebook wrapper: turning the objects a user hands to the structure
    and trajectory widgets into the dictionaries the front end draws, and the widgets'
    small pieces of state (the current step, view options). The third-party objects
    (ASE atoms, pymatgen structures, phonopy atoms) appear as records of what their
    accessors return. */
module Notebook {
  import opened Wrappers
  import opened Numbers
  import opened VecMath

  /** A JSON-shaped Python value, as the widgets' traitlets hold it. */
  datatype Value =
    | Null
    | Bool(b: bool)
    | Num(x: real)
    | Str(s: string)
    | List(items: seq<Value>)
    | Dict(entries: map<string, Value>)

  /** What ASE's accessors report for one atom: `get_chemical_symbols()[i]`,
      `get_positions()[i]` and `get_scaled_positions()[i]`. */
  datatype AseAtom = AseAtom(symbol: string, position: Vec3, scaled: Vec3)

  /** An ASE `Atoms` object. `forces` is `None` when `get_forces` fails or returns
      nothing; `calcMetadata` stands for what `_extract_ase_metadata` gathers. */
  datatype AseAtoms = AseAtoms(
    atoms: seq<AseAtom>,
    forces: Option<seq<Vec3>>,
    cell: Mat3,
    volume: real,
    lengths: Vec3,
    angles: Vec3,
    calcMetadata: map<string, Value>)

  /** A phonopy `Atoms` object: symbols, fractional positions and the cell. */
  datatype PhonopyAtoms = PhonopyAtoms(
    symbols: seq<string>,
    scaled: seq<Vec3>,
    cell: Mat3,
    lengths: Vec3,
    angles: Vec3,
    volume: real)

  /** The objects the widgets accept. `Sequence` is a list or a tuple; `Opaque` is
      anything else, with the result of `json.loads(json.dumps(obj, default=str))`,
      `None` when that raises. A phonopy object carries `text`, its `str()`, which is
      what that JSON round trip makes of it. A library that cannot be imported makes its probe
      false, which is the same as the object being `Opaque`. */
  datatype PyObject =
    | PyNone
    | PyDict(entries: map<string, Value>)
    | Sequence(items: seq<PyObject>)
    | Ase(ase: AseAtoms)
    | Pymatgen(asDict: map<string, Value>, properties: map<string, Value>)
    | Phonopy(phonopy: PhonopyAtoms, text: string)
    | Opaque(json: Option<Value>)

  /** `is_trajectory_like`: a non-empty list or tuple of ASE atoms, pymatgen structures
      or dicts. */
  predicate IsTrajectoryLike(obj: PyObject)
  {
    obj.Sequence? && |obj.items| > 0 &&
    forall k :: 0 <= k < |obj.items| ==> StructureLike(obj.items[k])
  }

  predicate StructureLike(obj: PyObject)
  {
    obj.Ase? || obj.Pymatgen? || obj.PyDict?
  }

  /** A mixed list, one of whose items is something else, is no trajectory. */
  lemma MixedListNotTrajectory(items: seq<PyObject>, k: nat)
    requires k < |items| && !StructureLike(items[k])
    ensures !IsTrajectoryLike(Sequence(items))
  {
  }

  /** The `*_formatter` guards: the object to render when the probe accepts it. */
  function TrajectoryFormatter(obj: PyObject): (r: Option<PyObject>)
    ensures r.Some? <==> IsTrajectoryLike(obj)
    ensures r.Some? ==> r.value == obj
  {
    if IsTrajectoryLike(obj) then Some(obj) else None
  }

  function StructureFormatter(obj: PyObject): (r: Option<PyObject>)
    ensures r.Some? <==> obj.Ase? || obj.Pymatgen? || obj.Phonopy?
    ensures r.Some? ==> r.value == obj
  {
    if obj.Ase? || obj.Pymatgen? || obj.Phonopy? then Some(obj) else None
  }

  function VecValue(v: Vec3): Value
  {
    List([Num(v.x), Num(v.y), Num(v.z)])
  }

  function MatValue(m: Mat3): Value
  {
    List([VecValue(m.r0), VecValue(m.r1), VecValue(m.r2)])
  }

  function LatticeValue(m: Mat3, lengths: Vec3, angles: Vec3, volume: real): Value
  {
    Dict(map["matrix" := MatValue(m), "a" := Num(lengths.x), "b" := Num(lengths.y), "c" := Num(lengths.z),
             "alpha" := Num(angles.x), "beta" := Num(angles.y), "gamma" := Num(angles.z),
             "volume" := Num(volume)])
  }

  /** A site dictionary: one species at occupancy 1.0, and the label
      `symbol + str(i)` (counting from 0). */
  function SiteValue(symbol: string, i: nat, abc: Vec3, xyz: Vec3, properties: map<string, Value>): (r: Value)
    ensures r.Dict? && "label" in r.entries && "species" in r.entries && "abc" in r.entries && "xyz" in r.entries
    ensures r.entries["label"] == Str(symbol + NatToString(i))
    ensures r.entries["species"] == List([Dict(map["element" := Str(symbol), "occu" := Num(1.0)])])
    ensures r.entries["abc"] == VecValue(abc) && r.entries["xyz"] == VecValue(xyz)
    ensures "properties" in r.entries && r.entries["properties"] == Dict(properties)
  {
    Dict(map["species" := List([Dict(map["element" := Str(symbol), "occu" := Num(1.0)])]),
             "abc" := VecValue(abc), "xyz" := VecValue(xyz),
             "label" := Str(symbol + NatToString(i)), "properties" := Dict(properties)])
  }

  /** Site `i` of an ASE structure: it keeps the atom's symbol and position; its
      `abc` is the fractional position when the cell has a volume and the Cartesian
      one otherwise; it carries a force exactly when the force list reaches it. */
  function AseSite(a: AseAtoms, i: nat): (r: Value)
    requires i < |a.atoms|
    ensures r.Dict? && "label" in r.entries && "abc" in r.entries && "xyz" in r.entries && "properties" in r.entries
    ensures r.entries["label"] == Str(a.atoms[i].symbol + NatToString(i))
    ensures r.entries["xyz"] == VecValue(a.atoms[i].position)
    ensures r.entries["abc"] == VecValue(if a.volume > 0.0 then a.atoms[i].scaled else a.atoms[i].position)
    ensures r.entries["properties"].Dict?
    ensures "force" in r.entries["properties"].entries <==> a.forces.Some? && |a.forces.value| > i
  {
    var atom := a.atoms[i];
    var abc := if a.volume > 0.0 then atom.scaled else atom.position;
    var props := if a.forces.Some? && |a.forces.value| > i then map["force" := VecValue(a.forces.value[i])] else map[];
    SiteValue(atom.symbol, i, abc, atom.position, props)
  }

  /** `_ase_to_dict` */
  function AseToDict(a: AseAtoms): (r: map<string, Value>)
    ensures "sites" in r && r["sites"].List? && |r["sites"].items| == |a.atoms|
    ensures forall i :: 0 <= i < |a.atoms| ==> r["sites"].items[i] == AseSite(a, i)
    ensures "charge" in r && r["charge"] == Num(0.0)
    ensures "lattice" in r <==> a.volume > 0.0
  {
    var sites := List(seq(|a.atoms|, i requires 0 <= i < |a.atoms| => AseSite(a, i)));
    var base := map["sites" := sites, "charge" := Num(0.0)];
    if a.volume > 0.0 then base["lattice" := LatticeValue(a.cell, a.lengths, a.angles, a.volume)]
    else base
  }

  /** `_phonopy_to_dict`: one site per (symbol, fractional position) pair, the
      Cartesian position being the fractional one over the cell rows (`cell.T @ frac`),
      and always a lattice. */
  function PhonopyToDict(p: PhonopyAtoms): (r: map<string, Value>)
    ensures "sites" in r && r["sites"].List?
    ensures |r["sites"].items| == if |p.symbols| < |p.scaled| then |p.symbols| else |p.scaled|
    ensures "lattice" in r && "charge" in r && r["charge"] == Num(0.0)
  {
    var n := if |p.symbols| < |p.scaled| then |p.symbols| else |p.scaled|;
    var sites := List(seq(n, i requires 0 <= i < n =>
      SiteValue(p.symbols[i], i, p.scaled[i], Combine(p.scaled[i], p.cell), map[])));
    map["sites" := sites, "charge" := Num(0.0),
        "lattice" := LatticeValue(p.cell, p.lengths, p.angles, p.volume)]
  }

  /** A phonopy site's position is its fractional coordinates over the cell's rows. */
  lemma PhonopyPositions(p: PhonopyAtoms, i: nat)
    requires i < |p.symbols| && i < |p.scaled|
    ensures var s := PhonopyToDict(p)["sites"].items[i];
            s.Dict? && s.entries["xyz"] == VecValue(MatVec(Transpose(p.cell), p.scaled[i]))
  {
    CombineIsTransposeProduct(p.scaled[i], p.cell);
  }

  const UnsupportedStructure: string := "Unsupported structure type"

  /** `StructureWidget._normalize_structure`: `None` stays `None`, a dict is kept as it
      is, ASE, pymatgen and phonopy objects are converted in that order, and anything
      else goes through a JSON round trip or is rejected. A list is not a structure. */
  function NormalizeStructure(obj: PyObject): (r: Result<Option<Value>>)
    ensures obj.PyNone? ==> r == Ok(None)
    ensures obj.PyDict? ==> r == Ok(Some(Dict(obj.entries)))
    ensures obj.Pymatgen? ==> r == Ok(Some(Dict(obj.asDict)))
    ensures r.Err? <==> obj.Sequence? || (obj.Opaque? && obj.json.None?)
  {
    match obj
    case PyNone => Ok(None)
    case PyDict(e) => Ok(Some(Dict(e)))
    case Ase(a) => Ok(Some(Dict(AseToDict(a))))
    case Pymatgen(d, _) => Ok(Some(Dict(d)))
    case Phonopy(p, _) => Ok(Some(Dict(PhonopyToDict(p))))
    case Opaque(j) => if j.Some? then Ok(j) else Err(UnsupportedStructure)
    case Sequence(_) => Err(UnsupportedStructure)
  }

  /** Normalising a normalised structure changes nothing. */
  lemma NormalizeStructureIdempotent(obj: PyObject)
    requires NormalizeStructure(obj).Ok? && NormalizeStructure(obj).value.Some?
    requires NormalizeStructure(obj).value.value.Dict?
    ensures NormalizeStructure(PyDict(NormalizeStructure(obj).value.value.entries)) == NormalizeStructure(obj)
  {
  }

  /** `TrajectoryWidget._normalize_structure`: as above, but `None` is an error. */
  function FrameStructure(obj: PyObject): (r: Result<Value>)
    ensures r.Err? <==> NormalizeStructure(obj).Err? || NormalizeStructure(obj) == Ok(None)
    ensures r.Ok? ==> NormalizeStructure(obj) == Ok(Some(r.value))
  {
    var s :- NormalizeStructure(obj);
    if s.None? then Err("Could not normalize structure") else Ok(s.value)
  }

  /** Extra frame metadata: the calculator data of ASE atoms, the `properties` of a
      pymatgen structure (when not empty). */
  function ExtraMetadata(obj: PyObject): map<string, Value>
  {
    match obj
    case Ase(a) => a.calcMetadata
    case Pymatgen(_, p) => p
    case _ => map[]
  }

  /** Frame `i`: the structure and `{step: i, frame_idx: i}` updated by the extra
      metadata, which wins on a shared key. */
  function FrameValue(obj: PyObject, i: nat): (r: Result<Value>)
    ensures r.Err? <==> FrameStructure(obj).Err?
    ensures r.Ok? ==> r.value.Dict? && "metadata" in r.value.entries && r.value.entries["metadata"].Dict?
    ensures r.Ok? ==> "structure" in r.value.entries && r.value.entries["structure"] == FrameStructure(obj).value
  {
    var s :- FrameStructure(obj);
    var meta := map["step" := Num(i as real), "frame_idx" := Num(i as real)] + ExtraMetadata(obj);
    Ok(Dict(map["structure" := s, "metadata" := Dict(meta)]))
  }

  function FramesFrom(items: seq<PyObject>, i: nat): (r: Result<seq<Value>>)
    requires i <= |items|
    ensures r.Ok? ==> |r.value| == |items| - i
    ensures r.Ok? ==> forall k :: 0 <= k < |r.value| ==> FrameValue(items[i + k], i + k) == Ok(r.value[k])
    decreases |items| - i
  {
    if i == |items| then Ok([])
    else
      var f :- FrameValue(items[i], i);
      var rest :- FramesFrom(items, i + 1);
      Ok([f] + rest)
  }

  /** The frames fail exactly when one of the items does not normalise. */
  lemma {:induction false} FramesFromFail(items: seq<PyObject>, i: nat)
    requires i <= |items|
    ensures FramesFrom(items, i).Err? <==> exists k :: i <= k < |items| && FrameStructure(items[k]).Err?
    decreases |items| - i
  {
    if i < |items| {
      FramesFromFail(items, i + 1);
      if FrameStructure(items[i]).Err? {
        assert FramesFrom(items, i).Err?;
      } else if FramesFrom(items, i + 1).Err? {
        var k :| i + 1 <= k < |items| && FrameStructure(items[k]).Err?;
        assert FramesFrom(items, i).Err?;
      } else {
        assert FramesFrom(items, i).Ok?;
        forall k | i <= k < |items| ensures FrameStructure(items[k]).Ok? {
          if k > i {
            assert i + 1 <= k < |items|;
          }
        }
      }
    }
  }

  const EmptyList: string := "Empty structure list provided"

  /** `_list_to_trajectory_dict` */
  function ListToTrajectory(items: seq<PyObject>): (r: Result<map<string, Value>>)
    ensures |items| == 0 ==> r == Err(EmptyList)
    ensures r.Ok? ==> "frames" in r.value && r.value["frames"].List? && |r.value["frames"].items| == |items|
    ensures r.Ok? ==> "metadata" in r.value && r.value["metadata"] == Dict(map[])
  {
    if |items| == 0 then Err(EmptyList)
    else
      var frames :- FramesFrom(items, 0);
      Ok(map["frames" := List(frames), "metadata" := Dict(map[])])
  }

  /** Frame `i` holds item `i`'s structure and, unless the item's own metadata says
      otherwise, step `i` and frame index `i`. */
  lemma ListFrameNumbering(items: seq<PyObject>, i: nat)
    requires ListToTrajectory(items).Ok? && i < |items|
    ensures var f := ListToTrajectory(items).value["frames"].items[i];
            && f.Dict?
            && f.entries["structure"] == FrameStructure(items[i]).value
            && ("step" !in ExtraMetadata(items[i]) ==> f.entries["metadata"].entries["step"] == Num(i as real))
            && ("frame_idx" !in ExtraMetadata(items[i]) ==> f.entries["metadata"].entries["frame_idx"] == Num(i as real))
  {
    var fr := FramesFrom(items, 0);
    assert FrameValue(items[i], i) == Ok(fr.value[i]);
  }

  /** A non-empty list fails only when one of its items does not normalise. */
  lemma ListToTrajectoryFails(items: seq<PyObject>)
    requires |items| > 0
    ensures ListToTrajectory(items).Err? <==> exists k :: 0 <= k < |items| && FrameStructure(items[k]).Err?
  {
    FramesFromFail(items, 0);
  }

  const UnsupportedTrajectory: string := "Unsupported trajectory type"

  /** `_normalize_trajectory`: `None` stays `None`; a dict with `frames` is kept; a
      list or tuple becomes one frame per item; a single ASE or pymatgen object
      becomes one frame; anything else goes through a JSON round trip or is rejected.
      A dict without `frames` is JSON already and comes back as it is. No probe
      recognises a phonopy object here, so `default=str` turns it into its text. */
  function NormalizeTrajectory(obj: PyObject): (r: Result<Option<Value>>)
    ensures obj.PyNone? ==> r == Ok(None)
    ensures obj.PyDict? ==> r == Ok(Some(Dict(obj.entries)))
    ensures obj.Sequence? ==> r == MapOk(ListToTrajectory(obj.items))
    ensures obj.Ase? || obj.Pymatgen? ==> r == MapOk(ListToTrajectory([obj]))
    ensures obj.Opaque? ==> (r.Err? <==> obj.json.None?)
    ensures r.Ok? && r.value.Some? ==> !r.value.value.Null?
    ensures obj.Phonopy? ==> r == Ok(Some(Str(obj.text)))
  {
    match obj
    case PyNone => Ok(None)
    case PyDict(e) => Ok(Some(Dict(e)))
    case Sequence(items) => MapOk(ListToTrajectory(items))
    case Ase(_) => MapOk(ListToTrajectory([obj]))
    case Pymatgen(_, _) => MapOk(ListToTrajectory([obj]))
    case Phonopy(_, text) => Ok(Some(Str(text)))
    case Opaque(j) =>
      if j.None? then Err(UnsupportedTrajectory)
      else if j.value.Null? then Ok(None)
      else Ok(j)
  }

  function MapOk(r: Result<map<string, Value>>): Result<Option<Value>>
  {
    match r
    case Ok(m) => Ok(Some(Dict(m)))
    case Err(e) => Err(e)
  }

  /** Everything the trajectory formatter accepts becomes a trajectory with one frame
      per item: ASE atoms, pymatgen structures and dicts always normalise. */
  lemma TrajectoryLikeNormalizes(obj: PyObject)
    requires IsTrajectoryLike(obj)
    ensures NormalizeTrajectory(obj).Ok?
    ensures NormalizeTrajectory(obj).value.Some? && NormalizeTrajectory(obj).value.value.Dict?
    ensures var t := NormalizeTrajectory(obj).value.value.entries;
            "frames" in t && t["frames"].List? && |t["frames"].items| == |obj.items|
  {
    forall k | 0 <= k < |obj.items|
      ensures FrameStructure(obj.items[k]).Ok?
    {
      assert StructureLike(obj.items[k]);
    }
    ListToTrajectoryFails(obj.items);
  }

  /** A normalised trajectory normalises to itself. */
  lemma NormalizeTrajectoryIdempotent(obj: PyObject)
    requires NormalizeTrajectory(obj).Ok? && NormalizeTrajectory(obj).value.Some?
    requires NormalizeTrajectory(obj).value.value.Dict?
    ensures NormalizeTrajectory(PyDict(NormalizeTrajectory(obj).value.value.entries)) == NormalizeTrajectory(obj)
  {
  }

  /** The trajectory widget's state: the trajectory dict (or `None`) and the step. */
  datatype TrajectoryWidget = TrajectoryWidget(trajectory: Option<map<string, Value>>, currentStep: int)

  /** `len(trajectory["frames"])` when the trajectory is a non-empty dict with a
      `frames` list; `len` of a string or dict works alike. `None` when `frames` has no
      length, where Python raises `TypeError`. */
  function FramesLength(t: Option<map<string, Value>>): (r: Option<nat>)
  {
    if t.None? || |t.value| == 0 || "frames" !in t.value then Some(0)
    else
      match t.value["frames"]
      case List(items) => Some(|items|)
      case Str(s) => Some(|s|)
      case Dict(e) => Some(|e|)
      case _ => None
  }

  predicate HasFrames(t: Option<map<string, Value>>)
  {
    t.Some? && |t.value| > 0 && "frames" in t.value
  }

  /** `num_frames` */
  function NumFrames(w: TrajectoryWidget): (r: Result<nat>)
    ensures !HasFrames(w.trajectory) ==> r == Ok(0)
    ensures HasFrames(w.trajectory) && w.trajectory.value["frames"].List? ==>
              r == Ok(|w.trajectory.value["frames"].items|)
  {
    match FramesLength(w.trajectory)
    case Some(n) => Ok(n)
    case None => Err("TypeError: object has no len()")
  }

  /** `set_step`: clamped to `[0, frames - 1]`, and 0 without frames. */
  function SetStep(w: TrajectoryWidget, idx: int): (r: Result<TrajectoryWidget>)
    ensures r.Ok? <==> NumFrames(w).Ok?
    ensures r.Ok? ==> r.value.trajectory == w.trajectory && r.value.currentStep >= 0
    ensures r.Ok? && NumFrames(w).value > 0 ==> r.value.currentStep < NumFrames(w).value
    ensures r.Ok? && 0 <= idx < NumFrames(w).value ==> r.value.currentStep == idx
    ensures r.Ok? && NumFrames(w).value == 0 ==> r.value.currentStep == 0
    ensures r.Ok? && idx < 0 ==> r.value.currentStep == 0
  {
    if !HasFrames(w.trajectory) then Ok(w.(currentStep := 0))
    else
      var n :- NumFrames(w);
      var maxStep := n - 1;
      var clamped := if idx < maxStep then idx else maxStep;
      Ok(w.(currentStep := if 0 < clamped then clamped else 0))
  }

  /** Setting the same step twice is setting it once. */
  lemma SetStepIdempotent(w: TrajectoryWidget, idx: int)
    requires SetStep(w, idx).Ok?
    ensures SetStep(SetStep(w, idx).value, idx) == SetStep(w, idx)
  {
  }

  /** Steps past the last frame land on the last frame. */
  lemma SetStepPastEnd(w: TrajectoryWidget, idx: int)
    requires SetStep(w, idx).Ok? && NumFrames(w).value > 0 && idx >= NumFrames(w).value
    ensures SetStep(w, idx).value.currentStep == NumFrames(w).value - 1
  {
  }

  /** `current_structure`: `None` unless the step lies in `[0, len(frames))`; then the
      current frame's `structure` entry, `None` when the frame has no such key. A
      `frames` value without a length raises `TypeError`; a frame that is not a dict
      has no `get`, and a dict of frames has no integer keys. */
  function CurrentStructure(w: TrajectoryWidget): (r: Result<Option<Value>>)
    ensures !HasFrames(w.trajectory) ==> r == Ok(None)
    ensures HasFrames(w.trajectory) ==> (NumFrames(w).Err? ==> r.Err?)
    ensures NumFrames(w).Ok? && !(0 <= w.currentStep < NumFrames(w).value) ==> r == Ok(None)
    ensures r.Ok? && r.value.Some? ==>
              HasFrames(w.trajectory) && w.trajectory.value["frames"].List? &&
              0 <= w.currentStep < |w.trajectory.value["frames"].items| &&
              FrameEntry(w.trajectory.value["frames"].items[w.currentStep], "structure") == Some(r.value.value)
    ensures HasFrames(w.trajectory) && w.trajectory.value["frames"].List? &&
            0 <= w.currentStep < |w.trajectory.value["frames"].items| ==>
              (r.Ok? <==> w.trajectory.value["frames"].items[w.currentStep].Dict?)
  {
    if !HasFrames(w.trajectory) then Ok(None)
    else
      match FramesLength(w.trajectory)
      case None => Err("TypeError: object has no len()")
      case Some(n) =>
        if !(0 <= w.currentStep < n) then Ok(None)
        else
          match w.trajectory.value["frames"]
          case List(items) =>
            (match items[w.currentStep]
             case Dict(e) => Ok(if "structure" in e then Some(e["structure"]) else None)
             case _ => Err("AttributeError: frame has no get"))
          case Str(_) => Err("AttributeError: 'str' object has no attribute 'get'")
          case _ => Err("KeyError: frames are keyed by strings")
  }

  /** The entry `key` of a frame that is a dict. */
  function FrameEntry(frame: Value, key: string): Option<Value>
  {
    if frame.Dict? && key in frame.entries then Some(frame.entries[key]) else None
  }

  /** `update_trajectory`: the new trajectory, normalised, and the first step. The
      `trajectory` trait is `Dict(allow_none=True)`, so a normalised value that is
      neither a dict nor `None` raises `TraitError`. */
  function UpdateTrajectory(w: TrajectoryWidget, obj: PyObject): (r: Result<TrajectoryWidget>)
    ensures r.Ok? <==> NormalizeTrajectory(obj).Ok? &&
                       (NormalizeTrajectory(obj).value.None? || NormalizeTrajectory(obj).value.value.Dict?)
    ensures r.Ok? ==> r.value.currentStep == 0
    ensures r.Ok? ==> (r.value.trajectory.Some? <==> NormalizeTrajectory(obj).value.Some?)
    ensures r.Ok? && r.value.trajectory.Some? ==> NormalizeTrajectory(obj).value.value == Dict(r.value.trajectory.value)
  {
    var t :- NormalizeTrajectory(obj);
    match t
    case None => Ok(TrajectoryWidget(None, 0))
    case Some(Dict(e)) => Ok(TrajectoryWidget(Some(e), 0))
    case Some(_) => Err("TraitError: the trajectory trait must be a dict or None")
  }

  /** A phonopy object normalises to its text, which the trait then rejects. */
  lemma PhonopyTrajectoryRejected(w: TrajectoryWidget, p: PhonopyAtoms, text: string)
    ensures NormalizeTrajectory(Phonopy(p, text)).Ok?
    ensures UpdateTrajectory(w, Phonopy(p, text)).Err?
  {
  }

  /** A widget at step 0 of a trajectory built from a list shows the first item. */
  lemma FirstFrameShown(items: seq<PyObject>)
    requires ListToTrajectory(items).Ok?
    ensures CurrentStructure(TrajectoryWidget(Some(ListToTrajectory(items).value), 0))
            == Ok(Some(FrameStructure(items[0]).value))
  {
    var t := ListToTrajectory(items).value;
    ListFrameNumbering(items, 0);
    assert t != map[] by { assert "frames" in t; }
    assert HasFrames(Some(t));
    var f := t["frames"].items[0];
    assert "structure" in f.entries;
  }

  /** After loading a list of structures the widget shows the first one. */
  lemma UpdateShowsFirstStructure(w: TrajectoryWidget, items: seq<PyObject>)
    requires UpdateTrajectory(w, Sequence(items)).Ok?
    ensures CurrentStructure(UpdateTrajectory(w, Sequence(items)).value) == Ok(Some(FrameStructure(items[0]).value))
  {
    var t := ListToTrajectory(items).value;
    assert NormalizeTrajectory(Sequence(items)) == Ok(Some(Dict(t)));
    assert UpdateTrajectory(w, Sequence(items)) == Ok(TrajectoryWidget(Some(t), 0));
    FirstFrameShown(items);
  }

  /* ---------- set_view_options ---------- */

  /** No key occurs twice: what Python guarantees of a call's keyword arguments. */
  predicate DistinctKeys<V>(ps: seq<(string, V)>)
  {
    forall i, j :: 0 <= i < j < |ps| ==> ps[i].0 != ps[j].0
  }

  predicate HasKey(ps: seq<(string, Value)>, k: string)
  {
    exists i :: 0 <= i < |ps| && ps[i].0 == k
  }

  /** The named options that were given (not `None`), in signature order: the first
      part of the `updates` dict. */
  function Given(named: seq<(string, Option<Value>)>): (r: seq<(string, Value)>)
    ensures forall p :: p in r <==> exists j :: 0 <= j < |named| && named[j].1.Some? && p == (named[j].0, named[j].1.value)
    ensures DistinctKeys(named) ==> DistinctKeys(r)
  {
    if |named| == 0 then []
    else
      var rest := Given(named[1..]);
      assert forall j :: 1 <= j < |named| ==> named[j] == named[1..][j - 1];
      assert forall j :: 0 <= j < |named[1..]| ==> named[1..][j] == named[j + 1];
      if named[0].1.Some? then
        var r := [(named[0].0, named[0].1.value)] + rest;
        assert DistinctKeys(named) ==> DistinctKeys(r) by {
          if DistinctKeys(named) {
            forall i | 0 < i < |r| ensures r[i].0 != r[0].0 {
              assert r[i] in rest;
            }
          }
        }
        r
      else rest
  }

  /** The index of the first pair whose key the widget has and whose value the trait
      rejects, or `|ps|` when there is none. */
  function FirstRejected(attrs: map<string, Value>, ps: seq<(string, Value)>, accepts: (string, Value) -> bool): (j: nat)
    ensures j <= |ps|
    ensures forall i :: 0 <= i < j && ps[i].0 in attrs ==> accepts(ps[i].0, ps[i].1)
    ensures j < |ps| ==> ps[j].0 in attrs && !accepts(ps[j].0, ps[j].1)
  {
    if |ps| == 0 then 0
    else if ps[0].0 in attrs && !accepts(ps[0].0, ps[0].1) then 0
    else 1 + FirstRejected(attrs, ps[1..], accepts)
  }

  /** The result of `set_view_options`: the attributes after the loop, and the
      `TraitError` that stopped it. Assignments made before the error stay made. */
  datatype ViewUpdate = ViewUpdate(attrs: map<string, Value>, error: Option<string>)

  /** The `setattr` loop over the pairs in order: keys the widget lacks are skipped;
      a value the trait rejects (`accepts` is the trait's validation) raises
      `TraitError` and ends the loop. */
  function ApplyUpdates(attrs: map<string, Value>, ps: seq<(string, Value)>, accepts: (string, Value) -> bool): (r: ViewUpdate)
    requires DistinctKeys(ps)
    ensures r.attrs.Keys == attrs.Keys
    ensures var j := FirstRejected(attrs, ps, accepts);
            && (r.error.Some? <==> j < |ps|)
            && (forall i :: 0 <= i < j && ps[i].0 in attrs ==> r.attrs[ps[i].0] == ps[i].1)
            && (forall i :: j <= i < |ps| && ps[i].0 in attrs ==> r.attrs[ps[i].0] == attrs[ps[i].0])
    ensures forall k :: k in attrs && !HasKey(ps, k) ==> r.attrs[k] == attrs[k]
  {
    if |ps| == 0 then ViewUpdate(attrs, None)
    else
      var k := ps[0].0;
      if k in attrs && !accepts(k, ps[0].1) then ViewUpdate(attrs, Some("TraitError: " + k))
      else
        var next := if k in attrs then attrs[k := ps[0].1] else attrs;
        var r := ApplyUpdates(next, ps[1..], accepts);
        assert forall i :: 1 <= i < |ps| ==> ps[i] == ps[1..][i - 1] && ps[i].0 != k;
        assert FirstRejected(next, ps[1..], accepts) == FirstRejected(attrs, ps[1..], accepts)
          by { FirstRejectedSameKeys(attrs, next, ps[1..], accepts); }
        TailHasKey(ps);
        r
  }

  /** A key of the tail is a key of the list. */
  lemma TailHasKey(ps: seq<(string, Value)>)
    requires |ps| > 0
    ensures forall k :: HasKey(ps[1..], k) ==> HasKey(ps, k)
  {
    forall k | HasKey(ps[1..], k) ensures HasKey(ps, k) {
      var i :| 0 <= i < |ps[1..]| && ps[1..][i].0 == k;
      assert ps[i + 1].0 == k;
    }
  }

  /** Only which keys the widget has matters to `FirstRejected`. */
  lemma {:induction false} FirstRejectedSameKeys(a: map<string, Value>, b: map<string, Value>,
                                                 ps: seq<(string, Value)>, accepts: (string, Value) -> bool)
    requires a.Keys == b.Keys
    ensures FirstRejected(a, ps, accepts) == FirstRejected(b, ps, accepts)
    decreases |ps|
  {
    if |ps| > 0 {
      FirstRejectedSameKeys(a, b, ps[1..], accepts);
    }
  }

  /** `set_view_options`: the given named options in signature order, then the extra
      keyword arguments, assigned in that order to the attributes the widget has. A
      value the trait rejects stops the assignments with a `TraitError`; the ones
      before it stay made. A keyword argument cannot repeat a named option, as Python
      binds each name once. */
  function SetViewOptions(attrs: map<string, Value>, named: seq<(string, Option<Value>)>,
                          kwargs: seq<(string, Value)>, accepts: (string, Value) -> bool): (r: ViewUpdate)
    requires DistinctKeys(named) && DistinctKeys(kwargs)
    requires forall j, i :: 0 <= j < |named| && 0 <= i < |kwargs| ==> named[j].0 != kwargs[i].0
    ensures r.attrs.Keys == attrs.Keys
    ensures r.error.None? <==>
              && (forall j :: 0 <= j < |named| && named[j].0 in attrs && named[j].1.Some? ==> accepts(named[j].0, named[j].1.value))
              && (forall i :: 0 <= i < |kwargs| && kwargs[i].0 in attrs ==> accepts(kwargs[i].0, kwargs[i].1))
    ensures r.error.None? ==>
              forall j :: 0 <= j < |named| && named[j].0 in attrs && named[j].1.Some? ==> r.attrs[named[j].0] == named[j].1.value
    ensures r.error.None? ==>
              forall i :: 0 <= i < |kwargs| && kwargs[i].0 in attrs ==> r.attrs[kwargs[i].0] == kwargs[i].1
    ensures forall k :: k in attrs && !HasKey(kwargs, k) && (forall j :: 0 <= j < |named| && named[j].0 == k ==> named[j].1.None?) ==>
              r.attrs[k] == attrs[k]
    ensures var ps := Given(named) + kwargs;
            var j := FirstRejected(attrs, ps, accepts);
            && (r.error.Some? <==> j < |ps|)
            && (forall i :: 0 <= i < j && ps[i].0 in attrs ==> r.attrs[ps[i].0] == ps[i].1)
            && (forall i :: j <= i < |ps| && ps[i].0 in attrs ==> r.attrs[ps[i].0] == attrs[ps[i].0])
  {
    var ps := Given(named) + kwargs;
    UpdatesPairs(named, kwargs);
    UpdatesAccepted(attrs, named, kwargs, accepts);
    ApplyUpdates(attrs, ps, accepts)
  }

  /** The loop runs to the end exactly when every given option the widget has is
      accepted. */
  lemma UpdatesAccepted(attrs: map<string, Value>, named: seq<(string, Option<Value>)>,
                        kwargs: seq<(string, Value)>, accepts: (string, Value) -> bool)
    requires DistinctKeys(named) && DistinctKeys(kwargs)
    requires forall j, i :: 0 <= j < |named| && 0 <= i < |kwargs| ==> named[j].0 != kwargs[i].0
    ensures var ps := Given(named) + kwargs;
            FirstRejected(attrs, ps, accepts) == |ps| <==>
              && (forall j :: 0 <= j < |named| && named[j].0 in attrs && named[j].1.Some? ==> accepts(named[j].0, named[j].1.value))
              && (forall i :: 0 <= i < |kwargs| && kwargs[i].0 in attrs ==> accepts(kwargs[i].0, kwargs[i].1))
  {
    var ps := Given(named) + kwargs;
    UpdatesPairs(named, kwargs);
    var n := FirstRejected(attrs, ps, accepts);
    if n == |ps| {
      forall j | 0 <= j < |named| && named[j].0 in attrs && named[j].1.Some? ensures accepts(named[j].0, named[j].1.value) {
        var i :| 0 <= i < |ps| && ps[i] == (named[j].0, named[j].1.value);
      }
      forall i | 0 <= i < |kwargs| && kwargs[i].0 in attrs ensures accepts(kwargs[i].0, kwargs[i].1) {
        assert ps[|Given(named)| + i] == kwargs[i];
      }
    } else {
      var k := ps[n].0;
      assert HasKey(ps, k);
      if HasKey(kwargs, k) {
        var i :| 0 <= i < |kwargs| && kwargs[i].0 == k;
        assert ps[|Given(named)| + i] == kwargs[i];
      } else {
        var j :| 0 <= j < |named| && named[j].0 == k && named[j].1.Some?;
        var i :| 0 <= i < |ps| && ps[i] == (named[j].0, named[j].1.value);
      }
    }
  }

  /** The `updates` pairs: the given named options followed by the keyword
      arguments, with distinct keys. */
  lemma UpdatesPairs(named: seq<(string, Option<Value>)>, kwargs: seq<(string, Value)>)
    requires DistinctKeys(named) && DistinctKeys(kwargs)
    requires forall j, i :: 0 <= j < |named| && 0 <= i < |kwargs| ==> named[j].0 != kwargs[i].0
    ensures DistinctKeys(Given(named) + kwargs)
    ensures forall i :: 0 <= i < |kwargs| ==> (Given(named) + kwargs)[|Given(named)| + i] == kwargs[i]
    ensures forall j :: 0 <= j < |named| && named[j].1.Some? ==> (named[j].0, named[j].1.value) in Given(named) + kwargs
    ensures forall k :: HasKey(Given(named) + kwargs, k) ==>
              HasKey(kwargs, k) || exists j :: 0 <= j < |named| && named[j].0 == k && named[j].1.Some?
  {
    var g := Given(named);
    forall a, b | 0 <= a < |g| && 0 <= b < |kwargs| ensures g[a].0 != kwargs[b].0 {
      assert g[a] in g;
    }
    AppendDistinct(g, kwargs);
    AppendHasKey(g, kwargs);
    forall k | HasKey(g, k) ensures exists j :: 0 <= j < |named| && named[j].0 == k && named[j].1.Some? {
      var i :| 0 <= i < |g| && g[i].0 == k;
      assert g[i] in g;
    }
    forall j | 0 <= j < |named| && named[j].1.Some? ensures (named[j].0, named[j].1.value) in g + kwargs {
      assert (named[j].0, named[j].1.value) in g;
    }
  }

  /** Two key-distinct lists whose keys do not meet concatenate to a key-distinct list. */
  lemma AppendDistinct(g: seq<(string, Value)>, kwargs: seq<(string, Value)>)
    requires DistinctKeys(g) && DistinctKeys(kwargs)
    requires forall a, b :: 0 <= a < |g| && 0 <= b < |kwargs| ==> g[a].0 != kwargs[b].0
    ensures DistinctKeys(g + kwargs)
  {
    var ps := g + kwargs;
    forall a, b | 0 <= a < b < |ps| ensures ps[a].0 != ps[b].0 {
      if b < |g| {
        assert ps[a] == g[a] && ps[b] == g[b];
      } else if a < |g| {
        assert ps[a] == g[a] && ps[b] == kwargs[b - |g|];
      } else {
        assert ps[a] == kwargs[a - |g|] && ps[b] == kwargs[b - |g|];
      }
    }
  }

  /** A key of a concatenation is a key of one of its parts. */
  lemma AppendHasKey(g: seq<(string, Value)>, kwargs: seq<(string, Value)>)
    ensures forall k :: HasKey(g + kwargs, k) ==> HasKey(g, k) || HasKey(kwargs, k)
  {
    forall k | HasKey(g + kwargs, k) ensures HasKey(g, k) || HasKey(kwargs, k) {
      var i :| 0 <= i < |g + kwargs| && (g + kwargs)[i].0 == k;
      if i < |g| { assert g[i].0 == k; } else { assert kwargs[i - |g|].0 == k; }
    }
  }

  /** Once the options have been applied without error, applying them again changes
      nothing and raises nothing. */
  lemma {:induction false} SetViewOptionsIdempotent(attrs: map<string, Value>, named: seq<(string, Option<Value>)>,
                                                    kwargs: seq<(string, Value)>, accepts: (string, Value) -> bool)
    requires DistinctKeys(named) && DistinctKeys(kwargs)
    requires forall j, i :: 0 <= j < |named| && 0 <= i < |kwargs| ==> named[j].0 != kwargs[i].0
    ensures var r := SetViewOptions(attrs, named, kwargs, accepts);
            r.error.None? ==> SetViewOptions(r.attrs, named, kwargs, accepts) == r
  {
    var r := SetViewOptions(attrs, named, kwargs, accepts);
    if r.error.None? {
      var r2 := SetViewOptions(r.attrs, named, kwargs, accepts);
      assert r2.error.None?;
      forall k | k in attrs ensures r2.attrs[k] == r.attrs[k] {
        if exists j :: 0 <= j < |named| && named[j].0 == k && named[j].1.Some? {
          var j :| 0 <= j < |named| && named[j].0 == k && named[j].1.Some?;
        } else if HasKey(kwargs, k) {
          var i :| 0 <= i < |kwargs| && kwargs[i].0 == k;
        }
      }
      assert r2.attrs == r.attrs;
    }
  }
}

=== FILE: numbers.dfy ===
/** Models of the JavaScript number conversions the parsers rely on, over exact
    reals: `parseFloat`, `parseInt` (no radix), `Number(string)`, and the decimal
    rendering of integers. `None` stands for NaN. */
module Numbers {
  import opened Wrappers
  import opened Text
  import opened Seqs

  function DigitVal(c: char): nat
    requires IsDigit(c)
  {
    c as int - '0' as int
  }

  function DigitChar(d: nat): (c: char)
    requires d < 10
    ensures IsDigit(c) && DigitVal(c) == d
  {
    ('0' as int + d) as char
  }

  predicate AllDigits(s: string)
  {
    forall i :: 0 <= i < |s| ==> IsDigit(s[i])
  }

  /** The value of a string of decimal digits, most significant first. */
  function DigitsValue(s: string): nat
    requires AllDigits(s)
  {
    if |s| == 0 then 0 else DigitsValue(s[..|s| - 1]) * 10 + DigitVal(s[|s| - 1])
  }

  /** Length of the run of decimal digits at the start of `s`. */
  function DigitRun(s: string): (n: nat)
    ensures n <= |s| && AllDigits(s[..n])
    ensures n < |s| ==> !IsDigit(s[n])
  {
    if |s| > 0 && IsDigit(s[0]) then
      var k := DigitRun(s[1..]);
      assert s[..1 + k] == [s[0]] + s[1..][..k];
      1 + k
    else 0
  }

  lemma AllDigitsTail(d: string)
    requires AllDigits(d) && |d| > 0
    ensures AllDigits(d[1..]) && IsDigit(d[0])
  {
  }

  /** The digit run of digits followed by a non-digit ends where the digits do. */
  lemma {:induction false} DigitRunStops(d: string, r: string)
    requires AllDigits(d)
    requires |r| == 0 || !IsDigit(r[0])
    ensures DigitRun(d + r) == |d|
  {
    if |d| > 0 {
      TailOfConcat(d, r);
      AllDigitsTail(d);
      DigitRunStops(d[1..], r);
    }
  }

  /** `String(n)` for a non-negative integer. */
  function NatToString(n: nat): (r: string)
    ensures |r| > 0 && AllDigits(r)
    ensures |r| > 1 ==> r[0] != '0'
  {
    if n < 10 then [DigitChar(n)] else NatToString(n / 10) + [DigitChar(n % 10)]
  }

  /** `String(i)` for an integer. */
  function IntToString(i: int): (r: string)
    ensures i < 0 <==> (|r| > 0 && r[0] == '-')
  {
    if i < 0 then "-" + NatToString(-i) else NatToString(i)
  }

  /** Reading back a rendered natural number gives the number. */
  lemma {:induction false} DigitsOfNatToString(n: nat)
    ensures DigitsValue(NatToString(n)) == n
    decreases n
  {
    if n >= 10 {
      DigitsOfNatToString(n / 10);
      var r := NatToString(n);
      assert r[..|r| - 1] == NatToString(n / 10);
    }
  }

  lemma NatToStringInjective(a: nat, b: nat)
    ensures NatToString(a) == NatToString(b) ==> a == b
  {
    DigitsOfNatToString(a);
    DigitsOfNatToString(b);
  }

  /** `m * 10^e`, one factor of ten at a time. */
  function Scaled(m: nat, e: int): (r: real)
    ensures r >= 0.0
    decreases if e < 0 then -e else e
  {
    if e == 0 then m as real
    else if e > 0 then 10.0 * Scaled(m, e - 1)
    else Scaled(m, e + 1) / 10.0
  }

  lemma {:induction false} ScaledZero(e: int)
    ensures Scaled(0, e) == 0.0
    decreases if e < 0 then -e else e
  {
    if e > 0 {
      ScaledZero(e - 1);
    } else if e < 0 {
      ScaledZero(e + 1);
    }
  }

  /** An exponent part `(e|E)[+-]?digits` at the start of `s`: its value and length,
      or `(0, 0)` when there is none (a bare `e` is not part of the number). */
  function ScanExponent(s: string): (r: (int, nat))
    ensures r.1 <= |s|
    ensures r.1 == 0 ==> r.0 == 0
  {
    if |s| > 0 && (s[0] == 'e' || s[0] == 'E') then
      var signLen := if |s| > 1 && (s[1] == '+' || s[1] == '-') then 1 else 0;
      var d := DigitRun(s[1 + signLen..]);
      if d == 0 then (0, 0)
      else
        var v: int := DigitsValue(s[1 + signLen..][..d]);
        (if signLen == 1 && s[1] == '-' then -v else v, 1 + signLen + d)
    else (0, 0)
  }

  /** The longest prefix of `s` that is an unsigned decimal literal
      (`digits[.digits][exp]` or `.digits[exp]`): its value and length. With `f`
      fraction digits and exponent `e` the value is `whole * 10^e + fraction * 10^(e-f)`. */
  function ScanUnsigned(s: string): (r: Option<(real, nat)>)
    ensures r.Some? ==> 0 < r.value.1 <= |s|
  {
    var i := DigitRun(s);
    var dot := i < |s| && s[i] == '.';
    var f := if dot then DigitRun(s[i + 1..]) else 0;
    if i == 0 && f == 0 then None
    else
      var fraction := if dot then DigitsValue(s[i + 1..][..f]) else 0;
      var end := if dot then i + 1 + f else i;
      var e := ScanExponent(s[end..]);
      Some((Scaled(DigitsValue(s[..i]), e.0) + Scaled(fraction, e.0 - f), end + e.1))
  }

  /** The longest prefix of `s` that is a signed decimal literal. */
  function ScanDecimal(s: string): (r: Option<(real, nat)>)
    ensures r.Some? ==> 0 < r.value.1 <= |s|
  {
    var signLen := if |s| > 0 && (s[0] == '+' || s[0] == '-') then 1 else 0;
    match ScanUnsigned(s[signLen..])
    case None => None
    case Some(p) => Some((if signLen == 1 && s[0] == '-' then -p.0 else p.0, signLen + p.1))
  }

  /** `parseFloat(s)`: leading whitespace is skipped and the longest decimal prefix
      is read; anything after it is ignored. */
  function ParseFloat(s: string): (r: Option<real>)
    ensures r.Some? <==> ScanDecimal(TrimStart(s)).Some?
  {
    match ScanDecimal(TrimStart(s))
    case None => None
    case Some(p) => Some(p.0)
  }

  /** Value of a digit in the given radix (2, 8, 10 or 16), if it is one. */
  function RadixDigit(c: char, radix: nat): Option<nat>
  {
    var d: int :=
      if '0' <= c <= '9' then c as int - '0' as int
      else if 'a' <= c <= 'z' then c as int - 'a' as int + 10
      else if 'A' <= c <= 'Z' then c as int - 'A' as int + 10
      else 99;
    if 0 <= d < radix then Some(d) else None
  }

  /** Length of the run of `radix` digits at the start of `s`. */
  function RadixRun(s: string, radix: nat): (n: nat)
    ensures n <= |s|
  {
    if |s| > 0 && RadixDigit(s[0], radix).Some? then 1 + RadixRun(s[1..], radix) else 0
  }

  /** Value of a string of `radix` digits. */
  function RadixValue(s: string, radix: nat): nat
  {
    if |s| == 0 then 0
    else RadixValue(s[..|s| - 1], radix) * radix + RadixDigit(s[|s| - 1], radix).GetOr(0)
  }

  predicate HasRadixPrefix(s: string, lower: char)
  {
    |s| >= 2 && s[0] == '0' && LowerChar(s[1]) == lower
  }

  /** `parseInt(s)` without a radix: leading whitespace, an optional sign, a `0x`
      prefix selecting hexadecimal, then the longest run of digits; NaN without one. */
  function ParseInt(s: string): (r: Option<int>)
  {
    var t := TrimStart(s);
    var signLen := if |t| > 0 && (t[0] == '+' || t[0] == '-') then 1 else 0;
    var neg := signLen == 1 && t[0] == '-';
    var u := t[signLen..];
    var radix := if HasRadixPrefix(u, 'x') then 16 else 10;
    var body := if radix == 16 then u[2..] else u;
    var n := RadixRun(body, radix);
    if n == 0 then None
    else
      var v: int := RadixValue(body[..n], radix);
      Some(if neg then -v else v)
  }

  /** `parseInt(s, 10)`: as `ParseInt`, but a `0x` prefix is read as the number 0. */
  function ParseInt10(s: string): (r: Option<int>)
  {
    var t := TrimStart(s);
    var signLen := if |t| > 0 && (t[0] == '+' || t[0] == '-') then 1 else 0;
    var u := t[signLen..];
    var n := RadixRun(u, 10);
    if n == 0 then None
    else
      var v: int := RadixValue(u[..n], 10);
      Some(if signLen == 1 && t[0] == '-' then -v else v)
  }

  /** `Number(s)`: the whole trimmed string must be a numeric literal; the empty
      string is 0. */
  function ToNumber(s: string): (r: Option<real>)
    ensures Trim(s) == "" ==> r == Some(0.0)
  {
    NumericLiteral(Trim(s))
  }

  /** The value of a trimmed string as a whole numeric literal. Unsigned `0x`, `0o`
      and `0b` integer literals are accepted. */
  function NumericLiteral(t: string): (r: Option<real>)
    ensures t == "" ==> r == Some(0.0)
  {
    if t == "" then Some(0.0)
    else if HasRadixPrefix(t, 'x') || HasRadixPrefix(t, 'o') || HasRadixPrefix(t, 'b') then
      var radix := if LowerChar(t[1]) == 'x' then 16 else if LowerChar(t[1]) == 'o' then 8 else 2;
      var body := t[2..];
      if |body| > 0 && RadixRun(body, radix) == |body| then Some(RadixValue(body, radix) as real)
      else None
    else
      match ScanDecimal(t)
      case Some(p) => if p.1 == |t| then Some(p.0) else None
      case None => None
  }

  predicate IsInteger(x: real)
  {
    x == x.Floor as real
  }

  /** A decimal literal cannot start with a letter. */
  lemma LetterLeadNotDecimal(s: string)
    requires |s| > 0 && (IsUpper(s[0]) || IsLower(s[0]))
    ensures ScanDecimal(s) == None
  {
    assert s[0..] == s;
    assert DigitRun(s) == 0;
  }

  /** A string that starts with a letter and does not end in whitespace is not a
      number. */
  lemma LetterLeadNotNumber(s: string)
    requires |s| > 0 && (IsUpper(s[0]) || IsLower(s[0])) && !IsSpace(s[|s| - 1])
    ensures ToNumber(s) == None
  {
    TrimClean(s);
    LetterLeadNotDecimal(s);
    assert !HasRadixPrefix(s, 'x') && !HasRadixPrefix(s, 'o') && !HasRadixPrefix(s, 'b');
  }

  /** The decimal rendering of a natural number scans back completely. */
  lemma NatToStringScans(n: nat)
    ensures ScanUnsigned(NatToString(n)) == Some((n as real, |NatToString(n)|))
    ensures ScanDecimal(NatToString(n)) == Some((n as real, |NatToString(n)|))
  {
    var s := NatToString(n);
    assert DigitRun(s) == |s| by { DigitRunAll(s); }
    assert s[..|s|] == s;
    DigitsOfNatToString(n);
    assert s[|s|..] == "";
  }

  lemma {:induction false} DigitRunAll(s: string)
    requires AllDigits(s)
    ensures DigitRun(s) == |s|
    decreases |s|
  {
    if |s| > 0 {
      DigitRunAll(s[1..]);
    }
  }

  lemma DigitsUntrimmed(s: string)
    requires |s| > 0 && AllDigits(s)
    ensures TrimStart(s) == s && Trim(s) == s
  {
    assert !IsSpace(s[0]) && !IsSpace(s[|s| - 1]);
  }

  /** `parseFloat` and `Number` both read a rendered natural number back. */
  lemma NatToStringParses(n: nat)
    ensures ParseFloat(NatToString(n)) == Some(n as real)
    ensures ToNumber(NatToString(n)) == Some(n as real)
  {
    var s := NatToString(n);
    NatToStringScans(n);
    DigitsUntrimmed(s);
    assert !HasRadixPrefix(s, 'x') && !HasRadixPrefix(s, 'o') && !HasRadixPrefix(s, 'b') by {
      if |s| >= 2 { assert IsDigit(s[1]); }
    }
  }

  /** Decimal digits have the same value read in radix 10 as read digit by digit. */
  lemma {:induction false} RadixValueDigits(s: string)
    requires AllDigits(s)
    ensures RadixValue(s, 10) == DigitsValue(s)
    decreases |s|
  {
    if |s| > 0 {
      RadixValueDigits(s[..|s| - 1]);
    }
  }

  lemma {:induction false} RadixRunDigits(s: string)
    requires AllDigits(s)
    ensures RadixRun(s, 10) == |s|
    decreases |s|
  {
    if |s| > 0 {
      RadixRunDigits(s[1..]);
    }
  }

  /** `parseInt` reads a rendered natural number back. */
  lemma NatToStringParsesInt(n: nat)
    ensures ParseInt(NatToString(n)) == Some(n)
  {
    var s := NatToString(n);
    DigitsUntrimmed(s);
    assert !HasRadixPrefix(s, 'x') by {
      if |s| >= 2 { assert IsDigit(s[1]); }
    }
    assert s[0..] == s;
    RadixRunDigits(s);
    assert s[..|s|] == s;
    RadixValueDigits(s);
    DigitsOfNatToString(n);
  }

  /** `parseInt` finds no number in a string that starts with a letter. */
  lemma LetterLeadNotInt(s: string)
    requires |s| > 0 && (IsUpper(s[0]) || IsLower(s[0]))
    ensures ParseInt(s) == None
  {
    LetterNotSpace(s[0]);
    assert TrimStart(s) == s;
    assert s[0..] == s;
    assert !HasRadixPrefix(s, 'x');
  }

  /** `String(x)`: an integer in decimal; the shortest round-trip rendering of any
      other number is the parameter `fraction`. */
  function NumberString(x: real, fraction: real -> string): string
  {
    if IsInteger(x) then IntToString(x.Floor) else fraction(x)
  }

  /** A non-negative integer renders as digits that read back as the number. */
  lemma NumberStringParses(x: real, fraction: real -> string)
    requires IsInteger(x) && x >= 0.0
    ensures AllDigits(NumberString(x, fraction))
    ensures ToNumber(NumberString(x, fraction)) == Some(x)
  {
    NatToStringParses(x.Floor as nat);
  }
}

=== FILE: pbc.dfy ===
/** Periodic images for drawing a crystal: every site lying on a cell face, edge or
    corner gets copies translated by whole lattice vectors onto the opposite faces, so
    the drawn cell looks complete. Structures whose atoms wander far outside the cell
    (trajectory frames) get no images. */
module Pbc {
  import opened Wrappers
  import opened VecMath
  import opened Crystal

  /** The default closeness to a face, in fractional units. */
  const DefaultTolerance: real := 0.05

  /** A coordinate far outside the cell: below -0.1 or above 1.1. */
  predicate FarOutside(c: real)
  {
    c < -0.1 || c > 1.1
  }

  predicate SiteOutside(s: Site)
  {
    exists k :: 0 <= k < |s.abc| && FarOutside(s.abc[k])
  }

  function CountOutside(sites: seq<Site>): (n: nat)
    ensures n <= |sites|
  {
    if |sites| == 0 then 0
    else CountOutside(sites[..|sites| - 1]) + if SiteOutside(sites[|sites| - 1]) then 1 else 0
  }

  /** `outside > sites.length * 0.1`. The double `n * 0.1` is never below `n / 10` and
      never passes the next whole number, so against a whole count the test is exactly
      `10 * outside > n`. */
  predicate TrajectoryLike(sites: seq<Site>)
  {
    10 * CountOutside(sites) > |sites|
  }

  /** A face a site touches: the axis, and the direction (+1 or -1) that carries it to
      the opposite face. */
  datatype Edge = Edge(dim: nat, direction: int)

  predicate EdgesFit(edges: seq<Edge>, abc: Vec)
  {
    forall b :: 0 <= b < |edges| ==>
      (edges[b].dim < 3 && edges[b].dim < |abc| && (edges[b].direction == 1 || edges[b].direction == -1))
  }

  /** The faces along axis `dim` that `abc` lies within `tol` of: near 0 it moves +1,
      near 1 it moves -1. A missing coordinate touches nothing. */
  function AxisEdges(abc: Vec, tol: real, dim: nat): (r: seq<Edge>)
    requires dim < 3
    ensures EdgesFit(r, abc)
    ensures |r| <= 2
    ensures forall b :: 0 <= b < |r| ==> r[b].dim == dim
    ensures Edge(dim, 1) in r <==> dim < |abc| && Abs(abc[dim]) < tol
    ensures Edge(dim, -1) in r <==> dim < |abc| && Abs(abc[dim] - 1.0) < tol
  {
    if dim >= |abc| then []
    else
      (if Abs(abc[dim]) < tol then [Edge(dim, 1)] else []) +
      (if Abs(abc[dim] - 1.0) < tol then [Edge(dim, -1)] else [])
  }

  /** `edge_dims`: the faces along the three axes in order. */
  function EdgeDims(abc: Vec, tol: real): (r: seq<Edge>)
    ensures EdgesFit(r, abc)
    ensures |r| <= 6
  {
    AxisEdges(abc, tol, 0) + AxisEdges(abc, tol, 1) + AxisEdges(abc, tol, 2)
  }

  /** With a tolerance of at most one half a coordinate is near one face at most, so
      every axis contributes at most one direction. */
  lemma OneFacePerAxis(abc: Vec, tol: real, dim: nat)
    requires dim < 3 && tol <= 0.5
    ensures |AxisEdges(abc, tol, dim)| <= 1
  {
  }

  function Pow2(n: nat): (p: nat)
    ensures p >= 1
  {
    if n == 0 then 1 else 2 * Pow2(n - 1)
  }

  /** `mask & (1 << bit)` is non-zero. */
  predicate BitSet(mask: nat, bit: nat)
  {
    (mask / Pow2(bit)) % 2 == 1
  }

  function Row(m: Mat3, dim: nat): Vec3
  {
    if dim == 0 then m.r0 else if dim == 1 then m.r1 else m.r2
  }

  /** A whole-number lattice translation, in cell units. */
  datatype Shift = Shift(a: int, b: int, c: int)

  function ShiftAt(s: Shift, dim: nat): int
  {
    if dim == 0 then s.a else if dim == 1 then s.b else s.c
  }

  function AsReals(s: Shift): Vec3
  {
    Vec3(s.a as real, s.b as real, s.c as real)
  }

  function Move(s: Shift, e: Edge): Shift
  {
    if e.dim == 0 then Shift(s.a + e.direction, s.b, s.c)
    else if e.dim == 1 then Shift(s.a, s.b + e.direction, s.c)
    else Shift(s.a, s.b, s.c + e.direction)
  }

  /** The translation a mask selects among the edges from `bit` on. */
  function ShiftOf(edges: seq<Edge>, mask: nat, bit: nat): Shift
    decreases |edges| - bit
  {
    if bit >= |edges| then Shift(0, 0, 0)
    else if BitSet(mask, bit) then Move(ShiftOf(edges, mask, bit + 1), edges[bit])
    else ShiftOf(edges, mask, bit + 1)
  }

  /** The inner loop over the mask's bits: each selected edge adds
      `direction * lattice[dim]` to the position and `direction` to the fractional
      coordinate. */
  function ApplyBits(edges: seq<Edge>, mask: nat, bit: nat, xyz: Vec3, abc: Vec, m: Mat3): (r: (Vec3, Vec))
    requires EdgesFit(edges, abc)
    ensures |r.1| == |abc|
    decreases |edges| - bit
  {
    if bit >= |edges| then (xyz, abc)
    else if BitSet(mask, bit) then
      var e := edges[bit];
      ApplyBits(edges, mask, bit + 1, AddVec3(xyz, ScaleVec3(Row(m, e.dim), e.direction as real)),
        abc[e.dim := abc[e.dim] + e.direction as real], m)
    else ApplyBits(edges, mask, bit + 1, xyz, abc, m)
  }

  /** An image: the index of its site, and its position and fractional coordinates. */
  datatype Image = Image(site: nat, xyz: Vec3, abc: Vec)

  function AsVec3(v: Vec): Vec3
    requires |v| == 3
  {
    Vec3(v[0], v[1], v[2])
  }

  /** The images of site `idx`, one per non-empty subset of its edges, in mask order.
      Adding a translation to a position that is not three long throws. */
  function SiteImages(idx: nat, s: Site, m: Mat3, tol: real): (r: Result<seq<Image>>)
    ensures r.Err? <==> |EdgeDims(s.abc, tol)| > 0 && |s.xyz| != 3
    ensures r.Ok? ==> |r.value| == Pow2(|EdgeDims(s.abc, tol)|) - 1
    ensures r.Ok? ==> forall k :: 0 <= k < |r.value| ==> r.value[k].site == idx
  {
    var edges := EdgeDims(s.abc, tol);
    if |edges| == 0 then Ok([])
    else if |s.xyz| != 3 then Err("All vectors must have the same length")
    else
      var n := Pow2(|edges|) - 1;
      Ok(seq(n, k requires 0 <= k < n =>
        var p := ApplyBits(edges, k + 1, 0, AsVec3(s.xyz), s.abc, m);
        Image(idx, p.0, p.1)))
  }

  function ImagesFrom(sites: seq<Site>, m: Mat3, tol: real, idx: nat): (r: Result<seq<Image>>)
    requires idx <= |sites|
    ensures r.Ok? ==> forall k :: 0 <= k < |r.value| ==> idx <= r.value[k].site < |sites|
    decreases |sites| - idx
  {
    if idx == |sites| then Ok([])
    else
      var here :- SiteImages(idx, sites[idx], m, tol);
      var rest :- ImagesFrom(sites, m, tol, idx + 1);
      Ok(here + rest)
  }

  /** `find_image_atoms` */
  function FindImageAtoms(s: Structure, tol: real): (r: Result<seq<Image>>)
    ensures s.lattice.None? ==> r == Ok([])
    ensures TrajectoryLike(s.sites) ==> r == Ok([])
    ensures r.Ok? ==> forall k :: 0 <= k < |r.value| ==> r.value[k].site < |s.sites|
  {
    if s.lattice.None? || TrajectoryLike(s.sites) then Ok([])
    else ImagesFrom(s.sites, s.lattice.value.matrix, tol, 0)
  }

  /** The number of images the sites from `idx` on receive. */
  function ImageCount(sites: seq<Site>, tol: real, idx: nat): nat
    requires idx <= |sites|
    decreases |sites| - idx
  {
    if idx == |sites| then 0
    else Pow2(|EdgeDims(sites[idx].abc, tol)|) - 1 + ImageCount(sites, tol, idx + 1)
  }

  /** Every site near `j` faces gets `2^j - 1` images, so the list is as long as the
      sum of those. */
  lemma {:induction false} ImagesFromCount(sites: seq<Site>, m: Mat3, tol: real, idx: nat)
    requires idx <= |sites|
    requires ImagesFrom(sites, m, tol, idx).Ok?
    ensures |ImagesFrom(sites, m, tol, idx).value| == ImageCount(sites, tol, idx)
    decreases |sites| - idx
  {
    if idx < |sites| {
      var here := SiteImages(idx, sites[idx], m, tol);
      var rest := ImagesFrom(sites, m, tol, idx + 1);
      assert here.Ok? && rest.Ok?;
      assert ImagesFrom(sites, m, tol, idx).value == here.value + rest.value;
      ImagesFromCount(sites, m, tol, idx + 1);
    }
  }

  /** A site far from every face gets no image. */
  lemma InteriorSiteNoImages(idx: nat, s: Site, m: Mat3, tol: real)
    requires |s.abc| == 3
    requires forall k :: 0 <= k < 3 ==> tol <= s.abc[k] <= 1.0 - tol
    ensures SiteImages(idx, s, m, tol) == Ok([])
  {
  }

  /** A site at a cell corner, with the default tolerance, gets seven images: every
      other corner. */
  lemma CornerSiteSevenImages(idx: nat, s: Site, m: Mat3)
    requires |s.abc| == 3 && s.abc[0] == 0.0 && s.abc[1] == 0.0 && s.abc[2] == 0.0 && |s.xyz| == 3
    ensures SiteImages(idx, s, m, DefaultTolerance).Ok?
    ensures |SiteImages(idx, s, m, DefaultTolerance).value| == 7
  {
    assert |EdgeDims(s.abc, DefaultTolerance)| == 3;
  }

  /** Combining over rows distributes over a sum of translations. */
  lemma CombineMove(s: Shift, e: Edge, m: Mat3)
    requires e.dim < 3
    ensures Combine(AsReals(Move(s, e)), m) ==
              AddVec3(ScaleVec3(Row(m, e.dim), e.direction as real), Combine(AsReals(s), m))
  {
    var d := e.direction as real;
    var c := Combine(AsReals(Move(s, e)), m);
    var w := AddVec3(ScaleVec3(Row(m, e.dim), d), Combine(AsReals(s), m));
    if e.dim == 0 {
      assert (s.a + e.direction) as real == s.a as real + d;
    } else if e.dim == 1 {
      assert (s.b + e.direction) as real == s.b as real + d;
    } else {
      assert (s.c + e.direction) as real == s.c as real + d;
    }
    assert c.x == w.x;
    assert c.y == w.y;
    assert c.z == w.z;
  }

  lemma AddVec3Assoc(a: Vec3, b: Vec3, c: Vec3)
    ensures AddVec3(AddVec3(a, b), c) == AddVec3(a, AddVec3(b, c))
  {
  }

  /** The loop over the bits moves the position by the whole lattice translation the
      mask selects. */
  lemma {:induction false} ApplyBitsTranslates(edges: seq<Edge>, mask: nat, bit: nat, xyz: Vec3, abc: Vec, m: Mat3)
    requires EdgesFit(edges, abc)
    ensures ApplyBits(edges, mask, bit, xyz, abc, m).0 == AddVec3(xyz, Combine(AsReals(ShiftOf(edges, mask, bit)), m))
    decreases |edges| - bit
  {
    if bit < |edges| && BitSet(mask, bit) {
      var e := edges[bit];
      var t := ScaleVec3(Row(m, e.dim), e.direction as real);
      var abc' := abc[e.dim := abc[e.dim] + e.direction as real];
      ApplyBitsTranslates(edges, mask, bit + 1, AddVec3(xyz, t), abc', m);
      CombineMove(ShiftOf(edges, mask, bit + 1), e, m);
      AddVec3Assoc(xyz, t, Combine(AsReals(ShiftOf(edges, mask, bit + 1)), m));
    } else if bit < |edges| {
      ApplyBitsTranslates(edges, mask, bit + 1, xyz, abc, m);
    }
  }

  /** The loop over the bits moves fractional coordinate `d` by the same whole number
      as the translation, and leaves coordinates past the third alone. */
  lemma {:induction false} ApplyBitsShiftsFractional(edges: seq<Edge>, mask: nat, bit: nat, xyz: Vec3, abc: Vec, m: Mat3, d: nat)
    requires EdgesFit(edges, abc) && d < |abc|
    ensures ApplyBits(edges, mask, bit, xyz, abc, m).1[d] ==
              abc[d] + (if d < 3 then ShiftAt(ShiftOf(edges, mask, bit), d) else 0) as real
    decreases |edges| - bit
  {
    if bit < |edges| && BitSet(mask, bit) {
      var e := edges[bit];
      var abc' := abc[e.dim := abc[e.dim] + e.direction as real];
      var xyz' := AddVec3(xyz, ScaleVec3(Row(m, e.dim), e.direction as real));
      var rest := ShiftOf(edges, mask, bit + 1);
      ApplyBitsShiftsFractional(edges, mask, bit + 1, xyz', abc', m, d);
      assert ApplyBits(edges, mask, bit, xyz, abc, m) == ApplyBits(edges, mask, bit + 1, xyz', abc', m);
      assert ShiftOf(edges, mask, bit) == Move(rest, e);
      assert d < 3 ==> ShiftAt(Move(rest, e), d) == ShiftAt(rest, d) + (if d == e.dim then e.direction else 0);
      assert abc'[d] == abc[d] + (if d == e.dim then e.direction as real else 0.0);
    } else if bit < |edges| {
      ApplyBitsShiftsFractional(edges, mask, bit + 1, xyz, abc, m, d);
      assert ApplyBits(edges, mask, bit, xyz, abc, m) == ApplyBits(edges, mask, bit + 1, xyz, abc, m);
      assert ShiftOf(edges, mask, bit) == ShiftOf(edges, mask, bit + 1);
    }
  }

  /** Image `k` of a site is the site moved by a whole lattice translation: its position
      by the translation over the lattice rows, its fractional coordinates by the same
      whole numbers. */
  lemma SiteImageTranslated(idx: nat, s: Site, m: Mat3, tol: real, k: nat)
    requires SiteImages(idx, s, m, tol).Ok? && k < |SiteImages(idx, s, m, tol).value|
    ensures var img := SiteImages(idx, s, m, tol).value[k];
            exists t: Shift ::
              && img.xyz == AddVec3(AsVec3(s.xyz), Combine(AsReals(t), m))
              && |img.abc| == |s.abc|
              && forall d :: 0 <= d < |s.abc| ==> img.abc[d] == s.abc[d] + (if d < 3 then ShiftAt(t, d) else 0) as real
  {
    var edges := EdgeDims(s.abc, tol);
    var t := ShiftOf(edges, k + 1, 0);
    ApplyBitsTranslates(edges, k + 1, 0, AsVec3(s.xyz), s.abc, m);
    forall d | 0 <= d < |s.abc|
      ensures SiteImages(idx, s, m, tol).value[k].abc[d] == s.abc[d] + (if d < 3 then ShiftAt(t, d) else 0) as real
    {
      ApplyBitsShiftsFractional(edges, k + 1, 0, AsVec3(s.xyz), s.abc, m, d);
    }
  }

  /** `get_pbc_image_sites`: trajectory-like structures come back unchanged; otherwise
      the sites are followed by one copy of the original site per image, with the
      image's coordinates. */
  function PbcImageSites(s: Structure, tol: real): (r: Result<Structure>)
    ensures TrajectoryLike(s.sites) ==> r == Ok(s)
    ensures r.Ok? ==> r.value.lattice == s.lattice
    ensures r.Ok? ==> |r.value.sites| >= |s.sites| && r.value.sites[..|s.sites|] == s.sites
  {
    if TrajectoryLike(s.sites) then Ok(s)
    else
      var images :- FindImageAtoms(s, tol);
      var extra := seq(|images|, k requires 0 <= k < |images| =>
        var src := s.sites[images[k].site];
        src.(abc := images[k].abc, xyz := AsSeq(images[k].xyz)));
      assert (s.sites + extra)[..|s.sites|] == s.sites;
      Ok(s.(sites := s.sites + extra))
  }

  /** Site `|sites| + k` of the result is image `k`: the original site with the
      image's coordinates and everything else (species, label) kept. */
  lemma PbcImageSiteIs(s: Structure, tol: real, k: nat)
    requires PbcImageSites(s, tol).Ok? && !TrajectoryLike(s.sites)
    requires k < |FindImageAtoms(s, tol).value|
    ensures var img := FindImageAtoms(s, tol).value[k];
            var site := PbcImageSites(s, tol).value.sites[|s.sites| + k];
            && site.species == s.sites[img.site].species
            && site.labelText == s.sites[img.site].labelText
            && site.abc == img.abc && site.xyz == AsSeq(img.xyz)
  {
  }
}

=== FILE: poscar.dfy ===
/** The VASP POSCAR reader. Both versions of the library share it; they differ only
    in how strictly a lattice line is read. Any exception inside the reader makes it
    return null, which is `None` here. */
module Poscar {
  import opened Wrappers
  import opened Seqs
  import opened Text
  import opened Numbers
  import opened Elements
  import opened VecMath
  import opened Crystal
  import opened CoordText

  /** The current reader, which rejects a lattice line without exactly three numbers,
      or the older one, which reads whatever numbers the line has. */
  datatype Version = Current | Legacy

  /** `content.replace(/^\s+/, '').split(/\r?\n/)` */
  function PoscarLines(content: string): seq<string>
  {
    SplitLines(TrimStart(content))
  }

  /** One lattice vector. The current reader demands exactly three numbers. The older
      one keeps the line's numbers as they are; a line with more than three is read
      from its first three, and one with fewer (which leaves entries undefined in the
      source) is rejected here. */
  function LatticeRow(line: string, v: Version): (r: Result<Vec3>)
    ensures r.Ok? <==> (ParseCoordinates(Tokens(line)).Ok? &&
      if v == Current then |Tokens(line)| == 3 else |Tokens(line)| >= 3)
    ensures r.Ok? ==> (ParseCoordinate(Tokens(line)[0]) == Ok(r.value.x) &&
      ParseCoordinate(Tokens(line)[1]) == Ok(r.value.y) && ParseCoordinate(Tokens(line)[2]) == Ok(r.value.z))
  {
    var tokens := Tokens(line);
    var coords :- ParseCoordinates(tokens);
    if v == Current && |coords| != 3 then Err("Invalid lattice vector: expected 3 coordinates")
    else if |coords| < 3 then Err("Lattice vector with fewer than 3 coordinates")
    else
      ParseCoordinatesAt(tokens, 0);
      ParseCoordinatesAt(tokens, 1);
      ParseCoordinatesAt(tokens, 2);
      Ok(Vec3(coords[0], coords[1], coords[2]))
  }

  function ParseLattice(lines: seq<string>, v: Version): (r: Result<Mat3>)
    requires |lines| >= 5
  {
    var a :- LatticeRow(lines[2], v);
    var b :- LatticeRow(lines[3], v);
    var c :- LatticeRow(lines[4], v);
    Ok(Mat3(a, b, c))
  }

  /** A negative scale factor is a target volume: the factor becomes the cube root of
      target over the cell's volume. */
  function EffectiveScale(ops: NumericOps, s: real, m: Mat3): real
  {
    if s < 0.0 then ops.volumeScale(-s, Abs(Det(m))) else s
  }

  function ScaleMat(m: Mat3, f: real): Mat3
  {
    Mat3(ScaleVec3(m.r0, f), ScaleVec3(m.r1, f), ScaleVec3(m.r2, f))
  }

  /* ---------- species header ---------- */

  /** The first token of a line, read by `parseInt`, is a number. */
  predicate NumericLead(line: string)
  {
    ParseInt(Tokens(line)[0]).Some?
  }

  /** The look-ahead from line 5: the first offset `k` in `1..9` whose line starts with a
      number, stopping at the end of the file; 1 if there is none. */
  function SymbolLineCount(lines: seq<string>, k: nat): (n: nat)
    requires k >= 1
    ensures 1 <= n <= 9
    decreases 10 - k
  {
    if k >= 10 || 5 + k >= |lines| then 1
    else if NumericLead(lines[5 + k]) then k
    else SymbolLineCount(lines, k + 1)
  }

  /** The tokens of the lines `from .. from + n - 1` that exist. */
  function CollectTokens(lines: seq<string>, from: nat, n: nat): seq<string>
  {
    if n == 0 then []
    else CollectTokens(lines, from, n - 1) + (if from + n - 1 < |lines| then Tokens(lines[from + n - 1]) else [])
  }

  /** `Number` of every token. */
  function ToNumbers(tokens: seq<string>): (r: seq<Option<real>>)
    ensures |r| == |tokens|
    ensures forall k :: 0 <= k < |tokens| ==> r[k] == ToNumber(tokens[k])
  {
    seq(|tokens|, k requires 0 <= k < |tokens| => ToNumber(tokens[k]))
  }

  /** The species header: element names, atom counts (`None` for NaN) and the index of
      the line after the header. A numeric first token on line 5 means the VASP 4
      layout, whose names are the fall-back symbols. */
  datatype Header = Header(symbols: seq<string>, counts: seq<Option<real>>, next: nat)

  function ParseHeader(lines: seq<string>): (h: Header)
    requires |lines| >= 8
    ensures 6 <= h.next <= 23
    ensures !NumericLead(lines[5]) ==> h.next == 5 + 2 * SymbolLineCount(lines, 1)
    ensures NumericLead(lines[5]) ==> h.next == 6 && |h.symbols| == |h.counts|
  {
    if !NumericLead(lines[5]) then
      var n := SymbolLineCount(lines, 1);
      Header(CollectTokens(lines, 5, n), ToNumbers(CollectTokens(lines, 5 + n, n)), 5 + 2 * n)
    else
      var counts := ToNumbers(Tokens(lines[5]));
      Header(seq(|counts|, i requires 0 <= i < |counts| => ValidateElementSymbol("Element" + NatToString(i), i)), counts, 6)
  }

  /* ---------- coordinate mode ---------- */

  datatype Mode = Direct | Cartesian

  /** The coordinate-mode line read in upper case: `S…` announces selective dynamics
      and moves to the next line; then `D…` is direct and `C…`/`K…` Cartesian. The result
      also gives the index of the mode line itself. */
  function CoordinateMode(lines: seq<string>, li: nat): (r: Result<(Mode, bool, nat)>)
    ensures li >= |lines| ==> r.Err?
    ensures li < |lines| && !SelectiveLine(lines[li]) ==> r.Ok? == ModeOf(lines[li]).Some?
    ensures r.Ok? ==> li < |lines| && r.value.1 == SelectiveLine(lines[li])
    ensures r.Ok? ==> r.value.2 < |lines| && r.value.2 == (if r.value.1 then li + 1 else li)
    ensures r.Ok? ==> ModeOf(lines[r.value.2]) == Some(r.value.0)
  {
    if li >= |lines| then Err("Missing coordinate mode line in POSCAR")
    else
      var selective := SelectiveLine(lines[li]);
      if selective && li + 1 >= |lines| then Err("Missing coordinate mode after selective dynamics")
      else
        var at := if selective then li + 1 else li;
        ModeResult(ModeOf(lines[at]), selective, at)
  }

  function ModeResult(m: Option<Mode>, selective: bool, at: nat): (r: Result<(Mode, bool, nat)>)
    ensures r.Ok? <==> m.Some?
    ensures r.Ok? ==> r.value == (m.value, selective, at)
  {
    match m
    case None => Err("Unknown coordinate mode in POSCAR")
    case Some(mode) => Ok((mode, selective, at))
  }

  /** The line, trimmed and in upper case, starts with `S`. */
  predicate SelectiveLine(line: string)
  {
    StartsWith(ToUpper(Trim(line)), "S")
  }

  /** The mode a line names once trimmed and upper-cased: `D…` direct, `C…` or `K…`
      Cartesian. */
  function ModeOf(line: string): (r: Option<Mode>)
    ensures r == Some(Direct) <==> StartsWith(ToUpper(Trim(line)), "D")
  {
    var m := ToUpper(Trim(line));
    if StartsWith(m, "D") then Some(Direct)
    else if StartsWith(m, "C") || StartsWith(m, "K") then Some(Cartesian)
    else None
  }

  /* ---------- sites ---------- */

  /** Everything the site loop reads; `inverse` is the inverse of the transposed
      lattice, when it has one. */
  datatype Context = Context(lines: seq<string>, modeLine: nat, mode: Mode, selective: bool,
                             lattice: Mat3, inverse: Option<Mat3>, scale: real)

  /** How often `for (j = 0; j < count; j++)` runs: the least whole number not below the
      count, and never for NaN or a count of at most 0. */
  function Iterations(c: Option<real>): (n: nat)
    ensures c.Some? && c.value >= 0.0 && IsWhole(c.value) ==> n == c.value.Floor
  {
    if c.None? || c.value <= 0.0 then 0
    else if IsWhole(c.value) then c.value.Floor
    else c.value.Floor + 1
  }

  function TotalIterations(counts: seq<Option<real>>, e: nat): nat
    decreases |counts| - e
  {
    if e >= |counts| then 0 else Iterations(counts[e]) + TotalIterations(counts, e + 1)
  }

  /** The selective-dynamics flags of a coordinate line: tokens 3..5 equal to `T`, when
      the line has at least six tokens. */
  function SelectiveFlags(line: string): (r: Option<Flags>)
    ensures r.Some? <==> |Tokens(line)| >= 6
  {
    var t := Tokens(line);
    if |t| >= 6 then Some((t[3] == "T", t[4] == "T", t[5] == "T")) else None
  }

  /** Fractional coordinates of a Cartesian position: the inverse of the transposed
      lattice applied to it, or, for a singular lattice, each component divided by the
      lattice's diagonal entry. */
  function Fractional(ctx: Context, xyz: Vec3): Vec3
  {
    match ctx.inverse
    case Some(inv) => MatVec(inv, xyz)
    case None => Vec3(Quot(xyz.x, ctx.lattice.r0.x), Quot(xyz.y, ctx.lattice.r1.y), Quot(xyz.z, ctx.lattice.r2.z))
  }

  /** The site at Cartesian or fractional coordinates `c`, by the file's mode. */
  function SiteAt(ctx: Context, element: string, c: seq<real>, flags: Option<Flags>, lbl: string): (r: Site)
    requires |c| == 3
    ensures SiteFits(ctx, r) && r.species == [Species(element, 1.0, 0.0)]
    ensures r.labelText == lbl && r.selective == flags
  {
    match ctx.mode
    case Direct =>
      var abc := Vec3(c[0], c[1], c[2]);
      assert AsVec3(AsSeq(abc)) == abc;
      PlainSite(element, AsSeq(abc), AsSeq(Combine(abc, ctx.lattice)), lbl, flags)
    case Cartesian =>
      var xyz := ScaleVec3(Vec3(c[0], c[1], c[2]), ctx.scale);
      var abc := Fractional(ctx, xyz);
      assert AsVec3(AsSeq(xyz)) == xyz;
      PlainSite(element, AsSeq(abc), AsSeq(xyz), lbl, flags)
  }

  /** The site read from one coordinate line, with the given label. */
  function MakeSite(ctx: Context, element: string, line: string, lbl: string): (r: Result<Site>)
    ensures r.Ok? <==> ParseCoordinateLine(line).Ok?
    ensures r.Ok? ==> SiteFits(ctx, r.value) && r.value.species == [Species(element, 1.0, 0.0)]
    ensures r.Ok? ==> r.value.labelText == lbl
    ensures r.Ok? ==> r.value.selective == if ctx.selective then SelectiveFlags(line) else None
  {
    var c :- ParseCoordinateLine(line);
    Ok(SiteAt(ctx, element, c, if ctx.selective then SelectiveFlags(line) else None, lbl))
  }

  function AsVec3(v: Vec): Vec3
    requires |v| == 3
  {
    Vec3(v[0], v[1], v[2])
  }

  /** A site of the file: three fractional and three Cartesian coordinates; direct
      coordinates give the position through the lattice, and Cartesian ones give the
      fractional coordinates through the inverse, when there is one. */
  predicate SiteFits(ctx: Context, s: Site)
  {
    |s.abc| == 3 && |s.xyz| == 3 &&
    (ctx.mode == Direct ==> s.xyz == AsSeq(Combine(AsVec3(s.abc), ctx.lattice))) &&
    (ctx.mode == Cartesian && ctx.inverse.Some? ==> s.abc == AsSeq(MatVec(ctx.inverse.value, AsVec3(s.xyz))))
  }

  /* ---------- the site loop ---------- */

  /** Where one site comes from: its element, the index of its coordinate line, and the
      number in its label. */
  datatype Slot = Slot(element: string, line: int, number: int)

  /** The slots of `n` sites of `element` whose first site has atom index `base`. */
  function ElementSlots(modeLine: nat, element: string, base: int, n: nat): (r: seq<Slot>)
    ensures |r| == n
    ensures forall j :: 0 <= j < n ==> r[j] == Slot(element, modeLine + 1 + base + j, base + j + 1)
  {
    seq(n, j requires 0 <= j < n => Slot(element, modeLine + 1 + base + j, base + j + 1))
  }

  /** The atom index after an element: the sum, or NaN once either is NaN. */
  function Advance(atomIndex: Option<real>, count: Option<real>): (r: Option<real>)
    ensures r.Some? <==> atomIndex.Some? && count.Some?
  {
    if atomIndex.None? || count.None? then None else Some(atomIndex.value + count.value)
  }

  /** The slots of the loop over elements from `e` on, with the running atom index
      (`None` once a NaN count has made it NaN). Site `j` of an element lies on line
      `modeLine + 1 + atomIndex + j` and is numbered `atomIndex + j + 1`. An index that
      is NaN or fractional names no line; reading it throws. */
  function Slots(modeLine: nat, elements: seq<string>, counts: seq<Option<real>>, e: nat,
                 atomIndex: Option<real>): (r: Result<seq<Slot>>)
    requires |elements| == |counts| && e <= |counts|
    decreases |counts| - e
  {
    if e == |counts| then Ok([])
    else
      var n := Iterations(counts[e]);
      var next := Advance(atomIndex, counts[e]);
      if n > 0 && (atomIndex.None? || !IsWhole(atomIndex.value)) then Err("Cannot read type 'undefined'")
      else
        var here := if n == 0 then [] else ElementSlots(modeLine, elements[e], atomIndex.value.Floor, n);
        var rest :- Slots(modeLine, elements, counts, e + 1, next);
        Ok(here + rest)
  }

  /** The loop yields one slot per iteration of every element's inner loop. */
  lemma {:induction false} SlotsCount(modeLine: nat, elements: seq<string>, counts: seq<Option<real>>, e: nat,
                                      atomIndex: Option<real>)
    requires |elements| == |counts| && e <= |counts|
    requires Slots(modeLine, elements, counts, e, atomIndex).Ok?
    ensures |Slots(modeLine, elements, counts, e, atomIndex).value| == TotalIterations(counts, e)
    decreases |counts| - e
  {
    if e < |counts| {
      SlotsCount(modeLine, elements, counts, e + 1, Advance(atomIndex, counts[e]));
    }
  }

  /** A site as every slot yields it: it fits the lattice, holds one fully occupied
      species and is labelled with that species' element and `number`. */
  predicate SiteOfSlot(ctx: Context, site: Site, number: int)
  {
    SiteFits(ctx, site) && |site.species| == 1 && site.species[0].occu == 1.0 &&
    site.labelText == site.species[0].element + IntToString(number)
  }

  /** `sites` were read from `slots`: one site per slot, each slot's line in the file. */
  predicate ReadFrom(ctx: Context, sites: seq<Site>, slots: seq<Slot>)
    decreases |sites|
  {
    |sites| == |slots| &&
    (|sites| == 0 ||
     (0 <= slots[0].line < |ctx.lines| && SiteOfSlot(ctx, sites[0], slots[0].number) &&
      ReadFrom(ctx, sites[1..], slots[1..])))
  }

  /** The site of one slot, labelled with its element and number. */
  function SlotSite(ctx: Context, slot: Slot): (r: Result<Site>)
    ensures r.Ok? ==> 0 <= slot.line < |ctx.lines| && SiteOfSlot(ctx, r.value, slot.number)
    ensures r.Ok? ==> r.value.species[0].element == slot.element
  {
    var element := slot.element;
    if slot.line < 0 || slot.line >= |ctx.lines| then Err("Not enough coordinate lines in POSCAR")
    else MakeSite(ctx, element, ctx.lines[slot.line], element + IntToString(slot.number))
  }

  /** The sites of the slots, read in order; the first line that is missing or not a
      coordinate line makes the reader fail. */
  function ReadSites(ctx: Context, slots: seq<Slot>): (r: Result<seq<Site>>)
    ensures r.Ok? ==> ReadFrom(ctx, r.value, slots)
    decreases |slots|
  {
    if |slots| == 0 then Ok([])
    else
      var site := SlotSite(ctx, slots[0]);
      if site.Err? then Err(site.msg)
      else
        var rest := ReadSites(ctx, slots[1..]);
        if rest.Err? then Err(rest.msg)
        else
          var all := [site.value] + rest.value;
          assert all[0] == site.value && all[1..] == rest.value;
          Ok(all)
  }

  /** Everything `parse_poscar` reads before the coordinate lines: the reading context
      and the species header. */
  function PoscarSetup(ops: NumericOps, lines: seq<string>, v: Version): (r: Result<(Context, Header)>)
    requires |lines| >= 8
    ensures ParseFloat(lines[1]).None? || ParseLattice(lines, v).Err? ==> r.Err?
    ensures |ParseHeader(lines).symbols| != |ParseHeader(lines).counts| ==> r.Err?
    ensures CoordinateMode(lines, ParseHeader(lines).next).Err? ==> r.Err?
    ensures r.Ok? ==> r.value.1 == ParseHeader(lines) && |r.value.1.symbols| == |r.value.1.counts|
    ensures r.Ok? ==> r.value.0.lines == lines && r.value.0.modeLine > 5
    ensures r.Ok? ==> r.value.0.inverse == MatrixInverse(Transpose(r.value.0.lattice)).ToOption()
  {
    match ParseFloat(lines[1])
    case None => Err("Invalid scale factor")
    case Some(given) =>
      var m :- ParseLattice(lines, v);
      var s := EffectiveScale(ops, given, m);
      var h := ParseHeader(lines);
      if |h.symbols| != |h.counts| then Err("Mismatch between element symbols and counts")
      else
        var cm :- CoordinateMode(lines, h.next);
        var scaled := ScaleMat(m, s);
        Ok((Context(lines, cm.2, cm.0, cm.1, scaled, MatrixInverse(Transpose(scaled)).ToOption(), s), h))
  }

  /** The sites of a file whose setup succeeded. Every error in the site loop makes
      the reader fail, so the slots can be planned before any line is read. */
  function PoscarSites(ctx: Context, h: Header): (r: Result<seq<Site>>)
    requires |h.symbols| == |h.counts|
    ensures r.Ok? ==> Slots(ctx.modeLine, ElementNames(h.symbols), h.counts, 0, Some(0.0)).Ok?
    ensures r.Ok? ==> |r.value| == TotalIterations(h.counts, 0)
    ensures r.Ok? ==> ReadFrom(ctx, r.value, Slots(ctx.modeLine, ElementNames(h.symbols), h.counts, 0, Some(0.0)).value)
  {
    var slots :- Slots(ctx.modeLine, ElementNames(h.symbols), h.counts, 0, Some(0.0));
    SlotsCount(ctx.modeLine, ElementNames(h.symbols), h.counts, 0, Some(0.0));
    ReadSites(ctx, slots)
  }

  /** The element of each header name, by `validate_element_symbol`. */
  function ElementNames(symbols: seq<string>): (r: seq<string>)
    ensures |r| == |symbols|
  {
    seq(|symbols|, i requires 0 <= i < |symbols| => ValidateElementSymbol(symbols[i], i))
  }

  /** `parse_poscar`: the sites of the file and its scaled lattice, or `None` for a file
      the reader rejects. */
  function ParsePoscar(ops: NumericOps, content: string, v: Version): (r: Option<Structure>)
    ensures |PoscarLines(content)| < 8 ==> r.None?
    ensures |PoscarLines(content)| >= 8 && PoscarSetup(ops, PoscarLines(content), v).Err? ==> r.None?
    ensures r.Some? <==> (|PoscarLines(content)| >= 8 && PoscarSetup(ops, PoscarLines(content), v).Ok? &&
                          var setup := PoscarSetup(ops, PoscarLines(content), v).value;
                          PoscarSites(setup.0, setup.1).Ok?)
    ensures r.Some? ==> var setup := PoscarSetup(ops, PoscarLines(content), v).value;
      r.value.lattice == Some(MakeLattice(ops, setup.0.lattice)) &&
      PoscarSites(setup.0, setup.1) == Ok(r.value.sites)
  {
    var lines := PoscarLines(content);
    if |lines| < 8 then None
    else
      match PoscarSetup(ops, lines, v)
      case Err(_) => None
      case Ok((ctx, h)) =>
        match PoscarSites(ctx, h)
        case Err(_) => None
        case Ok(sites) => Some(Structure(sites, Some(MakeLattice(ops, ctx.lattice))))
  }

  /* ---------- properties ---------- */

  /** The difference of two whole numbers is whole. */
  lemma WholeDifference(y: real, x: real)
    requires IsWhole(y) && IsWhole(x)
    ensures IsWhole(y - x)
  {
    assert y - x == (y.Floor - x.Floor) as real;
  }

  /** After an element with a count that is not negative, a whole atom index has
      moved past that element's sites. */
  lemma NextIndex(offset: nat, c: real)
    requires c >= 0.0 && IsWhole(offset as real + c)
    ensures offset as real + c == (offset + Iterations(Some(c))) as real
  {
    WholeDifference(offset as real + c, offset as real);
    assert offset as real + c - offset as real == c;
  }

  /** Once the atom index is NaN or fractional, no further slot can be planned. */
  lemma {:induction false} PoisonedSlots(modeLine: nat, elements: seq<string>, counts: seq<Option<real>>, e: nat,
                                         atomIndex: Option<real>)
    requires |elements| == |counts| && e <= |counts|
    requires forall i :: e <= i < |counts| && counts[i].Some? ==> counts[i].value >= 0.0
    requires atomIndex.None? || !IsWhole(atomIndex.value)
    requires Slots(modeLine, elements, counts, e, atomIndex).Ok?
    ensures Slots(modeLine, elements, counts, e, atomIndex).value == []
    decreases |counts| - e
  {
    if e < |counts| {
      var next := Advance(atomIndex, counts[e]);
      if next.Some? {
        assert counts[e].value == 0.0;
        assert next.value == atomIndex.value;
      }
      PoisonedSlots(modeLine, elements, counts, e + 1, next);
    }
  }

  /** With no negative count and a whole atom index `offset`, the slots are
      consecutive: slot `p` lies on line `modeLine + 1 + offset + p` and is numbered
      `offset + p + 1`. */
  lemma {:induction false} SlotAt(modeLine: nat, elements: seq<string>, counts: seq<Option<real>>, e: nat,
                                  offset: nat, r: seq<Slot>, p: nat)
    requires |elements| == |counts| && e <= |counts|
    requires forall i :: e <= i < |counts| && counts[i].Some? ==> counts[i].value >= 0.0
    requires Slots(modeLine, elements, counts, e, Some(offset as real)) == Ok(r)
    requires p < |r|
    ensures r[p].line == modeLine + 1 + offset + p && r[p].number == offset + p + 1
    decreases |counts| - e
  {
    var n := Iterations(counts[e]);
    assert (offset as real).Floor == offset;
    var next := Advance(Some(offset as real), counts[e]);
    var here := if n == 0 then [] else ElementSlots(modeLine, elements[e], offset, n);
    var rest := Slots(modeLine, elements, counts, e + 1, next).value;
    assert r == here + rest;
    if p < n {
      assert r[p] == here[p];
    } else if counts[e].Some? && IsWhole(offset as real + counts[e].value) {
      NextIndex(offset, counts[e].value);
      assert next == Some((offset + n) as real);
      assert r[p] == rest[p - n];
      SlotAt(modeLine, elements, counts, e + 1, offset + n, rest, p - n);
    } else {
      PoisonedSlots(modeLine, elements, counts, e + 1, next);
      assert false;
    }
  }

  /** Each site read from a slot is as the slot yields it. */
  lemma {:induction false} ReadFromAt(ctx: Context, sites: seq<Site>, slots: seq<Slot>, p: nat)
    requires ReadFrom(ctx, sites, slots) && p < |sites|
    ensures 0 <= slots[p].line < |ctx.lines| && SiteOfSlot(ctx, sites[p], slots[p].number)
    decreases p
  {
    if p > 0 {
      ReadFromAt(ctx, sites[1..], slots[1..], p - 1);
    }
  }

  /** No count in the header is negative (NaN counts allowed). */
  predicate NoNegativeCount(counts: seq<Option<real>>)
  {
    forall i :: 0 <= i < |counts| && counts[i].Some? ==> counts[i].value >= 0.0
  }

  /** With no negative count, the sites are labelled `Si1`, `Si2`, `O3`, …: each with its
      element and its position counted from 1 across all elements; and the file has a
      coordinate line for every site after the mode line. */
  lemma PoscarLabels(ops: NumericOps, content: string, v: Version)
    requires ParsePoscar(ops, content, v).Some?
    requires NoNegativeCount(ParseHeader(PoscarLines(content)).counts)
    ensures var sites := ParsePoscar(ops, content, v).value.sites;
      forall p :: 0 <= p < |sites| ==>
        |sites[p].species| == 1 && sites[p].labelText == sites[p].species[0].element + IntToString(p + 1)
    ensures var sites := ParsePoscar(ops, content, v).value.sites;
      |sites| > 0 ==> PoscarSetup(ops, PoscarLines(content), v).value.0.modeLine + |sites| < |PoscarLines(content)|
  {
    var setup := PoscarSetup(ops, PoscarLines(content), v).value;
    SitesLabelled(setup.0, setup.1);
  }

  /** The labelling of `PoscarLabels`, for the sites read with a given context and
      header. */
  lemma SitesLabelled(ctx: Context, h: Header)
    requires |h.symbols| == |h.counts| && PoscarSites(ctx, h).Ok? && NoNegativeCount(h.counts)
    ensures var sites := PoscarSites(ctx, h).value;
      forall p :: 0 <= p < |sites| ==>
        |sites[p].species| == 1 && sites[p].labelText == sites[p].species[0].element + IntToString(p + 1)
    ensures |PoscarSites(ctx, h).value| > 0 ==> ctx.modeLine + |PoscarSites(ctx, h).value| < |ctx.lines|
  {
    var names := ElementNames(h.symbols);
    var slots := Slots(ctx.modeLine, names, h.counts, 0, Some(0.0)).value;
    SlotLabels(ctx, names, h.counts, PoscarSites(ctx, h).value, slots);
  }

  /** Sites read from the slots of the whole loop are labelled by their position. */
  lemma SlotLabels(ctx: Context, names: seq<string>, counts: seq<Option<real>>, sites: seq<Site>, slots: seq<Slot>)
    requires |names| == |counts| && NoNegativeCount(counts)
    requires Slots(ctx.modeLine, names, counts, 0, Some(0.0)) == Ok(slots)
    requires ReadFrom(ctx, sites, slots)
    ensures forall p :: 0 <= p < |sites| ==>
      |sites[p].species| == 1 && sites[p].labelText == sites[p].species[0].element + IntToString(p + 1)
    ensures |sites| > 0 ==> ctx.modeLine + |sites| < |ctx.lines|
  {
    forall p | 0 <= p < |sites|
      ensures |sites[p].species| == 1 && sites[p].labelText == sites[p].species[0].element + IntToString(p + 1)
    {
      ReadFromAt(ctx, sites, slots, p);
      SlotAt(ctx.modeLine, names, counts, 0, 0, slots, p);
    }
    if |sites| > 0 {
      ReadFromAt(ctx, sites, slots, |sites| - 1);
      SlotAt(ctx.modeLine, names, counts, 0, 0, slots, |sites| - 1);
    }
  }

  /** When the scaled lattice is invertible, every site's Cartesian position is its
      fractional coordinates combined with the lattice vectors, whichever coordinate
      mode the file used; and every site holds one fully occupied species. */
  lemma PoscarPositions(ops: NumericOps, content: string, v: Version)
    requires ParsePoscar(ops, content, v).Some?
    requires MatrixInverse(Transpose(ParsePoscar(ops, content, v).value.lattice.value.matrix)).Ok?
    ensures var st := ParsePoscar(ops, content, v).value;
      forall p :: 0 <= p < |st.sites| ==>
        |st.sites[p].abc| == 3 && |st.sites[p].xyz| == 3 &&
        AsSeq(Combine(AsVec3(st.sites[p].abc), st.lattice.value.matrix)) == st.sites[p].xyz &&
        |st.sites[p].species| == 1 && st.sites[p].species[0].occu == 1.0
  {
    var lines := PoscarLines(content);
    var setup := PoscarSetup(ops, lines, v).value;
    var ctx, h := setup.0, setup.1;
    var st := ParsePoscar(ops, content, v).value;
    var slots := Slots(ctx.modeLine, ElementNames(h.symbols), h.counts, 0, Some(0.0)).value;
    var m := ctx.lattice;
    assert st.lattice.value.matrix == m;
    forall p | 0 <= p < |st.sites|
      ensures |st.sites[p].abc| == 3 && |st.sites[p].xyz| == 3 &&
        AsSeq(Combine(AsVec3(st.sites[p].abc), m)) == st.sites[p].xyz &&
        |st.sites[p].species| == 1 && st.sites[p].species[0].occu == 1.0
    {
      ReadFromAt(ctx, st.sites, slots, p);
      SiteThroughLattice(ctx, st.sites[p]);
    }
  }

  /** A fitting site's position is its fractional coordinates through the lattice when
      the lattice is invertible. */
  lemma SiteThroughLattice(ctx: Context, s: Site)
    requires SiteFits(ctx, s)
    requires ctx.inverse == MatrixInverse(Transpose(ctx.lattice)).ToOption()
    requires MatrixInverse(Transpose(ctx.lattice)).Ok?
    ensures AsSeq(Combine(AsVec3(s.abc), ctx.lattice)) == s.xyz
  {
    if ctx.mode == Cartesian {
      var x := AsVec3(s.xyz);
      InverseRoundTrip(Transpose(ctx.lattice), x);
      CombineIsTransposeProduct(AsVec3(s.abc), ctx.lattice);
      assert AsVec3(s.abc) == MatVec(ctx.inverse.value, x);
      assert AsSeq(x) == s.xyz;
    }
  }

}

=== FILE: seqs.dfy ===
/** Small facts about sequence slicing and concatenation, kept apart so that the
    proofs using them do not have to rediscover them. */
module Seqs {
  lemma EmptyPrefix<T>(s: seq<T>)
    ensures [] + s == s
  {
  }

  lemma EmptySuffix<T>(s: seq<T>)
    ensures s + [] == s
  {
  }

  lemma ConcatAssoc<T>(a: seq<T>, b: seq<T>, c: seq<T>)
    ensures a + b + c == a + (b + c)
  {
  }

  lemma TailOfConcat<T>(a: seq<T>, b: seq<T>)
    requires |a| > 0
    ensures (a + b)[1..] == a[1..] + b
  {
  }

  lemma AppendHead<T>(a: seq<T>, c: seq<T>)
    requires |c| > 0
    ensures a + [c[0]] + c[1..] == a + c
  {
    assert [c[0]] + c[1..] == c;
  }

  lemma SplitAround<T>(s: seq<T>, i: nat)
    requires i < |s|
    ensures s == s[..i] + [s[i]] + s[i + 1..]
  {
  }

  lemma ConsTail<T>(s: seq<T>)
    requires |s| > 0
    ensures [s[0]] + s[1..] == s
  {
  }

  lemma SliceOfConcat<T>(a: seq<T>, b: seq<T>)
    ensures (a + b)[..|a|] == a && (a + b)[|a|..] == b
  {
  }
}

=== FILE: structurefile.dfy ===
/** `parse_structure_file`: choosing the structure parser for a file, first by the
    file's name and then by its content. The current reader (src/lib/io/parse.ts) also
    recognises CIF; the legacy reader (src/lib/parsers.ts) knows only XYZ and POSCAR.
    The CIF parser itself is a parameter. */
module StructureFile {
  import opened Wrappers
  import opened Text
  import opened Numbers
  import opened Crystal
  import Elements
  import Poscar
  import Xyz
  import Export

  datatype Format = XyzFile | PoscarFile | CifFile

  /** `name.split('.').pop()`: the text after the last '.', or the whole name. */
  function Extension(name: string): (r: string)
    ensures '.' !in r
  {
    var parts := Split(name, '.');
    parts[|parts| - 1]
  }

  /** The extension of `stem.ext` is `ext`, whatever dots the stem holds. */
  lemma {:induction false} ExtensionOf(stem: string, ext: string)
    requires '.' !in ext
    ensures Extension(stem + "." + ext) == ext
    decreases |stem|
  {
    var s := stem + "." + ext;
    if '.' in stem {
      var i := CharIndex(stem, '.');
      assert CharIndex(s, '.') == i by {
        assert s[..|stem|] == stem;
        assert s[..i] == stem[..i];
      }
      assert s[i + 1..] == stem[i + 1..] + "." + ext;
      ExtensionOf(stem[i + 1..], ext);
    } else {
      CharIndexAfter(stem, '.', ext);
      assert s[|stem| + 1..] == ext;
      assert Split(ext, '.') == [ext] by {
        assert CharIndex(ext, '.') == |ext|;
      }
    }
  }

  /** The format the file name gives, if any: an empty name gives none, `.xyz` and (in
      the current reader) `.cif` decide by extension, and any name mentioning "poscar"
      in any case means POSCAR. */
  function NameFormat(filename: string, v: Poscar.Version): (r: Option<Format>)
    ensures filename == "" ==> r.None?
    ensures r == Some(CifFile) ==> v == Poscar.Current
    ensures r == Some(XyzFile) <==> filename != "" && Extension(ToLower(filename)) == "xyz"
  {
    if filename == "" then None
    else
      var low := ToLower(filename);
      var ext := Extension(low);
      if ext == "xyz" then Some(XyzFile)
      else if v == Poscar.Current && ext == "cif" then Some(CifFile)
      else if ext == "poscar" || Contains(low, "poscar") then Some(PoscarFile)
      else None
  }

  /** `content.trim().split(/\r?\n/)` */
  function ContentLines(content: string): seq<string>
  {
    SplitLines(Trim(content))
  }

  /** A positive whole number on the first line, enough lines for that many atoms, and
      a third line of at least four tokens: a non-numeric token of at most three
      characters followed by three numbers. */
  predicate LooksLikeXyz(lines: seq<string>)
  {
    |lines| >= 2 &&
    var n := ParseInt(Trim(lines[0]));
    n.Some? && n.value > 0 && |lines| >= n.value + 2 && 2 < |lines| &&
    var parts := Tokens(lines[2]);
    |parts| >= 4 && ParseInt(parts[0]).None? && |parts[0]| <= 3 &&
    ParseFloat(parts[1]).Some? && ParseFloat(parts[2]).Some? && ParseFloat(parts[3]).Some?
  }

  /** At least eight lines, the second one a number (the scale factor). */
  predicate LooksLikePoscar(lines: seq<string>)
  {
    |lines| >= 8 && ParseFloat(Trim(lines[1])).Some?
  }

  predicate CifLine(line: string)
  {
    StartsWith(line, "data_") || Contains(line, "_cell_length_") || Contains(line, "_atom_site_") ||
    Trim(line) == "loop_"
  }

  predicate LooksLikeCif(lines: seq<string>)
  {
    exists k :: 0 <= k < |lines| && CifLine(lines[k])
  }

  const TooShort: string := "File too short to determine format"
  const Undetermined: string := "Unable to determine file format"

  /** The format chosen for a file. The name is consulted first; the content test
      needs two lines and tries XYZ, POSCAR and then (current reader only) CIF. */
  function DetectFormat(content: string, filename: string, v: Poscar.Version): (r: Result<Format>)
    ensures NameFormat(filename, v).Some? ==> r == Ok(NameFormat(filename, v).value)
    ensures NameFormat(filename, v).None? && |ContentLines(content)| < 2 ==> r == Err(TooShort)
    ensures r == Ok(CifFile) ==> v == Poscar.Current
    ensures r.Err? <==>
              NameFormat(filename, v).None? &&
              !LooksLikeXyz(ContentLines(content)) && !LooksLikePoscar(ContentLines(content)) &&
              (v == Poscar.Legacy || !LooksLikeCif(ContentLines(content)) || |ContentLines(content)| < 2)
  {
    match NameFormat(filename, v)
    case Some(f) => Ok(f)
    case None =>
      var lines := ContentLines(content);
      if |lines| < 2 then Err(TooShort)
      else if LooksLikeXyz(lines) then Ok(XyzFile)
      else if LooksLikePoscar(lines) then Ok(PoscarFile)
      else if v == Poscar.Current && LooksLikeCif(lines) then Ok(CifFile)
      else
        assert v == Poscar.Legacy || !LooksLikeCif(lines);
        Err(Undetermined)
  }

  /** `parse_structure_file`: the parser of the detected format, or `null`. */
  function ParseStructureFile(ops: NumericOps, cif: string -> Option<Structure>, content: string,
                              filename: string, v: Poscar.Version): (r: Option<Structure>)
    ensures DetectFormat(content, filename, v).Err? ==> r.None?
    ensures DetectFormat(content, filename, v) == Ok(XyzFile) ==> r == Xyz.ParseXyz(ops, content)
    ensures DetectFormat(content, filename, v) == Ok(PoscarFile) ==> r == Poscar.ParsePoscar(ops, content, v)
    ensures DetectFormat(content, filename, v) == Ok(CifFile) ==> r == cif(content)
  {
    match DetectFormat(content, filename, v)
    case Err(_) => None
    case Ok(XyzFile) => Xyz.ParseXyz(ops, content)
    case Ok(PoscarFile) => Poscar.ParsePoscar(ops, content, v)
    case Ok(CifFile) => cif(content)
  }

  /** Lower-casing a name lower-cases its stem and extension. */
  lemma LowerName(stem: string, ext: string)
    ensures ToLower(stem + "." + ext) == ToLower(stem) + "." + ToLower(ext)
  {
    assert ToLower(stem + "." + ext) == ToLower(stem + ".") + ToLower(ext);
  }

  /** A name ending in `.xyz`, in any case, is read as XYZ whatever the content. */
  lemma XyzNameDecides(content: string, stem: string, ext: string, v: Poscar.Version)
    requires ToLower(ext) == "xyz"
    ensures DetectFormat(content, stem + "." + ext, v) == Ok(XyzFile)
  {
    var name := stem + "." + ext;
    LowerName(stem, ext);
    ExtensionOf(ToLower(stem), "xyz");
    assert Extension(ToLower(name)) == "xyz";
    assert NameFormat(name, v) == Some(XyzFile);
  }

  /** A name ending in `.cif` is read as CIF by the current reader. */
  lemma CifNameDecides(content: string, stem: string)
    ensures DetectFormat(content, stem + "." + "cif", Poscar.Current) == Ok(CifFile)
  {
    var name := stem + "." + "cif";
    LowerName(stem, "cif");
    assert ToLower("cif") == "cif";
    ExtensionOf(ToLower(stem), "cif");
    assert Extension(ToLower(name)) == "cif";
    assert NameFormat(name, Poscar.Current) == Some(CifFile);
  }

  /** The legacy reader ignores a `.cif` extension and goes by the content. */
  lemma CifNameIgnoredByLegacy(stem: string)
    requires !Contains(ToLower(stem), "poscar")
    ensures NameFormat(stem + "." + "cif", Poscar.Legacy).None?
  {
    var low := ToLower(stem);
    LowerName(stem, "cif");
    assert ToLower("cif") == "cif";
    assert low + "." + "cif" == low + ".cif";
    ExtensionOf(low, "cif");
    NoPoscarInCifName(low);
    assert ToLower(stem + "." + "cif") == low + ".cif";
  }

  /** Appending `.cif` to a name without "poscar" does not create one. */
  lemma NoPoscarInCifName(low: string)
    requires !Contains(low, "poscar")
    ensures !Contains(low + ".cif", "poscar")
  {
    var s := low + ".cif";
    ContainsIff(s, "poscar");
    ContainsIff(low, "poscar");
    forall i | 0 <= i && i + 6 <= |s|
      ensures !OccursAt(s, "poscar", i)
    {
      if i + 6 <= |low| {
        assert !OccursAt(low, "poscar", i);
        assert s[i..i + 6] == low[i..i + 6];
      } else {
        assert s[i..i + 6][5] == s[i + 5] != 'r';
      }
    }
  }

  /** Any name mentioning POSCAR, in any case, that does not end in `.xyz` or `.cif` is
      read as POSCAR whatever the content. */
  lemma PoscarNameDecides(content: string, filename: string, v: Poscar.Version)
    requires Contains(ToLower(filename), "poscar")
    requires Extension(ToLower(filename)) != "xyz" && Extension(ToLower(filename)) != "cif"
    ensures DetectFormat(content, filename, v) == Ok(PoscarFile)
  {
  }

  /** Without a recognised name, content of fewer than two lines is rejected. */
  lemma ShortContentRejected(content: string, filename: string, v: Poscar.Version)
    requires NameFormat(filename, v).None?
    requires '\n' !in content
    ensures DetectFormat(content, filename, v) == Err(TooShort)
  {
    var t := Trim(content);
    assert '\n' !in t by {
      TrimInside(content);
    }
    assert Split(t, '\n') == [t] by {
      assert CharIndex(t, '\n') == |t|;
    }
  }

  /** Trimming keeps only characters of the original text. */
  lemma TrimInside(s: string)
    ensures forall c :: c in Trim(s) ==> c in s
  {
  }

  /** The content test tries XYZ before POSCAR: text that passes both is read as XYZ. */
  lemma XyzBeforePoscar(content: string, v: Poscar.Version)
    requires LooksLikeXyz(ContentLines(content)) && LooksLikePoscar(ContentLines(content))
    ensures DetectFormat(content, "", v) == Ok(XyzFile)
  {
  }

  /** Unnamed text with a `data_` line is read as CIF by the current reader as long as
      it looks neither like XYZ nor like POSCAR; the legacy reader cannot place it. */
  lemma CifContent(content: string, k: nat)
    requires 2 <= |ContentLines(content)| && k < |ContentLines(content)|
    requires StartsWith(ContentLines(content)[k], "data_")
    requires !LooksLikeXyz(ContentLines(content)) && !LooksLikePoscar(ContentLines(content))
    ensures DetectFormat(content, "", Poscar.Current) == Ok(CifFile)
    ensures DetectFormat(content, "", Poscar.Legacy) == Err(Undetermined)
  {
    assert CifLine(ContentLines(content)[k]);
  }

  /** A non-empty piece of text without whitespace. */
  predicate Word(t: string)
  {
    |t| > 0 && NoSpace(t)
  }

  /** The symbol of a known element has one or two letters. */
  lemma ElementWord(sym: string)
    requires Elements.IsElement(sym)
    ensures 0 < |sym| <= 2 && NoSpace(sym) && ParseInt(sym) == None
  {
    Elements.NumberOfSpec(sym);
    Elements.SymbolShape(Elements.NumberOf(sym).value);
    LetterNotSpace(sym[0]);
    if |sym| == 2 {
      LetterNotSpace(sym[1]);
    }
    LetterLeadNotInt(sym);
  }

  /** An atom line of the export ends in its last number. */
  lemma SiteLineEnd(site: Site, lattice: Option<Export.LatticeInfo>, fixed: real -> string)
    requires forall x :: Word(fixed(x))
    ensures var line := Export.SiteLine(site, lattice, fixed);
            |line| > 0 && !IsSpace(line[|line| - 1])
  {
    var c := Export.SiteCoords(site, lattice);
    var z := fixed(c.z);
    assert Word(z);
    var line := Export.SiteLine(site, lattice, fixed);
    assert line[|line| - 1] == z[|z| - 1];
  }

  /** An atom line of the export splits into the symbol and the three numbers. */
  lemma SiteLineTokens(site: Site, lattice: Option<Export.LatticeInfo>, fixed: real -> string)
    requires forall x :: Word(fixed(x))
    requires Elements.IsElement(Export.SiteSymbol(site))
    ensures var c := Export.SiteCoords(site, lattice);
            Tokens(Export.SiteLine(site, lattice, fixed)) == [Export.SiteSymbol(site), fixed(c.x), fixed(c.y), fixed(c.z)]
  {
    var sym := Export.SiteSymbol(site);
    ElementWord(sym);
    var c := Export.SiteCoords(site, lattice);
    assert Word(fixed(c.x)) && Word(fixed(c.y)) && Word(fixed(c.z));
    WordsTokens(sym, fixed(c.x), fixed(c.y), fixed(c.z));
  }

  /** A join starts with the first character of its first part. */
  lemma JoinFirstChar(ls: seq<string>, sep: string)
    requires |ls| > 0 && |ls[0]| > 0
    ensures |Join(ls, sep)| > 0 && Join(ls, sep)[0] == ls[0][0]
  {
    assert ls == [ls[0]] + ls[1..];
    Export.JoinStarts(ls[0], ls[1..], sep);
  }

  /** A join ends with the last character of its last part. */
  lemma JoinLastChar(ls: seq<string>, sep: string)
    requires |ls| > 0 && |ls[|ls| - 1]| > 0
    ensures var j := Join(ls, sep); |j| > 0 && j[|j| - 1] == ls[|ls| - 1][|ls[|ls| - 1]| - 1]
  {
    var last := ls[|ls| - 1];
    assert ls == ls[..|ls| - 1] + [last];
    Export.JoinEnds(ls[..|ls| - 1], last, sep);
  }

  /** The exported text starts with the first digit of the atom count. */
  lemma ExportStartsClean(s: Export.ExportInput, fixed: real -> string)
    requires s.sites.Some? && |s.sites.value| > 0
    ensures var t := Join(Export.XyzLines(s, s.sites.value, fixed), "\n"); |t| > 0 && !IsSpace(t[0])
  {
    var sites := s.sites.value;
    var ls := Export.XyzLines(s, sites, fixed);
    var count := NatToString(|sites|);
    assert ls[0] == count;
    JoinFirstChar(ls, "\n");
    assert IsDigit(count[0]);
  }

  /** The exported text ends with the last number of the last atom line. */
  lemma ExportEndsClean(s: Export.ExportInput, fixed: real -> string)
    requires s.sites.Some? && |s.sites.value| > 0
    requires forall x :: Word(fixed(x))
    ensures var t := Join(Export.XyzLines(s, s.sites.value, fixed), "\n"); |t| > 0 && !IsSpace(t[|t| - 1])
  {
    var sites := s.sites.value;
    var ls := Export.XyzLines(s, sites, fixed);
    var last := Export.SiteLine(sites[|sites| - 1], s.lattice, fixed);
    assert ls[|ls| - 1] == last;
    SiteLineEnd(sites[|sites| - 1], s.lattice, fixed);
    JoinLastChar(ls, "\n");
  }

  /** The exported text neither starts nor ends with whitespace. */
  lemma TextUntrimmed(s: Export.ExportInput, fixed: real -> string)
    requires s.sites.Some? && |s.sites.value| > 0
    requires forall x :: Word(fixed(x))
    ensures Trim(Export.ExportXyz(Some(s), fixed).value.0) == Export.ExportXyz(Some(s), fixed).value.0
  {
    var text := Join(Export.XyzLines(s, s.sites.value, fixed), "\n");
    ExportStartsClean(s, fixed);
    ExportEndsClean(s, fixed);
    TrimClean(text);
    assert text == Export.ExportXyz(Some(s), fixed).value.0;
  }

  /** The lines the content test reads from an exported file: the count, then (third)
      the first atom line. */
  lemma ExportedLines(s: Export.ExportInput, fixed: real -> string)
    requires s.sites.Some? && |s.sites.value| > 0
    requires Export.SingleLinePieces(s, fixed)
    requires forall x :: Word(fixed(x))
    ensures var lines := ContentLines(Export.ExportXyz(Some(s), fixed).value.0);
            && |lines| == |s.sites.value| + 2
            && lines[0] == NatToString(|s.sites.value|)
            && lines[2] == Export.SiteLine(s.sites.value[0], s.lattice, fixed)
  {
    var sites := s.sites.value;
    var n := |sites|;
    var text := Export.ExportXyz(Some(s), fixed).value.0;
    Export.ExportXyzLayout(s, fixed);
    var parts := Split(text, '\n');
    TextUntrimmed(s, fixed);
    var lines := ContentLines(text);
    assert lines == SplitLines(text);
    var count := NatToString(n);
    assert parts[0] == count;
    assert IsDigit(count[|count| - 1]);
    var first := Export.SiteLine(sites[0], s.lattice, fixed);
    assert parts[2] == first;
    SiteLineEnd(sites[0], s.lattice, fixed);
  }

  /** An exported XYZ file is recognised as XYZ by its content alone: its first line
      is the atom count, and its first atom line is a symbol followed by three
      numbers. */
  lemma ExportedXyzRecognised(s: Export.ExportInput, fixed: real -> string, v: Poscar.Version)
    requires s.sites.Some? && |s.sites.value| > 0
    requires Export.SingleLinePieces(s, fixed)
    requires forall x :: Word(fixed(x)) && ParseFloat(fixed(x)).Some?
    requires Elements.IsElement(Export.SiteSymbol(s.sites.value[0]))
    ensures DetectFormat(Export.ExportXyz(Some(s), fixed).value.0, "", v) == Ok(XyzFile)
  {
    var sites := s.sites.value;
    var n := |sites|;
    var lines := ContentLines(Export.ExportXyz(Some(s), fixed).value.0);
    ExportedLines(s, fixed);
    NatToStringParsesInt(n);
    DigitsUntrimmed(NatToString(n));
    SiteLineTokens(sites[0], s.lattice, fixed);
    ElementWord(Export.SiteSymbol(sites[0]));
    var c := Export.SiteCoords(sites[0], s.lattice);
    assert ParseFloat(fixed(c.x)).Some? && ParseFloat(fixed(c.y)).Some? && ParseFloat(fixed(c.z)).Some?;
    assert LooksLikeXyz(lines);
  }
}

=== FILE: text.dfy ===
/** The JavaScript string primitives the parsers are built on, over `seq<char>`:
    whitespace as matched by `\s`, `trim`, `split` by a character, by `/\s+/` and by
    `/\r?\n/`, ASCII case mapping, prefix/suffix/substring tests, literal replacement
    and `join`. */
module Text {
  import opened Seqs

  /** The characters matched by the regular-expression class `\s`
      (the same set `String.prototype.trim` removes). */
  predicate IsSpace(c: char)
  {
    c == ' ' || c == '\t' || c == '\n' || c == '\U{000B}' || c == '\U{000C}' || c == '\r'
    || c == '\U{00A0}' || c == '\U{1680}' || ('\U{2000}' <= c <= '\U{200A}')
    || c == '\U{2028}' || c == '\U{2029}' || c == '\U{202F}' || c == '\U{205F}'
    || c == '\U{3000}' || c == '\U{FEFF}'
  }

  predicate IsDigit(c: char) { '0' <= c <= '9' }
  predicate IsUpper(c: char) { 'A' <= c <= 'Z' }
  predicate IsLower(c: char) { 'a' <= c <= 'z' }

  lemma LetterNotSpace(c: char)
    requires IsUpper(c) || IsLower(c)
    ensures !IsSpace(c) && !IsDigit(c)
  {
  }

  predicate NoSpace(s: string)
  {
    forall i :: 0 <= i < |s| ==> !IsSpace(s[i])
  }

  /** `s.trimStart()` */
  function TrimStart(s: string): (r: string)
    ensures |r| <= |s| && r == s[|s| - |r|..]
    ensures |r| > 0 ==> !IsSpace(r[0])
    ensures forall i :: 0 <= i < |s| - |r| ==> IsSpace(s[i])
  {
    if |s| > 0 && IsSpace(s[0]) then
      var r := TrimStart(s[1..]);
      assert forall i :: 1 <= i < |s| - |r| ==> s[i] == s[1..][i - 1];
      r
    else s
  }

  /** `s.trimEnd()` */
  function TrimEnd(s: string): (r: string)
    ensures |r| <= |s| && r == s[..|r|]
    ensures |r| > 0 ==> !IsSpace(r[|r| - 1])
    ensures forall i :: |r| <= i < |s| ==> IsSpace(s[i])
  {
    if |s| > 0 && IsSpace(s[|s| - 1]) then
      var r := TrimEnd(s[..|s| - 1]);
      assert forall i :: |r| <= i < |s| - 1 ==> s[i] == s[..|s| - 1][i];
      r
    else s
  }

  /** `s.trim()` */
  function Trim(s: string): (r: string)
    ensures |r| <= |s|
    ensures |r| > 0 ==> !IsSpace(r[0]) && !IsSpace(r[|r| - 1])
  {
    TrimEnd(TrimStart(s))
  }

  /** Trimming leaves a string alone when it neither starts nor ends with whitespace. */
  lemma TrimClean(s: string)
    requires |s| > 0 ==> !IsSpace(s[0]) && !IsSpace(s[|s| - 1])
    ensures Trim(s) == s
  {
  }

  /** Index of the first character satisfying `IsSpace`, or `|s|`. */
  function SpaceIndex(s: string): (i: nat)
    ensures i <= |s|
    ensures i < |s| ==> IsSpace(s[i])
    ensures forall k :: 0 <= k < i ==> !IsSpace(s[k])
  {
    if |s| == 0 || IsSpace(s[0]) then 0 else 1 + SpaceIndex(s[1..])
  }

  /** `s.split(/\s+/)`: the pieces between maximal runs of whitespace; a leading or
      trailing run yields an empty first or last piece, and `""` yields `[""]`. */
  function SplitWs(s: string): (r: seq<string>)
    ensures |r| >= 1
    ensures forall k :: 0 <= k < |r| ==> NoSpace(r[k])
    decreases |s|
  {
    var i := SpaceIndex(s);
    if i == |s| then [s]
    else
      var rest := TrimStart(s[i..]);
      [s[..i]] + SplitWs(rest)
  }

  /** The first whitespace after a word is the space that follows it. */
  lemma SpaceAfterWord(w: string, rest: string)
    requires NoSpace(w)
    ensures SpaceIndex(w + " " + rest) == |w|
  {
    var s := w + " " + rest;
    assert s[|w|] == ' ';
    assert forall k :: 0 <= k < |w| ==> s[k] == w[k];
  }

  /** One leading space is trimmed off text that starts with a non-space. */
  lemma TrimOneSpace(rest: string)
    requires |rest| > 0 && !IsSpace(rest[0])
    ensures TrimStart(" " + rest) == rest
  {
    assert (" " + rest)[1..] == rest;
  }

  /** What follows a word and its space, once trimmed, is the rest of the text. */
  lemma RestAfterWord(w: string, rest: string)
    requires |rest| > 0 && !IsSpace(rest[0])
    ensures (w + " " + rest)[..|w|] == w
    ensures TrimStart((w + " " + rest)[|w|..]) == rest
  {
    assert (w + " " + rest)[|w|..] == " " + rest;
    TrimOneSpace(rest);
  }

  /** One step of `SplitWs`: the piece before the first whitespace, then the split of
      what follows it. */
  lemma SplitWsStep(s: string, w: string, rest: string)
    requires s == w + " " + rest
    requires SpaceIndex(s) == |w| && TrimStart(s[|w|..]) == rest && s[..|w|] == w
    ensures SplitWs(s) == [w] + SplitWs(rest)
  {
  }

  /** A word followed by a space and more text splits off as the first piece. */
  lemma SplitWsCons(w: string, rest: string)
    requires |w| > 0 && NoSpace(w) && |rest| > 0 && !IsSpace(rest[0])
    ensures SplitWs(w + " " + rest) == [w] + SplitWs(rest)
  {
    SpaceAfterWord(w, rest);
    RestAfterWord(w, rest);
    SplitWsStep(w + " " + rest, w, rest);
  }

  /** Non-empty whitespace-free words joined by single spaces split back into the
      words. */
  lemma {:induction false} SplitWsJoin(ws: seq<string>)
    requires |ws| >= 1
    requires forall k :: 0 <= k < |ws| ==> |ws[k]| > 0 && NoSpace(ws[k])
    ensures SplitWs(Join(ws, " ")) == ws
    decreases |ws|
  {
    var w := ws[0];
    if |ws| == 1 {
      assert SpaceIndex(w) == |w|;
    } else {
      var rest := Join(ws[1..], " ");
      assert ws == [w] + ws[1..];
      JoinCons(w, ws[1..], " ");
      assert rest[0] == ws[1][0];
      SplitWsCons(w, rest);
      SplitWsJoin(ws[1..]);
    }
  }

  /** Four words joined by single spaces. */
  lemma JoinFour(w: string, a: string, b: string, d: string)
    ensures Join([w, a, b, d], " ") == w + " " + a + " " + b + " " + d
  {
    assert Join([d], " ") == d;
    JoinCons(b, [d], " ");
    assert [b] + [d] == [b, d];
    JoinCons(a, [b, d], " ");
    assert [a] + [b, d] == [a, b, d];
    JoinCons(w, [a, b, d], " ");
    assert [w] + [a, b, d] == [w, a, b, d];
  }

  /** A line of four words separated by single spaces tokenises back into them. */
  lemma WordsTokens(w: string, a: string, b: string, d: string)
    requires |w| > 0 && NoSpace(w) && |a| > 0 && NoSpace(a) && |b| > 0 && NoSpace(b) && |d| > 0 && NoSpace(d)
    ensures var line := w + " " + a + " " + b + " " + d;
            Tokens(line) == [w, a, b, d] && line[|line| - 1] == d[|d| - 1]
  {
    var line := w + " " + a + " " + b + " " + d;
    JoinFour(w, a, b, d);
    SplitWsJoin([w, a, b, d]);
    assert line[0] == w[0];
    assert line[|line| - 1] == d[|d| - 1];
    TrimClean(line);
  }
  /** `s.trim().split(/\s+/)`: the whitespace-separated tokens of a line. A blank line
      gives the single empty token `[""]`, exactly as in JavaScript. */
  function Tokens(s: string): (r: seq<string>)
    ensures |r| >= 1
    ensures forall k :: 0 <= k < |r| ==> NoSpace(r[k])
  {
    SplitWs(Trim(s))
  }

  /** Index of the first occurrence of `c` in `s`, or `|s|`. */
  function CharIndex(s: string, c: char): (i: nat)
    ensures i <= |s|
    ensures i < |s| ==> s[i] == c
    ensures c !in s[..i]
  {
    if |s| == 0 then 0
    else if s[0] == c then 0
    else 1 + CharIndex(s[1..], c)
  }

  /** `s.split(c)` for a one-character separator. */
  function Split(s: string, c: char): (r: seq<string>)
    ensures |r| >= 1
    ensures forall k :: 0 <= k < |r| ==> c !in r[k]
    decreases |s|
  {
    var i := CharIndex(s, c);
    if i == |s| then [s] else [s[..i]] + Split(s[i + 1..], c)
  }

  /** `parts.join(sep)` */
  function Join(parts: seq<string>, sep: string): string
  {
    if |parts| == 0 then ""
    else if |parts| == 1 then parts[0]
    else parts[0] + sep + Join(parts[1..], sep)
  }

  lemma JoinCons(x: string, p: seq<string>, sep: string)
    requires |p| >= 1
    ensures Join([x] + p, sep) == x + sep + Join(p, sep)
  {
    assert ([x] + p)[1..] == p;
  }

  /** Joining the pieces of `Split` with the separator gives back the string. */
  lemma {:induction false} JoinSplit(s: string, c: char)
    ensures Join(Split(s, c), [c]) == s
    decreases |s|
  {
    var i := CharIndex(s, c);
    if i < |s| {
      var a, rest := s[..i], s[i + 1..];
      JoinSplit(rest, c);
      var p := Split(rest, c);
      assert Split(s, c) == [a] + p;
      JoinCons(a, p, [c]);
      SplitAround(s, i);
    }
  }

  /** The first `c` of `a + [c] + b` is the one after `a` when `a` has none. */
  lemma CharIndexAfter(a: string, c: char, b: string)
    requires c !in a
    ensures CharIndex(a + [c] + b, c) == |a|
  {
    var s := a + [c] + b;
    assert s[|a|] == c;
  }

  /** Splitting a join of pieces free of the separator gives the pieces back. */
  lemma {:induction false} SplitJoin(ps: seq<string>, c: char)
    requires |ps| >= 1
    requires forall k :: 0 <= k < |ps| ==> c !in ps[k]
    ensures Split(Join(ps, [c]), c) == ps
    decreases |ps|
  {
    if |ps| > 1 {
      var rest := Join(ps[1..], [c]);
      SplitJoin(ps[1..], c);
      JoinCons(ps[0], ps[1..], [c]);
      assert [ps[0]] + ps[1..] == ps;
      CharIndexAfter(ps[0], c, rest);
      var s := ps[0] + [c] + rest;
      assert s[..|ps[0]|] == ps[0];
      assert s[|ps[0]| + 1..] == rest;
    }
  }

  /** Drops one trailing carriage return. */
  function DropCr(s: string): (r: string)
    ensures r == s || (|s| > 0 && s[|s| - 1] == '\r' && r == s[..|s| - 1])
  {
    if |s| > 0 && s[|s| - 1] == '\r' then s[..|s| - 1] else s
  }

  /** `s.split(/\r?\n/)`: split on newlines, a carriage return just before a newline
      belonging to the separator. */
  function SplitLines(s: string): (r: seq<string>)
    ensures |r| == |Split(s, '\n')|
    ensures forall k :: 0 <= k < |r| ==> '\n' !in r[k]
  {
    var ps := Split(s, '\n');
    seq(|ps|, k requires 0 <= k < |ps| => if k + 1 < |ps| then DropCr(ps[k]) else ps[k])
  }

  function LowerChar(c: char): (r: char)
    ensures IsUpper(c) ==> IsLower(r)
    ensures !IsUpper(c) ==> r == c
  {
    if IsUpper(c) then (c as int + 32) as char else c
  }

  function UpperChar(c: char): (r: char)
    ensures IsLower(c) ==> IsUpper(r)
    ensures !IsLower(c) ==> r == c
  {
    if IsLower(c) then (c as int - 32) as char else c
  }

  /** `s.toLowerCase()` restricted to ASCII letters. */
  function ToLower(s: string): (r: string)
    ensures |r| == |s|
    ensures forall i :: 0 <= i < |s| ==> r[i] == LowerChar(s[i])
  {
    seq(|s|, i requires 0 <= i < |s| => LowerChar(s[i]))
  }

  /** `s.toUpperCase()` restricted to ASCII letters. */
  function ToUpper(s: string): (r: string)
    ensures |r| == |s|
    ensures forall i :: 0 <= i < |s| ==> r[i] == UpperChar(s[i])
  {
    seq(|s|, i requires 0 <= i < |s| => UpperChar(s[i]))
  }

  predicate StartsWith(s: string, p: string)
  {
    |p| <= |s| && s[..|p|] == p
  }

  predicate EndsWith(s: string, p: string)
  {
    |p| <= |s| && s[|s| - |p|..] == p
  }

  /** A suffix fixes the characters at the end of the string. */
  lemma EndsWithAt(s: string, p: string, j: nat)
    requires EndsWith(s, p) && j < |p|
    ensures s[|s| - |p| + j] == p[j]
  {
    assert s[|s| - |p|..][j] == p[j];
  }

  /** Appending the same text keeps a suffix a suffix. */
  lemma EndsWithAppend(s: string, p: string, tail: string)
    requires EndsWith(s, p)
    ensures EndsWith(s + tail, p + tail)
  {
    var t := s + tail;
    assert t[|t| - |p + tail|..] == s[|s| - |p|..] + tail;
  }

  /** `s.includes(p)` */
  predicate Contains(s: string, p: string)
    decreases |s|
  {
    StartsWith(s, p) || (|s| > 0 && Contains(s[1..], p))
  }

  /** `p` occurs in `s` starting at position `i`. */
  predicate OccursAt(s: string, p: string, i: int)
  {
    0 <= i && i + |p| <= |s| && s[i..i + |p|] == p
  }

  /** `Contains` holds exactly when `p` occurs at some position. */
  lemma {:induction false} ContainsIff(s: string, p: string)
    ensures Contains(s, p) <==> exists i :: OccursAt(s, p, i)
    decreases |s|
  {
    if StartsWith(s, p) {
      assert OccursAt(s, p, 0);
    }
    if |s| > 0 {
      ContainsIff(s[1..], p);
      if Contains(s[1..], p) {
        var i :| OccursAt(s[1..], p, i);
        assert s[1..][i..i + |p|] == s[i + 1..i + 1 + |p|];
        assert OccursAt(s, p, i + 1);
      }
      if i :| OccursAt(s, p, i) {
        if i > 0 {
          assert s[1..][i - 1..i - 1 + |p|] == s[i..i + |p|];
          assert OccursAt(s[1..], p, i - 1);
        }
      }
    } else {
      if i :| OccursAt(s, p, i) {
        assert s[..|p|] == p;
      }
    }
  }

  /** `s.split(pat).join(rep)` for a non-empty literal pattern: every
      non-overlapping occurrence, scanning left to right, is replaced. */
  function ReplaceAll(s: string, pat: string, rep: string): (r: string)
    requires |pat| > 0
    decreases |s|
  {
    if |s| == 0 then ""
    else if StartsWith(s, pat) then rep + ReplaceAll(s[|pat|..], pat, rep)
    else [s[0]] + ReplaceAll(s[1..], pat, rep)
  }

  /** After replacing every occurrence of `pat` by something free of `pat`'s first
      character, no occurrence of that character survives unless it stood outside
      a match: with a one-character pattern none survives at all. */
  lemma {:induction false} ReplaceAllRemovesChar(s: string, c: char, rep: string)
    requires c !in rep
    ensures c !in ReplaceAll(s, [c], rep)
    decreases |s|
  {
    if |s| > 0 {
      ReplaceAllRemovesChar(s[1..], c, rep);
    }
  }
}

=== FILE: torchsim.dfy ===
/** TorchSim HDF5 trajectories: recognising the file by name and signature, and
    assembling frames from the datasets of its `data` group. Reading the HDF5
    container itself (h5wasm) is outside the model: the parser receives the datasets
    it asks for, already decoded. */
module TorchSim {
  import opened Wrappers
  import opened Text
  import opened Numbers
  import opened VecMath
  import opened Crystal
  import opened Elements

  type Byte = x: int | 0 <= x < 256

  /** The format signature `\211HDF\r\n\032\n` that opens every HDF5 file (HDF5 File
      Format Specification, Level 0A, the superblock's format signature). */
  const Signature: seq<Byte> := [0x89, 0x48, 0x44, 0x46, 0x0d, 0x0a, 0x1a, 0x0a]

  /** What the detector may be handed: nothing (or a falsy value), a string, an
      `ArrayBuffer`, or some other truthy value. */
  datatype Content = NoContent | TextContent(text: string) | BinaryContent(bytes: seq<Byte>) | OtherContent

  predicate HasHdf5Extension(name: string)
  {
    EndsWith(ToLower(name), ".h5") || EndsWith(ToLower(name), ".hdf5")
  }

  /** `!content`, or an `ArrayBuffer` of no bytes. */
  predicate EmptyContent(c: Content)
  {
    c.NoContent? || (c.TextContent? && c.text == "") || (c.BinaryContent? && |c.bytes| == 0)
  }

  /** `is_torch_sim_hdf5`; the file name `""` stands for a missing one, which
      JavaScript treats alike. */
  function IsTorchSimHdf5(content: Content, filename: string): (r: bool)
    ensures r ==> filename == "" || HasHdf5Extension(filename)
    ensures EmptyContent(content) ==> (r <==> filename != "" && HasHdf5Extension(filename))
    ensures content.TextContent? && content.text != "" ==> !r
    ensures content.OtherContent? ==> !r
    ensures content.BinaryContent? && |content.bytes| > 0 && (filename == "" || HasHdf5Extension(filename)) ==>
              (r <==> |content.bytes| >= 8 && forall i :: 0 <= i < 8 ==> content.bytes[i] == Signature[i])
  {
    var hasExtension := filename != "" && HasHdf5Extension(filename);
    if filename != "" && !hasExtension then false
    else if EmptyContent(content) then hasExtension
    else if content.TextContent? then false
    else if content.BinaryContent? && |content.bytes| >= 8 then content.bytes[..8] == Signature
    else false
  }

  /** Lower-casing a concatenation lower-cases the parts. */
  lemma ToLowerConcat(a: string, b: string)
    ensures ToLower(a + b) == ToLower(a) + ToLower(b)
  {
  }

  /** The four spellings of the extension the detector accepts, in either case. */
  predicate Hdf5Spelling(ext: string)
  {
    ext == ".h5" || ext == ".H5" || ext == ".hdf5" || ext == ".HDF5"
  }

  /** A name whose lower-cased ending is `low` ends, lower-cased, in `low`. */
  lemma LowerSuffix(stem: string, ext: string, low: string)
    requires ToLower(ext) == low
    ensures EndsWith(ToLower(stem + ext), low)
  {
    ToLowerConcat(stem, ext);
    var l := ToLower(stem + ext);
    assert l[|l| - |low|..] == low;
  }

  /** A name ending in `.h5` or `.hdf5`, in either case, has the HDF5 extension. */
  lemma SpelledExtension(stem: string, ext: string)
    requires Hdf5Spelling(ext)
    ensures HasHdf5Extension(stem + ext)
  {
    if ext == ".h5" || ext == ".H5" {
      assert ToLower(ext) == ".h5";
      LowerSuffix(stem, ext, ".h5");
    } else {
      assert ToLower(ext) == ".hdf5";
      LowerSuffix(stem, ext, ".hdf5");
    }
  }

  /** A buffer that opens with the signature, under an HDF5 name, is recognised. */
  lemma SignedFileDetected(rest: seq<Byte>, stem: string, ext: string)
    requires Hdf5Spelling(ext)
    ensures IsTorchSimHdf5(BinaryContent(Signature + rest), stem + ext)
  {
    SpelledExtension(stem, ext);
  }

  /** A buffer whose first byte is not the signature's is rejected whatever its name. */
  lemma UnsignedBufferRejected(bytes: seq<Byte>, filename: string)
    requires |bytes| > 0 && bytes[0] != 0x89
    ensures !IsTorchSimHdf5(BinaryContent(bytes), filename)
  {
  }

  /** A name with another extension is rejected whatever the content. */
  lemma ForeignNameRejected(content: Content, stem: string)
    ensures !IsTorchSimHdf5(content, stem + ".xyz")
  {
    var name := stem + ".xyz";
    var l := ToLower(name);
    assert l[|l| - 1] == 'z';
  }

  /** The datasets of the `data` group that the parser reads, as h5wasm hands them
      over: atomic numbers as rows (the first row is used), positions per frame and
      atom, one cell matrix per frame, the first column of the energy datasets, and the
      periodicity flags as numbers. A missing dataset is `None`. */
  datatype DataGroup = DataGroup(
    atomicNumbers: Option<seq<seq<int>>>,
    positions: Option<seq<seq<Vec3>>>,
    cell: Option<seq<Mat3>>,
    potentialEnergy: Option<seq<real>>,
    kineticEnergy: Option<seq<real>>,
    pbc: Option<seq<real>>)

  /** The `title` and `program` attributes of the `header` group, when present. */
  datatype Header = Header(title: Option<string>, program: Option<string>)

  datatype Hdf5File = Hdf5File(data: Option<DataGroup>, header: Option<Header>)

  datatype FrameMeta = FrameMeta(volume: real, energy: Option<real>, kineticEnergy: Option<real>)

  datatype Frame = Frame(structure: Structure, step: nat, metadata: FrameMeta)

  datatype TrajectoryMeta = TrajectoryMeta(
    title: string,
    program: string,
    numAtoms: nat,
    numFrames: nat,
    pbc: seq<bool>,
    hasEnergy: bool,
    hasKineticEnergy: bool,
    elementCounts: map<string, nat>)

  datatype Trajectory = Trajectory(frames: seq<Frame>, metadata: TrajectoryMeta)

  /** The element of every atom: `ATOMIC_NUMBER_TO_SYMBOL[num] || 'X'`. */
  function ElementsOf(numbers: seq<int>): (r: seq<string>)
    ensures |r| == |numbers|
    ensures forall j :: 0 <= j < |r| && 1 <= numbers[j] <= 118 ==> NumberOf(r[j]) == Some(numbers[j])
    ensures forall j :: 0 <= j < |r| && !(1 <= numbers[j] <= 118) ==> r[j] == "X" && !IsElement(r[j])
  {
    seq(|numbers|, j requires 0 <= j < |numbers| => SymbolOrX(numbers[j]))
  }

  /** `elements[atom_idx]`, which is `undefined` (and prints so) past the last atom. */
  function ElementAt(elements: seq<string>, j: nat): string
  {
    if j < |elements| then elements[j] else "undefined"
  }

  /** `element_counts`: how often each element occurs, built front to back. */
  function ElementCounts(elements: seq<string>): (r: map<string, nat>)
    ensures forall e :: e in r <==> e in elements
    ensures forall e :: e in r ==> r[e] == multiset(elements)[e]
    decreases |elements|
  {
    if |elements| == 0 then map[]
    else
      var init := elements[..|elements| - 1];
      var last := elements[|elements| - 1];
      var m := ElementCounts(init);
      assert elements == init + [last];
      m[last := (if last in m then m[last] else 0) + 1]
  }

  /** The counts add up to the number of atoms. */
  lemma {:induction false} CountsCoverAtoms(elements: seq<string>, e: string)
    ensures e !in ElementCounts(elements) ==> multiset(elements)[e] == 0
  {
  }

  /** The lattice of frame `i`: its cell, or the unit matrix when there is none. */
  function FrameMatrix(cell: Option<seq<Mat3>>, i: nat): Mat3
  {
    if cell.Some? && i < |cell.value| then cell.value[i] else Identity
  }

  /** Fractional coordinates of a Cartesian position over the lattice rows: the
      inverse of the transposed lattice applied to it. Singular when the lattice is. */
  function FractionalOf(m: Mat3, xyz: Vec3): (r: Result<Vec3>)
    ensures r.Err? <==> Abs(Det(m)) < SingularLimit
  {
    DetTranspose(m);
    match MatrixInverse(Transpose(m))
    case Ok(inv) => Ok(MatVec(inv, xyz))
    case Err(e) => Err(e)
  }

  /** The fractional coordinates rebuild the position from the lattice rows. */
  lemma FractionalRebuilds(m: Mat3, xyz: Vec3)
    requires FractionalOf(m, xyz).Ok?
    ensures Combine(FractionalOf(m, xyz).value, m) == xyz
  {
    DetTranspose(m);
    var inv := MatrixInverse(Transpose(m)).value;
    CombineIsTransposeProduct(MatVec(inv, xyz), m);
    InverseRoundTrip(Transpose(m), xyz);
  }

  /** The line the parser writes: `abc = inv(lattice) * xyz`, without transposing. */
  function AbcAsWritten(m: Mat3, xyz: Vec3): (r: Result<Vec3>)
    ensures r.Err? <==> Abs(Det(m)) < SingularLimit
  {
    match MatrixInverse(m)
    case Ok(inv) => Ok(MatVec(inv, xyz))
    case Err(e) => Err(e)
  }

  /** What the parser's line computes solves `lattice * abc = xyz`: it treats the
      lattice columns, not its rows, as the cell vectors. */
  lemma AsWrittenSolvesColumns(m: Mat3, xyz: Vec3)
    requires AbcAsWritten(m, xyz).Ok?
    ensures MatVec(m, AbcAsWritten(m, xyz).value) == xyz
  {
    InverseRoundTrip(m, xyz);
  }

  /** A sheared cell with rows `(1, 1, 0)`, `(0, 1, 0)`, `(0, 0, 1)`. */
  const Sheared: Mat3 := Mat3(Vec3(1.0, 1.0, 0.0), Vec3(0.0, 1.0, 0.0), Vec3(0.0, 0.0, 1.0))

  lemma ShearedInverse()
    ensures MatrixInverse(Sheared) == Ok(Mat3(Vec3(1.0, -1.0, 0.0), Vec3(0.0, 1.0, 0.0), Vec3(0.0, 0.0, 1.0)))
  {
    assert Det(Sheared) == 1.0;
  }

  lemma ShearedTransposeInverse()
    ensures MatrixInverse(Transpose(Sheared)) == Ok(Mat3(Vec3(1.0, 0.0, 0.0), Vec3(-1.0, 1.0, 0.0), Vec3(0.0, 0.0, 1.0)))
  {
    DetTranspose(Sheared);
    assert Det(Transpose(Sheared)) == 1.0;
  }

  lemma AsWrittenSheared()
    ensures AbcAsWritten(Sheared, Vec3(1.0, 1.0, 0.0)) == Ok(Vec3(0.0, 1.0, 0.0))
  {
    ShearedInverse();
    var v := MatVec(Mat3(Vec3(1.0, -1.0, 0.0), Vec3(0.0, 1.0, 0.0), Vec3(0.0, 0.0, 1.0)), Vec3(1.0, 1.0, 0.0));
    assert v.x == 0.0 && v.y == 1.0 && v.z == 0.0;
  }

  /** In the sheared cell the atom at `(1, 1, 0)` sits at the first lattice vector;
      the parser's line gives it the fractional coordinates `(0, 1, 0)`, which stand
      for the second lattice vector, whose `x` is 0 rather than 1. */
  lemma AsWrittenMisplacesSheared()
    ensures AbcAsWritten(Sheared, Vec3(1.0, 1.0, 0.0)) == Ok(Vec3(0.0, 1.0, 0.0))
    ensures Combine(AbcAsWritten(Sheared, Vec3(1.0, 1.0, 0.0)).value, Sheared).x == 0.0
  {
    AsWrittenSheared();
    ShearedSecondVector();
  }

  lemma ShearedSecondVector()
    ensures Combine(Vec3(0.0, 1.0, 0.0), Sheared).x == 0.0
  {
  }

  /** The corrected conversion places the same atom at fractional `(1, 0, 0)`. */
  lemma FractionalPlacesSheared()
    ensures FractionalOf(Sheared, Vec3(1.0, 1.0, 0.0)) == Ok(Vec3(1.0, 0.0, 0.0))
  {
    ShearedTransposeInverse();
  }

  /** Atom `j` of a frame: one fully occupied species, the position as given, the
      fractional coordinates from `inv`, and the label `element + (j + 1)`. */
  function AtomSite(elements: seq<string>, j: nat, xyz: Vec3, abc: Vec3): (s: Site)
    ensures |s.species| == 1 && s.species[0].element == ElementAt(elements, j) && s.species[0].occu == 1.0
    ensures s.xyz == AsSeq(xyz) && s.abc == AsSeq(abc)
    ensures StartsWith(s.labelText, ElementAt(elements, j))
    ensures |s.labelText| > |ElementAt(elements, j)| && AllDigits(s.labelText[|ElementAt(elements, j)|..])
    ensures DigitsValue(s.labelText[|ElementAt(elements, j)|..]) == j + 1
  {
    var e := ElementAt(elements, j);
    var l := e + NatToString(j + 1);
    assert l[|e|..] == NatToString(j + 1);
    DigitsOfNatToString(j + 1);
    PlainSite(e, AsSeq(abc), AsSeq(xyz), l, None)
  }

  /** Frame `i`: its lattice, one site per position, the step `i`, the volume, and
      the energies when the datasets reach that far. */
  function FrameOf(ops: NumericOps, g: DataGroup, elements: seq<string>, i: nat, positions: seq<Vec3>): (r: Result<Frame>)
    ensures r.Err? <==> Abs(Det(FrameMatrix(g.cell, i))) < SingularLimit
    ensures r.Ok? ==> r.value.step == i
    ensures r.Ok? ==> |r.value.structure.sites| == |positions|
    ensures r.Ok? ==> r.value.structure.lattice == Some(MakeLattice(ops, FrameMatrix(g.cell, i)))
    ensures r.Ok? ==> forall j :: 0 <= j < |positions| ==>
              r.value.structure.sites[j].xyz == AsSeq(positions[j]) &&
              r.value.structure.sites[j].abc == AsSeq(FractionalOf(FrameMatrix(g.cell, i), positions[j]).value)
    ensures r.Ok? ==> (r.value.metadata.energy.Some? <==> g.potentialEnergy.Some? && i < |g.potentialEnergy.value|)
    ensures r.Ok? ==> (r.value.metadata.kineticEnergy.Some? <==> g.kineticEnergy.Some? && i < |g.kineticEnergy.value|)
  {
    var m := FrameMatrix(g.cell, i);
    DetTranspose(m);
    match MatrixInverse(Transpose(m))
    case Err(e) => Err(e)
    case Ok(inv) =>
      var sites := seq(|positions|, j requires 0 <= j < |positions| =>
        AtomSite(elements, j, positions[j], MatVec(inv, positions[j])));
      var lattice := MakeLattice(ops, m);
      var energy := if g.potentialEnergy.Some? && i < |g.potentialEnergy.value| then Some(g.potentialEnergy.value[i]) else None;
      var kinetic := if g.kineticEnergy.Some? && i < |g.kineticEnergy.value| then Some(g.kineticEnergy.value[i]) else None;
      Ok(Frame(Structure(sites, Some(lattice)), i, FrameMeta(lattice.params.volume, energy, kinetic)))
  }

  /** The frames from index `i` on, or the first frame's error. */
  function FramesFrom(ops: NumericOps, g: DataGroup, elements: seq<string>, positions: seq<seq<Vec3>>, i: nat): (r: Result<seq<Frame>>)
    requires i <= |positions|
    ensures r.Ok? ==> |r.value| == |positions| - i
    ensures r.Ok? ==> forall k :: 0 <= k < |r.value| ==> FrameOf(ops, g, elements, i + k, positions[i + k]) == Ok(r.value[k])
    decreases |positions| - i
  {
    if i == |positions| then Ok([])
    else
      var f :- FrameOf(ops, g, elements, i, positions[i]);
      var rest :- FramesFrom(ops, g, elements, positions, i + 1);
      Ok([f] + rest)
  }

  /** A frame fails exactly when its lattice is singular. */
  lemma {:induction false} FramesFromFail(ops: NumericOps, g: DataGroup, elements: seq<string>, positions: seq<seq<Vec3>>, i: nat)
    requires i <= |positions|
    ensures FramesFrom(ops, g, elements, positions, i).Err? <==>
              exists k :: i <= k < |positions| && Abs(Det(FrameMatrix(g.cell, k))) < SingularLimit
    decreases |positions| - i
  {
    if i < |positions| {
      FramesFromFail(ops, g, elements, positions, i + 1);
      if FrameOf(ops, g, elements, i, positions[i]).Ok? && FramesFrom(ops, g, elements, positions, i + 1).Err? {
        var k :| i + 1 <= k < |positions| && Abs(Det(FrameMatrix(g.cell, k))) < SingularLimit;
        assert i <= k;
      }
    }
  }

  const ErrorPrefix: string := "Failed to parse torch-sim HDF5 file: "

  /** `parse_torch_sim_hdf5` after h5wasm has opened the file. */
  function ParseTorchSim(ops: NumericOps, f: Hdf5File): (r: Result<Trajectory>)
    ensures f.data.None? ==> r.Err?
    ensures f.data.Some? && (f.data.value.atomicNumbers.None? || f.data.value.positions.None?) ==> r.Err?
    ensures r.Err? ==> StartsWith(r.msg, ErrorPrefix)
    ensures r.Ok? ==> Complete(f)
    ensures r.Ok? ==> |r.value.frames| == |f.data.value.positions.value| == r.value.metadata.numFrames
    ensures r.Ok? ==> r.value.metadata.numAtoms == |f.data.value.atomicNumbers.value[0]|
    ensures r.Ok? ==> forall i :: 0 <= i < |r.value.frames| ==> r.value.frames[i].step == i
  {
    match f.data
    case None => Err(ErrorPrefix + "Invalid torch-sim HDF5 format: missing data group")
    case Some(g) =>
      if g.atomicNumbers.None? || g.positions.None? then
        Err(ErrorPrefix + "Invalid torch-sim HDF5 format: missing required datasets")
      else if |g.atomicNumbers.value| == 0 then
        Err(ErrorPrefix + "TypeError: atomic_numbers has no rows")
      else
        var elements := ElementsOf(g.atomicNumbers.value[0]);
        var positions := g.positions.value;
        match FramesFrom(ops, g, elements, positions, 0)
        case Err(e) => Err(ErrorPrefix + e)
        case Ok(frames) => Ok(Trajectory(frames, MetaOf(f.header, g, elements, |frames|)))
  }

  /** The trajectory's metadata: header attributes or their defaults, the atom and
      frame counts, periodicity (all periodic by default), which energies exist, and
      the element counts. */
  function MetaOf(header: Option<Header>, g: DataGroup, elements: seq<string>, numFrames: nat): (r: TrajectoryMeta)
    ensures r.numAtoms == |elements| && r.numFrames == numFrames
    ensures g.pbc.None? ==> r.pbc == [true, true, true]
    ensures r.hasEnergy <==> g.potentialEnergy.Some?
    ensures r.elementCounts == ElementCounts(elements)
  {
    var pbc := if g.pbc.Some? then PbcFlags(g.pbc.value) else [true, true, true];
    var title := if header.Some? then header.value.title.GetOr("TorchSim Trajectory") else "TorchSim Trajectory";
    var program := if header.Some? then header.value.program.GetOr("Unknown") else "Unknown";
    TrajectoryMeta(title, program, |elements|, numFrames, pbc,
      g.potentialEnergy.Some?, g.kineticEnergy.Some?, ElementCounts(elements))
  }

  /** `pbc.slice(0, 3).map((val) => val !== 0)` */
  function PbcFlags(v: seq<real>): (r: seq<bool>)
    ensures |r| == if |v| < 3 then |v| else 3
    ensures forall k :: 0 <= k < |r| ==> (r[k] <==> v[k] != 0.0)
  {
    var n := if |v| < 3 then |v| else 3;
    seq(n, k requires 0 <= k < n => v[k] != 0.0)
  }

  /** The file's datasets are complete when the `data` group holds atomic numbers with
      a first row and positions. */
  predicate Complete(f: Hdf5File)
  {
    f.data.Some? && f.data.value.atomicNumbers.Some? && f.data.value.positions.Some? &&
    |f.data.value.atomicNumbers.value| > 0
  }

  /** A complete file fails only on a singular cell, so a file without cells parses. */
  lemma ParseFailsOnlyOnSingularCell(ops: NumericOps, f: Hdf5File)
    requires Complete(f)
    ensures ParseTorchSim(ops, f).Err? <==>
              exists k :: 0 <= k < |f.data.value.positions.value| &&
                Abs(Det(FrameMatrix(f.data.value.cell, k))) < SingularLimit
  {
    FramesFromFail(ops, f.data.value, ElementsOf(f.data.value.atomicNumbers.value[0]), f.data.value.positions.value, 0);
  }

  /** Without a cell dataset every frame uses the unit cell, which inverts. */
  lemma NoCellParses(ops: NumericOps, f: Hdf5File)
    requires Complete(f) && f.data.value.cell.None?
    ensures ParseTorchSim(ops, f).Ok?
  {
    ParseFailsOnlyOnSingularCell(ops, f);
    assert Det(Identity) == 1.0;
  }

  /** Site `j` of every frame carries the element of atomic number `j` (or `X`), and
      its fractional coordinates rebuild its position from the frame's lattice. */
  lemma ParsedSites(ops: NumericOps, f: Hdf5File, i: nat, j: nat)
    requires ParseTorchSim(ops, f).Ok?
    requires i < |ParseTorchSim(ops, f).value.frames|
    requires j < |f.data.value.positions.value[i]|
    ensures var g := f.data.value;
            var s := ParseTorchSim(ops, f).value.frames[i].structure.sites[j];
            var row := g.atomicNumbers.value[0];
            var m := FrameMatrix(g.cell, i);
            && (j < |row| && 1 <= row[j] <= 118 ==> NumberOf(s.species[0].element) == Some(row[j]))
            && (j < |row| && !(1 <= row[j] <= 118) ==> s.species[0].element == "X")
            && FractionalOf(m, g.positions.value[i][j]).Ok?
            && s.abc == AsSeq(FractionalOf(m, g.positions.value[i][j]).value)
            && Combine(FractionalOf(m, g.positions.value[i][j]).value, m) == g.positions.value[i][j]
  {
    var g := f.data.value;
    var elements := ElementsOf(g.atomicNumbers.value[0]);
    var fr := FramesFrom(ops, g, elements, g.positions.value, 0);
    assert FrameOf(ops, g, elements, i, g.positions.value[i]) == Ok(fr.value[i]);
    var pos := g.positions.value[i][j];
    FractionalRebuilds(FrameMatrix(g.cell, i), pos);
  }
}

=== FILE: vecmath.dfy ===
/** Small exact linear algebra (`math.ts`): vectors are sequences of reals and 3x3
    matrices are three rows. Arithmetic is exact; the square root of `norm` is left
    out, so distances are handled squared. */
module VecMath {
  import opened Wrappers

  type Vec = seq<real>

  /** A `Vector` of three numbers. */
  datatype Vec3 = Vec3(x: real, y: real, z: real)

  /** A 3x3 matrix given by its rows. */
  datatype Mat3 = Mat3(r0: Vec3, r1: Vec3, r2: Vec3)

  function AsSeq(v: Vec3): (r: Vec)
    ensures |r| == 3 && r[0] == v.x && r[1] == v.y && r[2] == v.z
  {
    [v.x, v.y, v.z]
  }

  function Rows(m: Mat3): (r: seq<Vec>)
    ensures |r| == 3 && r[0] == AsSeq(m.r0) && r[1] == AsSeq(m.r1) && r[2] == AsSeq(m.r2)
  {
    [AsSeq(m.r0), AsSeq(m.r1), AsSeq(m.r2)]
  }

  /* ---------- scale and add ---------- */

  /** `scale`: every component times the factor. */
  function Scale(v: Vec, f: real): (r: Vec)
    ensures |r| == |v|
  {
    seq(|v|, i requires 0 <= i < |v| => v[i] * f)
  }

  /** Scaling twice is scaling once by the product, and scaling by 1 changes nothing. */
  lemma ScaleCompose(v: Vec, f: real, g: real)
    ensures Scale(Scale(v, f), g) == Scale(v, f * g)
    ensures Scale(v, 1.0) == v
  {
    forall i | 0 <= i < |v| ensures Scale(Scale(v, f), g)[i] == Scale(v, f * g)[i] {
      assert v[i] * f * g == v[i] * (f * g);
    }
  }

  /** `vecs[0][i] + ... + vecs[k-1][i]` */
  function ColumnSum(vecs: seq<Vec>, i: nat): real
    requires forall k :: 0 <= k < |vecs| ==> i < |vecs[k]|
  {
    if |vecs| == 0 then 0.0 else ColumnSum(vecs[..|vecs| - 1], i) + vecs[|vecs| - 1][i]
  }

  predicate SameLengths(vecs: seq<Vec>)
  {
    forall k :: 0 <= k < |vecs| ==> |vecs[k]| == |vecs[0]|
  }

  /** `add`: no vectors give `[]`; vectors of differing lengths are an error; otherwise
      each component is the sum of that component over all vectors. */
  method AddVectors(vecs: seq<Vec>) returns (r: Result<Vec>)
    ensures r.Err? <==> !SameLengths(vecs)
    ensures |vecs| == 0 ==> r == Ok([])
    ensures r.Ok? && |vecs| > 0 ==>
      |r.value| == |vecs[0]| && forall i :: 0 <= i < |vecs[0]| ==> r.value[i] == ColumnSum(vecs, i)
  {
    if |vecs| == 0 {
      return Ok([]);
    }
    var n := |vecs[0]|;
    var k := 0;
    while k < |vecs|
      invariant 0 <= k <= |vecs|
      invariant forall j :: 0 <= j < k ==> |vecs[j]| == n
    {
      if |vecs[k]| != n {
        return Err("All vectors must have the same length");
      }
      k := k + 1;
    }
    var acc: Vec := seq(n, _ => 0.0);
    k := 0;
    while k < |vecs|
      invariant 0 <= k <= |vecs|
      invariant |acc| == n
      invariant forall i :: 0 <= i < n ==> acc[i] == ColumnSum(vecs[..k], i)
    {
      var next := acc;
      var i := 0;
      while i < n
        invariant 0 <= i <= n && |next| == n
        invariant forall j :: 0 <= j < i ==> next[j] == acc[j] + vecs[k][j]
        invariant forall j :: i <= j < n ==> next[j] == acc[j]
      {
        next := next[i := next[i] + vecs[k][i]];
        i := i + 1;
      }
      assert vecs[..k + 1][..k] == vecs[..k];
      acc := next;
      k := k + 1;
    }
    assert vecs[..k] == vecs;
    return Ok(acc);
  }

  /** Adding two vectors is componentwise addition. */
  lemma ColumnSumPair(a: Vec, b: Vec, i: nat)
    requires i < |a| && i < |b|
    ensures ColumnSum([a, b], i) == a[i] + b[i]
  {
    var s := [a, b];
    assert s[..|s| - 1] == [a];
    assert [a][..0] == [];
    assert ColumnSum([a], i) == ColumnSum([], i) + a[i];
  }

  /* ---------- dot ---------- */

  /** An argument of `dot`: a number, a flat array or an array of rows. An empty array
      of rows behaves as an empty flat array, since its first element is not an array. */
  datatype Operand = Scalar(x: real) | Vector(v: Vec) | Matrix(rows: seq<Vec>)

  predicate IsRows(o: Operand)
  {
    o.Matrix? && |o.rows| > 0
  }

  function Flat(o: Operand): Vec
    requires !o.Scalar? && !IsRows(o)
  {
    if o.Vector? then o.v else []
  }

  /** A result of `dot`; `None` entries stand for NaN, which arises where a row is
      longer than what it is multiplied with. */
  datatype DotValue = Number(x: real) | Numbers(v: seq<Option<real>>) | Table(m: seq<seq<Option<real>>>)

  /** `a[0] * b[0] + ... + a[n-1] * b[n-1]` */
  function Inner(a: Vec, b: Vec, n: nat): real
    requires n <= |a| && n <= |b|
  {
    if n == 0 then 0.0 else Inner(a, b, n - 1) + a[n - 1] * b[n - 1]
  }

  /** `row.reduce((sum, val, k) => sum + val * v[k], 0)`: NaN once `v` runs out. */
  function RowDot(row: Vec, v: Vec): Option<real>
  {
    if |row| <= |v| then Some(Inner(row, v, |row|)) else None
  }

  /** Entry `(i, j)` of a matrix product: `None` (NaN) where a column entry is missing;
      a row of `a` longer than `b` has rows makes the source throw. */
  function ProductEntry(row: Vec, b: seq<Vec>, j: nat): Result<Option<real>>
  {
    if |row| > |b| then Err("Cannot read properties of undefined")
    else if exists k :: 0 <= k < |row| && j >= |b[k]| then Ok(None)
    else Ok(Some(ColumnDot(row, b, j, |row|)))
  }

  function ColumnDot(row: Vec, b: seq<Vec>, j: nat, n: nat): real
    requires n <= |row| && n <= |b|
    requires forall k :: 0 <= k < n ==> j < |b[k]|
  {
    if n == 0 then 0.0 else ColumnDot(row, b, j, n - 1) + row[n - 1] * b[n - 1][j]
  }

  /** Each row against `v`. */
  function RowDots(rows: seq<Vec>, v: Vec): (r: seq<Option<real>>)
    ensures |r| == |rows|
    ensures forall i :: 0 <= i < |rows| ==> r[i] == RowDot(rows[i], v)
  {
    seq(|rows|, i requires 0 <= i < |rows| => RowDot(rows[i], v))
  }

  function ProductRow(row: Vec, b: seq<Vec>, width: nat): Result<seq<Option<real>>>
  {
    if width == 0 then Ok([])
    else
      match ProductRow(row, b, width - 1)
      case Err(e) => Err(e)
      case Ok(prefix) =>
        match ProductEntry(row, b, width - 1)
        case Err(e) => Err(e)
        case Ok(x) => Ok(prefix + [x])
  }

  function ProductRows(a: seq<Vec>, b: seq<Vec>): Result<seq<seq<Option<real>>>>
    requires |b| > 0
  {
    if |a| == 0 then Ok([])
    else
      match ProductRow(a[0], b, |b[0]|)
      case Err(e) => Err(e)
      case Ok(r) =>
        match ProductRows(a[1..], b)
        case Err(e) => Err(e)
        case Ok(rest) => Ok([r] + rest)
  }

  /** `dot` on numbers, flat arrays and arrays of rows. */
  function Dot(x1: Operand, x2: Operand): (r: Result<DotValue>)
  {
    if x1.Scalar? && x2.Scalar? then Ok(Number(x1.x * x2.x))
    else if x1.Scalar? then Err("Scalar and vector multiplication is not supported")
    else if x2.Scalar? then Err("Vector and scalar multiplication is not supported")
    else if !IsRows(x1) && !IsRows(x2) then
      var a, b := Flat(x1), Flat(x2);
      if |a| != |b| then Err("Vectors must be of same length")
      else Ok(Number(Inner(a, b, |a|)))
    else if IsRows(x1) && !IsRows(x2) then
      var b := Flat(x2);
      if |x1.rows[0]| != |b| then
        Err("Number of columns in matrix must be equal to number of elements in vector")
      else Ok(Numbers(RowDots(x1.rows, b)))
    else if IsRows(x1) && IsRows(x2) then
      if |x1.rows[0]| != |x2.rows| then
        Err("Number of columns in first matrix must be equal to number of rows in second matrix")
      else
        match ProductRows(x1.rows, x2.rows)
        case Ok(m) => Ok(Table(m))
        case Err(e) => Err(e)
    else Err("Unsupported input dimensions. Inputs must be scalars, vectors, or matrices.")
  }

  /** Which operand shapes `dot` accepts: two numbers multiply; a number with an array
      throws; two flat arrays need equal lengths, and so do a matrix's first row and a
      flat array; a flat array before a matrix throws. */
  lemma DotShapes(x1: Operand, x2: Operand)
    ensures x1.Scalar? && x2.Scalar? ==> Dot(x1, x2) == Ok(Number(x1.x * x2.x))
    ensures x1.Scalar? != x2.Scalar? ==> Dot(x1, x2).Err?
    ensures !x1.Scalar? && !x2.Scalar? && !IsRows(x1) && !IsRows(x2) ==>
      (Dot(x1, x2).Ok? <==> |Flat(x1)| == |Flat(x2)|)
    ensures IsRows(x1) && !x2.Scalar? && !IsRows(x2) ==>
      (Dot(x1, x2).Ok? <==> |x1.rows[0]| == |Flat(x2)|)
    ensures !x1.Scalar? && !IsRows(x1) && IsRows(x2) ==> Dot(x1, x2).Err?
  {
  }

  /** The inner product is symmetric. */
  lemma {:induction false} InnerSymmetric(a: Vec, b: Vec, n: nat)
    requires n <= |a| && n <= |b|
    ensures Inner(a, b, n) == Inner(b, a, n)
  {
    if n > 0 {
      InnerSymmetric(a, b, n - 1);
    }
  }

  /** `dot` of two flat arrays of equal length does not depend on their order. */
  lemma DotSymmetric(a: Vec, b: Vec)
    requires |a| == |b|
    ensures Dot(Vector(a), Vector(b)) == Dot(Vector(b), Vector(a))
    ensures Dot(Vector(a), Vector(b)).Ok?
  {
    InnerSymmetric(a, b, |a|);
  }

  lemma Inner3(a: Vec3, b: Vec3)
    ensures Inner(AsSeq(a), AsSeq(b), 3) == Dot3(a, b)
  {
    assert Inner(AsSeq(a), AsSeq(b), 1) == a.x * b.x;
    assert Inner(AsSeq(a), AsSeq(b), 2) == a.x * b.x + a.y * b.y;
  }

  /** `dot` of a 3x3 matrix and a 3-vector is `matrix_vector_multiply`. */
  lemma DotAgreesWithMatVec(m: Mat3, v: Vec3)
    ensures Dot(Matrix(Rows(m)), Vector(AsSeq(v))) == Ok(Numbers([Some(MatVec(m, v).x), Some(MatVec(m, v).y), Some(MatVec(m, v).z)]))
  {
    Inner3(m.r0, v);
    Inner3(m.r1, v);
    Inner3(m.r2, v);
    var rows, b := Rows(m), AsSeq(v);
    var r := RowDots(rows, b);
    assert r[0] == Some(MatVec(m, v).x);
    assert r[1] == Some(MatVec(m, v).y);
    assert r[2] == Some(MatVec(m, v).z);
    assert r == [Some(MatVec(m, v).x), Some(MatVec(m, v).y), Some(MatVec(m, v).z)];
  }

  /* ---------- 3x3 matrices ---------- */

  function Dot3(a: Vec3, b: Vec3): real
  {
    a.x * b.x + a.y * b.y + a.z * b.z
  }

  /** `matrix_vector_multiply`: the dot product of each row with the vector. */
  function MatVec(m: Mat3, v: Vec3): Vec3
  {
    Vec3(Dot3(m.r0, v), Dot3(m.r1, v), Dot3(m.r2, v))
  }

  /** `transpose_matrix`: row `i` of the result is column `i` of the matrix. */
  function Transpose(m: Mat3): (r: Mat3)
    ensures r.r0 == Vec3(m.r0.x, m.r1.x, m.r2.x)
    ensures r.r1 == Vec3(m.r0.y, m.r1.y, m.r2.y)
    ensures r.r2 == Vec3(m.r0.z, m.r1.z, m.r2.z)
  {
    Mat3(Vec3(m.r0.x, m.r1.x, m.r2.x), Vec3(m.r0.y, m.r1.y, m.r2.y), Vec3(m.r0.z, m.r1.z, m.r2.z))
  }

  /** Transposing twice gives the matrix back. */
  lemma TransposeInvolution(m: Mat3)
    ensures Transpose(Transpose(m)) == m
  {
  }

  function ScaleVec3(v: Vec3, f: real): Vec3
  {
    Vec3(v.x * f, v.y * f, v.z * f)
  }

  function AddVec3(a: Vec3, b: Vec3): Vec3
  {
    Vec3(a.x + b.x, a.y + b.y, a.z + b.z)
  }

  /** `v[0] * m[0] + v[1] * m[1] + v[2] * m[2]`: fractional to Cartesian coordinates over
      lattice rows. */
  function Combine(v: Vec3, m: Mat3): Vec3
  {
    AddVec3(AddVec3(ScaleVec3(m.r0, v.x), ScaleVec3(m.r1, v.y)), ScaleVec3(m.r2, v.z))
  }

  /** Combining over rows is multiplying by the transpose. */
  lemma CombineIsTransposeProduct(v: Vec3, m: Mat3)
    ensures Combine(v, m) == MatVec(Transpose(m), v)
  {
  }

  function Det(m: Mat3): real
  {
    var a, b, c := m.r0.x, m.r0.y, m.r0.z;
    var d, e, f := m.r1.x, m.r1.y, m.r1.z;
    var g, h, i := m.r2.x, m.r2.y, m.r2.z;
    a * (e * i - f * h) - b * (d * i - f * g) + c * (d * h - e * g)
  }

  function Abs(x: real): real
  {
    if x < 0.0 then -x else x
  }

  /** The singularity threshold `1e-10`. */
  const SingularLimit: real := 1.0 / 10_000_000_000.0

  /** `matrix_inverse_3x3`: singular when `|det| < 1e-10`, otherwise the cofactor matrix,
      transposed, with every entry multiplied by `1 / det`. */
  function MatrixInverse(m: Mat3): (r: Result<Mat3>)
    ensures r.Err? <==> Abs(Det(m)) < SingularLimit
  {
    var det := Det(m);
    if Abs(det) < SingularLimit then Err("Matrix is singular and cannot be inverted")
    else Ok(ScaledAdjugate(m, 1.0 / det))
  }

  /** The cofactor matrix of `m`, transposed, with every entry multiplied by `q`. */
  function ScaledAdjugate(m: Mat3, q: real): Mat3
  {
    var a, b, c := m.r0.x, m.r0.y, m.r0.z;
    var d, e, f := m.r1.x, m.r1.y, m.r1.z;
    var g, h, i := m.r2.x, m.r2.y, m.r2.z;
    Mat3(Vec3((e * i - f * h) * q, (c * h - b * i) * q, (b * f - c * e) * q),
         Vec3((f * g - d * i) * q, (a * i - c * g) * q, (c * d - a * f) * q),
         Vec3((d * h - e * g) * q, (b * g - a * h) * q, (a * e - b * d) * q))
  }

  /** The row vector `r` times the matrix `b`. */
  function RowTimes(r: Vec3, b: Mat3): Vec3
  {
    Vec3(r.x * b.r0.x + r.y * b.r1.x + r.z * b.r2.x,
         r.x * b.r0.y + r.y * b.r1.y + r.z * b.r2.y,
         r.x * b.r0.z + r.y * b.r1.z + r.z * b.r2.z)
  }

  /** The matrix product: row `i` of the result is row `i` of `a` times `b`. */
  function MatMul(a: Mat3, b: Mat3): Mat3
  {
    Mat3(RowTimes(a.r0, b), RowTimes(a.r1, b), RowTimes(a.r2, b))
  }

  function Diagonal(d: real): Mat3
  {
    Mat3(Vec3(d, 0.0, 0.0), Vec3(0.0, d, 0.0), Vec3(0.0, 0.0, d))
  }

  const Identity: Mat3 := Diagonal(1.0)

  /** One column `(x, y, z)` of the inverse of the rows `[a, b, c]`, `[d, e, f]`, `[g, h, i]`,
      each entry a cofactor times `q` where `det * q = 1`: the rows against it give the
      matching column of the identity. */
  lemma InverseColumn0(a: real, b: real, c: real, d: real, e: real, f: real, g: real, h: real, i: real,
                       det: real, q: real, x: real, y: real, z: real)
    requires det == a * (e * i - f * h) - b * (d * i - f * g) + c * (d * h - e * g) && det * q == 1.0
    requires x == (e * i - f * h) * q && y == (f * g - d * i) * q && z == (d * h - e * g) * q
    ensures a * x + b * y + c * z == 1.0
    ensures d * x + e * y + f * z == 0.0
    ensures g * x + h * y + i * z == 0.0
  {
  }

  lemma InverseColumn1(a: real, b: real, c: real, d: real, e: real, f: real, g: real, h: real, i: real,
                       det: real, q: real, x: real, y: real, z: real)
    requires det == a * (e * i - f * h) - b * (d * i - f * g) + c * (d * h - e * g) && det * q == 1.0
    requires x == (c * h - b * i) * q && y == (a * i - c * g) * q && z == (b * g - a * h) * q
    ensures a * x + b * y + c * z == 0.0
    ensures d * x + e * y + f * z == 1.0
    ensures g * x + h * y + i * z == 0.0
  {
  }

  lemma InverseColumn2(a: real, b: real, c: real, d: real, e: real, f: real, g: real, h: real, i: real,
                       det: real, q: real, x: real, y: real, z: real)
    requires det == a * (e * i - f * h) - b * (d * i - f * g) + c * (d * h - e * g) && det * q == 1.0
    requires x == (b * f - c * e) * q && y == (c * d - a * f) * q && z == (a * e - b * d) * q
    ensures a * x + b * y + c * z == 0.0
    ensures d * x + e * y + f * z == 0.0
    ensures g * x + h * y + i * z == 1.0
  {
  }

  /** Column `k` of the scaled adjugate, with `det * q = 1`: the rows of `m` against it
      give column `k` of the identity. */
  lemma AdjugateColumn0(m: Mat3, q: real)
    requires Det(m) * q == 1.0
    ensures var n := ScaledAdjugate(m, q);
      && m.r0.x * n.r0.x + m.r0.y * n.r1.x + m.r0.z * n.r2.x == 1.0
      && m.r1.x * n.r0.x + m.r1.y * n.r1.x + m.r1.z * n.r2.x == 0.0
      && m.r2.x * n.r0.x + m.r2.y * n.r1.x + m.r2.z * n.r2.x == 0.0
  {
    var n := ScaledAdjugate(m, q);
    InverseColumn0(m.r0.x, m.r0.y, m.r0.z, m.r1.x, m.r1.y, m.r1.z, m.r2.x, m.r2.y, m.r2.z, Det(m), q,
                   n.r0.x, n.r1.x, n.r2.x);
  }

  lemma AdjugateColumn1(m: Mat3, q: real)
    requires Det(m) * q == 1.0
    ensures var n := ScaledAdjugate(m, q);
      && m.r0.x * n.r0.y + m.r0.y * n.r1.y + m.r0.z * n.r2.y == 0.0
      && m.r1.x * n.r0.y + m.r1.y * n.r1.y + m.r1.z * n.r2.y == 1.0
      && m.r2.x * n.r0.y + m.r2.y * n.r1.y + m.r2.z * n.r2.y == 0.0
  {
    var n := ScaledAdjugate(m, q);
    InverseColumn1(m.r0.x, m.r0.y, m.r0.z, m.r1.x, m.r1.y, m.r1.z, m.r2.x, m.r2.y, m.r2.z, Det(m), q,
                   n.r0.y, n.r1.y, n.r2.y);
  }

  lemma AdjugateColumn2(m: Mat3, q: real)
    requires Det(m) * q == 1.0
    ensures var n := ScaledAdjugate(m, q);
      && m.r0.x * n.r0.z + m.r0.y * n.r1.z + m.r0.z * n.r2.z == 0.0
      && m.r1.x * n.r0.z + m.r1.y * n.r1.z + m.r1.z * n.r2.z == 0.0
      && m.r2.x * n.r0.z + m.r2.y * n.r1.z + m.r2.z * n.r2.z == 1.0
  {
    var n := ScaledAdjugate(m, q);
    InverseColumn2(m.r0.x, m.r0.y, m.r0.z, m.r1.x, m.r1.y, m.r1.z, m.r2.x, m.r2.y, m.r2.z, Det(m), q,
                   n.r0.z, n.r1.z, n.r2.z);
  }

  /** `m * n` is the identity when each row of `m` against each column of `n` gives the
      matching entry of the identity. */
  lemma ProductIsIdentity(m: Mat3, n: Mat3)
    requires m.r0.x * n.r0.x + m.r0.y * n.r1.x + m.r0.z * n.r2.x == 1.0
    requires m.r1.x * n.r0.x + m.r1.y * n.r1.x + m.r1.z * n.r2.x == 0.0
    requires m.r2.x * n.r0.x + m.r2.y * n.r1.x + m.r2.z * n.r2.x == 0.0
    requires m.r0.x * n.r0.y + m.r0.y * n.r1.y + m.r0.z * n.r2.y == 0.0
    requires m.r1.x * n.r0.y + m.r1.y * n.r1.y + m.r1.z * n.r2.y == 1.0
    requires m.r2.x * n.r0.y + m.r2.y * n.r1.y + m.r2.z * n.r2.y == 0.0
    requires m.r0.x * n.r0.z + m.r0.y * n.r1.z + m.r0.z * n.r2.z == 0.0
    requires m.r1.x * n.r0.z + m.r1.y * n.r1.z + m.r1.z * n.r2.z == 0.0
    requires m.r2.x * n.r0.z + m.r2.y * n.r1.z + m.r2.z * n.r2.z == 1.0
    ensures MatMul(m, n) == Identity
  {
    RowTimesIs(m.r0, n, Vec3(1.0, 0.0, 0.0));
    RowTimesIs(m.r1, n, Vec3(0.0, 1.0, 0.0));
    RowTimesIs(m.r2, n, Vec3(0.0, 0.0, 1.0));
  }

  lemma RowTimesIs(r: Vec3, n: Mat3, u: Vec3)
    requires r.x * n.r0.x + r.y * n.r1.x + r.z * n.r2.x == u.x
    requires r.x * n.r0.y + r.y * n.r1.y + r.z * n.r2.y == u.y
    requires r.x * n.r0.z + r.y * n.r1.z + r.z * n.r2.z == u.z
    ensures RowTimes(r, n) == u
  {
  }

  /** Column 0 of `M * M^-1` is column 0 of the identity. */
  lemma RightInverseColumn0(m: Mat3, n: Mat3)
    requires MatrixInverse(m) == Ok(n)
    ensures m.r0.x * n.r0.x + m.r0.y * n.r1.x + m.r0.z * n.r2.x == 1.0
    ensures m.r1.x * n.r0.x + m.r1.y * n.r1.x + m.r1.z * n.r2.x == 0.0
    ensures m.r2.x * n.r0.x + m.r2.y * n.r1.x + m.r2.z * n.r2.x == 0.0
  {
    var q := 1.0 / Det(m);
    assert Det(m) * q == 1.0;
    AdjugateColumn0(m, q);
  }

  /** Column 1 of `M * M^-1` is column 1 of the identity. */
  lemma RightInverseColumn1(m: Mat3, n: Mat3)
    requires MatrixInverse(m) == Ok(n)
    ensures m.r0.x * n.r0.y + m.r0.y * n.r1.y + m.r0.z * n.r2.y == 0.0
    ensures m.r1.x * n.r0.y + m.r1.y * n.r1.y + m.r1.z * n.r2.y == 1.0
    ensures m.r2.x * n.r0.y + m.r2.y * n.r1.y + m.r2.z * n.r2.y == 0.0
  {
    var q := 1.0 / Det(m);
    assert Det(m) * q == 1.0;
    AdjugateColumn1(m, q);
  }

  /** Column 2 of `M * M^-1` is column 2 of the identity. */
  lemma RightInverseColumn2(m: Mat3, n: Mat3)
    requires MatrixInverse(m) == Ok(n)
    ensures m.r0.x * n.r0.z + m.r0.y * n.r1.z + m.r0.z * n.r2.z == 0.0
    ensures m.r1.x * n.r0.z + m.r1.y * n.r1.z + m.r1.z * n.r2.z == 0.0
    ensures m.r2.x * n.r0.z + m.r2.y * n.r1.z + m.r2.z * n.r2.z == 1.0
  {
    var q := 1.0 / Det(m);
    assert Det(m) * q == 1.0;
    AdjugateColumn2(m, q);
  }

  /** In exact arithmetic the inverse is a right inverse: `M * M^-1 = I`. */
  lemma InverseIsRightInverse(m: Mat3)
    requires MatrixInverse(m).Ok?
    ensures MatMul(m, MatrixInverse(m).value) == Identity
  {
    var n := MatrixInverse(m).value;
    RightInverseColumn0(m, n);
    RightInverseColumn1(m, n);
    RightInverseColumn2(m, n);
    ProductIsIdentity(m, n);
  }

  /** Multiplying by a product is multiplying by each factor in turn. */
  lemma MatVecMatMul(a: Mat3, b: Mat3, v: Vec3)
    ensures MatVec(a, MatVec(b, v)) == MatVec(MatMul(a, b), v)
  {
  }

  /** Fractional coordinates from the inverse map back to the Cartesian ones:
      `M * (M^-1 * v) = v`. */
  lemma InverseRoundTrip(m: Mat3, v: Vec3)
    requires MatrixInverse(m).Ok?
    ensures MatVec(m, MatVec(MatrixInverse(m).value, v)) == v
  {
    InverseIsRightInverse(m);
    MatVecMatMul(m, MatrixInverse(m).value, v);
  }

  /** One row `(x, y, z)` of the inverse of the rows `[a, b, c]`, `[d, e, f]`, `[g, h, i]`:
      against the columns of the matrix it gives the matching row of the identity. */
  lemma InverseRow0(a: real, b: real, c: real, d: real, e: real, f: real, g: real, h: real, i: real,
                    det: real, q: real, x: real, y: real, z: real)
    requires det == a * (e * i - f * h) - b * (d * i - f * g) + c * (d * h - e * g) && det * q == 1.0
    requires x == (e * i - f * h) * q && y == (c * h - b * i) * q && z == (b * f - c * e) * q
    ensures x * a + y * d + z * g == 1.0
    ensures x * b + y * e + z * h == 0.0
    ensures x * c + y * f + z * i == 0.0
  {
  }

  lemma InverseRow1(a: real, b: real, c: real, d: real, e: real, f: real, g: real, h: real, i: real,
                    det: real, q: real, x: real, y: real, z: real)
    requires det == a * (e * i - f * h) - b * (d * i - f * g) + c * (d * h - e * g) && det * q == 1.0
    requires x == (f * g - d * i) * q && y == (a * i - c * g) * q && z == (c * d - a * f) * q
    ensures x * a + y * d + z * g == 0.0
    ensures x * b + y * e + z * h == 1.0
    ensures x * c + y * f + z * i == 0.0
  {
  }

  lemma InverseRow2(a: real, b: real, c: real, d: real, e: real, f: real, g: real, h: real, i: real,
                    det: real, q: real, x: real, y: real, z: real)
    requires det == a * (e * i - f * h) - b * (d * i - f * g) + c * (d * h - e * g) && det * q == 1.0
    requires x == (d * h - e * g) * q && y == (b * g - a * h) * q && z == (a * e - b * d) * q
    ensures x * a + y * d + z * g == 0.0
    ensures x * b + y * e + z * h == 0.0
    ensures x * c + y * f + z * i == 1.0
  {
  }

  /** Row `k` of the scaled adjugate, with `det * q = 1`: against the columns of `m` it
      gives row `k` of the identity. */
  lemma AdjugateRow0(m: Mat3, q: real)
    requires Det(m) * q == 1.0
    ensures var n := ScaledAdjugate(m, q);
      && n.r0.x * m.r0.x + n.r0.y * m.r1.x + n.r0.z * m.r2.x == 1.0
      && n.r0.x * m.r0.y + n.r0.y * m.r1.y + n.r0.z * m.r2.y == 0.0
      && n.r0.x * m.r0.z + n.r0.y * m.r1.z + n.r0.z * m.r2.z == 0.0
  {
    var n := ScaledAdjugate(m, q);
    InverseRow0(m.r0.x, m.r0.y, m.r0.z, m.r1.x, m.r1.y, m.r1.z, m.r2.x, m.r2.y, m.r2.z, Det(m), q,
                   n.r0.x, n.r0.y, n.r0.z);
  }

  lemma AdjugateRow1(m: Mat3, q: real)
    requires Det(m) * q == 1.0
    ensures var n := ScaledAdjugate(m, q);
      && n.r1.x * m.r0.x + n.r1.y * m.r1.x + n.r1.z * m.r2.x == 0.0
      && n.r1.x * m.r0.y + n.r1.y * m.r1.y + n.r1.z * m.r2.y == 1.0
      && n.r1.x * m.r0.z + n.r1.y * m.r1.z + n.r1.z * m.r2.z == 0.0
  {
    var n := ScaledAdjugate(m, q);
    InverseRow1(m.r0.x, m.r0.y, m.r0.z, m.r1.x, m.r1.y, m.r1.z, m.r2.x, m.r2.y, m.r2.z, Det(m), q,
                   n.r1.x, n.r1.y, n.r1.z);
  }

  lemma AdjugateRow2(m: Mat3, q: real)
    requires Det(m) * q == 1.0
    ensures var n := ScaledAdjugate(m, q);
      && n.r2.x * m.r0.x + n.r2.y * m.r1.x + n.r2.z * m.r2.x == 0.0
      && n.r2.x * m.r0.y + n.r2.y * m.r1.y + n.r2.z * m.r2.y == 0.0
      && n.r2.x * m.r0.z + n.r2.y * m.r1.z + n.r2.z * m.r2.z == 1.0
  {
    var n := ScaledAdjugate(m, q);
    InverseRow2(m.r0.x, m.r0.y, m.r0.z, m.r1.x, m.r1.y, m.r1.z, m.r2.x, m.r2.y, m.r2.z, Det(m), q,
                   n.r2.x, n.r2.y, n.r2.z);
  }

  /** Row 0 of `M^-1 * M` is row 0 of the identity. */
  lemma LeftInverseRow0(m: Mat3, n: Mat3)
    requires MatrixInverse(m) == Ok(n)
    ensures n.r0.x * m.r0.x + n.r0.y * m.r1.x + n.r0.z * m.r2.x == 1.0
    ensures n.r0.x * m.r0.y + n.r0.y * m.r1.y + n.r0.z * m.r2.y == 0.0
    ensures n.r0.x * m.r0.z + n.r0.y * m.r1.z + n.r0.z * m.r2.z == 0.0
  {
    var q := 1.0 / Det(m);
    assert Det(m) * q == 1.0;
    AdjugateRow0(m, q);
  }

  /** Row 1 of `M^-1 * M` is row 1 of the identity. */
  lemma LeftInverseRow1(m: Mat3, n: Mat3)
    requires MatrixInverse(m) == Ok(n)
    ensures n.r1.x * m.r0.x + n.r1.y * m.r1.x + n.r1.z * m.r2.x == 0.0
    ensures n.r1.x * m.r0.y + n.r1.y * m.r1.y + n.r1.z * m.r2.y == 1.0
    ensures n.r1.x * m.r0.z + n.r1.y * m.r1.z + n.r1.z * m.r2.z == 0.0
  {
    var q := 1.0 / Det(m);
    assert Det(m) * q == 1.0;
    AdjugateRow1(m, q);
  }

  /** Row 2 of `M^-1 * M` is row 2 of the identity. */
  lemma LeftInverseRow2(m: Mat3, n: Mat3)
    requires MatrixInverse(m) == Ok(n)
    ensures n.r2.x * m.r0.x + n.r2.y * m.r1.x + n.r2.z * m.r2.x == 0.0
    ensures n.r2.x * m.r0.y + n.r2.y * m.r1.y + n.r2.z * m.r2.y == 0.0
    ensures n.r2.x * m.r0.z + n.r2.y * m.r1.z + n.r2.z * m.r2.z == 1.0
  {
    var q := 1.0 / Det(m);
    assert Det(m) * q == 1.0;
    AdjugateRow2(m, q);
  }

  /** In exact arithmetic the inverse is also a left inverse: `M^-1 * M = I`. */
  lemma InverseIsLeftInverse(m: Mat3)
    requires MatrixInverse(m).Ok?
    ensures MatMul(MatrixInverse(m).value, m) == Identity
  {
    var n := MatrixInverse(m).value;
    LeftInverseRow0(m, n);
    LeftInverseRow1(m, n);
    LeftInverseRow2(m, n);
    ProductIsIdentity(n, m);
  }

  /** Converting with the matrix and back with its inverse is the identity:
      `M^-1 * (M * v) = v`. */
  lemma InverseLeftRoundTrip(m: Mat3, v: Vec3)
    requires MatrixInverse(m).Ok?
    ensures MatVec(MatrixInverse(m).value, MatVec(m, v)) == v
  {
    InverseIsLeftInverse(m);
    MatVecMatMul(MatrixInverse(m).value, m, v);
  }

  /** Transposing keeps the determinant, so it keeps invertibility. */
  lemma DetTranspose(m: Mat3)
    ensures Det(Transpose(m)) == Det(m)
  {
  }

  /* ---------- minimum image ---------- */

  /** The minimum-image wrap of `pbc_dist`: `x - floor(x)`, shifted down by 1 when it
      is at least 0.5. */
  function Wrap(x: real): (r: real)
    ensures -0.5 <= r < 0.5
    ensures IsWhole(x - r)
  {
    var k := x.Floor;
    var w := x - k as real;
    if w >= 0.5 then
      WholeOf(k + 1);
      w - 1.0
    else
      WholeOf(k);
      w
  }

  predicate IsWhole(x: real)
  {
    x == x.Floor as real
  }

  lemma WholeOf(k: int)
    ensures IsWhole(k as real)
  {
  }

  /** A value already in `[-0.5, 0.5)` is left alone. */
  lemma WrapFixes(x: real)
    requires -0.5 <= x < 0.5
    ensures Wrap(x) == x
  {
  }

  /** The wrap of every component. */
  function WrapVec(d: Vec3): (r: Vec3)
    ensures InHalfCell(r)
    ensures IsWholeVec(Sub(d, r))
  {
    var r := Vec3(Wrap(d.x), Wrap(d.y), Wrap(d.z));
    assert Sub(d, r) == Vec3(d.x - r.x, d.y - r.y, d.z - r.z);
    r
  }

  /** `add(vec1, scale(vec2, -1))` on 3-vectors. */
  function Sub(a: Vec3, b: Vec3): (r: Vec3)
    ensures r == Vec3(a.x - b.x, a.y - b.y, a.z - b.z)
  {
    assert ScaleVec3(b, -1.0) == Vec3(-b.x, -b.y, -b.z);
    AddVec3(a, ScaleVec3(b, -1.0))
  }

  /** The square of `norm`. */
  function NormSq(v: Vec3): real
  {
    Dot3(v, v)
  }

  /** The Cartesian minimum-image displacement of `pbc_dist` as written, whose norm
      is the distance: the inverse is the supplied one or computed (and may be
      singular), and the wrapped fractional difference is multiplied by `lattice` as
      a matrix, which treats the lattice vectors as its columns. */
  function PbcDisplacement(pos1: Vec3, pos2: Vec3, lattice: Mat3, latticeInv: Option<Mat3>): (r: Result<Vec3>)
    ensures latticeInv.Some? ==> r.Ok?
    ensures latticeInv.None? ==> (r.Ok? <==> MatrixInverse(lattice).Ok?)
  {
    var inv :=
      match latticeInv
      case Some(m) => Ok(m)
      case None => MatrixInverse(lattice);
    match inv
    case Err(e) => Err(e)
    case Ok(mi) =>
      var d := Sub(MatVec(mi, pos1), MatVec(mi, pos2));
      Ok(MatVec(lattice, WrapVec(d)))
  }

  /** A point is at distance zero from itself. */
  lemma PbcSelfDistance(pos: Vec3, lattice: Mat3, latticeInv: Option<Mat3>)
    requires PbcDisplacement(pos, pos, lattice, latticeInv).Ok?
    ensures NormSq(PbcDisplacement(pos, pos, lattice, latticeInv).value) == 0.0
  {
    SubSelf(MatVec(UsedInverse(lattice, latticeInv), pos));
    WrapZero();
    MatVecZero(lattice);
  }

  /** The origin wraps to itself. */
  lemma WrapZero()
    ensures WrapVec(Vec3(0.0, 0.0, 0.0)) == Vec3(0.0, 0.0, 0.0)
  {
    assert Wrap(0.0) == 0.0;
  }

  /** A vector minus itself is the origin. */
  lemma SubSelf(v: Vec3)
    ensures Sub(v, v) == Vec3(0.0, 0.0, 0.0)
  {
  }

  predicate IsWholeVec(n: Vec3)
  {
    IsWhole(n.x) && IsWhole(n.y) && IsWhole(n.z)
  }

  /** Every component lies in `[-0.5, 0.5)`, the minimum-image range. */
  predicate InHalfCell(v: Vec3)
  {
    -0.5 <= v.x < 0.5 && -0.5 <= v.y < 0.5 && -0.5 <= v.z < 0.5
  }

  /** The inverse `pbc_dist` converts with: the supplied one, or else the computed one. */
  function UsedInverse(lattice: Mat3, latticeInv: Option<Mat3>): Mat3
    requires latticeInv.Some? || MatrixInverse(lattice).Ok?
  {
    if latticeInv.Some? then latticeInv.value else MatrixInverse(lattice).value
  }

  /** The wrapped fractional difference of `pbc_dist` is the raw difference minus a
      whole vector, and lands in `[-0.5, 0.5)`; the displacement is `lattice` applied
      to it. Only for a symmetric `lattice` is `lattice · n` a sum of lattice rows. */
  lemma PbcWrapsByCells(pos1: Vec3, pos2: Vec3, lattice: Mat3, latticeInv: Option<Mat3>)
    requires PbcDisplacement(pos1, pos2, lattice, latticeInv).Ok?
    ensures latticeInv.Some? || MatrixInverse(lattice).Ok?
    ensures var inv := UsedInverse(lattice, latticeInv);
      var d := Sub(MatVec(inv, pos1), MatVec(inv, pos2));
      exists n: Vec3 :: IsWholeVec(n) && InHalfCell(Sub(d, n))
        && PbcDisplacement(pos1, pos2, lattice, latticeInv).value == MatVec(lattice, Sub(d, n))
  {
    var inv := UsedInverse(lattice, latticeInv);
    var d := Sub(MatVec(inv, pos1), MatVec(inv, pos2));
    var n := Sub(d, WrapVec(d));
    assert Sub(d, n) == WrapVec(d);
  }

  /** Multiplying by a matrix distributes over a difference. */
  lemma MatVecSub(m: Mat3, a: Vec3, b: Vec3)
    ensures MatVec(m, Sub(a, b)) == Sub(MatVec(m, a), MatVec(m, b))
  {
  }

  /** Converting both positions with the inverse and subtracting converts the
      difference of the positions. */
  lemma FractionalDifference(m: Mat3, pos1: Vec3, pos2: Vec3)
    requires MatrixInverse(m).Ok?
    ensures MatVec(m, Sub(MatVec(MatrixInverse(m).value, pos1), MatVec(MatrixInverse(m).value, pos2)))
            == Sub(pos1, pos2)
  {
    var inv := MatrixInverse(m).value;
    MatVecSub(m, MatVec(inv, pos1), MatVec(inv, pos2));
    InverseRoundTrip(m, pos1);
    InverseRoundTrip(m, pos2);
  }

  /** As written, with the computed inverse, `pbc_dist` shifts the plain difference by
      `lattice · n`: whole multiples of the lattice's COLUMNS, although the lattice
      vectors are its rows. */
  lemma PbcShiftsByColumns(pos1: Vec3, pos2: Vec3, lattice: Mat3)
    requires MatrixInverse(lattice).Ok?
    ensures exists n: Vec3 ::
      IsWholeVec(n) && PbcDisplacement(pos1, pos2, lattice, None).value == Sub(Sub(pos1, pos2), MatVec(lattice, n))
  {
    PbcWrapsByCells(pos1, pos2, lattice, None);
    var inv := MatrixInverse(lattice).value;
    var d := Sub(MatVec(inv, pos1), MatVec(inv, pos2));
    var n :| IsWholeVec(n) && InHalfCell(Sub(d, n))
             && PbcDisplacement(pos1, pos2, lattice, None).value == MatVec(lattice, Sub(d, n));
    MatVecSub(lattice, d, n);
    FractionalDifference(lattice, pos1, pos2);
  }

  /** A cell sheared in its first row: a = (2, 1, 0), b = (0, 1, 0), c = (0, 0, 1). */
  const Sheared: Mat3 := Mat3(Vec3(2.0, 1.0, 0.0), Vec3(0.0, 1.0, 0.0), Vec3(0.0, 0.0, 1.0))

  /** The inverse of the sheared cell and of its transpose. */
  lemma ShearedInverse()
    ensures MatrixInverse(Sheared) == Ok(Mat3(Vec3(0.5, -0.5, 0.0), Vec3(0.0, 1.0, 0.0), Vec3(0.0, 0.0, 1.0)))
    ensures MatrixInverse(Transpose(Sheared)) == Ok(Mat3(Vec3(0.5, 0.0, 0.0), Vec3(-0.5, 1.0, 0.0), Vec3(0.0, 0.0, 1.0)))
  {
    assert Det(Sheared) == 2.0;
    assert Det(Transpose(Sheared)) == 2.0;
    assert 1.0 / 2.0 == 0.5;
  }

  /** Every matrix keeps the origin. */
  lemma MatVecZero(m: Mat3)
    ensures MatVec(m, Vec3(0.0, 0.0, 0.0)) == Vec3(0.0, 0.0, 0.0)
  {
  }

  /** No steps along the rows stay at the origin. */
  lemma CombineZero(m: Mat3)
    ensures Combine(Vec3(0.0, 0.0, 0.0), m) == Vec3(0.0, 0.0, 0.0)
  {
  }

  /** The vector a in the as-written fractional coordinates of the sheared cell. */
  lemma ShearedColumnsFractional()
    ensures MatVec(Mat3(Vec3(0.5, -0.5, 0.0), Vec3(0.0, 1.0, 0.0), Vec3(0.0, 0.0, 1.0)), Vec3(2.0, 1.0, 0.0))
            == Vec3(0.5, 1.0, 0.0)
  {
  }

  /** The vector a in fractional coordinates over the rows: one step along a. */
  lemma ShearedRowsFractional()
    ensures MatVec(Mat3(Vec3(0.5, 0.0, 0.0), Vec3(-0.5, 1.0, 0.0), Vec3(0.0, 0.0, 1.0)), Vec3(2.0, 1.0, 0.0))
            == Vec3(1.0, 0.0, 0.0)
  {
  }

  /** Subtracting the origin changes nothing. */
  lemma SubZero(v: Vec3)
    ensures Sub(v, Vec3(0.0, 0.0, 0.0)) == v
  {
  }

  /** The wraps the sheared examples need. */
  lemma SmallWraps()
    ensures WrapVec(Vec3(0.5, 1.0, 0.0)) == Vec3(-0.5, 0.0, 0.0)
    ensures WrapVec(Vec3(1.0, 0.0, 0.0)) == Vec3(0.0, 0.0, 0.0)
  {
    assert (0.5).Floor == 0;
    assert (1.0).Floor == 1;
    assert (0.0).Floor == 0;
  }

  /** Half a step back along the columns of the sheared cell. */
  lemma ShearedHalfStep()
    ensures MatVec(Mat3(Vec3(2.0, 1.0, 0.0), Vec3(0.0, 1.0, 0.0), Vec3(0.0, 0.0, 1.0)), Vec3(-0.5, 0.0, 0.0))
            == Vec3(-1.0, 0.0, 0.0)
  {
  }

  /** The unit step along x has length 1. */
  lemma UnitNorm()
    ensures NormSq(Vec3(-1.0, 0.0, 0.0)) == 1.0
  {
  }

  /** `pbc_dist` with the computed inverse, once that inverse is known. */
  lemma DisplacementWith(pos1: Vec3, pos2: Vec3, lattice: Mat3, inv: Mat3)
    requires MatrixInverse(lattice) == Ok(inv)
    ensures PbcDisplacement(pos1, pos2, lattice, None)
            == Ok(MatVec(lattice, WrapVec(Sub(MatVec(inv, pos1), MatVec(inv, pos2)))))
  {
  }

  /** As written, the lattice vector a is found 1 away from the origin, although both
      are the same point of the periodic crystal. */
  lemma ShearedLatticeVectorNotZero()
    ensures PbcDisplacement(Sheared.r0, Vec3(0.0, 0.0, 0.0), Sheared, None) == Ok(Vec3(-1.0, 0.0, 0.0))
    ensures NormSq(PbcDisplacement(Sheared.r0, Vec3(0.0, 0.0, 0.0), Sheared, None).value) == 1.0
  {
    var inv := Mat3(Vec3(0.5, -0.5, 0.0), Vec3(0.0, 1.0, 0.0), Vec3(0.0, 0.0, 1.0));
    ShearedInverse();
    DisplacementWith(Sheared.r0, Vec3(0.0, 0.0, 0.0), Sheared, inv);
    MatVecZero(inv);
    ShearedColumnsFractional();
    SubZero(Vec3(0.5, 1.0, 0.0));
    SmallWraps();
    ShearedHalfStep();
    UnitNorm();
  }

  /** The minimum-image displacement with the lattice vectors as rows: fractional
      coordinates by the inverse of the transpose (supplied or computed), back to
      Cartesian by combining the rows. */
  function PbcDisplacementRows(pos1: Vec3, pos2: Vec3, lattice: Mat3, transposedInv: Option<Mat3>): (r: Result<Vec3>)
    ensures transposedInv.Some? ==> r.Ok?
    ensures transposedInv.None? ==> (r.Ok? <==> MatrixInverse(lattice).Ok?)
  {
    DetTranspose(lattice);
    var inv :=
      match transposedInv
      case Some(m) => Ok(m)
      case None => MatrixInverse(Transpose(lattice));
    match inv
    case Err(e) => Err(e)
    case Ok(mi) =>
      var d := Sub(MatVec(mi, pos1), MatVec(mi, pos2));
      Ok(Combine(WrapVec(d), lattice))
  }

  /** With the rows convention the displacement is the plain difference minus a whole
      lattice translation `n.x·a + n.y·b + n.z·c`, and its fractional form lies in
      `[-0.5, 0.5)`. */
  lemma PbcRowsTranslates(pos1: Vec3, pos2: Vec3, lattice: Mat3, transposedInv: Option<Mat3>)
    requires MatrixInverse(lattice).Ok?
    requires transposedInv.None? || transposedInv == MatrixInverse(Transpose(lattice)).ToOption()
    ensures exists n: Vec3, w: Vec3 ::
      && IsWholeVec(n) && InHalfCell(w)
      && PbcDisplacementRows(pos1, pos2, lattice, transposedInv).value == Combine(w, lattice)
      && PbcDisplacementRows(pos1, pos2, lattice, transposedInv).value == Sub(Sub(pos1, pos2), Combine(n, lattice))
  {
    DetTranspose(lattice);
    var t := Transpose(lattice);
    var inv := MatrixInverse(t).value;
    var d := Sub(MatVec(inv, pos1), MatVec(inv, pos2));
    var w := WrapVec(d);
    var n := Sub(d, w);
    assert w == Sub(d, n);
    CombineIsTransposeProduct(w, lattice);
    CombineIsTransposeProduct(n, lattice);
    MatVecSub(t, d, n);
    FractionalDifference(t, pos1, pos2);
  }

  /** The rows-convention displacement once the inverse of the transpose is known. */
  lemma DisplacementRowsWith(pos1: Vec3, pos2: Vec3, lattice: Mat3, inv: Mat3)
    requires MatrixInverse(Transpose(lattice)) == Ok(inv)
    ensures PbcDisplacementRows(pos1, pos2, lattice, None)
            == Ok(Combine(WrapVec(Sub(MatVec(inv, pos1), MatVec(inv, pos2))), lattice))
  {
  }

  /** With the rows convention the sheared cell's lattice vector a is at distance 0
      from the origin. */
  lemma ShearedLatticeVectorZero()
    ensures PbcDisplacementRows(Sheared.r0, Vec3(0.0, 0.0, 0.0), Sheared, None) == Ok(Vec3(0.0, 0.0, 0.0))
  {
    var inv := Mat3(Vec3(0.5, 0.0, 0.0), Vec3(-0.5, 1.0, 0.0), Vec3(0.0, 0.0, 1.0));
    ShearedInverse();
    DisplacementRowsWith(Sheared.r0, Vec3(0.0, 0.0, 0.0), Sheared, inv);
    MatVecZero(inv);
    ShearedRowsFractional();
    SubZero(Vec3(1.0, 0.0, 0.0));
    SmallWraps();
    CombineZero(Sheared);
  }
}

=== FILE: wrappers.dfy ===
/** Optional values and results with a string error, the way the library's
    functions either return a value, return null, or throw an Error(message). */
module Wrappers {

  datatype Option<+T> = None | Some(value: T)
  {
    function GetOr(default: T): T
    {
      match this
      case None => default
      case Some(v) => v
    }
  }

  /** `Err(msg)` stands for a thrown `Error(msg)`. */
  datatype Result<+T> = Ok(value: T) | Err(msg: string)
  {
    predicate IsFailure() { Err? }

    function PropagateFailure<U>(): Result<U>
      requires Err?
    {
      Err(msg)
    }

    function Extract(): T
      requires Ok?
    {
      value
    }

    /** A caught exception that the caller turns into `null`. */
    function ToOption(): Option<T>
    {
      match this
      case Ok(v) => Some(v)
      case Err(_) => None
    }
  }

  /** `xs.map(f)` for an `f` that may throw: the results of every element, or the
      error of the first element that fails. */
  function MapResult<A, B>(f: A -> Result<B>, xs: seq<A>): (r: Result<seq<B>>)
    ensures r.Ok? ==> |r.value| == |xs|
    decreases |xs|
  {
    if |xs| == 0 then Ok([])
    else
      var y :- f(xs[0]);
      var ys :- MapResult(f, xs[1..]);
      Ok([y] + ys)
  }

  /** Element `k` of a successful map is `f` of element `k`. */
  lemma {:induction false} MapResultAt<A, B>(f: A -> Result<B>, xs: seq<A>, k: nat)
    requires MapResult(f, xs).Ok? && k < |xs|
    ensures f(xs[k]) == Ok(MapResult(f, xs).value[k])
    decreases k
  {
    if k > 0 {
      MapResultAt(f, xs[1..], k - 1);
    }
  }

  /** The map succeeds exactly when `f` succeeds on every element. */
  lemma {:induction false} MapResultOk<A, B>(f: A -> Result<B>, xs: seq<A>)
    ensures MapResult(f, xs).Ok? <==> forall k :: 0 <= k < |xs| ==> f(xs[k]).Ok?
    decreases |xs|
  {
    if |xs| > 0 {
      MapResultOk(f, xs[1..]);
      assert forall k :: 1 <= k < |xs| ==> xs[k] == xs[1..][k - 1];
    }
  }

  /** A failed map reports the error of the first failing element. */
  lemma {:induction false} MapResultFirstError<A, B>(f: A -> Result<B>, xs: seq<A>)
    requires MapResult(f, xs).Err?
    ensures exists k :: (0 <= k < |xs| && f(xs[k]) == Err(MapResult(f, xs).msg) &&
      forall j :: 0 <= j < k ==> f(xs[j]).Ok?)
    decreases |xs|
  {
    if f(xs[0]).Ok? {
      MapResultFirstError(f, xs[1..]);
      var k :| (0 <= k < |xs[1..]| && f(xs[1..][k]) == Err(MapResult(f, xs[1..]).msg) &&
        forall j :: 0 <= j < k ==> f(xs[1..][j]).Ok?);
      assert xs[k + 1] == xs[1..][k];
      assert forall j :: 1 <= j < k + 1 ==> xs[j] == xs[1..][j - 1];
    } else {
      assert f(xs[0]) == Err(MapResult(f, xs).msg);
    }
  }
}

=== FILE: xyz.dfy ===
/** The XYZ reader: a file of frames, each an atom count, a comment line and one line
    per atom (`symbol x y z`). Only the last frame is read. An extended-XYZ comment may
    carry `Lattice="…"` with nine numbers, the rows of the cell; positions are Cartesian
    and the fractional coordinates come through the inverse of the transposed cell. */
module Xyz {
  import opened Wrappers
  import opened Seqs
  import opened Text
  import opened Numbers
  import opened VecMath
  import opened Crystal
  import opened Elements
  import opened CoordText

  /* ---------- frames ---------- */

  /** The atom count a frame header announces, as `parseInt(line.trim(), 10)`, when it
      is a number above 0. */
  function FrameCount(line: string): Option<nat>
  {
    match ParseInt10(Trim(line))
    case None => None
    case Some(n) => if n > 0 then Some(n as nat) else None
  }

  /** The splitting loop over the lines from its current index on, with `count`
      reading the atom count a line announces: a line announcing `n` atoms opens a
      frame of `n + 2` lines when that many lines remain, and is skipped otherwise. */
  function FramesOver(count: string -> Option<nat>, lines: seq<string>): (r: seq<seq<string>>)
    decreases |lines|
  {
    if |lines| == 0 then []
    else if count(lines[0]).Some? && count(lines[0]).value + 1 < |lines| then
      [lines[..count(lines[0]).value + 2]] + FramesOver(count, lines[count(lines[0]).value + 2..])
    else FramesOver(count, lines[1..])
  }

  /** The first line of `f` announces (by `count`) the `|f| - 2` lines after the comment. */
  predicate Counted(count: string -> Option<nat>, f: seq<string>)
  {
    |f| >= 2 && count(f[0]) == Some(|f| - 2)
  }

  /** Every frame the loop finds starts with a line announcing its other lines. */
  lemma {:induction false} FramesCounted(count: string -> Option<nat>, lines: seq<string>, r: seq<seq<string>>, k: nat)
    requires FramesOver(count, lines) == r && k < |r|
    ensures Counted(count, r[k])
    decreases |lines|
  {
    if count(lines[0]).Some? && count(lines[0]).value + 1 < |lines| {
      var n := count(lines[0]).value;
      var rest := FramesOver(count, lines[n + 2..]);
      assert r == [lines[..n + 2]] + rest;
      if k > 0 {
        FramesCounted(count, lines[n + 2..], rest, k - 1);
        assert r[k] == rest[k - 1];
      } else {
        assert r[0][0] == lines[0];
      }
    } else {
      FramesCounted(count, lines[1..], r, k);
    }
  }

  /** A frame as the splitting loop takes it: a count line announcing `n` atoms
      followed by exactly `n + 1` more lines. */
  predicate WholeFrame(f: seq<string>)
  {
    |f| >= 3 && FrameCount(f[0]) == Some(|f| - 2)
  }

  /** The frames of a file's lines. */
  function Frames(lines: seq<string>): seq<seq<string>>
  {
    FramesOver(FrameCount, lines)
  }

  /** Every frame found is whole. */
  lemma FramesAreWhole(lines: seq<string>, k: nat)
    requires k < |Frames(lines)|
    ensures WholeFrame(Frames(lines)[k])
  {
    var f := Frames(lines)[k];
    FramesCounted(FrameCount, lines, Frames(lines), k);
    FrameCountPositive(f[0]);
  }

  lemma FrameCountPositive(line: string)
    ensures FrameCount(line).Some? ==> FrameCount(line).value > 0
  {
  }

  /** The text of the frame that is read: the last frame found, its lines joined by
      `\n`, or the whole trimmed content when no frame is found. */
  function FrameText(lines: seq<string>, whole: string): string
  {
    var frames := Frames(lines);
    if |frames| == 0 then whole else Join(frames[|frames| - 1], "\n")
  }

  /** A counted frame in front of the lines becomes the first frame, and the rest is
      split as before. */
  lemma FramesOverConcat(count: string -> Option<nat>, a: seq<string>, b: seq<string>)
    requires Counted(count, a)
    ensures FramesOver(count, a + b) == [a] + FramesOver(count, b)
  {
    var ab := a + b;
    assert ab[0] == a[0];
    SliceOfConcat(a, b);
  }

  /** A whole frame in front of the file becomes the first frame, and the rest of the
      file is split as before. */
  lemma FramesOfConcat(a: seq<string>, b: seq<string>)
    requires WholeFrame(a)
    ensures Frames(a + b) == [a] + Frames(b)
  {
    FramesOverConcat(FrameCount, a, b);
  }

  /** A file that is one whole frame is that frame. */
  lemma SingleFrame(a: seq<string>, whole: string)
    requires WholeFrame(a)
    ensures Frames(a) == [a]
    ensures FrameText(a, whole) == Join(a, "\n")
  {
    FramesOfConcat(a, []);
    assert a + [] == a;
  }

  /** Earlier frames do not matter: with a whole frame put in front of a file that
      has frames, the frame read is still the file's last one. */
  lemma EarlierFramesIgnored(a: seq<string>, b: seq<string>, w1: string, w2: string)
    requires WholeFrame(a) && |Frames(b)| > 0
    ensures FrameText(a + b, w1) == FrameText(b, w2)
  {
    FramesOfConcat(a, b);
    var fb := Frames(b);
    assert ([a] + fb)[|fb|] == fb[|fb| - 1];
  }

  /* ---------- the `Lattice="…"` comment ---------- */

  const LatticeKey: string := "Lattice=\""

  /** The capture of `/Lattice="([^"]+)"/` when a match starts at `i`: the non-empty
      run of non-quote characters after the key, closed by a quote. */
  function GroupAt(line: string, i: nat): (r: Option<string>)
  {
    if !OccursAt(line, LatticeKey, i) then None
    else
      var body := line[i + |LatticeKey|..];
      var q := CharIndex(body, '"');
      if 0 < q < |body| then Some(body[..q]) else None
  }

  /** A match at `i` is an occurrence of the key, a non-empty quote-free group and a
      closing quote. */
  lemma GroupAtFound(line: string, i: nat, g: string)
    requires GroupAt(line, i) == Some(g)
    ensures |g| > 0 && '"' !in g && OccursAt(line, LatticeKey + g + "\"", i)
  {
    var k := |LatticeKey|;
    var body := line[i + k..];
    var q := CharIndex(body, '"');
    assert line[i..i + k + q + 1] == LatticeKey + g + "\"" by {
      assert line[i..i + k] == LatticeKey;
      assert line[i + k..i + k + q] == g;
      assert line[i + k + q] == '"';
    }
  }

  /** Conversely, such an occurrence is a match with that group. */
  lemma GroupAtOfOccurrence(line: string, i: nat, g: string)
    requires |g| > 0 && '"' !in g && OccursAt(line, LatticeKey + g + "\"", i)
    ensures GroupAt(line, i) == Some(g)
  {
    var k := |LatticeKey|;
    var m := LatticeKey + g + "\"";
    var body := line[i + k..];
    var rest := line[i + k + |g| + 1..];
    assert line[i..i + k] == m[..k] == LatticeKey;
    assert OccursAt(line, LatticeKey, i);
    assert body == g + ['"'] + rest by {
      assert line[i + k..i + k + |g| + 1] == m[k..] == g + ['"'];
    }
    CharIndexAfter(g, '"', rest);
    assert body[..|g|] == g;
  }

  /** The leftmost match at or after `i`. */
  function GroupFrom(line: string, i: nat): (r: Option<string>)
    decreases |line| - i
  {
    if i >= |line| then None
    else if GroupAt(line, i).Some? then GroupAt(line, i)
    else GroupFrom(line, i + 1)
  }

  /** The leftmost search finds a match, and no match starts before it. */
  lemma {:induction false} GroupFromSpec(line: string, i: nat)
    requires GroupFrom(line, i).Some?
    ensures exists j :: (i <= j < |line| && GroupAt(line, j) == GroupFrom(line, i) &&
      forall k :: i <= k < j ==> GroupAt(line, k).None?)
    decreases |line| - i
  {
    if GroupAt(line, i).None? {
      GroupFromSpec(line, i + 1);
    }
  }

  /** Positions without a match are passed over. */
  lemma {:induction false} GroupFromSkips(line: string, i: nat, j: nat)
    requires i <= j <= |line|
    requires forall k :: i <= k < j ==> GroupAt(line, k).None?
    ensures GroupFrom(line, i) == GroupFrom(line, j)
    decreases j - i
  {
    if i < j {
      GroupFromSkips(line, i + 1, j);
    }
  }

  /** `comment_line.match(/Lattice="([^"]+)"/)?.[1]`. */
  function LatticeGroup(line: string): (r: Option<string>)
  {
    GroupFrom(line, 0)
  }

  /** A found group is non-empty and quote-free and appears quoted after the key. */
  lemma LatticeGroupFound(line: string)
    requires LatticeGroup(line).Some?
    ensures var g := LatticeGroup(line).value;
      |g| > 0 && '"' !in g && exists j :: OccursAt(line, LatticeKey + g + "\"", j)
  {
    GroupFromSpec(line, 0);
    var g := LatticeGroup(line).value;
    var j :| 0 <= j < |line| && GroupAt(line, j) == Some(g);
    GroupAtFound(line, j, g);
  }

  /** A comment with no quote before `Lattice="g"` yields the group `g`. */
  lemma LatticeGroupOfComment(prefix: string, g: string, suffix: string)
    requires '"' !in prefix && |g| > 0 && '"' !in g
    ensures LatticeGroup(prefix + LatticeKey + g + "\"" + suffix) == Some(g)
  {
    var rest := LatticeKey + g + "\"" + suffix;
    var line := prefix + rest;
    var n := |prefix|;
    assert line == prefix + LatticeKey + g + "\"" + suffix;
    assert rest[..9] == LatticeKey;
    forall k | 0 <= k < n
      ensures GroupAt(line, k).None?
    {
      PrefixNoMatch(prefix, rest, k);
    }
    GroupFromSkips(line, 0, n);
    assert line == prefix + (LatticeKey + g + "\"") + suffix;
    assert line[n..n + |LatticeKey + g + "\""|] == LatticeKey + g + "\"";
    GroupAtOfOccurrence(line, n, g);
  }

  /** No match starts inside a quote-free prefix of the key. */
  lemma PrefixNoMatch(prefix: string, rest: string, k: nat)
    requires '"' !in prefix && k < |prefix| && |rest| >= 9 && rest[..9] == LatticeKey
    ensures GroupAt(prefix + rest, k).None?
  {
    var line := prefix + rest;
    var n := |prefix|;
    if k + 8 < n {
      assert line[k + 8] == prefix[k + 8];
    } else {
      assert line[k + 8] == rest[k + 8 - n] == LatticeKey[k + 8 - n];
    }
    KeyEndsInQuote(line, k);
  }

  /** An occurrence of the key has a quote 8 characters on. */
  lemma KeyEndsInQuote(s: string, i: nat)
    ensures OccursAt(s, LatticeKey, i) ==> i + 8 < |s| && s[i + 8] == '"'
  {
    if OccursAt(s, LatticeKey, i) {
      assert s[i..i + 9][8] == s[i + 8];
    }
  }

  /** A comment without a quote has no lattice group. */
  lemma NoQuoteNoGroup(line: string)
    requires '"' !in line
    ensures LatticeGroup(line).None?
  {
    if LatticeGroup(line).Some? {
      LatticeGroupFound(line);
      var j :| OccursAt(line, LatticeKey + LatticeGroup(line).value + "\"", j);
      OccurrenceHasQuote(line, LatticeKey + LatticeGroup(line).value + "\"", j);
    }
  }

  lemma OccurrenceHasQuote(line: string, m: string, j: int)
    requires OccursAt(line, m, j) && |m| > 8 && m[8] == '"'
    ensures '"' in line
  {
    assert line[j + 8] == m[8];
  }

  /** The rows of a matrix given as nine numbers in row order. */
  function RowsOf(v: seq<real>): (m: Mat3)
    requires |v| == 9
    ensures AsSeq(m.r0) == v[0..3] && AsSeq(m.r1) == v[3..6] && AsSeq(m.r2) == v[6..9]
  {
    Mat3(Vec3(v[0], v[1], v[2]), Vec3(v[3], v[4], v[5]), Vec3(v[6], v[7], v[8]))
  }

  /** The lattice of a comment line: none without a `Lattice="…"` group or when the
      group does not hold exactly nine values, and an error when a value is not a
      number. The group is split by `/\s+/` without trimming, so leading whitespace
      gives an empty first value, which is not a number. */
  function CommentLattice(ops: NumericOps, comment: string): (r: Result<Option<Lattice>>)
    ensures LatticeGroup(comment).None? ==> r == Ok(None)
    ensures LatticeGroup(comment).Some? ==>
      (r.Err? <==> ParseCoordinates(SplitWs(LatticeGroup(comment).value)).Err?)
    ensures r.Ok? && r.value.Some? ==>
      && LatticeGroup(comment).Some?
      && |SplitWs(LatticeGroup(comment).value)| == 9
      && r.value.value == MakeLattice(ops, RowsOf(ParseCoordinates(SplitWs(LatticeGroup(comment).value)).value))
    ensures r.Ok? && r.value.None? && LatticeGroup(comment).Some? ==>
      |SplitWs(LatticeGroup(comment).value)| != 9
  {
    match LatticeGroup(comment)
    case None => Ok(None)
    case Some(g) =>
      var values :- ParseCoordinates(SplitWs(g));
      if |values| == 9 then Ok(Some(MakeLattice(ops, RowsOf(values)))) else Ok(None)
  }

  /* ---------- atoms ---------- */

  /** `parseInt(lines[0].trim())` (any radix prefix allowed), when above 0. */
  function AtomCount(line: string): Option<nat>
  {
    match ParseInt(Trim(line))
    case None => None
    case Some(n) => if n > 0 then Some(n as nat) else None
  }

  /** The fractional coordinates of a Cartesian position: the origin without a
      lattice, the inverse of the transposed lattice applied to it, or, for a singular
      lattice, each component divided by the matching cell length. */
  function Fractional(lattice: Option<Lattice>, xyz: Vec3): (r: Vec3)
    ensures lattice.None? ==> r == Vec3(0.0, 0.0, 0.0)
  {
    match lattice
    case None => Vec3(0.0, 0.0, 0.0)
    case Some(l) =>
      match MatrixInverse(Transpose(l.matrix))
      case Ok(inv) => MatVec(inv, xyz)
      case Err(_) => Vec3(Quot(xyz.x, l.params.a), Quot(xyz.y, l.params.b), Quot(xyz.z, l.params.c))
  }

  /** The site of atom `index` read from its line: the element from the first token
      (by `validate_element_symbol`), the position from the next three, and the label
      `element + (index + 1)`. A line of fewer than four tokens, or a coordinate that is
      not a number, is an error. */
  function AtomSite(lattice: Option<Lattice>, line: string, index: nat): (r: Result<Site>)
    ensures |Tokens(line)| < 4 ==> r.Err?
    ensures |Tokens(line)| >= 4 ==> (r.Ok? <==> FirstThree(Tokens(line)[1..]).Ok?)
    ensures r.Ok? ==> var t := Tokens(line); var c := FirstThree(t[1..]).value;
      var element := ValidateElementSymbol(t[0], index);
      && r.value.species == [Species(element, 1.0, 0.0)]
      && r.value.xyz == c
      && r.value.abc == AsSeq(Fractional(lattice, Vec3(c[0], c[1], c[2])))
      && r.value.labelText == element + IntToString(index + 1)
      && r.value.selective.None?
  {
    var parts := Tokens(line);
    if |parts| < 4 then Err("Invalid coordinate line in XYZ file")
    else
      var element := ValidateElementSymbol(parts[0], index);
      var c :- FirstThree(parts[1..]);
      var xyz := Vec3(c[0], c[1], c[2]);
      Ok(PlainSite(element, AsSeq(Fractional(lattice, xyz)), AsSeq(xyz), element + IntToString(index + 1), None))
  }

  /** The atom loop from atom `i` of `n`, reading atom `k` from line `k + 2` with
      `read`; a missing line is an error, as is a line `read` rejects. */
  function AtomLoop(read: (string, nat) -> Result<Site>, lines: seq<string>, n: nat, i: nat): (r: Result<seq<Site>>)
    requires i <= n
    ensures r.Ok? ==> |r.value| == n - i
    ensures i < n && n + 2 > |lines| ==> r.Err?
    decreases n - i
  {
    if i == n then Ok([])
    else if i + 2 >= |lines| then Err("Not enough coordinate lines in XYZ file")
    else
      var s :- read(lines[i + 2], i);
      var rest :- AtomLoop(read, lines, n, i + 1);
      Ok([s] + rest)
  }

  /** Site `p` of a successful loop from atom `i` is atom `i + p` read from its line. */
  lemma {:induction false} AtomLoopAt(read: (string, nat) -> Result<Site>, lines: seq<string>, n: nat, i: nat,
                                      r: seq<Site>, p: nat)
    requires i <= n && AtomLoop(read, lines, n, i) == Ok(r) && p < |r|
    ensures i + p + 2 < |lines| && read(lines[i + p + 2], i + p) == Ok(r[p])
    decreases p
  {
    var rest := AtomLoop(read, lines, n, i + 1).value;
    assert r == [r[0]] + rest;
    if p > 0 {
      AtomLoopAt(read, lines, n, i + 1, rest, p - 1);
      assert (i + 1) + (p - 1) == i + p;
      assert r[p] == rest[p - 1];
    } else {
      assert i + p == i;
    }
  }

  /** Atom `k` has its line and `read` accepts it. */
  predicate ReadsAt(read: (string, nat) -> Result<Site>, lines: seq<string>, k: nat)
  {
    k + 2 < |lines| && read(lines[k + 2], k).Ok?
  }

  /** The loop succeeds when every atom line is present and readable. */
  lemma {:induction false} AtomLoopOk(read: (string, nat) -> Result<Site>, lines: seq<string>, n: nat, i: nat)
    requires i <= n
    requires forall k :: i <= k < n ==> ReadsAt(read, lines, k)
    ensures AtomLoop(read, lines, n, i).Ok?
    decreases n - i
  {
    if i < n {
      assert ReadsAt(read, lines, i);
      AtomLoopOk(read, lines, n, i + 1);
    }
  }

  /** `AtomSite` over the frame's lattice. */
  function AtomReader(lattice: Option<Lattice>): (string, nat) -> Result<Site>
  {
    (line: string, k: nat) => AtomSite(lattice, line, k)
  }

  /** The atoms of a frame with `n` atoms. */
  function AtomSites(lattice: Option<Lattice>, lines: seq<string>, n: nat): (r: Result<seq<Site>>)
    ensures r.Ok? ==> |r.value| == n
    ensures n > 0 && n + 2 > |lines| ==> r.Err?
  {
    AtomLoop(AtomReader(lattice), lines, n, 0)
  }

  /* ---------- the reader ---------- */

  /** One frame: its trimmed lines, the atom count from the first, the lattice from
      the second, then the atoms; `None` for a frame the reader rejects. */
  function ParseFrame(ops: NumericOps, frame: string): (r: Option<Structure>)
    ensures var lines := SplitLines(Trim(frame));
      |lines| < 2 || AtomCount(lines[0]).None? ==> r.None?
    ensures var lines := SplitLines(Trim(frame));
      |lines| >= 2 && AtomCount(lines[0]).Some? && AtomCount(lines[0]).value + 2 > |lines| ==> r.None?
    ensures var lines := SplitLines(Trim(frame));
      r.Some? ==> && |lines| >= 2 && AtomCount(lines[0]).Some?
                  && CommentLattice(ops, lines[1]) == Ok(r.value.lattice)
                  && AtomSites(r.value.lattice, lines, AtomCount(lines[0]).value) == Ok(r.value.sites)
    ensures var lines := SplitLines(Trim(frame));
      (&& |lines| >= 2 && AtomCount(lines[0]).Some? && CommentLattice(ops, lines[1]).Ok?
       && AtomSites(CommentLattice(ops, lines[1]).value, lines, AtomCount(lines[0]).value).Ok?) ==> r.Some?
  {
    var lines := SplitLines(Trim(frame));
    if |lines| < 2 then None
    else
      match AtomCount(lines[0])
      case None => None
      case Some(n) =>
        match CommentLattice(ops, lines[1])
        case Err(_) => None
        case Ok(lattice) =>
          match AtomSites(lattice, lines, n)
          case Err(_) => None
          case Ok(sites) => Some(Structure(sites, lattice))
  }

  /** `parse_xyz`: empty content is rejected; otherwise the last complete frame is
      read, or the whole text when no frame is complete. */
  function ParseXyz(ops: NumericOps, content: string): (r: Option<Structure>)
    ensures Trim(content) == "" ==> r.None?
    ensures var fs := Frames(SplitLines(Trim(content)));
            Trim(content) != "" && |fs| > 0 ==>
              WholeFrame(fs[|fs| - 1]) && r == ParseFrame(ops, Join(fs[|fs| - 1], "\n"))
    ensures Trim(content) != "" && |Frames(SplitLines(Trim(content)))| == 0 ==> r == ParseFrame(ops, Trim(content))
  {
    var text := Trim(content);
    if text == "" then None
    else
      var fs := Frames(SplitLines(text));
      if |fs| == 0 then ParseFrame(ops, FrameText(SplitLines(text), text))
      else
        LastFrameRead(SplitLines(text), text, fs);
        ParseFrame(ops, FrameText(SplitLines(text), text))
  }

  /** Site `p` as read from its atom line: one fully occupied species of the element
      the first token names, labelled by that element and the 1-based index, at the
      position the next three tokens give, and at the origin in fractional terms when
      there is no lattice. */
  predicate SiteOfLine(lattice: Option<Lattice>, line: string, p: nat, site: Site)
  {
    var t := Tokens(line);
    |t| >= 4 &&
    var element := ValidateElementSymbol(t[0], p);
    && site.species == [Species(element, 1.0, 0.0)]
    && site.labelText == element + IntToString(p + 1)
    && FirstThree(t[1..]) == Ok(site.xyz)
    && (lattice.None? ==> site.abc == [0.0, 0.0, 0.0])
  }

  /** With an invertible lattice, the site's position is its fractional coordinates
      combined with the lattice vectors. */
  predicate ThroughLattice(lattice: Option<Lattice>, site: Site)
  {
    lattice.Some? && MatrixInverse(Transpose(lattice.value.matrix)).Ok? ==>
      |site.abc| == 3 && |site.xyz| == 3 &&
      AsSeq(Combine(Vec3(site.abc[0], site.abc[1], site.abc[2]), lattice.value.matrix)) == site.xyz
  }

  /** What one atom line yields. */
  lemma AtomSiteShape(lattice: Option<Lattice>, line: string, p: nat, site: Site)
    requires AtomReader(lattice)(line, p) == Ok(site)
    ensures SiteOfLine(lattice, line, p, site)
    ensures ThroughLattice(lattice, site)
  {
    assert AtomSite(lattice, line, p) == Ok(site);
    if lattice.Some? && MatrixInverse(Transpose(lattice.value.matrix)).Ok? {
      var m := lattice.value.matrix;
      var x := Vec3(site.xyz[0], site.xyz[1], site.xyz[2]);
      InverseRoundTrip(Transpose(m), x);
      CombineIsTransposeProduct(MatVec(MatrixInverse(Transpose(m)).value, x), m);
    }
  }

  /** Every site of a successful atom loop comes from its own line. */
  lemma AtomSitesShape(lattice: Option<Lattice>, lines: seq<string>, n: nat, sites: seq<Site>)
    requires AtomSites(lattice, lines, n) == Ok(sites)
    ensures |sites| == n && (n > 0 ==> |lines| >= n + 2)
    ensures forall p :: 0 <= p < n ==> p + 2 < |lines| && SiteOfLine(lattice, lines[p + 2], p, sites[p])
    ensures forall p :: 0 <= p < n ==> ThroughLattice(lattice, sites[p])
  {
    forall p | 0 <= p < n
      ensures p + 2 < |lines| && SiteOfLine(lattice, lines[p + 2], p, sites[p])
      ensures ThroughLattice(lattice, sites[p])
    {
      AtomSitesAt(lattice, lines, n, sites, p);
      AtomSiteShape(lattice, lines[p + 2], p, sites[p]);
    }
  }

  /** Site `p` of a successful atom loop is what its own line yields. */
  lemma AtomSitesAt(lattice: Option<Lattice>, lines: seq<string>, n: nat, sites: seq<Site>, p: nat)
    requires AtomSites(lattice, lines, n) == Ok(sites)
    requires p < n
    ensures p + 2 < |lines| && AtomReader(lattice)(lines[p + 2], p) == Ok(sites[p])
  {
    AtomLoopFirst(AtomReader(lattice), lines, n, sites, p);
  }

  lemma AtomLoopFirst(read: (string, nat) -> Result<Site>, lines: seq<string>, n: nat, r: seq<Site>, p: nat)
    requires AtomLoop(read, lines, n, 0) == Ok(r) && p < |r|
    ensures p + 2 < |lines| && read(lines[p + 2], p) == Ok(r[p])
  {
    AtomLoopAt(read, lines, n, 0, r, p);
    assert 0 + p + 2 == p + 2 && 0 + p == p;
  }

  /** Every site of a read frame comes from its own atom line, one site per atom the
      first line announces, and with an invertible lattice each position is its
      fractional coordinates combined with the lattice vectors. */
  lemma FrameSites(ops: NumericOps, frame: string)
    requires ParseFrame(ops, frame).Some?
    ensures var lines := SplitLines(Trim(frame)); var st := ParseFrame(ops, frame).value;
      && |st.sites| == AtomCount(lines[0]).value
      && |lines| >= |st.sites| + 2
      && (forall p :: 0 <= p < |st.sites| ==> SiteOfLine(st.lattice, lines[p + 2], p, st.sites[p]))
      && (forall p :: 0 <= p < |st.sites| ==> ThroughLattice(st.lattice, st.sites[p]))
  {
    var lines := SplitLines(Trim(frame));
    var st := ParseFrame(ops, frame).value;
    AtomSitesShape(st.lattice, lines, AtomCount(lines[0]).value, st.sites);
  }

  /** The atoms are read when every atom line is present and readable. */
  lemma AtomSitesOk(lattice: Option<Lattice>, lines: seq<string>, n: nat)
    requires forall k :: 0 <= k < n ==> ReadsAt(AtomReader(lattice), lines, k)
    ensures AtomSites(lattice, lines, n).Ok?
  {
    AtomLoopOk(AtomReader(lattice), lines, n, 0);
  }

  /** When the file has frames `fs`, the text read is the last one, and it is whole. */
  lemma LastFrameRead(lines: seq<string>, whole: string, fs: seq<seq<string>>)
    requires Frames(lines) == fs && |fs| > 0
    ensures WholeFrame(fs[|fs| - 1])
    ensures FrameText(lines, whole) == Join(fs[|fs| - 1], "\n")
  {
    FramesAreWhole(lines, |fs| - 1);
  }
}
